=== FILE: README.md ===
# InsureX compliance core in Dafny

InsureX is a multi-tenant insurance application. It keeps a register of
insured assets (vehicles, equipment) and their policies, and it scores every
asset against a set of compliance rules. Each rule can raise alerts that move
from New through Acknowledged to Resolved. The repository holds two
independent implementations side by side, and this model keeps them apart:

- the root tree `InsureX.*`, modelled by the modules prefixed `App`
  (application services, DTOs, domain) and `Infra` (repositories, database
  context, unit of work, tenant context and middleware); its compliance
  engine starts every asset at 100 points and subtracts capped penalties;
- the `src/InsureX.*` tree, modelled by the modules prefixed `Src`; its
  engine averages 100 points per compliant applicable rule, and it has rule
  applicability, per-type evaluators and the alert lifecycle;
- the tenant resolution of the API and infrastructure middleware
  (`TenantRequest`, `ApiTenantMiddleware`, `ApiTenantResolution`,
  `InfraTenantMiddleware`, `InfraTenantContext`, `InfraScopedTenantContext`);
- the client-side state of the asset search page (`WebAssets`).

Shared vocabulary sits in `Common` (options, results, paging slices, counts,
integer ceiling and truncating division), `Ordering` (a stable sort by a
comparator, proved sorted and a permutation, and the
filter-then-order-then-take query shape) and `Grouping` (GroupBy with
counts).

Conventions used throughout:

- a `DateTime` is an integer count of seconds; the clock is a `now`
  parameter;
- a `decimal` is an `int`;
- a `Guid` is an `int`, with `Guid.Empty` = 0;
- a nullable value is an `Option`;
- an exception is the `Throw` case of a `Result`, naming the exception type;
- status strings are string constants.

A database set becomes a sequence. Where a service or repository changes
entities in place, the store is a class with `seq` fields and methods whose
`modifies` and `ensures` clauses give the whole new state. The root
compliance store keeps the saved rows and the changes the database context
tracks apart: adds and updates only track, and only a save writes. The src
stores write at once, since every src operation that changes them saves at
its end. A loop of the
source is a `while` loop, proved against a specification function of the old
state. Each specification function has its own lemmas: bounds, counts,
orderings, and exactly which entities change.

## Model

| member | source | states |
|---|---|---|
| ApiTenantMiddleware.InvokeAsync | InsureX.Api/Middleware/TenantMiddleware.cs:15-52 | the context is set once to the resolved tenant when there is one and is otherwise left as it was, never cleared; the pipeline then runs once with that tenant and its failure surfaces |
| ApiTenantMiddleware.AnonymousUsesHeader | InsureX.Api/Middleware/TenantMiddleware.cs:21-35 | for an anonymous user only the X-Tenant-Id header can give the tenant |
| ApiTenantMiddleware.ClaimBeforeHeader | InsureX.Api/Middleware/TenantMiddleware.cs:21-28 | a parseable "tenant_id" or "TenantId" claim wins over the header |
| ApiTenantMiddleware.UnparseableClaimFallsThrough | InsureX.Api/Middleware/TenantMiddleware.cs:26-35 | a claim that is not a Guid leaves the header to decide |
| ApiTenantMiddleware.ResolvedFromRequest | InsureX.Api/Middleware/TenantMiddleware.cs:18-44 | a resolved tenant is the parse of the claim or of the header, never invented |
| ApiTenantMiddleware.HostIgnored | InsureX.Api/Middleware/TenantMiddleware.cs:37-44 | the host name never changes the tenant, since the subdomain step resolves nothing |
| ApiTenantResolution.InvokeAsync | InsureX.Api/Middleware/TenantResolutionMiddleware.cs:17-62 | the context receives the claims tenant, and the header tenant only when it still has none; the pipeline runs once with that tenant; the context is cleared afterwards whatever happens, and the pipeline's failure surfaces |
| AppAssetService.UserOrSystem | InsureX.Application/Services/AssetService.cs:136 | the current user's id, or "system" when there is none |
| AppAssetService.SortFieldOf | InsureX.Application/Services/AssetService.cs:311-336 | the sort key is chosen by the lower-cased SortBy name; a missing or unknown name sorts by CreatedAt |
| AppAssetService.FieldLeTotal | InsureX.Application/Services/AssetService.cs:311-336 | every sort key compares any two assets one way or the other |
| AppAssetService.FieldLeTrans | InsureX.Application/Services/AssetService.cs:311-336 | every sort key's order is transitive |
| AppAssetService.ComparerPreorder | InsureX.Application/Services/AssetService.cs:311-336 | each key in each direction is a total preorder, so the sorted query is well defined |
| AppAssetService.SearchQuery | InsureX.Application/Services/AssetService.cs:46-81 | the query holds exactly the tenant's non-deleted assets that pass every given filter, sorted by the chosen key and direction |
| AppAssetService.GetPaged | InsureX.Application/Services/AssetService.cs:40-42 | without a tenant the call throws "Tenant context not found", and only then |
| AppAssetService.GetPagedSpec | InsureX.Application/Services/AssetService.cs:35-97 | the page keeps the requested page and size; TotalItems counts the matching assets; items match the search and are sorted; TotalPages is the ceiling (undefined for size 0); HasNext iff page * size < TotalItems; the items are the query's slice at (page - 1) * size |
| AppAssetService.GetPagedAgreesWithDto | InsureX.Application/Services/AssetService.cs:89-97 | for a positive size the page count and HasNext agree with the computed ones of PagedResult |
| AppAssetService.DefaultSearchFirstPage | InsureX.Application/DTOs/AssetSearchDto.cs:3-18 | the default search gives page 1 with up to 10 items, newest first, and a next page exactly when more than 10 assets match |
| AppAssetService.GetById | InsureX.Application/Services/AssetService.cs:106-119 | throws without a tenant; otherwise the asset with that id when it belongs to the tenant and is not deleted, and null in every other case |
| AppAssetService.GetByIdInStore | InsureX.Application/Services/AssetService.cs:106-119 | in a store keyed by position, the result is the asset at id - 1 exactly when it is a live asset of the tenant |
| AppAssetService.TagExists | InsureX.Application/Services/AssetService.cs:213-224 | throws without a tenant; otherwise true iff a non-deleted asset of the tenant carries the tag |
| AppAssetService.GetCount | InsureX.Application/Services/AssetService.cs:226-237 | throws without a tenant; otherwise the number of the tenant's non-deleted assets |
| AppAssetService.GetRecent | InsureX.Application/Services/AssetService.cs:239-249 | throws without a tenant; otherwise min(count, the tenant's live assets) of the tenant's non-deleted assets, newest first, and no live asset of the tenant left out is newer than a kept one |
| AppAssetService.TagIsUniqueIff | InsureX.Application/Services/AssetService.cs:129 | a tag is unique for a create exactly when the tenant has no live asset with it |
| AppAssetService.ApplyInput | InsureX.Application/Services/AssetService.cs:174 | the input's fields are copied onto the asset and every other field is kept |
| AppAssetService.NewAsset | InsureX.Application/Services/AssetService.cs:133-139 | a new asset is Active, Pending, created now by the user or "system", never updated, with the input's fields |
| AppAssetService.Updated | InsureX.Application/Services/AssetService.cs:174-177 | an update copies the input and stamps the time and the user or "system" |
| AppAssetService.SoftDeleted | InsureX.Application/Services/AssetService.cs:199-203 | only the deleted asset changes; it becomes Deleted, stamped with the time and user, and can no longer be deleted |
| AppAssetService.AssetService.constructor | InsureX.Application/Services/AssetService.cs:23-33 | the service starts with an empty, well-formed asset store |
| AppAssetService.AssetService.Create | InsureX.Application/Services/AssetService.cs:121-147 | throws without a tenant, and throws "Asset with tag '…' already exists" for a tag taken in the tenant; otherwise appends the new asset under the next id; nothing changes on a throw |
| AppAssetService.AssetService.Update | InsureX.Application/Services/AssetService.cs:149-185 | throws, in this order, without a tenant, for a missing id, for another tenant's asset, for a deleted asset, and for a changed tag taken by another live asset; otherwise replaces the asset by the updated one; nothing changes on a throw |
| AppAssetService.AssetService.Delete | InsureX.Application/Services/AssetService.cs:187-211 | throws without a tenant; otherwise true exactly for a live asset of the tenant, which is then soft-deleted; nothing changes otherwise |
| AppAssetService.SoftDeleteHides | InsureX.Application/Services/AssetService.cs:187-237 | after a delete the asset is no longer found and the tenant's count drops by one |
| AppComplianceEngine.InspectionPart | InsureX.Application/Services/ComplianceEngineService.cs:95-104 | at most one finding, whose penalty is min(30, 5 * severity) |
| AppComplianceEngine.ValuePart | InsureX.Application/Services/ComplianceEngineService.cs:106-118 | at most two findings, each with penalty min(20, 3 * severity) |
| AppComplianceEngine.MinimumPart | InsureX.Application/Services/ComplianceEngineService.cs:108-112 | at most one finding, with penalty min(20, 3 * severity) |
| AppComplianceEngine.MaximumPart | InsureX.Application/Services/ComplianceEngineService.cs:113-117 | at most one finding, with penalty min(20, 3 * severity) |
| AppComplianceEngine.ScriptPart | InsureX.Application/Services/ComplianceEngineService.cs:121-136 | at most one finding, whose penalty is min(30, 5 * severity) |
| AppComplianceEngine.RuleDeductions | InsureX.Application/Services/ComplianceEngineService.cs:95-136 | a rule yields at most three findings, each penalty at most 30 and, for a non-negative severity, at least 0 |
| AppComplianceEngine.Findings | InsureX.Application/Services/ComplianceEngineService.cs:101-128 | one finding text per deduction, in the same order |
| AppComplianceEngine.Clamp | InsureX.Application/Services/ComplianceEngineService.cs:139 | Math.Clamp(score, 0, 100): in range values are kept, lower ones become 0, higher ones 100 |
| AppComplianceEngine.Score | InsureX.Application/Services/ComplianceEngineService.cs:90-139 | the final score always lies in 0..100 |
| AppComplianceEngine.ByPriority | InsureX.Application/Services/ComplianceEngineService.cs:92 | the active rules in ascending Priority, a permutation of them |
| AppComplianceEngine.StatusThresholds | InsureX.Application/Services/ComplianceEngineService.cs:145 | "Compliant" iff score >= 80, "Warning" iff 50 <= score < 80, "Non-Compliant" iff score < 50 |
| AppComplianceEngine.DeductionsAppend | InsureX.Application/Services/ComplianceEngineService.cs:92-137 | the findings of two rule lists run one after the other are the findings of each, concatenated |
| AppComplianceEngine.PenaltiesCapped | InsureX.Application/Services/ComplianceEngineService.cs:102-129 | every penalty of a check is at most 30, and at least 0 when no rule has a negative severity |
| AppComplianceEngine.ScoreOfPenalties | InsureX.Application/Services/ComplianceEngineService.cs:90-139 | with non-negative penalties the score is max(0, 100 - total penalty) |
| AppComplianceEngine.NoFindingsFullScore | InsureX.Application/Services/ComplianceEngineService.cs:90-145 | a check without findings scores 100 and is "Compliant" |
| AppComplianceEngine.InspectionRuleDeductions | InsureX.Application/Services/ComplianceEngineService.cs:95-104 | an inspection rule with DaysToExpiry and no script has a finding iff now > (LastInspectionDate ?? CreatedAt) + DaysToExpiry, and then exactly one, penalised min(30, 5 * severity) |
| AppComplianceEngine.OverdueFindingText | InsureX.Application/Services/ComplianceEngineService.cs:101 | the overdue finding contains "Inspection overdue" |
| AppComplianceEngine.PolicyRuleDeductions | InsureX.Application/Services/ComplianceEngineService.cs:106-118 | a policy rule without a script has one finding per violated bound, each penalised min(20, 3 * severity), and none when the insured value is absent |
| AppComplianceEngine.ScriptDeductions | InsureX.Application/Services/ComplianceEngineService.cs:121-136 | a script returning false adds one finding penalised min(30, 5 * severity); a true result or a thrown exception adds nothing |
| AppComplianceEngine.OverdueRuleDeductions | InsureX.Application/Services/ComplianceEngineService.cs:95-104 | an overdue severity-3 inspection rule without a script yields one 15-point finding |
| AppComplianceEngine.OneOverdueInspection | tests/InsureX.Application.Tests/ComplianceEngineServiceTests.cs:26-40 | the scenario of the test (one overdue severity-3 inspection rule) scores 85 and is "Compliant", whereas the test asserts a score below 80 |
| AppComplianceEngine.ApplyRuleInput | InsureX.Application/Services/ComplianceEngineService.cs:59 | the mapped fields come from the input; the id, EffectiveTo, script and bounds of the stored rule are kept |
| AppComplianceEngine.NewRule | InsureX.Application/Services/ComplianceEngineService.cs:47-52 | a created rule takes code, activity and priority from the input and has no EffectiveTo, bounds or script |
| AppComplianceEngine.ComplianceStatusOf | InsureX.Application/Services/ComplianceEngineService.cs:188-197 | "Unknown", score 0 and DateTime.MinValue for an asset without checks; otherwise the status, score and date of one of its checks, dated no earlier than any other |
| AppComplianceEngine.ExpireRulesSpec | InsureX.Application/Services/ComplianceEngineService.cs:285-300 | afterwards no active rule has expired; a rule without EffectiveTo is untouched; every changed rule was active and expired and only became inactive |
| AppComplianceEngine.ResolveStaleSpec | InsureX.Application/Services/ComplianceEngineService.cs:302-319 | afterwards no active alert is older than the cutoff; others are untouched; a changed alert is "Resolved" by "system" at now, with id and creation time kept |
| AppComplianceEngine.ExpiryUpdatesDeactivate | InsureX.Application/Services/ComplianceEngineService.cs:290-298 | every write the expiry sweep tracks is an update that deactivates a rule |
| AppComplianceEngine.TrackedExpiry | InsureX.Application/Services/ComplianceEngineService.cs:290-298 | after the expiry writes, reads see a rule deactivated iff the sweep visited it and it had expired, and otherwise as it was |
| AppComplianceEngine.ExpirySweepSaved | InsureX.Application/Services/ComplianceEngineService.cs:285-300 | were the sweep's writes saved, the saved rules would become ExpireRules of the old ones: exactly the active expired rules deactivated, no other table touched |
| AppComplianceEngine.StaleUpdatesResolve | InsureX.Application/Services/ComplianceEngineService.cs:307-317 | every write the stale-alert sweep tracks is an update that resolves an alert as "system" |
| AppComplianceEngine.TrackedStale | InsureX.Application/Services/ComplianceEngineService.cs:307-317 | after the stale writes, reads see an alert resolved at now by "system" iff the sweep visited it and it was created before the cutoff, and otherwise as it was |
| AppComplianceEngine.StaleSweepSaved | InsureX.Application/Services/ComplianceEngineService.cs:302-319 | were the sweep's writes saved, the saved alerts would become ResolveStale of the old ones, no other table touched |
| AppComplianceEngine.StatusAfterCheck | InsureX.Application/Services/ComplianceEngineService.cs:188-197 | once a check newer than every other check of its asset is saved, the status read for the asset is that check's status, score and date |
| AppComplianceEngine.ComplianceEngine.constructor | InsureX.Application/Services/ComplianceEngineService.cs:25-39 | the engine holds the given store, assets and script evaluator |
| AppComplianceEngine.ComplianceEngine.CreateRule | InsureX.Application/Services/ComplianceEngineService.cs:47-52 | the mapped rule is tracked as added and returned with id 0, since no key is assigned before a save; the database is unchanged |
| AppComplianceEngine.ComplianceEngine.UpdateRule | InsureX.Application/Services/ComplianceEngineService.cs:54-62 | a missing rule throws KeyNotFoundException("Rule not found") and tracks nothing; otherwise the input is mapped onto the rule as reads see it, the result is tracked as modified, and later reads see it at that row only; the database is unchanged |
| AppComplianceEngine.ComplianceEngine.DeleteRule | InsureX.Application/Services/ComplianceEngineService.cs:64-71 | true iff the rule exists, and then the rule as read, with IsActive false, is tracked as modified and seen by later reads at that row only; the database is unchanged |
| AppComplianceEngine.ComplianceEngine.ToggleRuleStatus | InsureX.Application/Services/ComplianceEngineService.cs:73-80 | true iff the rule exists, and then the rule as read, with IsActive as given, is tracked as modified and seen by later reads at that row only; the database is unchanged |
| AppComplianceEngine.ComplianceEngine.InspectionStep | InsureX.Application/Services/ComplianceEngineService.cs:95-104 | the findings and score after the inspection check are those of the deductions with the inspection part appended |
| AppComplianceEngine.ComplianceEngine.ValueStep | InsureX.Application/Services/ComplianceEngineService.cs:106-118 | the findings and score after the insured-value checks are those of the deductions with the value part appended |
| AppComplianceEngine.ComplianceEngine.MinimumStep | InsureX.Application/Services/ComplianceEngineService.cs:108-112 | the findings and score after the minimum check are those of the deductions with its part appended |
| AppComplianceEngine.ComplianceEngine.MaximumStep | InsureX.Application/Services/ComplianceEngineService.cs:113-117 | the findings and score after the maximum check are those of the deductions with its part appended |
| AppComplianceEngine.ComplianceEngine.ScriptStep | InsureX.Application/Services/ComplianceEngineService.cs:121-136 | the findings and score after the script check are those of the deductions with the script part appended |
| AppComplianceEngine.ComplianceEngine.ApplyRule | InsureX.Application/Services/ComplianceEngineService.cs:93-137 | one loop turn appends the rule's findings and subtracts their penalties |
| AppComplianceEngine.ComplianceEngine.CollectFindings | InsureX.Application/Services/ComplianceEngineService.cs:89-137 | the loop's findings and unclamped score are those of the deductions of the ordered rules |
| AppComplianceEngine.ComplianceEngine.CheckAssetCompliance | InsureX.Application/Services/ComplianceEngineService.cs:82-160 | a missing asset throws KeyNotFoundException("Asset not found") and tracks nothing; otherwise the active rules as read are scored, the check is tracked and the context saved: a successful save writes every earlier tracked change and then the check, and returns the status for the clamped score, the score, findings joined by "; " and a next check 30 days on; a failed save throws its InvalidOperationException, writes nothing and leaves all of it tracked |
| AppComplianceEngine.ComplianceEngine.AcknowledgeAlert | InsureX.Application/Services/ComplianceEngineService.cs:217-226 | a missing alert throws KeyNotFoundException("Alert not found") and tracks nothing; otherwise the alert as read becomes "Acknowledged" by the user at now, is tracked as modified and seen by later reads at that row only; the database is unchanged |
| AppComplianceEngine.ComplianceEngine.ResolveAlert | InsureX.Application/Services/ComplianceEngineService.cs:228-238 | a missing alert throws KeyNotFoundException("Alert not found") and tracks nothing; otherwise the alert as read becomes "Resolved" by the user at now with the notes, is tracked as modified and seen by later reads at that row only; the database is unchanged |
| AppComplianceEngine.ComplianceEngine.ExpireEach | InsureX.Application/Services/ComplianceEngineService.cs:290-298 | the loop tracks, in order, a deactivating update for each expired rule of the list it walks, counts them and writes nothing |
| AppComplianceEngine.ComplianceEngine.ExpireOne | InsureX.Application/Services/ComplianceEngineService.cs:292-297 | one loop turn reports whether the rule has expired and then, only then, tracks it deactivated |
| AppComplianceEngine.ComplianceEngine.UpdateExpiredRules | InsureX.Application/Services/ComplianceEngineService.cs:285-300 | the sweep over the rules read as active tracks a deactivating update for each with EffectiveTo < now and counts them; the database is unchanged |
| AppComplianceEngine.ComplianceEngine.ResolveEach | InsureX.Application/Services/ComplianceEngineService.cs:307-317 | the loop tracks, in order, a resolving update for each alert of the list it walks created before the cutoff, counts them and writes nothing |
| AppComplianceEngine.ComplianceEngine.ResolveOne | InsureX.Application/Services/ComplianceEngineService.cs:309-316 | one loop turn reports whether the alert was created before the cutoff and then, only then, tracks it resolved by "system" at now |
| AppComplianceEngine.ComplianceEngine.ResolveStaleAlerts | InsureX.Application/Services/ComplianceEngineService.cs:302-319 | the sweep over the alerts read as New or Acknowledged tracks a resolving update for each created before now - daysOld and counts them; the database is unchanged |
| AppComplianceService.ActiveStatusResult | InsureX.Application/Services/ComplianceService.cs:36-49 | compliant iff the asset's Status is "Active"; then Info, "Compliant", "Asset is compliant", otherwise Critical, "Non-Compliant", "Asset is not active"; stamped now for the asset |
| AppComplianceService.HistorySpec | InsureX.Application/Services/ComplianceService.cs:55-64 | every item is a result of the asset, newest first; TotalItems counts all of the asset's results |
| AppComplianceService.HistoryPaging | InsureX.Application/Services/ComplianceService.cs:59-73 | TotalPages is absent only for a zero size and otherwise the ceiling of TotalItems / pageSize; HasNext iff the items before and on this page are fewer than TotalItems |
| AppComplianceService.ComplianceRate | InsureX.Application/Services/ComplianceService.cs:77-84 | exactly 100 when the tenant has no assets; otherwise a ratio of compliant to all of the tenant's assets, the latter positive |
| AppComplianceService.RecentAlerts | InsureX.Application/Services/ComplianceService.cs:86-94 | min(count, critical failures) results, newest first, each a stored non-compliant Critical result, and no critical failure left out was checked later than a kept one |
| AppComplianceService.ComplianceService.constructor | InsureX.Application/Services/ComplianceService.cs:18-28 | the service holds generic repositories over the given results and assets, keyed by id, with nothing tracked, and the given tenant |
| AppComplianceService.ComplianceService.CheckAssetCompliance | InsureX.Application/Services/ComplianceService.cs:30-53 | Guid.Empty throws "Id cannot be empty" from the asset lookup; a missing asset or one of another tenant gives null and tracks nothing; otherwise the active-status result is returned and tracked as an addition, and nothing is saved |
| AppDomain.BaseEntity.constructor | InsureX.Domain/Entities/BaseEntity.cs:15-37 | a new entity carries the given id and creation time, and no creator or update stamp |
| AppDomain.BaseEntity.UpdateAuditFields | InsureX.Domain/Entities/BaseEntity.cs:47-51 | UpdatedAt becomes now; UpdatedBy becomes the given user, or keeps its old value for a null user; id and creation fields are unchanged |
| AppDomain.EqualsNull | InsureX.Domain/Entities/BaseEntity.cs:56-59 | no entity equals null or a non-entity |
| AppDomain.EqualsIsEquivalence | InsureX.Domain/Entities/BaseEntity.cs:56-68 | Equals is reflexive, symmetric and transitive |
| AppDomain.EqualsIff | InsureX.Domain/Entities/BaseEntity.cs:42-68 | two entities are equal iff they are the same object or both are persisted (id not Guid.Empty) with the same id |
| AppDomain.TransientEqualsOnlyItself | InsureX.Domain/Entities/BaseEntity.cs:42-65 | a transient entity equals only itself |
| AppDomain.EqualEntitiesEqualHashes | InsureX.Domain/Entities/BaseEntity.cs:56-76 | equal entities have equal hash codes, whatever hash the id type uses |
| AppDtos.TotalPages | InsureX.Application/DTOs/PagedResult.cs:10 | 0 for a page size of 0; otherwise the least page count whose pages hold all the items, the ceiling of TotalItems / PageSize |
| AppDtos.HasNextIff | InsureX.Application/DTOs/PagedResult.cs:10-11 | for a positive size, a next page exists exactly when the pages up to this one hold fewer than TotalItems |
| AppDtos.NewPagedResult | InsureX.Application/DTOs/PagedResult.cs:5-15 | the default result has no items, no next page, no previous page and no pages |
| AppDtos.PagedResultOf | InsureX.Application/DTOs/PagedResult.cs:17-23 | a null list becomes empty; the counts are kept as given; HasItems iff a non-empty list was passed |
| AppDtos.EmptyPage | InsureX.Application/DTOs/PagedResult.cs:25-31 | Empty() is page 1 of 25 with nothing, so zero pages and neither a next nor a previous page |
| AppDtos.CreatePage | InsureX.Application/Common/Models/PagedResult.cs:17-37 | the page's items are the query's slice at (page - 1) * pageSize; TotalItems is the query's count; the page count is undefined only for a zero size and otherwise the ceiling |
| AppDtos.CreatePageSpec | InsureX.Application/Common/Models/PagedResult.cs:10-37 | HasNext iff the pages up to this one hold fewer than the query's items; a page within range holds LastItem - FirstItem + 1 items, namely the query's items from FirstItem on |
| AppDtos.EmptyModelPage | InsureX.Application/Common/Models/PagedResult.cs:40-50 | Empty(page, size) holds nothing with zero items and zero pages, so there is a next page only for a negative page number |
| AppDtos.MapPage | InsureX.Application/Common/Models/PagedResult.cs:53-63 | Map keeps the page, size and counts, maps every item in order, and keeps HasNext, FirstItem, LastItem and IsEmpty |
| AppDtos.DefaultPolicySearchPage | InsureX.Application/DTOs/PolicyDto.cs:51-67 | the default search form is page 1 of 25 sorted by EndDate ascending, so its page has no previous page and a next page exactly when there are more than 25 items |
| AppDtos.ExpiryFlags | InsureX.Application/DTOs/PolicyDto.cs:20-22 | a policy is expired while less than one whole day remains, and expiring soon from one whole day up to 31 days; never both |
| AppMappingProfile.MapSeveritySpec | InsureX.Application/Mappings/MappingProfile.cs:23-38 | a failed result is Critical exactly for status "Critical", Warning exactly for "Warning", Minor otherwise; a passed result is never Critical or Minor, and is Warning exactly when its next check fell due more than seven days before now |
| AppMappingProfile.MapResult | InsureX.Application/Mappings/MappingProfile.cs:14-18 | the DTO keeps the asset, outcome and time, takes its severity from MapSeverity, and lists the result's alerts, or none when they are null |
| AppMappingProfile.ServiceResultSeverity | InsureX.Application/Mappings/MappingProfile.cs:14-38 | a result produced by the compliance service maps to no alerts, and to Info for an active asset and Minor otherwise |
| InfraAssetRepository.GetPagedSpec | InsureX.Infrastructure/Repositories/AssetRepository.cs:27-33 | every paged item comes from the query; for page and size of at least 1 the page is the run of at most pageSize items from index (page - 1) * pageSize, in query order |
| InfraAssetRepository.AssetById | InsureX.Infrastructure/Repositories/AssetRepository.cs:35-40 | a found asset is stored and has the id; null exactly when no asset has it |
| InfraAssetRepository.AssetByIdInStore | InsureX.Infrastructure/Repositories/AssetRepository.cs:35-40 | in a store keyed by position, id `id` finds the asset at index id - 1 and nothing outside 1..n |
| InfraAssetRepository.CountMatching | InsureX.Infrastructure/Repositories/AssetRepository.cs:43-47 | the count is the length of the Where-filtered assets, never more than all |
| InfraAssetRepository.RecentOfTenant | InsureX.Infrastructure/Repositories/AssetRepository.cs:50-57 | min(count, live assets of the tenant) items, newest first, each a stored non-deleted asset of the tenant, and no such asset left out is newer than a kept one |
| InfraAssetRepository.Recent | InsureX.Infrastructure/Repositories/AssetRepository.cs:79-86 | min(count, non-deleted assets) items, newest first, each a stored non-deleted asset, and no non-deleted asset left out is newer than a kept one |
| InfraAssetRepository.CompliantCount | InsureX.Infrastructure/Repositories/AssetRepository.cs:64-68 | at most the total count, and zero exactly when no asset is "Compliant" |
| InfraAssetRepository.CountByStatusSpec | InsureX.Infrastructure/Repositories/AssetRepository.cs:70-77 | no "Deleted" key; keys are distinct; each count is the number of assets with that status; every other occurring status has an entry |
| InfraAssetRepository.ExistsMatching | InsureX.Infrastructure/Repositories/AssetRepository.cs:88-91 | true exactly when some asset satisfies the predicate |
| InfraAssetRepository.ByAssetTag | InsureX.Infrastructure/Repositories/AssetRepository.cs:93-97 | a found asset is stored and has the tag; null exactly when no asset of any tenant or status has it |
| InfraAssetRepository.TagExists | InsureX.Infrastructure/Repositories/AssetRepository.cs:99-102 | true exactly when some asset of any tenant or status carries the tag, i.e. when GetByAssetTagAsync finds one |
| InfraComplianceRepository.ActiveRules | InsureX.Infrastructure/Repositories/ComplianceRepository.cs:16-21 | exactly the active rules are returned, as many as the count of active rules |
| InfraComplianceRepository.RuleByCode | InsureX.Infrastructure/Repositories/ComplianceRepository.cs:23-27 | a found rule is stored and has the code, active or not; null exactly when no rule has it |
| InfraComplianceRepository.RulesByType | InsureX.Infrastructure/Repositories/ComplianceRepository.cs:29-34 | a rule is returned iff it is stored, has the type and is active |
| InfraComplianceRepository.RuleById | InsureX.Infrastructure/Repositories/ComplianceRepository.cs:36-39 | a found rule is stored and has the key; null exactly when no rule has it |
| InfraComplianceRepository.RuleByIdInStore | InsureX.Infrastructure/Repositories/ComplianceRepository.cs:36-39 | in a store keyed by position, key `id` finds the rule at index id - 1 and nothing outside 1..n |
| InfraComplianceRepository.LatestCheck | InsureX.Infrastructure/Repositories/ComplianceRepository.cs:52-58 | null exactly when the asset has no check; otherwise a stored check of the asset with no later CheckDate among the asset's checks |
| InfraComplianceRepository.CheckHistory | InsureX.Infrastructure/Repositories/ComplianceRepository.cs:60-67 | newest first; a check is listed iff it is the asset's and dated on or after now - days |
| InfraComplianceRepository.NeedingCheck | InsureX.Infrastructure/Repositories/ComplianceRepository.cs:69-75 | a check is listed iff it was made at or before now - hoursThreshold hours |
| InfraComplianceRepository.HistoryWindow | InsureX.Infrastructure/Repositories/ComplianceRepository.cs:77-84 | newest first; a record is listed iff it is the asset's and changed on or after now - days |
| InfraComplianceRepository.ActiveAlerts | InsureX.Infrastructure/Repositories/ComplianceRepository.cs:91-102 | an alert is listed iff it is New or Acknowledged and, when an asset id is given, belongs to that asset |
| InfraComplianceRepository.AlertsByAsset | InsureX.Infrastructure/Repositories/ComplianceRepository.cs:104-109 | an alert is listed iff it belongs to the asset, whatever its status |
| InfraComplianceRepository.AlertById | InsureX.Infrastructure/Repositories/ComplianceRepository.cs:111-114 | a found alert is stored and has the key; null exactly when no alert has it |
| InfraComplianceRepository.AlertByIdInStore | InsureX.Infrastructure/Repositories/ComplianceRepository.cs:111-114 | in a store keyed by position, key `id` finds the alert at index id - 1 and nothing outside 1..n |
| InfraComplianceRepository.ActiveAlertCountIsLength | InsureX.Infrastructure/Repositories/ComplianceRepository.cs:91-138 | GetActiveAlertCountAsync equals the length of GetActiveAlertsAsync for the same asset filter |
| InfraComplianceRepository.LatestDashboard | InsureX.Infrastructure/Repositories/ComplianceRepository.cs:140-146 | null exactly when the tenant has no snapshot; otherwise a stored snapshot of the tenant with no later SnapshotDate |
| InfraComplianceRepository.ComplianceSummarySpec | InsureX.Infrastructure/Repositories/ComplianceRepository.cs:153-159 | distinct keys, a null status counting as "Unknown"; each count is the number of assets with that key; a key is present iff some asset has it; the counts add up to the number of assets |
| InfraComplianceRepository.AssetsByStatusCount | InsureX.Infrastructure/Repositories/ComplianceRepository.cs:166-170 | at most the number of assets, and zero exactly when no asset has that status (a null status never matches) |
| InfraComplianceRepository.NonCompliantAssets | InsureX.Infrastructure/Repositories/ComplianceRepository.cs:172-177 | an asset is listed iff its status is "Non-Compliant" |
| InfraComplianceRepository.NonCompliantIgnoresSeverity | InsureX.Infrastructure/Repositories/ComplianceRepository.cs:172-177 | the result is the same for every severity argument |
| InfraComplianceRepository.ComplianceStore.constructor | InsureX.Infrastructure/Repositories/ComplianceRepository.cs:11-14 | the store reads the given saved tables, keyed by position, and tracks nothing |
| InfraComplianceRepository.TrackedRule | InsureX.Infrastructure/Repositories/ComplianceRepository.cs:36-39 | the rule handed out for a saved row has the row's key and is the row itself or the rule of a tracked update |
| InfraComplianceRepository.TrackedAlert | InsureX.Infrastructure/Repositories/ComplianceRepository.cs:111-114 | the alert handed out for a saved row has the row's key and is the row itself or the alert of a tracked update |
| InfraComplianceRepository.TrackRuleUpdate | InsureX.Infrastructure/Repositories/ComplianceRepository.cs:46-50 | once an update of a saved rule is tracked, reads see the new value at its row and every other row as before |
| InfraComplianceRepository.TrackAlertUpdate | InsureX.Infrastructure/Repositories/ComplianceRepository.cs:121-125 | once an update of a saved alert is tracked, reads see the new value at its row and every other row as before |
| InfraComplianceRepository.SavedRows | InsureX.Infrastructure/Repositories/Repository.cs:99-104 | a save writes, for every row already saved, the value reads saw of it before the save; inserted rows only come after |
| InfraComplianceRepository.SaveRuleUpdates | InsureX.Infrastructure/Repositories/Repository.cs:99-104 | saving only rule updates rewrites the saved rules to the values reads saw and leaves every other table alone |
| InfraComplianceRepository.SaveAlertUpdates | InsureX.Infrastructure/Repositories/Repository.cs:99-104 | saving only alert updates rewrites the saved alerts to the values reads saw and leaves every other table alone |
| InfraComplianceRepository.SaveAllKeyed | InsureX.Infrastructure/Repositories/Repository.cs:99-104 | saving keeps rules and alerts keyed 1, 2, … in insertion order |
| InfraComplianceRepository.ComplianceStore.Rules | InsureX.Infrastructure/Repositories/ComplianceRepository.cs:36-39 | in a valid store, the rules reads hand out carry the keys 1..n in order |
| InfraComplianceRepository.ComplianceStore.Alerts | InsureX.Infrastructure/Repositories/ComplianceRepository.cs:111-114 | in a valid store, the alerts reads hand out carry the keys 1..n in order |
| InfraComplianceRepository.ComplianceStore.ActiveRulesRead | InsureX.Infrastructure/Repositories/ComplianceRepository.cs:16-21 | as many rules as saved rows whose saved IsActive is true, each such a row handed out with the values the context tracks for it |
| InfraComplianceRepository.ComplianceStore.ActiveAlertsRead | InsureX.Infrastructure/Repositories/ComplianceRepository.cs:91-102 | at most the saved alerts, each a saved New or Acknowledged row handed out with its tracked values |
| InfraComplianceRepository.ComplianceStore.AddRule | InsureX.Infrastructure/Repositories/ComplianceRepository.cs:41-44 | the rule is tracked as added; the database is unchanged |
| InfraComplianceRepository.ComplianceStore.UpdateRule | InsureX.Infrastructure/Repositories/ComplianceRepository.cs:46-50 | the rule is tracked as modified; the database is unchanged |
| InfraComplianceRepository.ComplianceStore.AddCheck | InsureX.Infrastructure/Repositories/Repository.cs:56-63 | the check is tracked as added; the database is unchanged |
| InfraComplianceRepository.ComplianceStore.AddHistory | InsureX.Infrastructure/Repositories/ComplianceRepository.cs:86-89 | the record is tracked as added; the database is unchanged |
| InfraComplianceRepository.ComplianceStore.AddAlert | InsureX.Infrastructure/Repositories/ComplianceRepository.cs:116-119 | the alert is tracked as added; the database is unchanged |
| InfraComplianceRepository.ComplianceStore.UpdateAlert | InsureX.Infrastructure/Repositories/ComplianceRepository.cs:121-125 | the alert is tracked as modified; the database is unchanged |
| InfraComplianceRepository.ComplianceStore.SaveDashboard | InsureX.Infrastructure/Repositories/ComplianceRepository.cs:148-151 | the snapshot is only tracked as added; despite the name nothing is written |
| InfraComplianceRepository.ComplianceStore.SaveChanges | InsureX.Infrastructure/Repositories/Repository.cs:99-113 | a successful save writes every tracked change in order, clears them and returns the number of tracked writes; a concurrency conflict or an update error throws its own InvalidOperationException, writes nothing and keeps the changes tracked |
| InfraDbContext.CurrentUserId | InsureX.Infrastructure/Data/AppDbContext.cs:576-588 | the tenant context's user id when there is a context and the id is neither null nor empty, and "system" otherwise, so never empty |
| InfraDbContext.StampEntry | InsureX.Infrastructure/Data/AppDbContext.cs:548-573 | an added entry is stamped with the creation time and user and, when tenant-scoped with an empty tenant, given the context's tenant; a modified entry gets the update stamps; a deleted entry becomes a modified one marked deleted with the deletion stamps; any other entry is unchanged |
| InfraDbContext.Stamped | InsureX.Infrastructure/Data/AppDbContext.cs:542-574 | every tracked entry is stamped on its own, in place |
| InfraDbContext.StampedSoftDeletes | InsureX.Infrastructure/Data/AppDbContext.cs:542-574 | after stamping no entry is left to delete: every deleted entry is written as a modified, soft-deleted one, and every other entry keeps its state |
| InfraDbContext.ChangeTracker.constructor | InsureX.Infrastructure/Data/AppDbContext.cs:542-543 | the tracker holds the given entries |
| InfraDbContext.ChangeTracker.SaveChanges | InsureX.Infrastructure/Data/AppDbContext.cs:536-540 | the entries are replaced by their stamped form for the current time, the current user and the context's tenant |
| InfraDbContext.FilterOf | InsureX.Infrastructure/Data/AppDbContext.cs:494-534 | without a tenant every filtered set hides only deleted rows; with one, tenant-scoped sets also require the tenant read at query time, and checks, histories and claims the tenant fixed when the model was built |
| InfraDbContext.FilterSpec | InsureX.Infrastructure/Data/AppDbContext.cs:494-534 | a deleted row never passes; a tenant-scoped row passes iff it is live and of the current tenant; a check, history or claim iff it is live and of the model's tenant; without a tenant iff it is live |
| InfraDbContext.DeletedThenHidden | InsureX.Infrastructure/Data/AppDbContext.cs:566-570 | an entity deleted through the context is hidden by every query filter afterwards |
| InfraPolicyRepository.GetPaged | InsureX.Infrastructure/Repositories/PolicyRepository.cs:28-34 | every item of a page comes from the query; for a page and size of at least 1 the page is the run of at most pageSize policies starting at (page - 1) * pageSize |
| InfraPolicyRepository.PolicyById | InsureX.Infrastructure/Repositories/PolicyRepository.cs:36-41 | a policy with that id, and null exactly when there is none |
| InfraPolicyRepository.PolicyByNumber | InsureX.Infrastructure/Repositories/PolicyRepository.cs:43-47 | a policy with that number, and null exactly when there is none |
| InfraPolicyRepository.ExpiringPolicies | InsureX.Infrastructure/Repositories/PolicyRepository.cs:49-57 | exactly the Active policies whose end date lies between now and now plus the given days |
| InfraPolicyRepository.ExpiredPolicies | InsureX.Infrastructure/Repositories/PolicyRepository.cs:59-64 | exactly the Active policies whose end date has passed |
| InfraPolicyRepository.PoliciesOfAsset | InsureX.Infrastructure/Repositories/PolicyRepository.cs:66-71 | exactly the policies of the asset |
| InfraPolicyRepository.PolicyExists | InsureX.Infrastructure/Repositories/PolicyRepository.cs:96-99 | true iff some policy carries the number, that is iff the lookup by number finds one |
| InfraPolicyRepository.ExpiringCountIsLength | InsureX.Infrastructure/Repositories/PolicyRepository.cs:107-114 | the expiring count equals the number of expiring policies listed |
| InfraPolicyRepository.ExpiringAtMostActive | InsureX.Infrastructure/Repositories/PolicyRepository.cs:101-114 | no more policies are expiring than are active |
| InfraPolicyRepository.SumNonNegative | InsureX.Infrastructure/Repositories/PolicyRepository.cs:85-86 | a sum of non-negative amounts is non-negative |
| InfraPolicyRepository.PolicyTypes | InsureX.Infrastructure/Repositories/PolicyRepository.cs:87-89 | the type of each policy, in order |
| InfraPolicyRepository.InsurerNames | InsureX.Infrastructure/Repositories/PolicyRepository.cs:90-92 | the insurer of each policy, in order |
| InfraPolicyRepository.SummarySpec | InsureX.Infrastructure/Repositories/PolicyRepository.cs:73-94 | the statistics count every policy; expiring ones are among the active ones, and active and expired ones are disjoint; each dictionary has one entry per type or insurer that occurs, counting its policies, and the entries add up to the total |
| InfraPolicyRepository.ClaimById | InsureX.Infrastructure/Repositories/PolicyRepository.cs:117-121 | a claim with that id, and null exactly when there is none |
| InfraPolicyRepository.ClaimsOfPolicy | InsureX.Infrastructure/Repositories/PolicyRepository.cs:123-128 | exactly the claims of the policy |
| InfraPolicyRepository.ReplaceClaim | InsureX.Infrastructure/Repositories/PolicyRepository.cs:135-139 | the claim with the updated claim's id is replaced in place, and every other is kept |
| InfraPolicyRepository.ClaimStore.constructor | InsureX.Infrastructure/Repositories/PolicyRepository.cs:12-14 | the claim set starts empty |
| InfraPolicyRepository.ClaimStore.AddClaim | InsureX.Infrastructure/Repositories/PolicyRepository.cs:130-133 | the claim is appended to the set |
| InfraPolicyRepository.ClaimStore.UpdateClaim | InsureX.Infrastructure/Repositories/PolicyRepository.cs:135-139 | the claim with the same id is replaced and every other claim is kept in place |
| InfraPolicyRepository.AddedClaimListed | InsureX.Infrastructure/Repositories/PolicyRepository.cs:123-133 | an added claim is listed for its own policy and changes no other policy's claims |
| InfraRepository.Replace | InsureX.Infrastructure/Repositories/Repository.cs:65-72 | an update write replaces every stored entity with the updated entity's key and keeps the rest in place |
| InfraRepository.ApplyChangeSpec | InsureX.Infrastructure/Repositories/Repository.cs:56-81 | a saved Add appends the entity; a saved Update replaces the entity with its key in place; a saved Remove leaves exactly the entities with other keys |
| InfraRepository.ApplyChangesSnoc | InsureX.Infrastructure/Repositories/Repository.cs:99-104 | saving a list of changes applies them one after another, in the order they were tracked |
| InfraRepository.AddedOnly | InsureX.Infrastructure/Repositories/Repository.cs:56-63 | saving only adds appends the added entities in order |
| InfraRepository.EffectivePage | InsureX.Infrastructure/Repositories/Repository.cs:119 | a page below 1 is read as 1 and any other page as given |
| InfraRepository.EffectivePageSize | InsureX.Infrastructure/Repositories/Repository.cs:120 | a size below 1 is read as 10 and any other size as given |
| InfraRepository.Query | InsureX.Infrastructure/Repositories/Repository.cs:122-128 | the query holds exactly the stored entities the predicate accepts, as a multiset, sorted when an order is given and otherwise in stored order |
| InfraRepository.QueryLength | InsureX.Infrastructure/Repositories/Repository.cs:122-128 | the query has as many entities as the predicate accepts |
| InfraRepository.Repository.constructor | InsureX.Infrastructure/Repositories/Repository.cs:13-17 | the repository reads the given set and tracks no change |
| InfraRepository.Repository.GetById | InsureX.Infrastructure/Repositories/Repository.cs:19-25 | throws "Id must be greater than zero" exactly for an id of 0 or less; otherwise a stored entity with that key, or null when none has it |
| InfraRepository.Repository.GetByGuid | InsureX.Infrastructure/Repositories/Repository.cs:27-33 | throws "Id cannot be empty" exactly for Guid.Empty; otherwise a stored entity with that key, or null when none has it |
| InfraRepository.Repository.GetAll | InsureX.Infrastructure/Repositories/Repository.cs:35-38 | every stored entity, and no unsaved change |
| InfraRepository.Repository.Find | InsureX.Infrastructure/Repositories/Repository.cs:40-46 | throws for a null predicate and only then; otherwise the stored entities it accepts, in order |
| InfraRepository.Repository.First | InsureX.Infrastructure/Repositories/Repository.cs:48-54 | throws for a null predicate and only then; otherwise a stored entity it accepts, or null when it accepts none |
| InfraRepository.Repository.Exists | InsureX.Infrastructure/Repositories/Repository.cs:83-89 | throws for a null predicate and only then; otherwise true iff some stored entity satisfies it |
| InfraRepository.Repository.Count | InsureX.Infrastructure/Repositories/Repository.cs:91-97 | all stored entities without a predicate, otherwise those it accepts |
| InfraRepository.Repository.GetPagedSpec | InsureX.Infrastructure/Repositories/Repository.cs:115-134 | exactly min(size, matches - start) entities, none past the end, where start is (page - 1) * size with page and size corrected; the i-th is the query's entity at start + i, so each is stored, accepted by the predicate and, with an order, sorted |
| InfraRepository.Repository.GetPagedSlice | InsureX.Infrastructure/Repositories/Repository.cs:115-134 | without an order the page is the run of the filtered entities starting at (page - 1) * size, with page and size corrected first |
| InfraRepository.Repository.Add | InsureX.Infrastructure/Repositories/Repository.cs:56-63 | throws for null and tracks nothing; otherwise returns the entity and tracks one Add; the database is untouched until saved |
| InfraRepository.Repository.Update | InsureX.Infrastructure/Repositories/Repository.cs:65-72 | throws for null; otherwise tracks one Update; the database is untouched until saved |
| InfraRepository.Repository.Delete | InsureX.Infrastructure/Repositories/Repository.cs:74-81 | throws for null; otherwise tracks one Remove; the database is untouched until saved |
| InfraRepository.Repository.SaveChanges | InsureX.Infrastructure/Repositories/Repository.cs:99-113 | a successful save applies every tracked change in order, clears them and returns their number; a concurrency conflict or an update error throws its own message and changes nothing |
| InfraRepository.Repository.ExecuteInTransaction | InsureX.Infrastructure/Repositories/Repository.cs:141-157 | throws for a null action; an action that succeeds commits its new state; one that throws rolls back to the old state and rethrows its error |
| InfraRepository.Repository.Detach | InsureX.Infrastructure/Repositories/Repository.cs:159-165 | throws for null; otherwise forgets every tracked change of that entity and nothing else |
| InfraRepository.Repository.Reload | InsureX.Infrastructure/Repositories/Repository.cs:167-173 | throws for null; otherwise drops the entity's tracked changes and returns its stored state |
| InfraRepository.AddedThenSavedIsFound | InsureX.Infrastructure/Repositories/Repository.cs:56-63 | an entity with a fresh positive key that is added and saved is then found by its key |
| InfraRepository.RemovedThenSavedIsGone | InsureX.Infrastructure/Repositories/Repository.cs:74-81 | an entity that is removed and saved is no longer found by its key |
| InfraScopedTenantContext.TenantContext.constructor | InsureX.Infrastructure/Services/TenantContext.cs:7-9 | a new context holds no tenant |
| InfraScopedTenantContext.TenantContext.SetTenantId | InsureX.Infrastructure/Services/TenantContext.cs:11-16 | the given tenant replaces the stored one, which is then valid exactly when it is not Guid.Empty |
| InfraTenantContext.TenantContext.constructor | InsureX.Infrastructure/Tenant/TenantContext.cs:17-22 | the context starts from the given ambient tenant |
| InfraTenantContext.TenantContext.GetCurrentTenantId | InsureX.Infrastructure/Tenant/TenantContext.cs:24-48 | without an HttpContext the ambient tenant is returned |
| InfraTenantContext.TenantContext.SetTenantId | InsureX.Infrastructure/Tenant/TenantContext.cs:68-72 | the ambient tenant becomes the given value, null included |
| InfraTenantContext.CurrentTenantPrecedence | InsureX.Infrastructure/Tenant/TenantContext.cs:24-48 | with a request, the tenant is the first of the authenticated user's "TenantId" claim and the X-Tenant-Id header that parses as a Guid, and the ambient tenant only when neither does |
| InfraTenantContext.UnparseableClaimFallsThrough | InsureX.Infrastructure/Tenant/TenantContext.cs:28-47 | a claim that does not parse is skipped: the header decides when it parses, and otherwise the ambient tenant |
| InfraTenantContext.AmbientIsLastResort | InsureX.Infrastructure/Tenant/TenantContext.cs:24-48 | a tenant other than the ambient one always comes from a candidate text of the request |
| InfraTenantContext.GetCurrentUserId | InsureX.Infrastructure/Tenant/TenantContext.cs:50-55 | null without an HttpContext; otherwise the first NameIdentifier claim, and the first "sub" claim only when there is none |
| InfraTenantContext.GetCurrentUserEmail | InsureX.Infrastructure/Tenant/TenantContext.cs:57-61 | null exactly when there is no HttpContext or no email claim; otherwise the value of an email claim of the user |
| InfraTenantContext.IsAuthenticatedUser | InsureX.Infrastructure/Tenant/TenantContext.cs:63-66 | true exactly when there is an HttpContext whose identity is authenticated |
| InfraTenantMiddleware.Response.constructor | InsureX.Infrastructure/Middleware/TenantResolutionMiddleware.cs:37 | the response starts with the given headers |
| InfraTenantMiddleware.Response.Add | InsureX.Infrastructure/Middleware/TenantResolutionMiddleware.cs:37 | adding a header the response already has throws and changes nothing; otherwise the header is added |
| InfraTenantMiddleware.ClaimsStep | InsureX.Infrastructure/Middleware/TenantResolutionMiddleware.cs:23-39 | the tenant of an authenticated user's first tenant claim that parses as an int is set once on the context; otherwise the context is untouched |
| InfraTenantMiddleware.InvokeAsync | InsureX.Infrastructure/Middleware/TenantResolutionMiddleware.cs:19-67 | the response echoes a claims tenant in X-Tenant-Id; when that header was already there the add throws, the downstream pipeline is skipped and the error surfaces; otherwise the tenant is resolved from claims then header, the pipeline runs once with it, and its failure surfaces; the context is cleared in every case |
| InfraTenantMiddleware.EchoIsClaimTenant | InsureX.Infrastructure/Middleware/TenantResolutionMiddleware.cs:31-37 | on a fresh response X-Tenant-Id is written exactly when the claims gave a tenant, and it parses back to that tenant |
| InfraUnitOfWork.RepositoryHandle.constructor | InsureX.Infrastructure/Repositories/UnitOfWork.cs:24 | a new repository is made for the requested entity type |
| InfraUnitOfWork.UnitOfWork.constructor | InsureX.Infrastructure/Repositories/UnitOfWork.cs:13-16 | a new unit of work holds no repository and no open transaction |
| InfraUnitOfWork.UnitOfWork.Repository | InsureX.Infrastructure/Repositories/UnitOfWork.cs:18-28 | the first request for an entity type creates and keeps a fresh repository; every later request returns that same one; nothing else changes |
| InfraUnitOfWork.UnitOfWork.BeginTransaction | InsureX.Infrastructure/Repositories/UnitOfWork.cs:35-38 | a newly numbered transaction becomes the current one, replacing any that was open |
| InfraUnitOfWork.UnitOfWork.RollbackTransaction | InsureX.Infrastructure/Repositories/UnitOfWork.cs:59-70 | the open transaction, if any, is rolled back; afterwards none is open |
| InfraUnitOfWork.UnitOfWork.CommitTransaction | InsureX.Infrastructure/Repositories/UnitOfWork.cs:40-57 | succeeds iff the save succeeds and the commit does not fail, and then commits the open transaction; on either failure the open transaction is rolled back and the error rethrown; afterwards none is open |
| SrcAssetRepository.GetPaged | src/InsureX.Infrastructure/Repositories/AssetRepository.cs:27-33 | every item of a page comes from the query; for a page and size of at least 1 the page is the run of at most pageSize assets starting at (page - 1) * pageSize |
| SrcAssetRepository.AssetById | src/InsureX.Infrastructure/Repositories/AssetRepository.cs:35-40 | an asset with that id, and null exactly when there is none |
| SrcAssetRepository.AssetByIdInStore | src/InsureX.Infrastructure/Repositories/AssetRepository.cs:35-40 | in a store keyed by position, the asset with id n is the one at n - 1, and ids out of range give null |
| SrcAssetRepository.CompliantCount | src/InsureX.Infrastructure/Repositories/AssetRepository.cs:42-51 | never more than GetCountAsync, which counts every asset, and zero only when no asset is Compliant |
| SrcAssetRepository.Statuses | src/InsureX.Infrastructure/Repositories/AssetRepository.cs:56 | the status of each asset, in order |
| SrcAssetRepository.CountByStatusSpec | src/InsureX.Infrastructure/Repositories/AssetRepository.cs:53-60 | no entry is keyed "Deleted"; every other status that occurs has exactly one entry, holding the number of assets with it |
| SrcAssetRepository.CreatedDescPreorder | src/InsureX.Infrastructure/Repositories/AssetRepository.cs:66 | newest-first by CreatedAt is a total preorder |
| SrcAssetRepository.Recent | src/InsureX.Infrastructure/Repositories/AssetRepository.cs:62-69 | min(count, non-deleted assets) non-deleted assets, newest first, and no non-deleted asset left out is newer than a kept one |
| SrcAssetService.SortFieldOf | src/InsureX.Application/Services/AssetService.cs:81-95 | a missing key, or one whose lower case is not assettag, make, model, year or status, sorts by CreatedAt |
| SrcAssetService.FieldLeTotal | src/InsureX.Application/Services/AssetService.cs:83-94 | any two assets are comparable on every sort key |
| SrcAssetService.FieldLeTrans | src/InsureX.Application/Services/AssetService.cs:83-94 | every sort key compares transitively |
| SrcAssetService.ComparerPreorder | src/InsureX.Application/Services/AssetService.cs:79-95 | each key in either direction is a total preorder, so the sort is well defined |
| SrcAssetService.SearchQuery | src/InsureX.Application/Services/AssetService.cs:43-95 | an asset is in the query iff it is stored, of the tenant, not Deleted and passes every supplied filter; the query is sorted on the requested key and direction, and its length is the number of matching assets |
| SrcAssetService.GetPagedSpec | src/InsureX.Application/Services/AssetService.cs:36-113 | without a tenant the search throws UnauthorizedAccess; otherwise the page holds only matching live assets of the tenant, is the run of at most pageSize query items starting at (page - 1) * pageSize, the total counts every match, and page and size are echoed |
| SrcAssetService.GetById | src/InsureX.Application/Services/AssetService.cs:115-126 | throws iff there is no tenant; a found asset is stored, has the id, belongs to the tenant and is not Deleted; null means it is missing, another tenant's or Deleted |
| SrcAssetService.TagExists | src/InsureX.Application/Services/AssetService.cs:186-195 | throws iff there is no tenant; otherwise true iff some non-deleted asset of the tenant has the tag |
| SrcAssetService.GetCount | src/InsureX.Application/Services/AssetService.cs:197-206 | throws iff there is no tenant; otherwise the number of the tenant's non-deleted assets |
| SrcAssetService.GetRecent | src/InsureX.Application/Services/AssetService.cs:208-221 | throws iff there is no tenant; otherwise min(count, their number) of the tenant's non-deleted assets, newest first, and no live asset of the tenant left out is newer than a kept one |
| SrcAssetService.ApplyInput | src/InsureX.Application/Services/AssetService.cs:160 | mapping the input copies tag, make, model, year, serial, VIN, insured value and notes, and keeps id, tenant, status, compliance status and creation time |
| SrcAssetService.NewAsset | src/InsureX.Application/Services/AssetService.cs:136-141 | a new asset belongs to the tenant, is Active with compliance Pending, and carries the clock time and the creator (or "system") |
| SrcAssetService.SoftDeleted | src/InsureX.Application/Services/AssetService.cs:176-178 | only the asset at the id changes; it becomes Deleted and can no longer be deleted |
| SrcAssetService.AssetService.constructor | src/InsureX.Application/Services/AssetService.cs:24-34 | a service over an empty asset store |
| SrcAssetService.AssetService.Create | src/InsureX.Application/Services/AssetService.cs:128-147 | no tenant throws UnauthorizedAccess; a tag used by a live asset of the tenant throws "Asset with tag … already exists"; otherwise the new asset is appended under the next id; a failure changes nothing |
| SrcAssetService.AssetService.Update | src/InsureX.Application/Services/AssetService.cs:149-168 | a missing id throws "not found", a deleted asset throws "Cannot update deleted asset"; it succeeds iff the asset is live and a changed tag is free for the tenant, and then only that asset becomes the input mapped onto it with the update stamps; there is no tenant-ownership check |
| SrcAssetService.AssetService.Delete | src/InsureX.Application/Services/AssetService.cs:170-184 | true iff the asset exists and is not Deleted, and then the store is the soft-deleted one; false changes nothing |
| SrcAuditRepository.TimestampDescPreorder | src/InsureX.Infrastructure/Repositories/AuditRepository.cs:18 | newest-first by Timestamp is a total preorder |
| SrcAuditRepository.RecentAlerts | src/InsureX.Infrastructure/Repositories/AuditRepository.cs:14-21 | min(count, alert entries) entries whose action contains "Alert" or that carry a severity, newest first, and no alert entry left out is newer than a kept one |
| SrcAuditRepository.RecentActivities | src/InsureX.Infrastructure/Repositories/AuditRepository.cs:23-29 | min(count, all) entries, newest first, and no entry left out is newer than a kept one |
| SrcAuditRepository.ByEntity | src/InsureX.Infrastructure/Repositories/AuditRepository.cs:31-37 | exactly the entries of that entity type and id, each once, newest first |
| SrcAuditRepository.ByUser | src/InsureX.Infrastructure/Repositories/AuditRepository.cs:39-46 | min(count, the user's entries) of the user's entries, newest first, and no entry of the user left out is newer than a kept one |
| SrcComplianceEngine.ApplyInput | src/InsureX.Application/Services/ComplianceEngineService.cs:96 | mapping an input onto a rule copies every input field and keeps the key, tenant, end date, maximum and creation stamps |
| SrcComplianceEngine.RuleByCode | src/InsureX.Application/Services/ComplianceEngineService.cs:54 | the code lookup finds nothing exactly when no stored rule has that code |
| SrcComplianceEngine.Outcome | src/InsureX.Application/Services/ComplianceEngineService.cs:153-203 | a check result is for the checked asset, its score lies in 0..100, and its status is the one the score bands give |
| SrcComplianceEngine.OutcomeSpec | src/InsureX.Application/Services/ComplianceEngineService.cs:170-203 | a check raises one alert per failing applicable rule, each New and numbered consecutively, and scores 100 exactly when every applicable rule passes |
| SrcComplianceEngine.ExpireRules | src/InsureX.Application/Services/ComplianceEngineService.cs:468-488 | deactivating expired rules keeps the number of rules |
| SrcComplianceEngine.ExpireRulesSpec | src/InsureX.Application/Services/ComplianceEngineService.cs:468-488 | afterwards no active rule has expired; keys and codes are kept; only active rules change, and they become inactive; a second pass changes nothing |
| SrcComplianceEngine.StaleAlerts | src/InsureX.Application/Services/ComplianceEngineService.cs:490-498 | an alert is stale iff it is stored, New or Acknowledged, created before the cut-off and not Resolved |
| SrcComplianceEngine.ResolveStale | src/InsureX.Application/Services/ComplianceEngineService.cs:490-510 | resolving stale alerts keeps the number of alerts |
| SrcComplianceEngine.ResolveStaleSpec | src/InsureX.Application/Services/ComplianceEngineService.cs:490-510 | afterwards no alert is stale; ids and creation times are kept; only stale alerts change, and they become Resolved; active alerts from the cut-off on are untouched |
| SrcComplianceEngine.ComplianceEngine.constructor | src/InsureX.Application/Services/ComplianceEngineService.cs:26-42 | an engine over the given compliance repository, asset set and policy set |
| SrcComplianceEngine.ComplianceEngine.CreateRule | src/InsureX.Application/Services/ComplianceEngineService.cs:51-77 | a taken code throws "Rule with code … already exists"; no tenant throws UnauthorizedAccess; otherwise the rule built from the input, stamped with the tenant and the user (or "system"), is appended; only the rule set changes |
| SrcComplianceEngine.ComplianceEngine.UpdateRule | src/InsureX.Application/Services/ComplianceEngineService.cs:79-109 | an unknown id throws "Rule with ID … not found"; a changed code that is taken throws; otherwise the stored rule becomes the input mapped onto it with the update stamps; a failure changes nothing |
| SrcComplianceEngine.ComplianceEngine.DeleteRule | src/InsureX.Application/Services/ComplianceEngineService.cs:111-129 | true iff the rule exists, and then exactly that rule is deactivated with the update stamps; false changes nothing |
| SrcComplianceEngine.ComplianceEngine.ToggleRuleStatus | src/InsureX.Application/Services/ComplianceEngineService.cs:131-150 | true iff the rule exists, and then exactly that rule gets the requested IsActive and the update stamps; false changes nothing |
| SrcComplianceEngine.ComplianceEngine.RaiseAlert | src/InsureX.Application/Services/ComplianceEngineService.cs:189-193 | the alert built from the failing rule is appended with the next id; nothing else changes |
| SrcComplianceEngine.ComplianceEngine.EvaluateRules | src/InsureX.Application/Services/ComplianceEngineService.cs:170-194 | the loop's results are the evaluations of the applicable rules in order, its alerts are the violation alerts numbered from the next id and appended to the store, and the running total is 100 per compliant result |
| SrcComplianceEngine.ComplianceEngine.RunRules | src/InsureX.Application/Services/ComplianceEngineService.cs:159-203 | the computed result equals the specification Outcome for the asset, its policies and the active rules, and the new alerts are appended to the store |
| SrcComplianceEngine.ComplianceEngine.RecordCheck | src/InsureX.Application/Services/ComplianceEngineService.cs:206-243 | one check record is appended; a history record and the asset's new status and score are written exactly when the status changed |
| SrcComplianceEngine.ComplianceEngine.CheckAssetCompliance | src/InsureX.Application/Services/ComplianceEngineService.cs:153-261 | an unknown asset throws "Asset with ID … not found" and changes nothing; otherwise the result is Outcome, its alerts and one check record are stored, and history and the asset change exactly when the status changed; rules and policies never change |
| SrcComplianceEngine.ComplianceEngine.AcknowledgeAlert | src/InsureX.Application/Services/ComplianceEngineService.cs:355-374 | an unknown id throws "Alert with ID … not found" and changes nothing; otherwise exactly that alert becomes Acknowledged by the user at the clock time |
| SrcComplianceEngine.ComplianceEngine.ResolveAlert | src/InsureX.Application/Services/ComplianceEngineService.cs:376-396 | an unknown id throws and changes nothing; otherwise exactly that alert becomes Resolved by the user with the notes at the clock time |
| SrcComplianceEngine.ComplianceEngine.UpdateExpiredRules | src/InsureX.Application/Services/ComplianceEngineService.cs:468-488 | the rule set becomes ExpireRules of the old one and the count returned is the number of active rules that had expired; nothing else changes |
| SrcComplianceEngine.ComplianceEngine.ResolveStaleAlerts | src/InsureX.Application/Services/ComplianceEngineService.cs:490-510 | the alert set becomes ResolveStale of the old one at cut-off now - daysOld, and the count returned is the number of stale alerts; nothing else changes |
| SrcComplianceRepository.ActiveRules | src/InsureX.Infrastructure/Repositories/ComplianceRepository.cs:21-27 | the result is sorted by ascending priority and is a permutation of the active rules: a rule is in it iff it is stored and active, as many times as it is stored |
| SrcComplianceRepository.PriorityLePreorder | src/InsureX.Infrastructure/Repositories/ComplianceRepository.cs:25 | ordering by priority is a total preorder, so a stable sort by it is well defined |
| SrcComplianceRepository.RuleById | src/InsureX.Infrastructure/Repositories/ComplianceRepository.cs:29-32 | a found rule is stored and has the key; null exactly when no rule has it |
| SrcComplianceRepository.RuleByIdInStore | src/InsureX.Infrastructure/Repositories/ComplianceRepository.cs:29-32 | in a store keyed by position, key `id` finds the rule at index id - 1 and nothing outside 1..n |
| SrcComplianceRepository.LatestCheck | src/InsureX.Infrastructure/Repositories/ComplianceRepository.cs:47-53 | null exactly when the asset has no check; otherwise a stored check of that asset whose date is no earlier than any other check of that asset |
| SrcComplianceRepository.CheckDateDescPreorder | src/InsureX.Infrastructure/Repositories/ComplianceRepository.cs:51 | ordering by descending check date is a total preorder |
| SrcComplianceRepository.ActiveAlerts | src/InsureX.Infrastructure/Repositories/ComplianceRepository.cs:61-73 | an alert is returned iff it is stored, its status is New or Acknowledged, and (when an asset id is given) it belongs to that asset |
| SrcComplianceRepository.AlertById | src/InsureX.Infrastructure/Repositories/ComplianceRepository.cs:75-80 | a found alert is stored and has the id; null exactly when no alert has it |
| SrcComplianceRepository.AlertByIdInStore | src/InsureX.Infrastructure/Repositories/ComplianceRepository.cs:75-80 | in a store keyed by position, id `id` finds the alert at index id - 1 and nothing outside 1..n |
| SrcComplianceRepository.ActiveAlertCountIsLength | src/InsureX.Infrastructure/Repositories/ComplianceRepository.cs:95-99 | the active-alert count equals the number of alerts the unfiltered active-alert query returns |
| SrcComplianceRepository.StatusKeys | src/InsureX.Infrastructure/Repositories/ComplianceRepository.cs:110 | one grouping key per asset, in order: its compliance status, or "Unknown" when it has none |
| SrcComplianceRepository.ComplianceSummarySpec | src/InsureX.Infrastructure/Repositories/ComplianceRepository.cs:107-113 | the summary has distinct keys, its counts add up to the number of assets, each key's count is the number of assets with that status (null counted as "Unknown"), and a key is present iff some asset has it |
| SrcComplianceRepository.ComplianceRepository.constructor | src/InsureX.Infrastructure/Repositories/ComplianceRepository.cs:16-19 | a repository over empty rule, check, alert and history sets |
| SrcComplianceRepository.ComplianceRepository.AddRule | src/InsureX.Infrastructure/Repositories/ComplianceRepository.cs:34-38 | the rule is appended with CreatedAt set to the clock and the next key; the other sets are unchanged |
| SrcComplianceRepository.ComplianceRepository.UpdateRule | src/InsureX.Infrastructure/Repositories/ComplianceRepository.cs:40-45 | the stored rule with that key is replaced by the given one with UpdatedAt set to the clock; nothing else changes |
| SrcComplianceRepository.ComplianceRepository.AddCheck | src/InsureX.Infrastructure/Repositories/ComplianceRepository.cs:55-59 | the check is appended with CreatedAt set to the clock; the other sets are unchanged |
| SrcComplianceRepository.ComplianceRepository.AddAlert | src/InsureX.Infrastructure/Repositories/ComplianceRepository.cs:82-86 | the alert is appended with CreatedAt set to the clock and the next key; the other sets are unchanged |
| SrcComplianceRepository.ComplianceRepository.UpdateAlert | src/InsureX.Infrastructure/Repositories/ComplianceRepository.cs:88-93 | the stored alert with that id is replaced by the given one with UpdatedAt set to the clock; nothing else changes |
| SrcComplianceRepository.ComplianceRepository.AddHistory | src/InsureX.Infrastructure/Repositories/ComplianceRepository.cs:101-105 | the history entry is appended with CreatedAt set to the clock; the other sets are unchanged |
| SrcComplianceRules.IsRuleApplicable | src/InsureX.Application/Services/ComplianceEngineService.cs:554-577 | a rule listing neither asset nor policy types always applies; an asset type outside a non-empty list excludes it; with policies present and a non-empty policy-type list it applies only if some policy has a listed type; with no policies only the asset type matters |
| SrcComplianceRules.EvaluatePolicyRule | src/InsureX.Application/Services/ComplianceEngineService.cs:623-665 | the result carries the rule's id, name and severity, and fails iff the asset has no Active unexpired policy, or DaysToExpiry is set and such a policy ends within that many days |
| SrcComplianceRules.EvaluatePaymentRule | src/InsureX.Application/Services/ComplianceEngineService.cs:667-700 | the result carries the rule's id, name and severity, and fails iff no policy is Active or some Active policy is Overdue |
| SrcComplianceRules.OverdueNumbersEmpty | src/InsureX.Application/Services/ComplianceEngineService.cs:685-690 | the list of overdue policy numbers is empty exactly when no Active policy is Overdue |
| SrcComplianceRules.EvaluateInspectionRule | src/InsureX.Application/Services/ComplianceEngineService.cs:702-734 | the result carries the rule's id, name and severity, and fails iff the asset was never inspected, or MaxValue is set and the whole days since the last inspection exceed it |
| SrcComplianceRules.MissingDocuments | src/InsureX.Application/Services/ComplianceEngineService.cs:745-755 | "VIN" is missing iff the VIN is null or empty, "Purchase Date" iff there is none, "Insured Value" iff it is null or 0; at most three items |
| SrcComplianceRules.EvaluateDocumentationRule | src/InsureX.Application/Services/ComplianceEngineService.cs:736-770 | the result carries the rule's id, name and severity, and fails iff some required document is missing |
| SrcComplianceRules.EvaluateCustomRule | src/InsureX.Application/Services/ComplianceEngineService.cs:772-784 | a custom rule always passes and carries the rule's id, name and severity |
| SrcComplianceRules.RuleTypeNamesDistinct | src/InsureX.Application/Services/ComplianceEngineService.cs:590-610 | the five rule-type names are different strings, so at most one case of the dispatch matches |
| SrcComplianceRules.EvaluateRuleFault | src/InsureX.Application/Services/ComplianceEngineService.cs:613-618 | an evaluation that throws is recorded as failed, with "Error evaluating rule: " and the exception's message |
| SrcComplianceRules.EvaluateRuleUnknown | src/InsureX.Application/Services/ComplianceEngineService.cs:607-610 | a rule of an unknown type passes with "Rule type not implemented" |
| SrcComplianceRules.EvaluateRuleKeepsRule | src/InsureX.Application/Services/ComplianceEngineService.cs:581-586 | every evaluation result, thrown or not, names its rule and carries its severity |
| SrcComplianceRules.EvaluateRulePolicyTypes | src/InsureX.Application/Services/ComplianceEngineService.cs:592-597 | the Policy and Payment types are decided by the policy and payment evaluators |
| SrcComplianceRules.EvaluateRuleAssetTypes | src/InsureX.Application/Services/ComplianceEngineService.cs:598-606 | the Inspection and Documentation types are decided by the inspection and documentation evaluators; Custom passes |
| SrcComplianceRules.CreateAlertFromRule | src/InsureX.Application/Services/ComplianceEngineService.cs:786-804 | the alert is New, created now, titled "Compliance Violation: " + rule name, describes the finding, names asset and rule, has the rule's severity, requires action iff severity >= 2, and is due in 7 days iff severity >= 3 |
| SrcComplianceRules.EvaluationsCount | src/InsureX.Application/Services/ComplianceEngineService.cs:170-184 | inapplicable rules leave no result: there is exactly one result per applicable rule |
| SrcComplianceRules.ViolationAlertsCount | src/InsureX.Application/Services/ComplianceEngineService.cs:185-194 | exactly one alert per non-compliant result, numbered consecutively from the first id, each New |
| SrcComplianceRules.ScoreBounds | src/InsureX.Application/Services/ComplianceEngineService.cs:197 | the integer average of 100 per compliant rule (100 when none applies) lies in 0..100, and is 100 iff every applicable rule passes |
| SrcComplianceRules.StatusByCounts | src/InsureX.Application/Services/ComplianceEngineService.cs:197-201 | the status is Compliant iff no rule applies or at least 9 in 10 pass, and Non-Compliant iff some rule applies and fewer than 7 in 10 pass |
| SrcComplianceRules.OneFailure | src/InsureX.Application/Services/ComplianceEngineService.cs:197-201 | a single failing rule leaves the asset Compliant only when at least ten rules apply |
| SrcComplianceRules.MaxSeverityIsMax | src/InsureX.Application/Services/ComplianceEngineService.cs:837 | the group severity is attained by some alert with that title and no alert with that title exceeds it |
| SrcComplianceRules.Titles | src/InsureX.Application/Services/ComplianceEngineService.cs:832 | one grouping key per alert, in order: its title |
| SrcComplianceRules.TitlesCount | src/InsureX.Application/Services/ComplianceEngineService.cs:836 | the number of times a title occurs among the keys is the number of alerts with that title |
| SrcComplianceRules.IssuesSpec | src/InsureX.Application/Services/ComplianceEngineService.cs:831-839 | one issue per distinct title, each with the number of alerts of that title and their highest severity |
| SrcComplianceRules.IssueLePreorder | src/InsureX.Application/Services/ComplianceEngineService.cs:840-841 | ranking by severity descending, then count descending, is a total preorder |
| SrcComplianceRules.TopIssues | src/InsureX.Application/Services/ComplianceEngineService.cs:842 | at most five issues are reported |
| SrcComplianceRules.TopIssuesSpec | src/InsureX.Application/Services/ComplianceEngineService.cs:827-844 | at most five issues, ranked by severity then count, with distinct titles, each describing its alerts' count and highest severity |
| SrcComplianceRules.TopIssuesDescribe | src/InsureX.Application/Services/ComplianceEngineService.cs:831-842 | every reported issue gives the exact count and maximal severity of its title's alerts |
| SrcComplianceRules.TopIssuesAreTop | src/InsureX.Application/Services/ComplianceEngineService.cs:840-842 | as many issues as distinct titles, up to five, and no issue left out ranks above one that is kept |
| SrcDashboardService.ComplianceRate | src/InsureX.Application/Services/DashboardService.cs:62-69 | the rate is the exact 0 iff there are no assets; otherwise it is made of the compliant count over the asset total, the first never above the second |
| SrcDashboardService.SeverityCases | src/InsureX.Application/Services/DashboardService.cs:102-111 | each badge in both directions: "warning" iff the lower-cased action contains "expire", "danger" iff not that but "violation", "info" iff neither but "compliance", else "secondary" |
| SrcDashboardService.SeverityIgnoresCase | src/InsureX.Application/Services/DashboardService.cs:104 | lower-casing the action first does not change the badge |
| SrcDashboardService.ToRecentAlert | src/InsureX.Application/Services/DashboardService.cs:74-82 | an entry without an asset shows "Unknown", otherwise its asset tag; type, date and badge come from the entry's action and time |
| SrcDashboardService.RecentAlerts | src/InsureX.Application/Services/DashboardService.cs:71-83 | one row per recent alert entry of the audit repository, in its order, at most `count` |
| SrcDashboardService.ToActivity | src/InsureX.Application/Services/DashboardService.cs:88-94 | an entry without a user shows "System", otherwise the user name; action, entity and time are the entry's |
| SrcDashboardService.RecentActivities | src/InsureX.Application/Services/DashboardService.cs:85-95 | one row per recent audit entry, in order, min(count, number of entries) of them |
| SrcDashboardService.DashboardData | src/InsureX.Application/Services/DashboardService.cs:28-50 | the asset total counts every asset, the 30-day expiring count is the length of the expiring list and never exceeds the active count, at most 10 alerts and 5 activities, and the status breakdown is the repository's |
| SrcDbContext.StampEntry | src/InsureX.Infrastructure/Data/AppDbContext.cs:160-170 | an added entry gets the creation time and the user or "system"; a modified one the update time and the user or "system"; any other entry, a deleted one included, is unchanged; the state is never changed |
| SrcDbContext.Stamped | src/InsureX.Infrastructure/Data/AppDbContext.cs:152-171 | every tracked entry is stamped on its own, in place |
| SrcDbContext.StampedKeepsStates | src/InsureX.Infrastructure/Data/AppDbContext.cs:152-171 | saving changes no entry's state and leaves deleted entries untouched, so a delete stays a hard delete |
| SrcDbContext.StampedIdempotent | src/InsureX.Infrastructure/Data/AppDbContext.cs:152-171 | stamping twice at the same moment by the same user gives what stamping once gives |
| SrcDbContext.ChangeTracker.constructor | src/InsureX.Infrastructure/Data/AppDbContext.cs:154 | the tracker holds the given entries |
| SrcDbContext.ChangeTracker.SaveChanges | src/InsureX.Infrastructure/Data/AppDbContext.cs:152-174 | the entries are replaced by their stamped form for the time and user |
| SrcDbContext.GetMethod | src/InsureX.Infrastructure/Data/AppDbContext.cs:38 | the public method of that name when there is one, and null exactly when no public method has the name |
| SrcDbContext.FilterNeverInstalled | src/InsureX.Infrastructure/Data/AppDbContext.cs:34-42 | the lookup misses the private SetTenantFilter, so no tenant filter is ever installed |
| SrcDbContext.OtherTenantVisible | src/InsureX.Infrastructure/Data/AppDbContext.cs:34-42 | as written, tenant 2 sees the entities of tenant 1, and so does a request without a tenant |
| SrcDbContext.IntendedVisibility | src/InsureX.Infrastructure/Data/AppDbContext.cs:34-42 | with the lookup finding the method, the filter is installed and an entity is visible exactly to its own tenant |
| SrcDomain.UserOrSystem | src/InsureX.Application/Services/ComplianceEngineService.cs:63 | the given user id when there is one, and "system" otherwise |
| SrcDtos.AssetPageTotalPages | src/InsureX.Application/DTOs/AssetDto.cs:89 | as written, TotalPages is undefined exactly for a page size of 0; for a positive size it is the least page count that holds all the items |
| SrcDtos.AssetPageZeroSize | src/InsureX.Application/DTOs/AssetDto.cs:89 | a page of size 0 has no defined page count |
| SrcDtos.AssetPageTotalPagesGuarded | src/InsureX.Application/DTOs/AssetDto.cs:89 | with a zero guard there are no pages for a size of 0, and otherwise the same count as written |
| SrcDtos.AssetPageHasNextIff | src/InsureX.Application/DTOs/AssetDto.cs:89-90 | for a positive size, a next page exists exactly when the pages up to this one hold fewer than all the items |
| SrcDtos.DefaultSearchFirstPage | src/InsureX.Application/DTOs/AssetDto.cs:77-91 | the default search form's page has no previous page, and a next one exactly when more than 25 assets match |
| SrcDtos.PagedListTotalPages | src/InsureX.Application/DTOs/PagedResult.cs:35-42 | no pages for a size of 0; otherwise the ceiling of TotalCount over PageSize, for either sign of the size |
| SrcDtos.PagedListTotalPagesOfCount | src/InsureX.Application/DTOs/PagedResult.cs:35-42 | for a positive size and a non-negative count, the page count is the ceiling of count over size |
| SrcDtos.NewEmptyPagedList | src/InsureX.Application/DTOs/PagedResult.cs:15-49 | the parameterless list has no items, zero counts and no pages |
| SrcDtos.NewPagedList | src/InsureX.Application/DTOs/PagedResult.cs:51-57 | a null list becomes empty and the counts are kept; HasItems iff a non-empty list was given |
| SrcDtos.ExpiryFlags | src/InsureX.Application/DTOs/PolicyDto.cs:38-40 | a policy is expired while less than one whole day remains, and expiring soon from one whole day up to 31 days; never both |
| SrcPolicyRepository.GetPaged | src/InsureX.Infrastructure/Repositories/PolicyRepository.cs:36-42 | every item of the page comes from the query; for page and size of at least 1 it is the run of at most pageSize items starting at (page - 1) * pageSize |
| SrcPolicyRepository.PolicyById | src/InsureX.Infrastructure/Repositories/PolicyRepository.cs:44-49 | a found policy is stored and has the id; null exactly when no policy has it |
| SrcPolicyRepository.PolicyByIdInStore | src/InsureX.Infrastructure/Repositories/PolicyRepository.cs:44-49 | in a store keyed by position, id `id` finds the policy at index id - 1 and nothing outside 1..n |
| SrcPolicyRepository.PolicyByNumber | src/InsureX.Infrastructure/Repositories/PolicyRepository.cs:51-55 | a found policy is stored and has the number; null exactly when no policy has it |
| SrcPolicyRepository.ExpiringPolicies | src/InsureX.Infrastructure/Repositories/PolicyRepository.cs:57-66 | a policy is returned iff it is stored, Active, and ends no earlier than now and no later than now + days |
| SrcPolicyRepository.PoliciesOfAsset | src/InsureX.Infrastructure/Repositories/PolicyRepository.cs:68-73 | a policy is returned iff it is stored and belongs to the asset |
| SrcPolicyRepository.PolicyExists | src/InsureX.Infrastructure/Repositories/PolicyRepository.cs:86-89 | true iff some stored policy has that number |
| SrcPolicyRepository.ExpiringCountIsLength | src/InsureX.Infrastructure/Repositories/PolicyRepository.cs:97-104 | the expiring count is the length of the expiring-policies list for the same window |
| SrcPolicyRepository.ExpiringAtMostActive | src/InsureX.Infrastructure/Repositories/PolicyRepository.cs:91-104 | the expiring count never exceeds the active count, since every expiring policy is Active and not ended |
| SrcPolicyRepository.PolicyRepository.constructor | src/InsureX.Infrastructure/Repositories/PolicyRepository.cs:19-22 | a repository over an empty policy set |
| SrcPolicyRepository.PolicyRepository.Add | src/InsureX.Infrastructure/Repositories/PolicyRepository.cs:75-78 | the policy is appended under the next key and nothing else changes |
| SrcPolicyRepository.PolicyRepository.Update | src/InsureX.Infrastructure/Repositories/PolicyRepository.cs:80-84 | the stored policy with that id is replaced by the given one and nothing else changes |
| SrcPolicyService.GetAll | src/InsureX.Application/Services/PolicyService.cs:46-53 | a policy is listed iff it is stored and belongs to the current tenant; with no tenant nothing is listed |
| SrcPolicyService.CheckCompliance | src/InsureX.Application/Services/PolicyService.cs:163-167 | true iff some policy of the asset is Active, has not ended, and is Paid |
| SrcPolicyService.WithCompliance | src/InsureX.Application/Services/PolicyService.cs:184-195 | a missing asset leaves the store unchanged; otherwise only that asset changes, getting the coverage label stamped by "system" |
| SrcPolicyService.WithComplianceLabel | src/InsureX.Application/Services/PolicyService.cs:189 | after the refresh an existing asset is "Compliant" exactly when one of its policies covers it |
| SrcPolicyService.PolicySortFieldOf | src/InsureX.Application/Services/PolicyService.cs:174-181 | a missing key, or one whose lower case is not policynumber, insurername or startdate, sorts by EndDate |
| SrcPolicyService.PolicyComparerPreorder | src/InsureX.Application/Services/PolicyService.cs:176-180 | each sort key and direction is a total preorder |
| SrcPolicyService.ApplySorting | src/InsureX.Application/Services/PolicyService.cs:171-182 | the result is a permutation of the query, sorted on the requested key, ascending exactly when the direction lower-cases to "asc" |
| SrcPolicyService.ApplyPolicyInput | src/InsureX.Application/Services/PolicyService.cs:108 | mapping the input copies number, asset and dates, and keeps id, tenant, status and payment status |
| SrcPolicyService.NewPolicy | src/InsureX.Application/Services/PolicyService.cs:72-77 | a new policy is Active when it has started and Pending otherwise, its payment is Pending, and it carries the tenant, the creator (or "system") and the clock time |
| SrcPolicyService.NewPolicyNeverCovers | src/InsureX.Application/Services/PolicyService.cs:77 | a freshly created policy never makes its asset compliant, since its payment is pending |
| SrcPolicyService.PolicyService.constructor | src/InsureX.Application/Services/PolicyService.cs:28-42 | a service over the given policy repository and asset set |
| SrcPolicyService.PolicyService.UpdateAssetCompliance | src/InsureX.Application/Services/PolicyService.cs:184-195 | the asset set becomes WithCompliance of the old one |
| SrcPolicyService.PolicyService.Create | src/InsureX.Application/Services/PolicyService.cs:61-94 | a missing asset, a number used anywhere in the store, or an end not after the start throws the matching message, and no tenant throws; it succeeds iff none of these holds, and then the new policy is appended and its asset's compliance refreshed; a failure changes nothing |
| SrcPolicyService.PolicyService.Update | src/InsureX.Application/Services/PolicyService.cs:96-127 | a missing policy throws; it succeeds iff the policy exists, a changed number is new and the end is after the start; then the input is mapped onto the stored policy, status kept, and the asset's compliance refreshed; a failure changes nothing |
| SrcPolicyService.PolicyService.Delete | src/InsureX.Application/Services/PolicyService.cs:129-144 | true iff the policy exists, and then only it becomes Deleted with the update stamps and its asset's compliance is refreshed; false changes nothing |
| SrcPolicyService.DeletedNeverCovers | src/InsureX.Application/Services/PolicyService.cs:134 | a deleted policy no longer covers its asset |
| TenantRequest.FindFirst | InsureX.Infrastructure/Tenant/TenantContext.cs:30 | the value of a claim of that type, and null exactly when the user has no claim of that type |
| TenantRequest.FirstOfTypes | InsureX.Api/Middleware/TenantMiddleware.cs:23-24 | the first claim of the earliest type in the list that has one; null exactly when no listed type has a claim |
| TenantRequest.Header | InsureX.Api/Middleware/TenantMiddleware.cs:31 | the header's value exactly when the request carries it |
| TenantRequest.ClaimValue | InsureX.Api/Middleware/TenantResolutionMiddleware.cs:22-26 | an anonymous user yields no claim value |
| TenantRequest.FirstParsed | InsureX.Api/Middleware/TenantMiddleware.cs:18-35 | the parse of the first text that parses, every earlier one failing; null exactly when none parses |
| TenantRequest.FirstParsedCandidates | InsureX.Api/Middleware/TenantMiddleware.cs:20-35 | over the claim and header texts: a parseable claim wins, else the header's parse, else nothing |
| TenantRequest.ClaimTenant | InsureX.Api/Middleware/TenantResolutionMiddleware.cs:21-34 | a claims tenant is the int parse of an authenticated user's first tenant claim; none for an anonymous user or one without the claim |
| TenantRequest.HeaderTenant | InsureX.Api/Middleware/TenantResolutionMiddleware.cs:37-45 | a header tenant is the int parse of X-Tenant-Id; none without that header |
| TenantRequest.ResolutionSets | InsureX.Api/Middleware/TenantResolutionMiddleware.cs:21-45 | at most one SetTenantId call: none exactly when the claims give nothing and either a tenant was already set or the header gives nothing; the call sets the claims tenant, or the header tenant only on a context without one |
| TenantRequest.TenantDuringRequest | InsureX.Api/Middleware/TenantResolutionMiddleware.cs:21-55 | the pipeline sees the tenant just set, or the tenant that was already there when nothing was set |
| TenantRequest.HeaderOnlyWithoutTenant | InsureX.Api/Middleware/TenantResolutionMiddleware.cs:37 | the header is used only when the claims gave nothing and the context had no tenant |
| TenantRequest.FreshContextPrecedence | InsureX.Api/Middleware/TenantResolutionMiddleware.cs:21-45 | on a context without a tenant the first of claim and header that parses as an int decides |
| TenantRequest.ParseInt32 | InsureX.Api/Middleware/TenantResolutionMiddleware.cs:29-40 | a parsed value always lies within the 32-bit range |
| TenantRequest.SignedValue | InsureX.Api/Middleware/TenantResolutionMiddleware.cs:29-40 | a number parses only from text with a digit |
| TenantRequest.ParseFormatted | InsureX.Infrastructure/Middleware/TenantResolutionMiddleware.cs:31-37 | every 32-bit integer written with ToString() parses back to itself |
| TenantRequest.NoDigitsNoNumber | InsureX.Api/Middleware/TenantResolutionMiddleware.cs:29-40 | text without any digit never parses |
| TenantRequest.NextDelegate.constructor | InsureX.Api/Middleware/TenantResolutionMiddleware.cs:8-15 | the rest of the pipeline starts with no recorded run |
| TenantRequest.NextDelegate.Invoke | InsureX.Api/Middleware/TenantResolutionMiddleware.cs:55 | one run of the rest of the pipeline is recorded with the tenant set at that moment, and its failure is returned |
| TenantRequest.TenantSlot.constructor | InsureX.Domain/Interfaces/ITenantContext.cs:6 | the slot holds the given tenant and no SetTenantId call yet |
| TenantRequest.TenantSlot.SetTenantId | InsureX.Domain/Interfaces/ITenantContext.cs:7 | the tenant becomes the id, and the call is recorded |
| TenantRequest.TenantSlot.Clear | InsureX.Api/Middleware/TenantResolutionMiddleware.cs:60 | the tenant is unset, and no SetTenantId call is recorded |
| WebAssets.DigitPrefix | InsureX.Web/wwwroot/js/insurex-assets.js:505 | parseInt reads the longest run of digits of the radix at the start of its text and nothing after it |
| WebAssets.ParseIntFormatted | InsureX.Web/wwwroot/js/insurex-assets.js:505 | parseInt reads back every integer the script writes as decimal text |
| WebAssets.NoLeadingDigitIsNaN | InsureX.Web/wwwroot/js/insurex-assets.js:505 | text whose first character after blanks and an optional sign is not a digit parses to NaN |
| WebAssets.Pairs | InsureX.Web/wwwroot/js/insurex-assets.js:112 | each kept entry becomes its encoded key, "=", and its encoded value, in order |
| WebAssets.SplitJoin | InsureX.Web/wwwroot/js/insurex-assets.js:113 | splitting the joined pairs at "&" gives back the pairs, when none contains "&" |
| WebAssets.QueryStringFields | InsureX.Web/wwwroot/js/insurex-assets.js:109-114 | entries that are null, undefined or empty are dropped; the query string is empty when none is left, and otherwise splits at "&" into exactly the encoded key=value pairs of the kept entries, in order |
| WebAssets.YearValue | InsureX.Web/wwwroot/js/insurex-assets.js:227 | the year is null exactly when the year field is missing or empty |
| WebAssets.SearchDataOf | InsureX.Web/wwwroot/js/insurex-assets.js:221-230 | a search sends the current page and page size, the current sort, the search term, status and compliance status ('' when missing) and the parsed year |
| WebAssets.ToggledSort | InsureX.Web/wwwroot/js/insurex-assets.js:274-280 | sorting by the current column flips asc and desc; sorting by another column switches to it ascending; nothing else changes |
| WebAssets.ToggleTwiceRestores | InsureX.Web/wwwroot/js/insurex-assets.js:274-280 | toggling one column twice restores its direction when it was the sort column, and leaves it descending otherwise |
| WebAssets.NextRetry | InsureX.Web/wwwroot/js/insurex-assets.js:256-264 | a failure under the retry limit counts one more retry; at the limit the count starts over at 0 |
| WebAssets.RetriesAfter | InsureX.Web/wwwroot/js/insurex-assets.js:256-264 | after any number of consecutive failures the retry count stays within 0..3 and cycles through them |
| WebAssets.InitialPage | InsureX.Web/wwwroot/js/insurex-assets.js:505 | the page from the address is never 0, and is 1 when the address names none |
| WebAssets.ParseIntOfNull | InsureX.Web/wwwroot/js/insurex-assets.js:505 | a missing page parameter, read by parseInt as the text "null", gives NaN |
| WebAssets.InitialPageRoundTrip | InsureX.Web/wwwroot/js/insurex-assets.js:505 | a non-zero page written into the address is read back unchanged |
| WebAssets.AssetsPage.constructor | InsureX.Web/wwwroot/js/insurex-assets.js:11-34 | the page starts on page 1 of 10, sorted by CreatedAt descending, not loading, with no retry, the server-rendered table, no history entry and no toast |
| WebAssets.AssetsPage.StartSearch | InsureX.Web/wwwroot/js/insurex-assets.js:218-233 | while a search is loading nothing is sent; otherwise the search data of the current state and form is sent, the page is marked loading and the table container, when present, shows the loading spinner; nothing else changes |
| WebAssets.AssetsPage.FinishSearch | InsureX.Web/wwwroot/js/insurex-assets.js:235-267 | a non-empty result fills the table container when present, becomes the current search, resets the retries and pushes its address; an empty or aborted result changes nothing, so the spinner stays; a failure schedules a retry after 1000 ms times the new count with a warning toast, or at the limit shows the error toast and resets the count, and also leaves the spinner; loading always ends |
| WebAssets.AssetsPage.Search | InsureX.Web/wwwroot/js/insurex-assets.js:218-268 | a whole search: while loading nothing happens; otherwise the state's search data is sent, loading ends, and the container shows the response when it is non-empty and the spinner otherwise |
| WebAssets.ViewHtml | InsureX.Web/wwwroot/js/insurex-assets.js:67-79 | the container's HTML: untouched before the first write, the "Loading assets..." spinner markup of showLoading, or the response |
| WebAssets.AssetsPage.RecordSuccess | InsureX.Web/wwwroot/js/insurex-assets.js:238-251 | the table container, when present, shows the result; the search becomes current, retries reset and the address "/Assets?" plus the query string is pushed |
| WebAssets.AssetsPage.RecordFailure | InsureX.Web/wwwroot/js/insurex-assets.js:256-264 | the retry count advances; under the limit a retry is scheduled with its warning, at the limit the error toast is shown |
| WebAssets.AssetsPage.ResetAndSearch | InsureX.Web/wwwroot/js/insurex-assets.js:355-359 | submitting the form or changing a filter returns to page 1 and searches from there |
| WebAssets.AssetsPage.OnPageClick | InsureX.Web/wwwroot/js/insurex-assets.js:365-372 | a link with a page number moves to its parse and searches; one without does nothing |
| WebAssets.AssetsPage.OnPopState | InsureX.Web/wwwroot/js/insurex-assets.js:423-429 | a history entry restores its page, or page 1 when that is 0, NaN or missing, and searches; no entry does nothing |
| WebAssets.AssetsPage.ToggleSort | InsureX.Web/wwwroot/js/insurex-assets.js:378-384 | the sort toggles as ToggledSort says and a search with the new sort is sent |
| WebAssets.AssetsPage.SetPageSize | InsureX.Web/wwwroot/js/insurex-assets.js:541-546 | a positive size replaces the page size and searches; any other size does nothing |
| WebAssets.AssetsPage.Init | InsureX.Web/wwwroot/js/insurex-assets.js:501-515 | the page and search term come from the address and the first search runs with that term |

## Left out

- Input and output: SMTP email, the notification sends inside both engines and the policy service, and the Excel and CSV report generation (`ExportToExcelAsync`, `GenerateComplianceReportAsync`). These write to external systems and compute nothing the model can state.
- JSON: serialising findings, breakdowns and the applicable asset and policy type lists of `CreateRuleAsync`/`UpdateRuleAsync`. The model keeps these as sequences.
- Logging everywhere, including the subdomain steps of the tenant middleware. Those steps only log, so the model proves that they never set a tenant.
- `ComplianceBackgroundService` is left out: it is a timed loop with cancellation. Each round calls `CheckAssetsNeedingUpdateAsync`, `UpdateExpiredRulesAsync` and `ResolveStaleAlertsAsync(30)` in one scope and disposes the scope without saving, so the updates the two sweeps track are never written. The model shows what the sweeps track (`AppComplianceEngine.ComplianceEngine.UpdateExpiredRules`, `ResolveStaleAlerts`) and what a save of those writes would do (`AppComplianceEngine.ExpirySweepSaved`, `StaleSweepSaved`); nothing in the source performs that save.
- Floating point: compliance-rate averages and `Math.Round`. Only the exact empty-set cases of the rates are modelled.
- The asset page script's asynchronous parts: `fetch`, `AbortController`, `setTimeout`, debounce and DOM rendering. The same goes for the delete, export and `showDeleteModal` handlers. The model keeps the `state` object and `CONFIG.pageSize`, and the outcome of a request is a parameter.
- Foreign code: `Guid.TryParse`, `int.TryParse`, `encodeURIComponent` and the Roslyn script evaluator are parameters or input datatypes. A script's outcome is True, False or Throws.
- Strings: culture-aware comparison is modelled as ordinal, `ToLower` as ASCII lower-casing, and JavaScript `trim` as removing ASCII whitespace.
- HTTP: header names are matched exactly rather than case-insensitively, and `HttpContext.User` is taken to be non-null whenever an `HttpContext` exists.
- The null checks of the `Repository` constructor are left out, as are `UnitOfWork.CompleteAsync` and `Dispose`. They are pass-throughs to the database context.
- The EF Core model building: key generation and index configuration are left out. Root `ComplianceStore.AddCheck` keeps the id it is given instead of a database-assigned key.
- The root change tracker (`InfraComplianceRepository.ComplianceStore`) is modelled as a list of tracked writes. A save applies them in the order they were tracked, whereas EF Core orders its commands itself; inserts get the next identity key. The identity map is modelled only for updates: a read hands out the latest tracked update of a saved row. An entity added but not saved is not visible to reads. `ComplianceStore.SaveChanges` returns the number of tracked writes, whereas EF Core returns the number of entries written, so a row updated twice before a save would count once there; no modelled operation reads the count, and none tracks a row twice before a save. A change is tracked only when `Update` is called, whereas EF Core also detects in-place changes to entities it has read; every in-place change in the modelled code is followed by an `Update` call.
- The src `AssetRepository` and `PolicyRepository` `CountAsync`, `ExistsAsync` and `GetQueryable` have no members of their own. They are the length of, a test on, or the sequence itself.
- The src engine's batch and dashboard methods are left out: `CheckAllAssetsAsync`, `CheckAssetsNeedingUpdateAsync`, `GetDashboardDataAsync` and `RefreshDashboardAsync`. They are not read-only:
  - `CheckAllAssetsAsync` checks every asset that is not Deleted. It logs and skips any asset whose check throws, then refreshes the dashboard.
  - `CheckAssetsNeedingUpdateAsync` checks the assets the repository lists as due, skipping failures the same way.
  - `RefreshDashboardAsync` counts assets per compliance status and builds an asset-type breakdown, 30-day trends and the top issues. It then writes the snapshot with `SaveDashboardAsync` and `SaveChangesAsync`.
  - `GetDashboardDataAsync` returns the latest snapshot when it is under one hour old, and refreshes otherwise.
  - The reason: a snapshot holds a floating-point average rate and JSON-serialised breakdowns and trends, and the trend query is not part of the model. The exact parts are modelled on their own: the per-asset check (`SrcComplianceEngine.ComplianceEngine.CheckAssetCompliance`) and the top issues (`SrcComplianceRules.TopIssues`).
- The src engine's read-only getters have no members of their own: `GetActiveRulesAsync`, `GetAssetComplianceStatusAsync`, the history and active-alert getters, `GetAlertCountAsync`, `GetComplianceStatisticsAsync` and `GetNonCompliantAssetsReportAsync`. Each calls queries that the `SrcComplianceRepository` and `SrcAssetRepository` modules model, and maps or deserialises the results.
- The root engine's `RefreshDashboardAsync` is left out. It reads the compliance summary, the average score and the active alerts, and builds a dashboard snapshot. It passes the snapshot to `SaveDashboardAsync`, which only tracks it (`InfraComplianceRepository.ComplianceStore.SaveDashboard`); nothing saves the context afterwards, so no snapshot is written. The average is floating point. The summary query (`InfraComplianceRepository.ComplianceSummarySpec`) and the snapshot read (`LatestDashboard`) are modelled.
- The root engine's `GetDashboardDataAsync` has no member of its own. It maps the latest snapshot (`InfraComplianceRepository.LatestDashboard`), or returns an empty DTO when there is none.
- The root engine's remaining getters have no members of their own: `CheckAllAssetsAsync` and `CheckAssetsNeedingUpdateAsync` (both map the checks `GetAssetsNeedingCheckAsync` returns, and check nothing), the history getters and `GetComplianceStatisticsAsync`. Each is a mapping of one `InfraComplianceRepository` query.
- Page arithmetic is unbounded. `(page - 1) * pageSize` is a 32-bit C# `int` product (`Repository.cs`, both `AssetRepository.cs`, `PolicyRepository.cs`, root `ComplianceService.cs`) and wraps for large inputs: page 3 with a page size of 2^30 gives a negative offset. A database query refuses it, and the in-memory `Skip` of root `ComplianceService.cs` reads it as 0 and returns the first page. `Common.PageStart` does not wrap, so for such inputs the model gives an empty page instead.
- AppComplianceEngine.InspectionPart, ValuePart, MinimumPart, MaximumPart and ScriptPart (and so `PenaltiesCapped` and the step methods of `AppComplianceEngine.ComplianceEngine`) compute `Severity * 5` and `Severity * 3` unbounded. In the root `ComplianceEngineService.cs` (lines 102, 111, 116 and 129) these are 32-bit `int` products, and no DTO bounds `Severity` (`InsureX.Application/DTOs/ComplianceDto.cs` lines 29 and 45). For |Severity| of 2^31 / 5 or more the product wraps, so `Math.Min(30, …)` can pick a wrapped negative value where the model picks 30 or the true product.
- AppComplianceEngine.ComplianceEngine.CheckAssetCompliance does not model `DateTime.AddDays` throwing `ArgumentOutOfRangeException`. At root `ComplianceEngineService.cs` line 98, `lastInspection.AddDays(DaysToExpiry)` throws when the result leaves DateTime's range, and the exception propagates to the caller. The model's `AddDays` adds seconds without bound and always scores the rule.
- SrcComplianceRules.EvaluatePolicyRule computes `DateTime.UtcNow.AddDays(DaysToExpiry)` (src `ComplianceEngineService.cs` line 649) without bound. In the source an out-of-range result throws, and `EvaluateRuleAsync` turns the exception into a failed rule. The model captures that outcome only through the `fault` parameter of `SrcComplianceRules.EvaluateRule`; it does not derive the fault from the date.
- SrcComplianceEngine.RuleByCode stands for `GetRuleByCodeAsync`, which the src engine calls (src `ComplianceEngineService.cs` lines 54 and 90) but the src `ComplianceRepository.cs` does not define. The model takes the definition of the root repository (`InsureX.Infrastructure/Repositories/ComplianceRepository.cs` lines 23-27, declared in `InsureX.Domain/Interfaces/IComplianceRepository.cs`): the first rule with that code, active or not.
- SrcComplianceEngine.ComplianceEngine.UpdateExpiredRules stores each expired rule with UpdatedBy "system", as the engine sets it (src `ComplianceEngineService.cs` line 480). The src `AppDbContext.SaveChangesAsync` (lines 152-171) then overwrites CreatedBy of every added and UpdatedBy of every modified `BaseEntity` with the tenant context's user, or "system" when there is none, so a request by an authenticated user stores that user instead. The src stores (`SrcComplianceRepository.ComplianceRepository`, `SrcPolicyRepository.PolicyRepository`) do not apply this override: `SrcDbContext.ChangeTracker.SaveChanges` models it on its own. The same holds for the other rule and policy mutators (`SrcComplianceEngine.ComplianceEngine.CreateRule`, `UpdateRule`, `DeleteRule`, `ToggleRuleStatus`, `SrcPolicyService.PolicyService.Create`, `Update`, `Delete`). Their `user` argument stands for `ICurrentUserService.GetCurrentUserId()`, which in src Web is a stub returning "system" (`src/InsureX.Application/Services/Helpers/CurrentUserService.cs` line 7), while the saved stamp comes from the tenant context. The assets' stamps are not covered either way, because both `Asset` classes redeclare CreatedBy and UpdatedBy and the text does not settle which property the save writes.
- SrcComplianceEngine.ComplianceEngine.RecordCheck calls the store's `AddCheck`. The src engine calls `_complianceRepository.AddAsync(check)` (src `ComplianceEngineService.cs` line 217), which the src `ComplianceRepository.cs` does not define; the model takes its `AddCheckAsync` (lines 55-59), which stamps CreatedAt and inserts the check.
- Time: each operation reads the clock once, as its `now` parameter. The source reads `DateTime.UtcNow` several times within one operation, for example the stamps in src `PolicyService.cs` and again in its `UpdateAssetCompliance`. The model does not capture readings that differ within one call.
- src `PolicyService.GetByIdAsync`, `GetExpiringPoliciesAsync` and `GetByAssetIdAsync` are one-line calls to the `SrcPolicyRepository` queries and a field copy, so they have no members of their own.
- src `PolicyService.GetSummaryAsync` is not modelled: it calls a `GetSummaryAsync` that the src `PolicyRepository` does not define.
- src `PolicyService.UpdateAsync` takes the DTO's `Id` as a separate parameter.
- Root `AssetService.GetRecentAsync` calls `GetRecentAsync(tenantId, count)`, but the repository declares `(count, tenantId)` with a `Guid` tenant. As written this does not type-check, and the model uses the declared order.
- Root `AssetService` calls `IsAssetTagUniqueAsync`, which no file declares. It is modelled as the predicate `AppAssetService.TagIsUnique`: no live asset of the tenant other than the one being updated carries the tag.
- The Api `TenantMiddleware` passes a `Guid` to the `int`-typed `SetTenantId` of its `ITenantContext`. The model keeps the resolved value abstract.
- The Api `TenantResolutionMiddleware` calls `HasTenant` and `Clear`, which the `ITenantContext` it imports does not declare. The model gives that context an optional tenant field.
- Test expectations that disagree with the code are not encoded. The root engine test expects a score below 80 for one severity-3 overdue inspection. The code gives 85, which `AppComplianceEngine.OneOverdueInspection` proves, and the test calls a constructor with five arguments where the code's has six. The tenant-context tests use a `TenantContext` with `HasTenant`, `Clear` and `TenantIdOrDefault`, which is not in the repository.

## Findings

| source | as written | input that shows it | evidently intended | confidence | as-written member | corrected member |
|---|---|---|---|---|---|---|
| src/InsureX.Infrastructure/Data/AppDbContext.cs:38 | `typeof(AppDbContext).GetMethod(nameof(SetTenantFilter))` searches public methods only, but `SetTenantFilter` (line 147) is private. The lookup returns null, `method?.Invoke` does nothing, and no tenant filter is installed. | any entity of tenant 1, read by a request of tenant 2 or by a request with no tenant | each tenant-scoped entity is visible only to its own tenant | not executed | SrcDbContext.OtherTenantVisible | SrcDbContext.IntendedVisibility |
| src/InsureX.Application/DTOs/AssetDto.cs:89 | `TotalPages` divides by `PageSize` with no zero guard, and the search form accepts a page size of 0 | `PageSize = 0` | 0 pages for a page size of 0, as the general `PagedResult` does | not executed | SrcDtos.AssetPageZeroSize | SrcDtos.AssetPageTotalPagesGuarded |

=== FILE: api_tenant_middleware.dfy ===
/**
 * The tenant middleware of the API host
 * (InsureX.Api/Middleware/TenantMiddleware.cs): it looks for a tenant Guid in
 * the user's claims, then in the X-Tenant-Id header, sets it on the tenant
 * context when it found one, and hands the request on. It never clears the
 * context. `Guid.TryParse` is the parameter `parseGuid`.
 */
module ApiTenantMiddleware {
  import opened Common
  import opened TenantRequest

  const GuidClaimTypes := ["tenant_id", "TenantId"]

  /** The tenant the middleware resolves: the first candidate that parses as a Guid. */
  function ResolveTenant(request: Request, parseGuid: string -> Option<int>): Option<int>
  {
    FirstParsed(Candidates(request, GuidClaimTypes), parseGuid)
  }

  /**
   * `InvokeAsync`: the local `tenantId` is filled from the claims, then from
   * the header while it is still null; the subdomain step sets nothing. The
   * context receives one SetTenantId call when a tenant was found and none
   * otherwise, and `next` runs once, whatever was found.
   */
  method InvokeAsync(request: Request, tenant: TenantSlot, next: NextDelegate, parseGuid: string -> Option<int>)
    returns (error: Option<Exception>)
    modifies tenant, next
    ensures tenant.setCalls == old(tenant.setCalls) + AsSeq(ResolveTenant(request, parseGuid))
    ensures tenant.tenantId == (if ResolveTenant(request, parseGuid).Some? then ResolveTenant(request, parseGuid) else old(tenant.tenantId))
    ensures next.calls == old(next.calls) + [tenant.tenantId]
    ensures error == next.failure
  {
    var tenantId: Option<int> := None;
    if IsAuthenticated(request.user) {
      var claim := FirstOfTypes(request.user.claims, GuidClaimTypes);
      if claim.Some? && parseGuid(claim.value).Some? {
        tenantId := parseGuid(claim.value);
      }
    }
    var header := Header(request, TenantHeader);
    if tenantId.None? && header.Some? {
      if parseGuid(header.value).Some? {
        tenantId := parseGuid(header.value);
      }
    }
    // The subdomain step takes the host's first label and resolves nothing from it.
    FirstParsedCandidates(request, GuidClaimTypes, parseGuid);
    assert tenantId == ResolveTenant(request, parseGuid);
    if tenantId.Some? {
      tenant.SetTenantId(tenantId.value);
    }
    error := next.Invoke(tenant);
  }

  /** An anonymous request's tenant comes from the header alone. */
  lemma AnonymousUsesHeader(request: Request, parseGuid: string -> Option<int>)
    requires !IsAuthenticated(request.user)
    ensures ResolveTenant(request, parseGuid) ==
      (if TenantHeader in request.headers then parseGuid(request.headers[TenantHeader]) else None)
  {
    FirstParsedCandidates(request, GuidClaimTypes, parseGuid);
  }

  /** A claim that parses wins over any header. */
  lemma ClaimBeforeHeader(request: Request, parseGuid: string -> Option<int>)
    requires ClaimValue(request.user, GuidClaimTypes).Some?
    requires parseGuid(ClaimValue(request.user, GuidClaimTypes).value).Some?
    ensures ResolveTenant(request, parseGuid) == parseGuid(ClaimValue(request.user, GuidClaimTypes).value)
  {
    FirstParsedCandidates(request, GuidClaimTypes, parseGuid);
  }

  /** A claim that does not parse is passed over in favour of the header. */
  lemma UnparseableClaimFallsThrough(request: Request, parseGuid: string -> Option<int>)
    requires ClaimValue(request.user, GuidClaimTypes).Some?
    requires parseGuid(ClaimValue(request.user, GuidClaimTypes).value).None?
    ensures ResolveTenant(request, parseGuid) ==
      (if TenantHeader in request.headers then parseGuid(request.headers[TenantHeader]) else None)
  {
    FirstParsedCandidates(request, GuidClaimTypes, parseGuid);
  }

  /** A resolved tenant is always what one of the request's texts parses to. */
  lemma ResolvedFromRequest(request: Request, parseGuid: string -> Option<int>)
    ensures var r := ResolveTenant(request, parseGuid);
      r.Some? ==>
        || (ClaimValue(request.user, GuidClaimTypes).Some? && parseGuid(ClaimValue(request.user, GuidClaimTypes).value) == r)
        || (TenantHeader in request.headers && parseGuid(request.headers[TenantHeader]) == r)
  {
    var c := Candidates(request, GuidClaimTypes);
    var r := ResolveTenant(request, parseGuid);
    if r.Some? {
      var i :| 0 <= i < |c| && parseGuid(c[i]) == r;
      if ClaimValue(request.user, GuidClaimTypes).Some? && i == 0 {
        assert c[0] == ClaimValue(request.user, GuidClaimTypes).value;
      } else {
        assert c[i] == request.headers[TenantHeader];
      }
    }
  }

  /** The host plays no part: the subdomain step never resolves a tenant. */
  lemma HostIgnored(request: Request, host: string, parseGuid: string -> Option<int>)
    ensures ResolveTenant(request.(host := host), parseGuid) == ResolveTenant(request, parseGuid)
  {
    assert Candidates(request.(host := host), GuidClaimTypes) == Candidates(request, GuidClaimTypes);
  }
}

=== FILE: api_tenant_resolution.dfy ===
/**
 * The tenant resolution middleware of the API host
 * (InsureX.Api/Middleware/TenantResolutionMiddleware.cs): tenant ids are
 * ints; the claims step writes to the tenant context directly, the header
 * step runs only while the context has no tenant, and the context is
 * cleared in `finally`, so no tenant outlives the request.
 */
module ApiTenantResolution {
  import opened Common
  import opened TenantRequest

  /**
   * `InvokeAsync`: the SetTenantId calls are those of ResolutionSets, `next`
   * runs once with the resolved tenant in place, and afterwards the context
   * holds no tenant whether or not `next` failed; its failure propagates.
   */
  method InvokeAsync(request: Request, tenant: TenantSlot, next: NextDelegate) returns (error: Option<Exception>)
    modifies tenant, next
    ensures tenant.setCalls == old(tenant.setCalls) + ResolutionSets(request, old(tenant.tenantId))
    ensures next.calls == old(next.calls) + [TenantDuringRequest(request, old(tenant.tenantId))]
    ensures tenant.tenantId == None
    ensures error == next.failure
  {
    if IsAuthenticated(request.user) {
      var claim := FirstOfTypes(request.user.claims, IntClaimTypes);
      if claim.Some? {
        var parsed := ParseInt32(claim.value);
        if parsed.Some? {
          tenant.SetTenantId(parsed.value);
        }
      }
    }
    if !tenant.HasTenant() {
      var header := Header(request, TenantHeader);
      if header.Some? {
        var parsed := ParseInt32(header.value);
        if parsed.Some? {
          tenant.SetTenantId(parsed.value);
        }
      }
    }
    // The subdomain step only logs the host's first label.
    error := next.Invoke(tenant);
    tenant.Clear();
  }
}

=== FILE: app_asset_service.dfy ===
/**
 * The asset service of the root tree
 * (InsureX.Application/Services/AssetService.cs): the filtered, sorted and
 * paged search, the tenant-scoped lookups and counts, and create, update
 * and soft delete on the asset store. Every operation first requires a
 * tenant and otherwise throws "Tenant context not found".
 *
 * The tenant and the user are parameters (`None` when the context has
 * none); `now` stands for DateTime.UtcNow. The store is the asset set of
 * the repository, with ids assigned in insertion order from 1. Mapping an
 * asset to its DTO (`Adapt<AssetDto>`) is the identity here.
 */
module AppAssetService {
  import opened Common
  import opened AppDomain
  import Ordering
  import AppDtos
  import Repo = InfraAssetRepository

  const NoTenant := UnauthorizedAccess("Tenant context not found")

  /** `_currentUserService.UserId ?? "system"`. */
  function UserOrSystem(user: Option<string>): (u: string)
    ensures user.Some? ==> u == user.value
    ensures user.None? ==> u == "system"
  {
    user.GetOr("system")
  }

  // ---------------------------------------------------------------------
  // Search
  // ---------------------------------------------------------------------

  /** AssetSearchDto; its defaults are page 1 of 10. */
  datatype AssetSearch = AssetSearch(
    searchTerm: Option<string>,
    status: Option<string>,
    complianceStatus: Option<string>,
    year: Option<int>,
    fromDate: Option<DateTime>,
    toDate: Option<DateTime>,
    sortBy: Option<string>,
    sortDir: Option<string>,
    page: int,
    pageSize: int)

  const DefaultSearch := AssetSearch(None, None, None, None, None, None, None, None, 1, 10)

  /** The trimmed term occurs in one of the five text fields, a null field counting as "". */
  predicate MatchesTerm(a: Asset, term: string)
  {
    || Contains(a.assetTag, term)
    || Contains(a.make, term)
    || Contains(a.model, term)
    || Contains(a.serialNumber.GetOr(""), term)
    || Contains(a.vin.GetOr(""), term)
  }

  /** Every `Where` of GetPagedAsync: the tenant, not deleted, and each filter that is supplied. */
  predicate MatchesSearch(a: Asset, tenantId: int, search: AssetSearch)
  {
    && a.tenantId == tenantId
    && a.status != AssetDeleted
    && (!IsNullOrWhiteSpace(search.searchTerm) ==> MatchesTerm(a, Trim(search.searchTerm.value)))
    && (!IsNullOrWhiteSpace(search.status) ==> a.status == search.status.value)
    && (!IsNullOrWhiteSpace(search.complianceStatus) ==> a.complianceStatus == search.complianceStatus)
    && (search.year.Some? ==> a.year == search.year.value)
    && (search.fromDate.Some? ==> a.createdAt >= search.fromDate.value)
    && (search.toDate.Some? ==> a.createdAt <= search.toDate.value)
  }

  function SearchFilter(tenantId: int, search: AssetSearch): Asset -> bool
  {
    (a: Asset) => MatchesSearch(a, tenantId, search)
  }

  /** The sort keys ApplySorting recognises. */
  datatype SortField =
    | ByAssetTag | ByMake | ByModel | ByYear | ByStatus
    | ByComplianceStatus | ByValue | ByPurchaseDate | ByCreatedAt

  /** `sortBy?.ToLower() switch { ... }`: an unknown or missing key sorts by CreatedAt. */
  function SortFieldOf(sortBy: Option<string>): (f: SortField)
    ensures sortBy.None? ==> f == ByCreatedAt
    ensures sortBy.Some? && Lower(sortBy.value) == "compliancestatus" ==> f == ByComplianceStatus
    ensures sortBy.Some? && Lower(sortBy.value) == "purchasedate" ==> f == ByPurchaseDate
    ensures sortBy.Some? &&
      Lower(sortBy.value) !in ["assettag", "make", "model", "year", "status", "compliancestatus", "value", "purchasedate"]
      ==> f == ByCreatedAt
  {
    if sortBy.None? then ByCreatedAt
    else
      var key := Lower(sortBy.value);
      if key == "assettag" then ByAssetTag
      else if key == "make" then ByMake
      else if key == "model" then ByModel
      else if key == "year" then ByYear
      else if key == "status" then ByStatus
      else if key == "compliancestatus" then ByComplianceStatus
      else if key == "value" then ByValue
      else if key == "purchasedate" then ByPurchaseDate
      else ByCreatedAt
  }

  /** `sortDir?.ToLower() == "asc"`: a missing or any other direction is descending. */
  predicate IsAscending(sortDir: Option<string>)
  {
    sortDir.Some? && Lower(sortDir.value) == "asc"
  }

  /** A null text sorts before every text. */
  predicate OptStrLe(a: Option<string>, b: Option<string>)
  {
    a.None? || (b.Some? && Ordering.StrLe(a.value, b.value))
  }

  /** A null number or date sorts before every value. */
  predicate OptIntLe(a: Option<int>, b: Option<int>)
  {
    a.None? || (b.Some? && a.value <= b.value)
  }

  /** Ascending comparison on one sort key. */
  predicate FieldLe(f: SortField, a: Asset, b: Asset)
  {
    match f
    case ByAssetTag => Ordering.StrLe(a.assetTag, b.assetTag)
    case ByMake => Ordering.StrLe(a.make, b.make)
    case ByModel => Ordering.StrLe(a.model, b.model)
    case ByYear => a.year <= b.year
    case ByStatus => Ordering.StrLe(a.status, b.status)
    case ByComplianceStatus => OptStrLe(a.complianceStatus, b.complianceStatus)
    case ByValue => OptIntLe(a.value, b.value)
    case ByPurchaseDate => OptIntLe(a.purchaseDate, b.purchaseDate)
    case ByCreatedAt => a.createdAt <= b.createdAt
  }

  /** `OrderBy` or `OrderByDescending` on the key. */
  function Comparer(f: SortField, asc: bool): (Asset, Asset) -> bool
  {
    if asc then (a: Asset, b: Asset) => FieldLe(f, a, b) else (a: Asset, b: Asset) => FieldLe(f, b, a)
  }

  lemma {:induction false} FieldLeTotal(f: SortField, a: Asset, b: Asset)
    ensures FieldLe(f, a, b) || FieldLe(f, b, a)
  {
    match f
    case ByAssetTag => Ordering.StrLeTotal(a.assetTag, b.assetTag);
    case ByMake => Ordering.StrLeTotal(a.make, b.make);
    case ByModel => Ordering.StrLeTotal(a.model, b.model);
    case ByYear =>
    case ByStatus => Ordering.StrLeTotal(a.status, b.status);
    case ByComplianceStatus =>
      if a.complianceStatus.Some? && b.complianceStatus.Some? {
        Ordering.StrLeTotal(a.complianceStatus.value, b.complianceStatus.value);
      }
    case ByValue =>
    case ByPurchaseDate =>
    case ByCreatedAt =>
  }

  lemma {:induction false} FieldLeTrans(f: SortField, a: Asset, b: Asset, c: Asset)
    requires FieldLe(f, a, b) && FieldLe(f, b, c)
    ensures FieldLe(f, a, c)
  {
    match f
    case ByAssetTag => Ordering.StrLeTrans(a.assetTag, b.assetTag, c.assetTag);
    case ByMake => Ordering.StrLeTrans(a.make, b.make, c.make);
    case ByModel => Ordering.StrLeTrans(a.model, b.model, c.model);
    case ByYear =>
    case ByStatus => Ordering.StrLeTrans(a.status, b.status, c.status);
    case ByComplianceStatus =>
      if a.complianceStatus.Some? {
        Ordering.StrLeTrans(a.complianceStatus.value, b.complianceStatus.value, c.complianceStatus.value);
      }
    case ByValue =>
    case ByPurchaseDate =>
    case ByCreatedAt =>
  }

  /** Either direction on any key is a total preorder, so the sort is well defined. */
  lemma ComparerPreorder(f: SortField, asc: bool)
    ensures Ordering.TotalPreorder(Comparer(f, asc))
  {
    forall a: Asset, b: Asset ensures FieldLe(f, a, b) || FieldLe(f, b, a) {
      FieldLeTotal(f, a, b);
    }
    forall a: Asset, b: Asset, c: Asset | FieldLe(f, a, b) && FieldLe(f, b, c)
      ensures FieldLe(f, a, c)
    {
      FieldLeTrans(f, a, b, c);
    }
    forall a: Asset, b: Asset, c: Asset | FieldLe(f, b, a) && FieldLe(f, c, b)
      ensures FieldLe(f, c, a)
    {
      FieldLeTrans(f, c, b, a);
    }
  }

  /** The filtered query in the requested order, before counting and paging. */
  function SearchQuery(assets: seq<Asset>, tenantId: int, search: AssetSearch): (q: seq<Asset>)
    ensures |q| == CountWhere(assets, SearchFilter(tenantId, search))
    ensures Ordering.SortedBy(q, Comparer(SortFieldOf(search.sortBy), IsAscending(search.sortDir)))
    ensures forall a :: a in q <==> a in assets && MatchesSearch(a, tenantId, search)
  {
    var cmp := Comparer(SortFieldOf(search.sortBy), IsAscending(search.sortDir));
    ComparerPreorder(SortFieldOf(search.sortBy), IsAscending(search.sortDir));
    CountIsFilterLength(assets, SearchFilter(tenantId, search));
    var matching := Filter(assets, SearchFilter(tenantId, search));
    assert forall a :: a in matching <==> a in assets && MatchesSearch(a, tenantId, search);
    var q := Ordering.SortBy(matching, cmp);
    assert forall a :: a in q <==> a in multiset(matching);
    q
  }

  /**
   * The page GetPagedAsync builds. The service sets TotalPages and HasNext
   * itself: `(int)Math.Ceiling(totalItems / (double)pageSize)`, `None` for a
   * size of 0, where the conversion of an infinity or NaN is unspecified,
   * and `page * pageSize < totalItems`.
   */
  datatype AssetPage = AssetPage(
    items: seq<Asset>,
    page: int,
    pageSize: int,
    totalItems: nat,
    totalPages: Option<int>,
    hasNext: bool)

  /** `GetPagedAsync`: fails without a tenant; otherwise the requested page of the query. */
  function GetPaged(assets: seq<Asset>, tenant: Option<int>, search: AssetSearch): (r: Result<AssetPage>)
    ensures tenant.None? <==> r.Throw?
    ensures r.Throw? ==> r.error == NoTenant
  {
    if tenant.None? then Throw(NoTenant)
    else
      var q := SearchQuery(assets, tenant.value, search);
      var total := Repo.CountQuery(q);
      Ok(AssetPage(Repo.GetPaged(q, search.page, search.pageSize), search.page, search.pageSize, total,
                   if search.pageSize == 0 then None else Some(CeilRatio(total, search.pageSize)),
                   search.page * search.pageSize < total))
  }

  /**
   * With a tenant, the page holds only matching assets of the tenant that
   * are not deleted, in the requested order; for a page number and size of
   * at least 1 it is the run of the query from (page - 1) * pageSize of at
   * most pageSize items. The total counts every match, the page count is
   * its ceiling over the size, and there is a next page exactly when the
   * pages so far hold fewer than all the matches.
   */
  lemma GetPagedSpec(assets: seq<Asset>, tenantId: int, search: AssetSearch)
    ensures var r := GetPaged(assets, Some(tenantId), search).value;
      var q := SearchQuery(assets, tenantId, search);
      && r.page == search.page && r.pageSize == search.pageSize
      && r.totalItems == CountWhere(assets, SearchFilter(tenantId, search))
      && (forall a :: a in r.items ==> a in assets && MatchesSearch(a, tenantId, search))
      && Ordering.SortedBy(r.items, Comparer(SortFieldOf(search.sortBy), IsAscending(search.sortDir)))
      && (r.totalPages.None? <==> search.pageSize == 0)
      && (search.pageSize > 0 ==> r.totalPages == Some(CeilDiv(r.totalItems, search.pageSize)))
      && (search.pageSize > 0 ==> (r.hasNext <==> search.page < r.totalPages.value))
      && (search.page >= 1 && search.pageSize >= 1 ==>
            && |r.items| == Max(0, Min(search.pageSize, |q| - PageStart(search.page, search.pageSize)))
            && forall i :: 0 <= i < |r.items| ==> r.items[i] == q[PageStart(search.page, search.pageSize) + i])
  {
    var q := SearchQuery(assets, tenantId, search);
    Repo.GetPagedSpec(q, search.page, search.pageSize);
    Ordering.PageSorted(q, search.page, search.pageSize, Comparer(SortFieldOf(search.sortBy), IsAscending(search.sortDir)));
    if search.pageSize > 0 {
      CeilRatioOfCount(|q|, search.pageSize);
      BelowCeilIff(search.page, |q|, search.pageSize);
    }
  }

  /**
   * The page counts the service sets agree with those the PagedResult DTO
   * computes, wherever the DTO's division is defined.
   */
  lemma GetPagedAgreesWithDto(assets: seq<Asset>, tenantId: int, search: AssetSearch)
    requires search.pageSize > 0
    ensures var r := GetPaged(assets, Some(tenantId), search).value;
      var dto := AppDtos.PagedResult(r.items, r.page, r.pageSize, r.totalItems);
      r.totalPages == Some(AppDtos.TotalPages(dto)) && (r.hasNext <==> AppDtos.HasNext(dto))
  {
    var r := GetPaged(assets, Some(tenantId), search).value;
    AppDtos.HasNextIff(AppDtos.PagedResult(r.items, r.page, r.pageSize, r.totalItems));
  }

  /** The default search asks for the first page of 10, newest first. */
  lemma DefaultSearchFirstPage(assets: seq<Asset>, tenantId: int)
    ensures var r := GetPaged(assets, Some(tenantId), DefaultSearch).value;
      && r.page == 1 && |r.items| == Min(10, r.totalItems)
      && (r.hasNext <==> r.totalItems > 10)
      && SortFieldOf(DefaultSearch.sortBy) == ByCreatedAt && !IsAscending(DefaultSearch.sortDir)
  {
    GetPagedSpec(assets, tenantId, DefaultSearch);
  }

  // ---------------------------------------------------------------------
  // Tenant-scoped lookups and counts
  // ---------------------------------------------------------------------

  predicate IsLiveOfTenant(a: Asset, tenantId: int)
  {
    a.tenantId == tenantId && a.status != AssetDeleted
  }

  /** `GetByIdAsync`: null for a missing asset, another tenant's asset or a deleted one. */
  function GetById(assets: seq<Asset>, tenant: Option<int>, id: int): (r: Result<Option<Asset>>)
    ensures tenant.None? <==> r.Throw?
    ensures r.Throw? ==> r.error == NoTenant
    ensures r.Ok? && r.value.Some? ==>
      r.value.value in assets && r.value.value.id == id && IsLiveOfTenant(r.value.value, tenant.value)
    ensures r.Ok? ==>
      (r.value.None? <==>
        var found := Repo.AssetById(assets, id);
        found.None? || !IsLiveOfTenant(found.value, tenant.value))
  {
    if tenant.None? then Throw(NoTenant)
    else
      var found := Repo.AssetById(assets, id);
      if found.None? || found.value.tenantId != tenant.value || found.value.status == AssetDeleted then Ok(None)
      else Ok(found)
  }

  /** In a store keyed by position, GetById finds the asset at id - 1 exactly when it is live and the tenant's. */
  lemma GetByIdInStore(assets: seq<Asset>, tenantId: int, id: int)
    requires IdsAreIndices(assets, Repo.AssetId)
    ensures GetById(assets, Some(tenantId), id) ==
      if 1 <= id <= |assets| && IsLiveOfTenant(assets[id - 1], tenantId) then Ok(Some(assets[id - 1])) else Ok(None)
  {
    Repo.AssetByIdInStore(assets, id);
  }

  /** `ExistsAsync(tag)`: some non-deleted asset of the tenant has the tag. */
  function TagExists(assets: seq<Asset>, tenant: Option<int>, tag: string): (r: Result<bool>)
    ensures tenant.None? <==> r.Throw?
    ensures r.Throw? ==> r.error == NoTenant
    ensures r.Ok? ==>
      (r.value <==> exists i :: 0 <= i < |assets| && assets[i].assetTag == tag && IsLiveOfTenant(assets[i], tenant.value))
  {
    if tenant.None? then Throw(NoTenant)
    else Ok(Repo.ExistsMatching(assets, (a: Asset) => a.assetTag == tag && a.tenantId == tenant.value && a.status != AssetDeleted))
  }

  /** `GetCountAsync`: the tenant's assets that are not deleted. */
  function GetCount(assets: seq<Asset>, tenant: Option<int>): (r: Result<nat>)
    ensures tenant.None? <==> r.Throw?
    ensures r.Throw? ==> r.error == NoTenant
    ensures r.Ok? ==> r.value == CountWhere(assets, Repo.LiveOfTenant(tenant.value))
    ensures r.Ok? ==> r.value <= |assets|
  {
    if tenant.None? then Throw(NoTenant)
    else
      CountIsFilterLength(assets, Repo.LiveOfTenant(tenant.value));
      Ok(Repo.CountQuery(Filter(assets, Repo.LiveOfTenant(tenant.value))))
  }

  /** `GetRecentAsync(count)`: the tenant's newest non-deleted assets, at most `count`. */
  function GetRecent(assets: seq<Asset>, tenant: Option<int>, count: int): (r: Result<seq<Asset>>)
    ensures tenant.None? <==> r.Throw?
    ensures r.Throw? ==> r.error == NoTenant
    ensures r.Ok? ==> |r.value| == Max(0, Min(count, CountWhere(assets, Repo.LiveOfTenant(tenant.value))))
    ensures r.Ok? ==> Ordering.SortedBy(r.value, Repo.CreatedDesc)
    ensures r.Ok? ==> forall a :: a in r.value ==> a in assets && IsLiveOfTenant(a, tenant.value)
    ensures r.Ok? ==> Ordering.KeepsTop(r.value, assets, Repo.LiveOfTenant(tenant.value), Repo.CreatedDesc)
  {
    if tenant.None? then Throw(NoTenant)
    else Ok(Repo.RecentOfTenant(assets, count, tenant.value))
  }

  // ---------------------------------------------------------------------
  // Create, update and delete
  // ---------------------------------------------------------------------

  /** The fields of CreateAssetDto; UpdateAssetDto adds the id. */
  datatype AssetInput = AssetInput(
    assetTag: string,
    make: string,
    model: string,
    year: int,
    serialNumber: Option<string>,
    vin: Option<string>,
    value: Option<int>,
    insuredValue: Option<int>,
    purchaseDate: Option<DateTime>,
    lastInspectionDate: Option<DateTime>,
    notes: Option<string>)

  /**
   * `IsAssetTagUniqueAsync(tag, tenantId[, excludeId])`: no non-deleted
   * asset of the tenant other than the excluded one carries the tag.
   */
  predicate TagIsUnique(assets: seq<Asset>, tag: string, tenantId: int, excludeId: Option<int>)
  {
    !Any(assets, (a: Asset) => a.assetTag == tag && IsLiveOfTenant(a, tenantId) && Some(a.id) != excludeId)
  }

  /** Uniqueness excluding nothing is exactly the absence of the tag among the tenant's live assets. */
  lemma TagIsUniqueIff(assets: seq<Asset>, tag: string, tenantId: int)
    ensures TagIsUnique(assets, tag, tenantId, None) <==> !TagExists(assets, Some(tenantId), tag).value
  {
  }

  /** `dto.Adapt(asset)`: copies the input's fields onto an asset. */
  function ApplyInput(a: Asset, dto: AssetInput): (r: Asset)
    ensures r.assetTag == dto.assetTag && r.make == dto.make && r.model == dto.model && r.year == dto.year
    ensures r.serialNumber == dto.serialNumber && r.vin == dto.vin && r.value == dto.value
    ensures r.insuredValue == dto.insuredValue && r.purchaseDate == dto.purchaseDate
    ensures r.lastInspectionDate == dto.lastInspectionDate && r.notes == dto.notes
    ensures r.id == a.id && r.tenantId == a.tenantId && r.status == a.status
    ensures r.complianceStatus == a.complianceStatus && r.createdAt == a.createdAt && r.createdBy == a.createdBy
    ensures r.updatedAt == a.updatedAt && r.updatedBy == a.updatedBy
  {
    a.(assetTag := dto.assetTag, make := dto.make, model := dto.model, year := dto.year,
       serialNumber := dto.serialNumber, vin := dto.vin, value := dto.value, insuredValue := dto.insuredValue,
       purchaseDate := dto.purchaseDate, lastInspectionDate := dto.lastInspectionDate, notes := dto.notes)
  }

  /** `dto.Adapt<Asset>()` followed by the stamps of CreateAsync. */
  function NewAsset(dto: AssetInput, id: int, tenantId: int, user: Option<string>, now: DateTime): (a: Asset)
    ensures a.id == id && a.tenantId == tenantId && a.status == AssetActive && a.complianceStatus == Some(CompliancePending)
    ensures a.createdAt == now && a.createdBy == Some(UserOrSystem(user)) && a.updatedAt == None && a.updatedBy == None
    ensures a == ApplyInput(a, dto)
  {
    var blank := Asset(0, 0, "", "", "", 0, None, None, "", None, None, None, None, None, None, 0, None, None, None);
    ApplyInput(blank, dto).(id := id, tenantId := tenantId, createdBy := Some(UserOrSystem(user)), createdAt := now,
                            status := AssetActive, complianceStatus := Some(CompliancePending))
  }

  /** `UpdateAsync` after its checks: the input copied on, stamped with the time and the user. */
  function Updated(a: Asset, dto: AssetInput, user: Option<string>, now: DateTime): (r: Asset)
    ensures r == ApplyInput(a, dto).(updatedAt := Some(now), updatedBy := Some(UserOrSystem(user)))
  {
    ApplyInput(a, dto).(updatedAt := Some(now), updatedBy := Some(UserOrSystem(user)))
  }

  /** DeleteAsync succeeds exactly for an existing asset of the tenant that is not yet deleted. */
  predicate CanDelete(assets: seq<Asset>, tenantId: int, id: int)
  {
    1 <= id <= |assets| && IsLiveOfTenant(assets[id - 1], tenantId)
  }

  /** The store after a soft delete of the asset at `id`, which no longer counts as live. */
  function SoftDeleted(assets: seq<Asset>, id: int, user: Option<string>, now: DateTime): (r: seq<Asset>)
    requires 1 <= id <= |assets|
    ensures |r| == |assets| && r[id - 1].status == AssetDeleted
    ensures r[id - 1] == assets[id - 1].(status := AssetDeleted, updatedAt := Some(now), updatedBy := Some(UserOrSystem(user)))
    ensures forall i :: 0 <= i < |assets| && i != id - 1 ==> r[i] == assets[i]
    ensures forall t :: !CanDelete(r, t, id)
  {
    assets[id - 1 := assets[id - 1].(status := AssetDeleted, updatedAt := Some(now), updatedBy := Some(UserOrSystem(user)))]
  }

  class AssetService {
    var assets: seq<Asset>

    ghost predicate Valid()
      reads this
    {
      IdsAreIndices(assets, Repo.AssetId)
    }

    constructor ()
      ensures Valid() && assets == []
    {
      assets := [];
    }

    /**
     * `CreateAsync`: a tag that a live asset of the tenant carries is
     * refused; otherwise a new Active, Pending asset of the tenant is
     * stored under the next id.
     */
    method Create(dto: AssetInput, tenant: Option<int>, user: Option<string>, now: DateTime) returns (r: Result<Asset>)
      requires Valid()
      modifies this
      ensures Valid()
      ensures tenant.None? ==> r == Throw(NoTenant)
      ensures tenant.Some? && !TagIsUnique(old(assets), dto.assetTag, tenant.value, None) ==>
        r == Throw(DomainException("Asset with tag '" + dto.assetTag + "' already exists"))
      ensures r.Throw? ==> assets == old(assets)
      ensures r.Ok? <==> tenant.Some? && TagIsUnique(old(assets), dto.assetTag, tenant.value, None)
      ensures r.Ok? ==>
        && r.value == NewAsset(dto, |old(assets)| + 1, tenant.value, user, now)
        && assets == old(assets) + [r.value]
    {
      if tenant.None? {
        return Throw(NoTenant);
      }
      if !TagIsUnique(assets, dto.assetTag, tenant.value, None) {
        return Throw(DomainException("Asset with tag '" + dto.assetTag + "' already exists"));
      }
      var asset := NewAsset(dto, |assets| + 1, tenant.value, user, now);
      assets := assets + [asset];
      return Ok(asset);
    }

    /**
     * `UpdateAsync`: in this order, a missing tenant, a missing asset,
     * another tenant's asset and a deleted asset are refused; a changed tag
     * must not be carried by another live asset of the tenant.
     */
    method Update(id: int, dto: AssetInput, tenant: Option<int>, user: Option<string>, now: DateTime) returns (r: Result<Asset>)
      requires Valid()
      modifies this
      ensures Valid()
      ensures r.Throw? ==> assets == old(assets)
      ensures tenant.None? ==> r == Throw(NoTenant)
      ensures tenant.Some? && !(1 <= id <= |old(assets)|) ==>
        r == Throw(DomainException("Asset with id " + IntToString(id) + " not found"))
      ensures tenant.Some? && 1 <= id <= |old(assets)| && old(assets)[id - 1].tenantId != tenant.value ==>
        r == Throw(UnauthorizedAccess("Access denied to this asset"))
      ensures tenant.Some? && 1 <= id <= |old(assets)| && old(assets)[id - 1].tenantId == tenant.value &&
              old(assets)[id - 1].status == AssetDeleted ==>
        r == Throw(DomainException("Cannot update deleted asset"))
      ensures tenant.Some? && CanDelete(old(assets), tenant.value, id) && old(assets)[id - 1].assetTag != dto.assetTag &&
              !TagIsUnique(old(assets), dto.assetTag, tenant.value, Some(id)) ==>
        r == Throw(DomainException("Asset with tag '" + dto.assetTag + "' already exists"))
      ensures r.Ok? <==>
        && tenant.Some? && CanDelete(old(assets), tenant.value, id)
        && (old(assets)[id - 1].assetTag != dto.assetTag ==> TagIsUnique(old(assets), dto.assetTag, tenant.value, Some(id)))
      ensures r.Ok? ==>
        && r.value == Updated(old(assets)[id - 1], dto, user, now)
        && assets == old(assets)[id - 1 := r.value]
    {
      if tenant.None? {
        return Throw(NoTenant);
      }
      Repo.AssetByIdInStore(assets, id);
      var found := Repo.AssetById(assets, id);
      if found.None? {
        return Throw(DomainException("Asset with id " + IntToString(id) + " not found"));
      }
      var asset := found.value;
      if asset.tenantId != tenant.value {
        return Throw(UnauthorizedAccess("Access denied to this asset"));
      }
      if asset.status == AssetDeleted {
        return Throw(DomainException("Cannot update deleted asset"));
      }
      if asset.assetTag != dto.assetTag && !TagIsUnique(assets, dto.assetTag, tenant.value, Some(id)) {
        return Throw(DomainException("Asset with tag '" + dto.assetTag + "' already exists"));
      }
      var updated := Updated(asset, dto, user, now);
      assets := assets[id - 1 := updated];
      return Ok(updated);
    }

    /** `DeleteAsync`: false for a missing, foreign or already deleted asset, else a soft delete. */
    method Delete(id: int, tenant: Option<int>, user: Option<string>, now: DateTime) returns (r: Result<bool>)
      requires Valid()
      modifies this
      ensures Valid()
      ensures tenant.None? ==> r == Throw(NoTenant)
      ensures tenant.Some? ==> r == Ok(CanDelete(old(assets), tenant.value, id))
      ensures r == Ok(true) ==> assets == SoftDeleted(old(assets), id, user, now)
      ensures r != Ok(true) ==> assets == old(assets)
    {
      if tenant.None? {
        return Throw(NoTenant);
      }
      Repo.AssetByIdInStore(assets, id);
      var found := Repo.AssetById(assets, id);
      if found.None? || found.value.tenantId != tenant.value || found.value.status == AssetDeleted {
        return Ok(false);
      }
      assets := SoftDeleted(assets, id, user, now);
      return Ok(true);
    }
  }

  /** A soft delete removes the asset from the tenant's count, lookups and tag checks, and nothing else. */
  lemma SoftDeleteHides(assets: seq<Asset>, tenantId: int, id: int, user: Option<string>, now: DateTime)
    requires IdsAreIndices(assets, Repo.AssetId) && CanDelete(assets, tenantId, id)
    ensures var r := SoftDeleted(assets, id, user, now);
      && IdsAreIndices(r, Repo.AssetId)
      && GetById(r, Some(tenantId), id) == Ok(None)
      && GetCount(r, Some(tenantId)).value + 1 == GetCount(assets, Some(tenantId)).value
  {
    var r := SoftDeleted(assets, id, user, now);
    GetByIdInStore(r, tenantId, id);
    var p := Repo.LiveOfTenant(tenantId);
    assert r == assets[id - 1 := r[id - 1]];
    CountUpdateDrop(assets, id - 1, r[id - 1], p);
  }
}

=== FILE: app_compliance_engine.dfy ===
/**
 * The deduction-based compliance engine of the root tree
 * (InsureX.Application/Services/ComplianceEngineService.cs): a check
 * starts at 100 points, every finding of an active rule subtracts a capped
 * penalty, the result is clamped to 0..100 and mapped to a status with the
 * thresholds 80 and 50. Around it: rule maintenance, the alert transitions,
 * the expiry and stale-alert sweeps, and the latest-status query.
 *
 * `now` stands for DateTime.UtcNow, which the source reads afresh at each
 * use; the model reads the clock once per operation. The script evaluator
 * is an injected service that runs foreign code; it is a function from a
 * rule and an asset to the outcome of the script (true, false, or an
 * exception), and `None` when no evaluator is registered.
 */
module AppComplianceEngine {
  import opened Common
  import opened AppDomain
  import Ordering
  import InfraAssetRepository
  import Repo = InfraComplianceRepository
  import InfraRepository

  // ---------------------------------------------------------------------
  // Findings and penalties
  // ---------------------------------------------------------------------

  datatype ScriptOutcome = ScriptPassed | ScriptFailed | ScriptThrew

  type ScriptEvaluator = (Rule, Asset) -> ScriptOutcome

  /** One finding and the points it costs. */
  datatype Deduction = Deduction(finding: string, penalty: int)

  const StartScore := 100
  const InspectionRule := "Inspection"
  const PolicyRule := "Policy"

  /** The penalty of an overdue inspection or a failed script: 5 points per severity, at most 30. */
  function InspectionPenalty(severity: int): int { Min(30, severity * 5) }

  /** The penalty of an insured value outside the rule's bounds: 3 points per severity, at most 20. */
  function ValuePenalty(severity: int): int { Min(20, severity * 3) }

  /** `asset.LastInspectionDate ?? asset.CreatedAt`. */
  function LastInspection(asset: Asset): DateTime
  {
    asset.lastInspectionDate.GetOr(asset.createdAt)
  }

  function NextInspectionDue(asset: Asset, days: int): DateTime
  {
    AddDays(LastInspection(asset), days)
  }

  /** An inspection rule with a period whose next inspection lies before now. */
  predicate InspectionOverdue(rule: Rule, asset: Asset, now: DateTime)
  {
    rule.ruleType == InspectionRule && rule.daysToExpiry.Some?
    && now > NextInspectionDue(asset, rule.daysToExpiry.value)
  }

  /** `$"Inspection overdue by {(now - nextDue).Days} days (rule {RuleCode})"`. */
  function OverdueFinding(rule: Rule, asset: Asset, now: DateTime): string
    requires rule.daysToExpiry.Some?
  {
    "Inspection overdue" + OverdueDetail(rule, asset, now)
  }

  /** The rest of the overdue-inspection finding: by how many days, and which rule. */
  function OverdueDetail(rule: Rule, asset: Asset, now: DateTime): string
    requires rule.daysToExpiry.Some?
  {
    " by " + IntToString(WholeDays(now, NextInspectionDue(asset, rule.daysToExpiry.value)))
    + " days (rule " + rule.ruleCode + ")"
  }

  predicate BelowMinimum(rule: Rule, asset: Asset)
  {
    rule.ruleType == PolicyRule && rule.minValue.Some? && asset.insuredValue.Some?
    && asset.insuredValue.value < rule.minValue.value
  }

  predicate AboveMaximum(rule: Rule, asset: Asset)
  {
    rule.ruleType == PolicyRule && rule.maxValue.Some? && asset.insuredValue.Some?
    && asset.insuredValue.value > rule.maxValue.value
  }

  /** The script runs only for a rule with a non-blank script and a registered evaluator. */
  predicate ScriptRuns(rule: Rule, script: Option<ScriptEvaluator>)
  {
    !IsNullOrWhiteSpace(rule.customScript) && script.Some?
  }

  /** A script that returned false; one that threw is caught, logged and costs nothing. */
  predicate FailsScript(rule: Rule, asset: Asset, script: Option<ScriptEvaluator>)
  {
    ScriptRuns(rule, script) && script.value(rule, asset) == ScriptFailed
  }

  function BelowFinding(code: string): string { "Insured value below minimum (rule " + code + ")" }
  function AboveFinding(code: string): string { "Insured value above maximum (rule " + code + ")" }
  function ScriptFinding(code: string): string { "Rule " + code + " failed script evaluation" }

  /** The finding of the inspection check, if any. */
  function InspectionPart(rule: Rule, asset: Asset, now: DateTime): (r: seq<Deduction>)
    ensures |r| <= 1 && forall d :: d in r ==> d.penalty == InspectionPenalty(rule.severity)
  {
    if InspectionOverdue(rule, asset, now)
    then [Deduction(OverdueFinding(rule, asset, now), InspectionPenalty(rule.severity))] else []
  }

  /** The findings of the insured-value checks, the minimum first. */
  function ValuePart(rule: Rule, asset: Asset): (r: seq<Deduction>)
    ensures |r| <= 2 && forall d :: d in r ==> d.penalty == ValuePenalty(rule.severity)
  {
    var lo, hi := MinimumPart(rule, asset), MaximumPart(rule, asset);
    assert forall d :: d in lo + hi ==> d in lo || d in hi;
    lo + hi
  }

  function MinimumPart(rule: Rule, asset: Asset): (r: seq<Deduction>)
    ensures |r| <= 1 && forall d :: d in r ==> d.penalty == ValuePenalty(rule.severity)
  {
    if BelowMinimum(rule, asset) then [Deduction(BelowFinding(rule.ruleCode), ValuePenalty(rule.severity))] else []
  }

  function MaximumPart(rule: Rule, asset: Asset): (r: seq<Deduction>)
    ensures |r| <= 1 && forall d :: d in r ==> d.penalty == ValuePenalty(rule.severity)
  {
    if AboveMaximum(rule, asset) then [Deduction(AboveFinding(rule.ruleCode), ValuePenalty(rule.severity))] else []
  }

  /** The finding of the script check, if any. */
  function ScriptPart(rule: Rule, asset: Asset, script: Option<ScriptEvaluator>): (r: seq<Deduction>)
    ensures |r| <= 1 && forall d :: d in r ==> d.penalty == InspectionPenalty(rule.severity)
  {
    if FailsScript(rule, asset, script)
    then [Deduction(ScriptFinding(rule.ruleCode), InspectionPenalty(rule.severity))] else []
  }

  /** The findings of one rule, in the order the checks run. */
  function RuleDeductions(rule: Rule, asset: Asset, now: DateTime, script: Option<ScriptEvaluator>): (r: seq<Deduction>)
    ensures |r| <= 3
    ensures forall d :: d in r ==> d.penalty <= 30 && (rule.severity >= 0 ==> d.penalty >= 0)
  {
    var a, b, c := InspectionPart(rule, asset, now), ValuePart(rule, asset), ScriptPart(rule, asset, script);
    assert forall d :: d in a + b + c ==> d in a || d in b || d in c;
    a + b + c
  }

  function RuleCheck(asset: Asset, now: DateTime, script: Option<ScriptEvaluator>): Rule -> seq<Deduction>
  {
    (rule: Rule) => RuleDeductions(rule, asset, now, script)
  }

  /** The findings of a rule list, rule after rule. */
  function Deductions(rules: seq<Rule>, asset: Asset, now: DateTime, script: Option<ScriptEvaluator>): seq<Deduction>
  {
    FlatMap(rules, RuleCheck(asset, now, script))
  }

  function TotalPenalty(ds: seq<Deduction>): int
    decreases |ds|
  {
    if ds == [] then 0 else TotalPenalty(ds[..|ds| - 1]) + ds[|ds| - 1].penalty
  }

  /** The finding texts, one per deduction and in the same order. */
  function Findings(ds: seq<Deduction>): (r: seq<string>)
    ensures |r| == |ds|
    ensures forall i :: 0 <= i < |ds| ==> r[i] == ds[i].finding
    decreases |ds|
  {
    if ds == [] then [] else Findings(ds[..|ds| - 1]) + [ds[|ds| - 1].finding]
  }

  /** `Math.Clamp(score, 0, 100)`. */
  function Clamp(score: int): (r: int)
    ensures 0 <= r <= 100
    ensures 0 <= score <= 100 ==> r == score
    ensures score < 0 ==> r == 0
    ensures score > 100 ==> r == 100
  {
    if score < 0 then 0 else if score > 100 then 100 else score
  }

  /** The final score of a list of deductions. */
  function Score(ds: seq<Deduction>): (s: int)
    ensures 0 <= s <= 100
  {
    Clamp(StartScore - TotalPenalty(ds))
  }

  /** `score >= 80 ? "Compliant" : (score >= 50 ? "Warning" : "Non-Compliant")`. */
  function StatusFor(score: int): string
  {
    if score >= 80 then StatusCompliant else if score >= 50 then StatusWarning else StatusNonCompliant
  }

  predicate PriorityLe(a: Rule, b: Rule) { a.priority <= b.priority }

  lemma PriorityLePreorder()
    ensures Ordering.TotalPreorder(PriorityLe)
  {
  }

  /** `rules.OrderBy(r => r.Priority)` over the active rules: a stable sort by ascending priority. */
  function ByPriority(active: seq<Rule>): (r: seq<Rule>)
    ensures Ordering.SortedBy(r, PriorityLe)
    ensures multiset(r) == multiset(active)
  {
    PriorityLePreorder();
    Ordering.SortBy(active, PriorityLe)
  }

  /** The deductions a check of `asset` collects from the active rules it read. */
  function CheckDeductions(active: seq<Rule>, asset: Asset, now: DateTime, script: Option<ScriptEvaluator>): seq<Deduction>
  {
    Deductions(ByPriority(active), asset, now, script)
  }

  /** What CheckAssetComplianceAsync returns. */
  datatype CheckResult = CheckResult(
    assetId: int,
    status: string,
    score: int,
    checkedAt: DateTime,
    findings: string,
    nextCheckDate: Option<DateTime>)

  /** The check record the engine stores; the database assigns its key. */
  function CheckRecord(assetId: int, ds: seq<Deduction>, now: DateTime): Check
  {
    Check(0, assetId, now, StatusFor(Score(ds)), Score(ds), Findings(ds), "system", true, Some(AddDays(now, 30)))
  }

  // ---------------------------------------------------------------------
  // Properties of the score
  // ---------------------------------------------------------------------

  /** The three statuses split the scores at 80 and 50. */
  lemma StatusThresholds(score: int)
    ensures StatusFor(score) == StatusCompliant <==> score >= 80
    ensures StatusFor(score) == StatusWarning <==> 50 <= score < 80
    ensures StatusFor(score) == StatusNonCompliant <==> score < 50
  {
  }

  /** The findings of a list of rules are those of its parts, in order. */
  lemma DeductionsAppend(a: seq<Rule>, b: seq<Rule>, asset: Asset, now: DateTime, script: Option<ScriptEvaluator>)
    ensures Deductions(a + b, asset, now, script) == Deductions(a, asset, now, script) + Deductions(b, asset, now, script)
  {
    FlatMapAppend(a, b, RuleCheck(asset, now, script));
  }

  lemma DeductionsSnoc(s: seq<Rule>, x: Rule, asset: Asset, now: DateTime, script: Option<ScriptEvaluator>)
    ensures Deductions(s + [x], asset, now, script) == Deductions(s, asset, now, script) + RuleDeductions(x, asset, now, script)
  {
    FlatMapSnoc(s, x, RuleCheck(asset, now, script));
  }

  /** The total of a list of deductions is the sum over its parts. */
  lemma {:induction false} TotalPenaltyAppend(a: seq<Deduction>, b: seq<Deduction>)
    ensures TotalPenalty(a + b) == TotalPenalty(a) + TotalPenalty(b)
    decreases |b|
  {
    if b == [] {
      assert a + b == a;
    } else {
      var b' := b[..|b| - 1];
      assert (a + b)[..|a + b| - 1] == a + b';
      TotalPenaltyAppend(a, b');
    }
  }

  /** No single finding costs more than 30 points; with a non-negative severity none adds points. */
  lemma {:induction false} PenaltiesCapped(rules: seq<Rule>, asset: Asset, now: DateTime, script: Option<ScriptEvaluator>)
    ensures forall d :: d in Deductions(rules, asset, now, script) ==> d.penalty <= 30
    ensures (forall r :: r in rules ==> r.severity >= 0) ==>
      forall d :: d in Deductions(rules, asset, now, script) ==> d.penalty >= 0
    decreases |rules|
  {
    if rules != [] {
      var init := rules[..|rules| - 1];
      assert rules == init + [rules[|rules| - 1]];
      assert forall r :: r in init ==> r in rules;
      DeductionsSnoc(init, rules[|rules| - 1], asset, now, script);
      PenaltiesCapped(init, asset, now, script);
    }
  }

  /** With non-negative penalties the total is non-negative, so the score is 100 minus it, floored at 0. */
  lemma {:induction false} ScoreOfPenalties(ds: seq<Deduction>)
    requires forall d :: d in ds ==> d.penalty >= 0
    ensures TotalPenalty(ds) >= 0
    ensures Score(ds) == Max(0, StartScore - TotalPenalty(ds))
    decreases |ds|
  {
    if ds != [] {
      var init := ds[..|ds| - 1];
      assert forall d :: d in init ==> d in ds;
      ScoreOfPenalties(init);
    }
  }

  /** A check with no finding scores 100 and is Compliant. */
  lemma NoFindingsFullScore(ds: seq<Deduction>)
    requires Findings(ds) == []
    ensures Score(ds) == 100 && StatusFor(Score(ds)) == StatusCompliant
  {
  }

  /**
   * An inspection rule without a script has one finding exactly when its
   * next inspection, (LastInspectionDate ?? CreatedAt) + DaysToExpiry days,
   * lies before now, and that finding costs min(30, 5 * severity).
   */
  lemma InspectionRuleDeductions(rule: Rule, asset: Asset, now: DateTime, script: Option<ScriptEvaluator>)
    requires rule.ruleType == InspectionRule && rule.daysToExpiry.Some?
    requires !ScriptRuns(rule, script)
    ensures var ds := RuleDeductions(rule, asset, now, script);
      && (ds != [] <==> now > AddDays(asset.lastInspectionDate.GetOr(asset.createdAt), rule.daysToExpiry.value))
      && (ds != [] ==> ds == [Deduction(OverdueFinding(rule, asset, now), Min(30, rule.severity * 5))])
  {
  }

  /** The overdue-inspection finding says "Inspection overdue". */
  lemma OverdueFindingText(rule: Rule, asset: Asset, now: DateTime)
    requires rule.daysToExpiry.Some?
    ensures Contains(OverdueFinding(rule, asset, now), "Inspection overdue")
  {
    ContainsPrefix("Inspection overdue", OverdueDetail(rule, asset, now));
  }

  /**
   * A policy rule without a script has one finding for an insured value
   * below its minimum and one for a value above its maximum, each costing
   * min(20, 3 * severity); a missing value or bound gives none.
   */
  lemma PolicyRuleDeductions(rule: Rule, asset: Asset, now: DateTime, script: Option<ScriptEvaluator>)
    requires rule.ruleType == PolicyRule && !ScriptRuns(rule, script)
    ensures var ds := RuleDeductions(rule, asset, now, script);
      && |ds| == (if BelowMinimum(rule, asset) then 1 else 0) + (if AboveMaximum(rule, asset) then 1 else 0)
      && (forall d :: d in ds ==> d.penalty == Min(20, rule.severity * 3))
      && (asset.insuredValue.None? ==> ds == [])
  {
  }

  /**
   * A script that returns false adds one last finding costing
   * min(30, 5 * severity); a script that throws costs nothing, as if no
   * evaluator were registered.
   */
  lemma ScriptDeductions(rule: Rule, asset: Asset, now: DateTime, script: Option<ScriptEvaluator>)
    requires ScriptRuns(rule, script)
    ensures script.value(rule, asset) == ScriptFailed ==>
      RuleDeductions(rule, asset, now, script) ==
        RuleDeductions(rule, asset, now, None)
        + [Deduction(ScriptFinding(rule.ruleCode), Min(30, rule.severity * 5))]
    ensures script.value(rule, asset) != ScriptFailed ==>
      RuleDeductions(rule, asset, now, script) == RuleDeductions(rule, asset, now, None)
  {
  }

  /** An overdue severity-3 inspection rule without a script yields its one 15-point finding. */
  lemma OverdueRuleDeductions(rule: Rule, asset: Asset, now: DateTime)
    requires rule.severity == 3 && rule.ruleType == InspectionRule
    requires rule.daysToExpiry.Some? && rule.customScript.None?
    requires InspectionOverdue(rule, asset, now)
    ensures RuleDeductions(rule, asset, now, None) == [Deduction(OverdueFinding(rule, asset, now), 15)]
  {
    assert InspectionPart(rule, asset, now) == [Deduction(OverdueFinding(rule, asset, now), 15)];
    assert InspectionRule != PolicyRule by {
      assert InspectionRule[0] != PolicyRule[0];
    }
    assert ValuePart(rule, asset) == [];
    assert ScriptPart(rule, asset, None) == [];
  }

  /**
   * One active severity-3 inspection rule that is overdue, with no script,
   * costs 15 points: the asset scores 85 and stays Compliant.
   */
  lemma OneOverdueInspection(rule: Rule, asset: Asset, now: DateTime)
    requires rule.severity == 3 && rule.ruleType == InspectionRule
    requires rule.daysToExpiry.Some? && rule.customScript.None?
    requires InspectionOverdue(rule, asset, now)
    ensures Score(CheckDeductions([rule], asset, now, None)) == 85
    ensures StatusFor(Score(CheckDeductions([rule], asset, now, None))) == StatusCompliant
  {
    PriorityLePreorder();
    Ordering.SortBySorted([rule], PriorityLe);
    assert CheckDeductions([rule], asset, now, None) == Deductions([rule], asset, now, None);
    var d := Deduction(OverdueFinding(rule, asset, now), 15);
    OverdueRuleDeductions(rule, asset, now);
    assert [] + [rule] == [rule];
    DeductionsSnoc([], rule, asset, now, None);
    assert Deductions([], asset, now, None) == [];
    var ds := Deductions([rule], asset, now, None);
    assert ds == [d];
    assert ds[..0] == [];
    assert TotalPenalty(ds) == 15;
  }

  // ---------------------------------------------------------------------
  // Rules maintained through the DTO, and the status query
  // ---------------------------------------------------------------------

  /** The fields of CreateComplianceRuleDto. */
  datatype RuleInput = RuleInput(
    ruleCode: string,
    ruleName: string,
    description: string,
    ruleType: string,
    severity: int,
    isActive: bool,
    daysToExpiry: Option<int>,
    priority: int,
    applicableAssetTypes: Option<string>)

  /** `dto.Adapt(rule)`: copies the input's fields and keeps every other field of the rule. */
  function ApplyRuleInput(rule: Rule, dto: RuleInput): (r: Rule)
    ensures r.id == rule.id && r.effectiveTo == rule.effectiveTo && r.customScript == rule.customScript
    ensures r.minValue == rule.minValue && r.maxValue == rule.maxValue
    ensures r.ruleCode == dto.ruleCode && r.ruleType == dto.ruleType && r.severity == dto.severity
    ensures r.isActive == dto.isActive && r.priority == dto.priority && r.daysToExpiry == dto.daysToExpiry
  {
    rule.(ruleCode := dto.ruleCode, ruleName := dto.ruleName, description := dto.description,
          ruleType := dto.ruleType, severity := dto.severity, isActive := dto.isActive,
          daysToExpiry := dto.daysToExpiry, priority := dto.priority,
          applicableAssetTypes := dto.applicableAssetTypes)
  }

  /** `dto.Adapt<ComplianceRule>()`: a new rule with no bounds, script or end date. */
  function NewRule(dto: RuleInput): (r: Rule)
    ensures r.effectiveTo.None? && r.minValue.None? && r.maxValue.None? && r.customScript.None?
    ensures r.ruleCode == dto.ruleCode && r.isActive == dto.isActive && r.priority == dto.priority
    ensures r.id == 0
  {
    ApplyRuleInput(Rule(0, "", "", "", "", 1, 3, true, None, None, None, None, None, None), dto)
  }

  /** ComplianceStatusDto as GetAssetComplianceStatusAsync fills it. */
  datatype StatusView = StatusView(assetId: int, status: string, score: int, lastChecked: DateTime)

  /**
   * `GetAssetComplianceStatusAsync`: the latest check of the asset, or
   * "Unknown" with score 0 and DateTime.MinValue when it has none.
   */
  function ComplianceStatusOf(checks: seq<Check>, assetId: int): (v: StatusView)
    ensures (forall i :: 0 <= i < |checks| ==> checks[i].assetId != assetId) ==>
      v == StatusView(assetId, "Unknown", 0, MinDateTime)
    ensures (exists i :: 0 <= i < |checks| && checks[i].assetId == assetId) ==>
      && v.assetId == assetId
      && (exists c :: c in checks && c.assetId == assetId && v == StatusView(assetId, c.status, c.score, c.checkDate))
      && (forall c :: c in checks && c.assetId == assetId ==> c.checkDate <= v.lastChecked)
  {
    var latest := Repo.LatestCheck(checks, assetId);
    if latest.None? then StatusView(assetId, "Unknown", 0, MinDateTime)
    else StatusView(latest.value.assetId, latest.value.status, latest.value.score, latest.value.checkDate)
  }

  // ---------------------------------------------------------------------
  // The sweeps
  // ---------------------------------------------------------------------

  predicate HasExpired(rule: Rule, now: DateTime)
  {
    rule.effectiveTo.Some? && rule.effectiveTo.value < now
  }

  function ExpiredAt(now: DateTime): Rule -> bool
  {
    (r: Rule) => HasExpired(r, now)
  }

  /** The rule set once the changes of UpdateExpiredRulesAsync are written: every active rule whose EffectiveTo has passed is deactivated. */
  function ExpireRules(rules: seq<Rule>, now: DateTime): (r: seq<Rule>)
    ensures |r| == |rules|
  {
    seq(|rules|, j requires 0 <= j < |rules| =>
      if rules[j].isActive && HasExpired(rules[j], now) then rules[j].(isActive := false) else rules[j])
  }

  /**
   * Afterwards no active rule has expired, a rule without an EffectiveTo
   * is left alone, and a changed rule differs only in being inactive.
   */
  lemma ExpireRulesSpec(rules: seq<Rule>, now: DateTime)
    ensures var r := ExpireRules(rules, now);
      && (forall j :: 0 <= j < |r| && r[j].isActive ==> !HasExpired(r[j], now))
      && (forall j :: 0 <= j < |r| && rules[j].effectiveTo.None? ==> r[j] == rules[j])
      && (forall j :: 0 <= j < |r| && r[j] != rules[j] ==>
            rules[j].isActive && HasExpired(rules[j], now) && r[j] == rules[j].(isActive := false))
  {
  }

  /** The write one turn of the UpdateExpiredRulesAsync loop tracks: the rule deactivated, when it has expired. */
  function ExpiryWrite(rule: Rule, now: DateTime): seq<Repo.Tracked>
  {
    if HasExpired(rule, now) then [Repo.RuleUpdated(rule.(isActive := false))] else []
  }

  /** The writes the loop tracks for the rules it has visited, in order. */
  function ExpiryUpdates(visited: seq<Rule>, now: DateTime): seq<Repo.Tracked>
    decreases |visited|
  {
    if visited == [] then []
    else ExpiryUpdates(visited[..|visited| - 1], now) + ExpiryWrite(visited[|visited| - 1], now)
  }

  /** The expiry writes only deactivate rules. */
  lemma {:induction false} ExpiryUpdatesDeactivate(visited: seq<Rule>, now: DateTime)
    ensures forall i :: 0 <= i < |ExpiryUpdates(visited, now)| ==>
      ExpiryUpdates(visited, now)[i].RuleUpdated? && !ExpiryUpdates(visited, now)[i].rule.isActive
    decreases |visited|
  {
    if visited != [] {
      var front := visited[..|visited| - 1];
      ExpiryUpdatesDeactivate(front, now);
      var cs, us := ExpiryUpdates(visited, now), ExpiryUpdates(front, now);
      var w := ExpiryWrite(visited[|visited| - 1], now);
      assert cs == us + w;
      forall i | 0 <= i < |cs| ensures cs[i].RuleUpdated? && !cs[i].rule.isActive {
        if i < |us| {
          assert cs[i] == us[i];
        } else {
          assert cs[i] == w[i - |us|];
        }
      }
    }
  }

  lemma ExpiryUpdatesSnoc(visited: seq<Rule>, i: int, now: DateTime)
    requires 0 <= i < |visited|
    ensures ExpiryUpdates(visited[..i + 1], now) == ExpiryUpdates(visited[..i], now) + ExpiryWrite(visited[i], now)
  {
    assert visited[..i + 1][..i] == visited[..i];
  }

  /** The value reads see of a rule after the expiry writes, when no other visited rule has its key. */
  lemma {:induction false} TrackedExpiry(visited: seq<Rule>, row: Rule, now: DateTime)
    requires forall x :: x in visited && x.id == row.id ==> x == row
    ensures Repo.TrackedRule(ExpiryUpdates(visited, now), row) ==
      if row in visited && HasExpired(row, now) then row.(isActive := false) else row
    decreases |visited|
  {
    if visited != [] {
      var front, last := visited[..|visited| - 1], visited[|visited| - 1];
      assert visited == front + [last];
      TrackedExpiry(front, row, now);
      var us := ExpiryUpdates(front, now);
      var cs := ExpiryUpdates(visited, now);
      if HasExpired(last, now) {
        assert cs == us + [Repo.RuleUpdated(last.(isActive := false))];
        assert cs[..|cs| - 1] == us;
      } else {
        assert cs == us + [] == us;
        assert row in visited <==> row in front || row == last;
      }
    }
  }

  /**
   * Written to the database, the changes a sweep over the rules the
   * database holds as active tracks (with nothing tracked before)
   * deactivate exactly the active rules that have expired, and touch no
   * other table.
   */
  lemma ExpirySweepSaved(t: Repo.Tables, now: DateTime)
    requires Repo.KeyedByPosition(t)
    ensures Repo.SaveAll(t, ExpiryUpdates(Repo.ActiveRules(t.rules), now)) == t.(rules := ExpireRules(t.rules, now))
  {
    var active := Repo.ActiveRules(t.rules);
    var cs := ExpiryUpdates(active, now);
    ExpiryUpdatesDeactivate(active, now);
    Repo.SaveRuleUpdates(t, cs);
    forall i | 0 <= i < |t.rules|
      ensures Repo.TrackedRules(cs, t.rules)[i] == ExpireRules(t.rules, now)[i]
    {
      ExpiryRow(t.rules, i, now);
    }
    assert Repo.TrackedRules(cs, t.rules) == ExpireRules(t.rules, now);
  }

  lemma ExpiryRow(rules: seq<Rule>, i: int, now: DateTime)
    requires IdsAreIndices(rules, Repo.RuleId) && 0 <= i < |rules|
    ensures Repo.TrackedRule(ExpiryUpdates(Repo.ActiveRules(rules), now), rules[i]) ==
      if rules[i].isActive && HasExpired(rules[i], now) then rules[i].(isActive := false) else rules[i]
  {
    var active := Repo.ActiveRules(rules);
    var row := rules[i];
    forall x | x in active && x.id == row.id ensures x == row {
      StoredAt(rules, Repo.RuleId, x);
    }
    TrackedExpiry(active, row, now);
  }

  /** The cut-off of ResolveStaleAlertsAsync: `now.AddDays(-daysOld)`. */
  function StaleCutoff(now: DateTime, daysOld: int): DateTime { AddDays(now, -daysOld) }

  function CreatedBefore(cutoff: DateTime): Alert -> bool
  {
    (a: Alert) => a.createdAt < cutoff
  }

  predicate IsStale(a: Alert, cutoff: DateTime)
  {
    Repo.IsActiveAlert(a) && a.createdAt < cutoff
  }

  function AutoResolved(a: Alert, now: DateTime): Alert
  {
    a.(status := AlertResolved, resolvedAt := Some(now), resolvedBy := Some("system"))
  }

  /** The alert set once the changes of ResolveStaleAlertsAsync are written: every stale active alert resolved by "system". */
  function ResolveStale(alerts: seq<Alert>, cutoff: DateTime, now: DateTime): (r: seq<Alert>)
    ensures |r| == |alerts|
  {
    seq(|alerts|, j requires 0 <= j < |alerts| =>
      if IsStale(alerts[j], cutoff) then AutoResolved(alerts[j], now) else alerts[j])
  }

  /**
   * Afterwards no alert is stale; alerts that were not active, or were
   * created at or after the cut-off, are unchanged; a changed alert is
   * Resolved by "system" at `now` and keeps its id and creation time.
   */
  lemma ResolveStaleSpec(alerts: seq<Alert>, cutoff: DateTime, now: DateTime)
    ensures var r := ResolveStale(alerts, cutoff, now);
      && (forall j :: 0 <= j < |r| ==> !IsStale(r[j], cutoff))
      && (forall j :: 0 <= j < |r| && (!Repo.IsActiveAlert(alerts[j]) || alerts[j].createdAt >= cutoff) ==> r[j] == alerts[j])
      && (forall j :: 0 <= j < |r| && r[j] != alerts[j] ==>
            && r[j].status == AlertResolved && r[j].resolvedBy == Some("system") && r[j].resolvedAt == Some(now)
            && r[j].id == alerts[j].id && r[j].createdAt == alerts[j].createdAt)
  {
  }

  /** The write one turn of the ResolveStaleAlertsAsync loop tracks: the alert resolved, when it is older than the cut-off. */
  function StaleWrite(a: Alert, cutoff: DateTime, now: DateTime): seq<Repo.Tracked>
  {
    if a.createdAt < cutoff then [Repo.AlertUpdated(AutoResolved(a, now))] else []
  }

  /** The writes the loop tracks for the alerts it has visited, in order. */
  function StaleUpdates(visited: seq<Alert>, cutoff: DateTime, now: DateTime): seq<Repo.Tracked>
    decreases |visited|
  {
    if visited == [] then []
    else StaleUpdates(visited[..|visited| - 1], cutoff, now) + StaleWrite(visited[|visited| - 1], cutoff, now)
  }

  /** The stale writes only resolve alerts, as "system". */
  lemma {:induction false} StaleUpdatesResolve(visited: seq<Alert>, cutoff: DateTime, now: DateTime)
    ensures forall i :: 0 <= i < |StaleUpdates(visited, cutoff, now)| ==>
      var c := StaleUpdates(visited, cutoff, now)[i];
      c.AlertUpdated? && c.alert.status == AlertResolved && c.alert.resolvedBy == Some("system")
    decreases |visited|
  {
    if visited != [] {
      var front := visited[..|visited| - 1];
      StaleUpdatesResolve(front, cutoff, now);
      var cs, us := StaleUpdates(visited, cutoff, now), StaleUpdates(front, cutoff, now);
      var w := StaleWrite(visited[|visited| - 1], cutoff, now);
      assert cs == us + w;
      forall i | 0 <= i < |cs|
        ensures cs[i].AlertUpdated? && cs[i].alert.status == AlertResolved && cs[i].alert.resolvedBy == Some("system")
      {
        if i < |us| {
          assert cs[i] == us[i];
        } else {
          assert cs[i] == w[i - |us|];
        }
      }
    }
  }

  lemma StaleUpdatesSnoc(visited: seq<Alert>, i: int, cutoff: DateTime, now: DateTime)
    requires 0 <= i < |visited|
    ensures StaleUpdates(visited[..i + 1], cutoff, now) == StaleUpdates(visited[..i], cutoff, now) + StaleWrite(visited[i], cutoff, now)
  {
    assert visited[..i + 1][..i] == visited[..i];
  }

  /** The value reads see of an alert after the stale writes, when no other visited alert has its key. */
  lemma {:induction false} TrackedStale(visited: seq<Alert>, row: Alert, cutoff: DateTime, now: DateTime)
    requires forall x :: x in visited && x.id == row.id ==> x == row
    ensures Repo.TrackedAlert(StaleUpdates(visited, cutoff, now), row) ==
      if row in visited && row.createdAt < cutoff then AutoResolved(row, now) else row
    decreases |visited|
  {
    if visited != [] {
      var front, last := visited[..|visited| - 1], visited[|visited| - 1];
      assert visited == front + [last];
      TrackedStale(front, row, cutoff, now);
      var us := StaleUpdates(front, cutoff, now);
      var cs := StaleUpdates(visited, cutoff, now);
      if last.createdAt < cutoff {
        assert cs == us + [Repo.AlertUpdated(AutoResolved(last, now))];
        assert cs[..|cs| - 1] == us;
      } else {
        assert cs == us + [] == us;
        assert row in visited <==> row in front || row == last;
      }
    }
  }

  /**
   * Written to the database, the changes a sweep over the alerts the
   * database holds as New or Acknowledged tracks (with nothing tracked
   * before) resolve exactly the stale ones, and touch no other table.
   */
  lemma StaleSweepSaved(t: Repo.Tables, cutoff: DateTime, now: DateTime)
    requires Repo.KeyedByPosition(t)
    ensures Repo.SaveAll(t, StaleUpdates(Repo.ActiveAlerts(t.alerts, None), cutoff, now))
      == t.(alerts := ResolveStale(t.alerts, cutoff, now))
  {
    var active := Repo.ActiveAlerts(t.alerts, None);
    var cs := StaleUpdates(active, cutoff, now);
    StaleUpdatesResolve(active, cutoff, now);
    Repo.SaveAlertUpdates(t, cs);
    forall i | 0 <= i < |t.alerts|
      ensures Repo.TrackedAlerts(cs, t.alerts)[i] == ResolveStale(t.alerts, cutoff, now)[i]
    {
      StaleRow(t.alerts, i, cutoff, now);
    }
    assert Repo.TrackedAlerts(cs, t.alerts) == ResolveStale(t.alerts, cutoff, now);
  }

  lemma StaleRow(alerts: seq<Alert>, i: int, cutoff: DateTime, now: DateTime)
    requires IdsAreIndices(alerts, Repo.AlertId) && 0 <= i < |alerts|
    ensures Repo.TrackedAlert(StaleUpdates(Repo.ActiveAlerts(alerts, None), cutoff, now), alerts[i]) ==
      if IsStale(alerts[i], cutoff) then AutoResolved(alerts[i], now) else alerts[i]
  {
    var active := Repo.ActiveAlerts(alerts, None);
    var row := alerts[i];
    forall x | x in active && x.id == row.id ensures x == row {
      StoredAt(alerts, Repo.AlertId, x);
    }
    TrackedStale(active, row, cutoff, now);
  }

  /**
   * A check dated after every earlier check of its asset is what
   * GetAssetComplianceStatusAsync reports once it is written.
   */
  lemma StatusAfterCheck(checks: seq<Check>, c: Check)
    requires forall x :: x in checks && x.assetId == c.assetId ==> x.checkDate < c.checkDate
    ensures ComplianceStatusOf(checks + [c], c.assetId) == StatusView(c.assetId, c.status, c.score, c.checkDate)
  {
    var all := checks + [c];
    assert all[|checks|] == c;
    var v := ComplianceStatusOf(all, c.assetId);
    var x :| x in all && x.assetId == c.assetId && v == StatusView(c.assetId, x.status, x.score, x.checkDate);
    assert c.checkDate <= x.checkDate;
    assert x in all <==> x in checks || x == c;
  }

  // ---------------------------------------------------------------------
  // The service
  // ---------------------------------------------------------------------

  class ComplianceEngine {
    const store: Repo.ComplianceStore
    const assets: seq<Asset>
    const script: Option<ScriptEvaluator>

    ghost predicate Valid()
      reads this, store
    {
      store.Valid()
    }

    constructor (store: Repo.ComplianceStore, assets: seq<Asset>, script: Option<ScriptEvaluator>)
      requires store.Valid()
      ensures Valid()
      ensures this.store == store && this.assets == assets && this.script == script
    {
      this.store := store;
      this.assets := assets;
      this.script := script;
    }

    /**
     * `CreateRuleAsync`: the rule built from the input is tracked as added
     * and returned as it stands, before any key is assigned; nothing is
     * written.
     */
    method CreateRule(dto: RuleInput) returns (rule: Rule)
      requires Valid()
      modifies store
      ensures Valid()
      ensures rule == NewRule(dto) && rule.id == 0
      ensures store.db == old(store.db) && store.pending == old(store.pending) + [Repo.RuleAdded(rule)]
    {
      rule := NewRule(dto);
      store.AddRule(rule);
    }

    /**
     * `UpdateRuleAsync`: a missing rule throws; otherwise the input is
     * copied onto the rule as read and the result is tracked as modified.
     */
    method UpdateRule(id: int, dto: RuleInput) returns (r: Result<Rule>)
      requires Valid()
      modifies store
      ensures Valid()
      ensures store.db == old(store.db)
      ensures !(1 <= id <= |store.db.rules|) ==>
        r == Throw(KeyNotFound("Rule not found")) && store.pending == old(store.pending)
      ensures 1 <= id <= |store.db.rules| ==>
        && r == Ok(ApplyRuleInput(old(store.Rules())[id - 1], dto))
        && store.pending == old(store.pending) + [Repo.RuleUpdated(r.value)]
        && store.Rules() == old(store.Rules())[id - 1 := r.value]
    {
      var rules := store.Rules();
      Repo.RuleByIdInStore(rules, id);
      var existing := Repo.RuleById(rules, id);
      if existing.None? {
        return Throw(KeyNotFound("Rule not found"));
      }
      var updated := ApplyRuleInput(existing.value, dto);
      Repo.TrackRuleUpdate(store.pending, store.db.rules, updated);
      store.UpdateRule(updated);
      return Ok(updated);
    }

    /** `DeleteRuleAsync`: false for a missing rule; otherwise the rule is deactivated, not removed. */
    method DeleteRule(id: int) returns (deleted: bool)
      requires Valid()
      modifies store
      ensures Valid()
      ensures store.db == old(store.db)
      ensures deleted <==> 1 <= id <= |store.db.rules|
      ensures deleted ==>
        var rule := old(store.Rules())[id - 1].(isActive := false);
        && store.pending == old(store.pending) + [Repo.RuleUpdated(rule)]
        && store.Rules() == old(store.Rules())[id - 1 := rule]
      ensures !deleted ==> store.pending == old(store.pending)
    {
      var rules := store.Rules();
      Repo.RuleByIdInStore(rules, id);
      var existing := Repo.RuleById(rules, id);
      if existing.None? {
        return false;
      }
      Repo.TrackRuleUpdate(store.pending, store.db.rules, existing.value.(isActive := false));
      store.UpdateRule(existing.value.(isActive := false));
      return true;
    }

    /** `ToggleRuleStatusAsync`: false for a missing rule; otherwise IsActive is set as asked. */
    method ToggleRuleStatus(id: int, isActive: bool) returns (found: bool)
      requires Valid()
      modifies store
      ensures Valid()
      ensures store.db == old(store.db)
      ensures found <==> 1 <= id <= |store.db.rules|
      ensures found ==>
        var rule := old(store.Rules())[id - 1].(isActive := isActive);
        && store.pending == old(store.pending) + [Repo.RuleUpdated(rule)]
        && store.Rules() == old(store.Rules())[id - 1 := rule]
      ensures !found ==> store.pending == old(store.pending)
    {
      var rules := store.Rules();
      Repo.RuleByIdInStore(rules, id);
      var existing := Repo.RuleById(rules, id);
      if existing.None? {
        return false;
      }
      Repo.TrackRuleUpdate(store.pending, store.db.rules, existing.value.(isActive := isActive));
      store.UpdateRule(existing.value.(isActive := isActive));
      return true;
    }

    /** The inspection check of one rule. */
    method InspectionStep(rule: Rule, asset: Asset, now: DateTime, ghost done: seq<Deduction>, findings: seq<string>, score: int)
      returns (findings': seq<string>, score': int)
      requires findings == Findings(done) && score == StartScore - TotalPenalty(done)
      ensures findings' == Findings(done + InspectionPart(rule, asset, now))
      ensures score' == StartScore - TotalPenalty(done + InspectionPart(rule, asset, now))
    {
      findings', score' := findings, score;
      assert done + [] == done;
      if rule.ruleType == InspectionRule && rule.daysToExpiry.Some? {
        var lastInspection := asset.lastInspectionDate.GetOr(asset.createdAt);
        var nextDue := AddDays(lastInspection, rule.daysToExpiry.value);
        if now > nextDue {
          var d := Deduction(OverdueFinding(rule, asset, now), Min(30, rule.severity * 5));
          AddDeduction(done, d);
          findings', score' := findings' + [d.finding], score' - d.penalty;
        }
      }
    }

    /** The insured-value checks of one rule, the minimum first. */
    method ValueStep(rule: Rule, asset: Asset, ghost done: seq<Deduction>, findings: seq<string>, score: int)
      returns (findings': seq<string>, score': int)
      requires findings == Findings(done) && score == StartScore - TotalPenalty(done)
      ensures findings' == Findings(done + ValuePart(rule, asset))
      ensures score' == StartScore - TotalPenalty(done + ValuePart(rule, asset))
    {
      if rule.ruleType == PolicyRule {
        ghost var d1 := done + MinimumPart(rule, asset);
        findings', score' := MinimumStep(rule, asset, done, findings, score);
        findings', score' := MaximumStep(rule, asset, d1, findings', score');
        ValuePartAfter(rule, asset, done);
      } else {
        findings', score' := findings, score;
        assert ValuePart(rule, asset) == [];
        assert done + [] == done;
      }
    }

    /** The minimum check of a policy rule. */
    method MinimumStep(rule: Rule, asset: Asset, ghost done: seq<Deduction>, findings: seq<string>, score: int)
      returns (findings': seq<string>, score': int)
      requires rule.ruleType == PolicyRule
      requires findings == Findings(done) && score == StartScore - TotalPenalty(done)
      ensures findings' == Findings(done + MinimumPart(rule, asset))
      ensures score' == StartScore - TotalPenalty(done + MinimumPart(rule, asset))
    {
      findings', score' := findings, score;
      assert done + [] == done;
      if rule.minValue.Some? && asset.insuredValue.Some? && asset.insuredValue.value < rule.minValue.value {
        var d := Deduction(BelowFinding(rule.ruleCode), Min(20, rule.severity * 3));
        AddDeduction(done, d);
        findings', score' := findings' + [d.finding], score' - d.penalty;
      }
    }

    /** The maximum check of a policy rule. */
    method MaximumStep(rule: Rule, asset: Asset, ghost done: seq<Deduction>, findings: seq<string>, score: int)
      returns (findings': seq<string>, score': int)
      requires rule.ruleType == PolicyRule
      requires findings == Findings(done) && score == StartScore - TotalPenalty(done)
      ensures findings' == Findings(done + MaximumPart(rule, asset))
      ensures score' == StartScore - TotalPenalty(done + MaximumPart(rule, asset))
    {
      findings', score' := findings, score;
      assert done + [] == done;
      if rule.maxValue.Some? && asset.insuredValue.Some? && asset.insuredValue.value > rule.maxValue.value {
        var d := Deduction(AboveFinding(rule.ruleCode), Min(20, rule.severity * 3));
        AddDeduction(done, d);
        findings', score' := findings' + [d.finding], score' - d.penalty;
      }
    }

    /** The script check of one rule: a script that throws is caught and costs nothing. */
    method ScriptStep(rule: Rule, asset: Asset, ghost done: seq<Deduction>, findings: seq<string>, score: int)
      returns (findings': seq<string>, score': int)
      requires findings == Findings(done) && score == StartScore - TotalPenalty(done)
      ensures findings' == Findings(done + ScriptPart(rule, asset, script))
      ensures score' == StartScore - TotalPenalty(done + ScriptPart(rule, asset, script))
    {
      findings', score' := findings, score;
      assert done + [] == done;
      if !IsNullOrWhiteSpace(rule.customScript) && script.Some? {
        var outcome := script.value(rule, asset);
        if outcome == ScriptFailed {
          var d := Deduction(ScriptFinding(rule.ruleCode), Min(30, rule.severity * 5));
          AddDeduction(done, d);
          findings', score' := findings' + [d.finding], score' - d.penalty;
        }
      }
    }

    /**
     * The body of the rule loop of CheckAssetComplianceAsync: each finding
     * of one rule is recorded and its penalty subtracted.
     */
    method ApplyRule(rule: Rule, asset: Asset, now: DateTime, ghost done: seq<Deduction>, findings: seq<string>, score: int)
      returns (findings': seq<string>, score': int)
      requires findings == Findings(done) && score == StartScore - TotalPenalty(done)
      ensures findings' == Findings(done + RuleDeductions(rule, asset, now, script))
      ensures score' == StartScore - TotalPenalty(done + RuleDeductions(rule, asset, now, script))
    {
      ghost var d1 := done + InspectionPart(rule, asset, now);
      ghost var d2 := d1 + ValuePart(rule, asset);
      ghost var d3 := d2 + ScriptPart(rule, asset, script);
      findings', score' := InspectionStep(rule, asset, now, done, findings, score);
      findings', score' := ValueStep(rule, asset, d1, findings', score');
      findings', score' := ScriptStep(rule, asset, d2, findings', score');
      assert findings' == Findings(d3) && score' == StartScore - TotalPenalty(d3);
      RuleDeductionsAfter(rule, asset, now, script, done);
    }

    /**
     * The rule loop of CheckAssetComplianceAsync: starting from 100, each
     * finding is recorded and its penalty subtracted, rule after rule.
     */
    method CollectFindings(ordered: seq<Rule>, asset: Asset, now: DateTime) returns (findings: seq<string>, score: int)
      ensures findings == Findings(Deductions(ordered, asset, now, script))
      ensures score == StartScore - TotalPenalty(Deductions(ordered, asset, now, script))
    {
      findings := [];
      score := StartScore;
      ghost var done: seq<Deduction> := [];
      var i := 0;
      while i < |ordered|
        invariant 0 <= i <= |ordered|
        invariant done == Deductions(ordered[..i], asset, now, script)
        invariant findings == Findings(done)
        invariant score == StartScore - TotalPenalty(done)
      {
        var rule := ordered[i];
        assert ordered[..i + 1] == ordered[..i] + [rule];
        DeductionsSnoc(ordered[..i], rule, asset, now, script);
        ghost var next := done + RuleDeductions(rule, asset, now, script);
        assert next == Deductions(ordered[..i + 1], asset, now, script);
        findings, score := ApplyRule(rule, asset, now, done, findings, score);
        done := next;
        i := i + 1;
      }
      assert ordered[..|ordered|] == ordered;
    }

    /**
     * `CheckAssetComplianceAsync`: a missing asset throws. Otherwise the
     * active rules run in ascending priority, the clamped score and its
     * status go into a new automatic check by "system" with the next check
     * due in 30 days, and the context is saved, with every change tracked
     * before it. The result carries the findings joined by "; ". A failed
     * save throws its exception and leaves the changes tracked.
     */
    method CheckAssetCompliance(assetId: int, now: DateTime, outcome: InfraRepository.SaveOutcome) returns (r: Result<CheckResult>)
      requires Valid()
      modifies store
      ensures Valid()
      ensures InfraAssetRepository.AssetById(assets, assetId).None? ==>
        && r == Throw(KeyNotFound("Asset not found"))
        && store.db == old(store.db) && store.pending == old(store.pending)
      ensures InfraAssetRepository.AssetById(assets, assetId).Some? ==>
        var ds := CheckDeductions(old(store.ActiveRulesRead()), InfraAssetRepository.AssetById(assets, assetId).value, now, script);
        var written := old(store.pending) + [Repo.CheckAdded(CheckRecord(assetId, ds, now))];
        && (outcome.Saved? ==>
              && r == Ok(CheckResult(assetId, StatusFor(Score(ds)), Score(ds), now, Join("; ", Findings(ds)), Some(AddDays(now, 30))))
              && store.db == Repo.SaveAll(old(store.db), written) && store.pending == [])
        && (outcome.ConcurrencyConflict? ==> r == Throw(InvalidOperation("Concurrency conflict detected")))
        && (outcome.UpdateFailed? ==> r == Throw(InvalidOperation("Database update error occurred")))
        && (!outcome.Saved? ==> store.db == old(store.db) && store.pending == written)
    {
      var found := InfraAssetRepository.AssetById(assets, assetId);
      if found.None? {
        return Throw(KeyNotFound("Asset not found"));
      }
      var asset := found.value;
      var rules := store.ActiveRulesRead();
      ghost var ds := CheckDeductions(rules, asset, now, script);
      var findings, score := CollectFindings(ByPriority(rules), asset, now);
      score := Clamp(score);
      assert findings == Findings(ds) && score == Score(ds);
      var check := Check(0, assetId, now, StatusFor(score), score, findings, "system", true, Some(AddDays(now, 30)));
      assert check == CheckRecord(assetId, ds, now);
      store.AddCheck(check);
      var saved := store.SaveChanges(outcome);
      if saved.Throw? {
        return Throw(saved.error);
      }
      return Ok(CheckResult(assetId, check.status, score, check.checkDate, Join("; ", findings), check.nextCheckDate));
    }

    /**
     * `AcknowledgeAlertAsync`: a missing alert throws; otherwise the alert
     * as read is Acknowledged by the user at `now` and tracked as modified.
     */
    method AcknowledgeAlert(alertId: int, userId: string, now: DateTime) returns (r: Result<Alert>)
      requires Valid()
      modifies store
      ensures Valid()
      ensures store.db == old(store.db)
      ensures !(1 <= alertId <= |store.db.alerts|) ==>
        r == Throw(KeyNotFound("Alert not found")) && store.pending == old(store.pending)
      ensures 1 <= alertId <= |store.db.alerts| ==>
        && r == Ok(old(store.Alerts())[alertId - 1].(acknowledgedAt := Some(now), acknowledgedBy := Some(userId),
                                                   status := AlertAcknowledged))
        && store.pending == old(store.pending) + [Repo.AlertUpdated(r.value)]
        && store.Alerts() == old(store.Alerts())[alertId - 1 := r.value]
    {
      var alerts := store.Alerts();
      Repo.AlertByIdInStore(alerts, alertId);
      var found := Repo.AlertById(alerts, alertId);
      if found.None? {
        return Throw(KeyNotFound("Alert not found"));
      }
      var alert := found.value.(acknowledgedAt := Some(now), acknowledgedBy := Some(userId), status := AlertAcknowledged);
      Repo.TrackAlertUpdate(store.pending, store.db.alerts, alert);
      store.UpdateAlert(alert);
      return Ok(alert);
    }

    /**
     * `ResolveAlertAsync`: a missing alert throws; otherwise the alert as
     * read is Resolved by the user with the notes and tracked as modified.
     */
    method ResolveAlert(alertId: int, userId: string, notes: string, now: DateTime) returns (r: Result<Alert>)
      requires Valid()
      modifies store
      ensures Valid()
      ensures store.db == old(store.db)
      ensures !(1 <= alertId <= |store.db.alerts|) ==>
        r == Throw(KeyNotFound("Alert not found")) && store.pending == old(store.pending)
      ensures 1 <= alertId <= |store.db.alerts| ==>
        && r == Ok(old(store.Alerts())[alertId - 1].(resolvedAt := Some(now), resolvedBy := Some(userId),
                                                   resolutionNotes := Some(notes), status := AlertResolved))
        && store.pending == old(store.pending) + [Repo.AlertUpdated(r.value)]
        && store.Alerts() == old(store.Alerts())[alertId - 1 := r.value]
    {
      var alerts := store.Alerts();
      Repo.AlertByIdInStore(alerts, alertId);
      var found := Repo.AlertById(alerts, alertId);
      if found.None? {
        return Throw(KeyNotFound("Alert not found"));
      }
      var alert := found.value.(resolvedAt := Some(now), resolvedBy := Some(userId),
                                resolutionNotes := Some(notes), status := AlertResolved);
      Repo.TrackAlertUpdate(store.pending, store.db.alerts, alert);
      store.UpdateAlert(alert);
      return Ok(alert);
    }

    /** The loop of UpdateExpiredRulesAsync over the rules `active` it read: each expired one is deactivated and tracked. */
    method ExpireEach(active: seq<Rule>, now: DateTime) returns (count: int)
      requires Valid()
      modifies store
      ensures Valid()
      ensures store.db == old(store.db) && store.pending == old(store.pending) + ExpiryUpdates(active, now)
      ensures count == CountWhere(active, ExpiredAt(now))
    {
      count := 0;
      var i := 0;
      while i < |active|
        invariant 0 <= i <= |active|
        invariant Valid()
        invariant store.db == old(store.db)
        invariant store.pending == old(store.pending) + ExpiryUpdates(active[..i], now)
        invariant count == CountWhere(active[..i], ExpiredAt(now))
      {
        ExpiryUpdatesSnoc(active, i, now);
        CountPrefix(active, i, ExpiredAt(now));
        AppendAssoc(old(store.pending), ExpiryUpdates(active[..i], now), ExpiryWrite(active[i], now));
        var changed := ExpireOne(active[i], now);
        if changed {
          count := count + 1;
        }
        i := i + 1;
      }
      assert active[..|active|] == active;
    }

    /** One turn of the UpdateExpiredRulesAsync loop: the rule is deactivated and tracked when it has expired. */
    method ExpireOne(rule: Rule, now: DateTime) returns (changed: bool)
      modifies store
      ensures changed == HasExpired(rule, now)
      ensures store.db == old(store.db) && store.pending == old(store.pending) + ExpiryWrite(rule, now)
    {
      changed := rule.effectiveTo.Some? && rule.effectiveTo.value < now;
      if changed {
        store.UpdateRule(rule.(isActive := false));
      } else {
        assert old(store.pending) + [] == old(store.pending);
      }
    }

    /**
     * `UpdateExpiredRulesAsync`: every rule the database holds as active
     * whose EffectiveTo lies before now is deactivated and tracked; the
     * count is how many. Nothing is written.
     */
    method UpdateExpiredRules(now: DateTime) returns (count: int)
      requires Valid()
      modifies store
      ensures Valid()
      ensures store.db == old(store.db)
      ensures store.pending == old(store.pending) + ExpiryUpdates(old(store.ActiveRulesRead()), now)
      ensures count == CountWhere(old(store.ActiveRulesRead()), ExpiredAt(now))
    {
      var active := store.ActiveRulesRead();
      count := ExpireEach(active, now);
    }

    /** The loop of ResolveStaleAlertsAsync over the alerts `active` it read: each one older than the cut-off is resolved and tracked. */
    method ResolveEach(active: seq<Alert>, cutoff: DateTime, now: DateTime) returns (count: int)
      requires Valid()
      modifies store
      ensures Valid()
      ensures store.db == old(store.db) && store.pending == old(store.pending) + StaleUpdates(active, cutoff, now)
      ensures count == CountWhere(active, CreatedBefore(cutoff))
    {
      count := 0;
      var i := 0;
      while i < |active|
        invariant 0 <= i <= |active|
        invariant Valid()
        invariant store.db == old(store.db)
        invariant store.pending == old(store.pending) + StaleUpdates(active[..i], cutoff, now)
        invariant count == CountWhere(active[..i], CreatedBefore(cutoff))
      {
        StaleUpdatesSnoc(active, i, cutoff, now);
        CountPrefix(active, i, CreatedBefore(cutoff));
        AppendAssoc(old(store.pending), StaleUpdates(active[..i], cutoff, now), StaleWrite(active[i], cutoff, now));
        var changed := ResolveOne(active[i], cutoff, now);
        if changed {
          count := count + 1;
        }
        i := i + 1;
      }
      assert active[..|active|] == active;
    }

    /** One turn of the ResolveStaleAlertsAsync loop: the alert is resolved and tracked when it is older than the cut-off. */
    method ResolveOne(a: Alert, cutoff: DateTime, now: DateTime) returns (changed: bool)
      modifies store
      ensures changed == (a.createdAt < cutoff)
      ensures store.db == old(store.db) && store.pending == old(store.pending) + StaleWrite(a, cutoff, now)
    {
      changed := a.createdAt < cutoff;
      if changed {
        store.UpdateAlert(a.(status := AlertResolved, resolvedAt := Some(now), resolvedBy := Some("system")));
      } else {
        assert old(store.pending) + [] == old(store.pending);
      }
    }

    /**
     * `ResolveStaleAlertsAsync`: every alert the database holds as New or
     * Acknowledged and created before now - daysOld days is resolved by
     * "system" and tracked; the count is how many. Nothing is written.
     */
    method ResolveStaleAlerts(daysOld: int, now: DateTime) returns (count: int)
      requires Valid()
      modifies store
      ensures Valid()
      ensures store.db == old(store.db)
      ensures store.pending == old(store.pending) + StaleUpdates(old(store.ActiveAlertsRead()), StaleCutoff(now, daysOld), now)
      ensures count == CountWhere(old(store.ActiveAlertsRead()), CreatedBefore(StaleCutoff(now, daysOld)))
    {
      var active := store.ActiveAlertsRead();
      var cutoff := AddDays(now, -daysOld);
      count := ResolveEach(active, cutoff, now);
    }
  }

  /** The three checks of a rule, appended one by one, append the rule's findings. */
  lemma RuleDeductionsAfter(rule: Rule, asset: Asset, now: DateTime, script: Option<ScriptEvaluator>, done: seq<Deduction>)
    ensures done + InspectionPart(rule, asset, now) + ValuePart(rule, asset) + ScriptPart(rule, asset, script)
      == done + RuleDeductions(rule, asset, now, script)
  {
    var a, b, c := InspectionPart(rule, asset, now), ValuePart(rule, asset), ScriptPart(rule, asset, script);
    assert RuleDeductions(rule, asset, now, script) == a + b + c;
    AppendAssoc3(done, a, b, c);
  }

  /** The two insured-value checks, appended one by one, append the rule's value findings. */
  lemma ValuePartAfter(rule: Rule, asset: Asset, done: seq<Deduction>)
    ensures done + MinimumPart(rule, asset) + MaximumPart(rule, asset) == done + ValuePart(rule, asset)
  {
    var lo, hi := MinimumPart(rule, asset), MaximumPart(rule, asset);
    assert ValuePart(rule, asset) == lo + hi;
    assert done + lo + hi == done + (lo + hi);
  }

  /** Appending one deduction appends its finding and adds its penalty. */
  lemma AddDeduction(ds: seq<Deduction>, d: Deduction)
    ensures Findings(ds + [d]) == Findings(ds) + [d.finding]
    ensures TotalPenalty(ds + [d]) == TotalPenalty(ds) + d.penalty
  {
    assert (ds + [d])[..|ds|] == ds;
  }
}

=== FILE: app_compliance_service.dfy ===
/**
 * The simple compliance service of the root tree
 * (InsureX.Application/Services/ComplianceService.cs): an asset is
 * compliant exactly when it is Active; a check hands its result to the
 * generic repository as an unsaved addition, and stored results are read
 * back as a newest-first history page, a rate and a list of recent critical
 * failures.
 */
module AppComplianceService {
  import opened Common
  import opened AppDomain
  import Ordering
  import InfraAssetRepository
  import Repo = InfraRepository

  /** `asset.TenantId != _tenantContext.TenantId`: a missing tenant never matches. */
  predicate OfTenant(a: Asset, tenant: Option<int>)
  {
    tenant.Some? && a.tenantId == tenant.value
  }

  /** The result recorded for an asset the tenant owns: compliant exactly when the asset is Active. */
  function ActiveStatusResult(asset: Asset, assetId: int, id: int, now: DateTime): (r: ComplianceResult)
    ensures r.assetId == assetId && r.checkedAt == now && r.id == id
    ensures r.isCompliant <==> asset.status == AssetActive
    ensures r.isCompliant ==> r.severity == Info && r.status == StatusCompliant && r.message == "Asset is compliant"
    ensures !r.isCompliant ==> r.severity == Critical && r.status == StatusNonCompliant && r.message == "Asset is not active"
    ensures r.nextCheckDue.None? && r.alerts.None?
  {
    var isCompliant := asset.status == AssetActive;
    ComplianceResult(
      id, assetId, isCompliant,
      if isCompliant then StatusCompliant else StatusNonCompliant,
      if isCompliant then "Asset is compliant" else "Asset is not active",
      now, None,
      if isCompliant then Info else Critical,
      None)
  }

  predicate CheckedDesc(a: ComplianceResult, b: ComplianceResult) { a.checkedAt >= b.checkedAt }

  lemma CheckedDescPreorder()
    ensures Ordering.TotalPreorder(CheckedDesc)
  {
  }

  function ResultsOf(assetId: int): ComplianceResult -> bool
  {
    (c: ComplianceResult) => c.assetId == assetId
  }

  /** A page of results as GetComplianceHistoryAsync builds it. */
  datatype HistoryPage = HistoryPage(
    items: seq<ComplianceResult>,
    page: int,
    pageSize: int,
    totalItems: nat,
    totalPages: Option<int>,
    hasNext: bool)

  /**
   * `GetComplianceHistoryAsync`: the asset's results newest first, sliced
   * by page. TotalPages is `(int)Math.Ceiling(totalItems / (double)pageSize)`,
   * which has no value for a page size of zero.
   */
  function History(results: seq<ComplianceResult>, assetId: int, page: int, pageSize: int): HistoryPage
  {
    CheckedDescPreorder();
    var mine := Ordering.WhereOrder(results, ResultsOf(assetId), CheckedDesc);
    HistoryPage(
      Page(mine, page, pageSize), page, pageSize, |mine|,
      if pageSize == 0 then None else Some(CeilRatio(|mine|, pageSize)),
      page * pageSize < |mine|)
  }

  /**
   * Every item of a history page is a result of the asset, the page is
   * newest first, and TotalItems counts all of the asset's results.
   */
  lemma HistorySpec(results: seq<ComplianceResult>, assetId: int, page: int, pageSize: int)
    ensures var h := History(results, assetId, page, pageSize);
      && (forall c :: c in h.items ==> c in results && c.assetId == assetId)
      && Ordering.SortedBy(h.items, CheckedDesc)
      && h.totalItems == CountWhere(results, ResultsOf(assetId))
  {
    CheckedDescPreorder();
    var mine := Ordering.WhereOrder(results, ResultsOf(assetId), CheckedDesc);
    assert History(results, assetId, page, pageSize).items == Page(mine, page, pageSize);
    PageWithin(mine, page, pageSize);
    Ordering.PageSorted(mine, page, pageSize, CheckedDesc);
  }

  /**
   * TotalPages is the ceiling of the asset's results over a non-zero page
   * size, and none for a zero one; for a page number and size of at least
   * 1, HasNext holds exactly when results remain after this page.
   */
  lemma HistoryPaging(results: seq<ComplianceResult>, assetId: int, page: int, pageSize: int)
    ensures var h := History(results, assetId, page, pageSize);
      && (h.totalPages.None? <==> pageSize == 0)
      && (pageSize > 0 ==> (h.totalPages.value - 1) * pageSize < h.totalItems <= h.totalPages.value * pageSize)
      && (page >= 1 && pageSize >= 1 ==> (h.hasNext <==> PageStart(page, pageSize) + |h.items| < h.totalItems))
  {
    CheckedDescPreorder();
    var mine := Ordering.WhereOrder(results, ResultsOf(assetId), CheckedDesc);
    var h := History(results, assetId, page, pageSize);
    var n := |mine|;
    assert h == HistoryPage(
      Page(mine, page, pageSize), page, pageSize, n,
      if pageSize == 0 then None else Some(CeilRatio(n, pageSize)),
      page * pageSize < n);
    HistoryPageFlags(mine, page, pageSize);
  }

  /** The paging flags of a history page built from the asset's results `mine`. */
  lemma HistoryPageFlags(mine: seq<ComplianceResult>, page: int, pageSize: int)
    ensures var n := |mine|;
      var h := HistoryPage(
        Page(mine, page, pageSize), page, pageSize, n,
        if pageSize == 0 then None else Some(CeilRatio(n, pageSize)),
        page * pageSize < n);
      && (h.totalPages.None? <==> pageSize == 0)
      && (pageSize > 0 ==> (h.totalPages.value - 1) * pageSize < h.totalItems <= h.totalPages.value * pageSize)
      && (page >= 1 && pageSize >= 1 ==> (h.hasNext <==> PageStart(page, pageSize) + |h.items| < h.totalItems))
  {
    if page >= 1 && pageSize >= 1 {
      PageEndBeforeTotal(mine, page, pageSize);
    }
  }

  /** A page ends before the last item exactly when `page * pageSize` is below the item count. */
  lemma PageEndBeforeTotal<T>(s: seq<T>, page: int, pageSize: int)
    requires page >= 1 && pageSize >= 1
    ensures page * pageSize < |s| <==> PageStart(page, pageSize) + |Page(s, page, pageSize)| < |s|
  {
    PageContents(s, page, pageSize);
    var start := PageStart(page, pageSize);
    assert start + pageSize == page * pageSize;
  }

  /** GetComplianceRateAsync without its floating-point division and rounding. */
  datatype Rate = Full | Ratio(compliant: nat, total: nat)

  function ActiveOfTenant(tenant: Option<int>): Asset -> bool
  {
    (a: Asset) => OfTenant(a, tenant) && a.status == AssetActive
  }

  /**
   * `GetComplianceRateAsync`: exactly 100 (`Full`) when the tenant has no
   * assets; otherwise the share of its assets that are Active.
   */
  function ComplianceRate(assets: seq<Asset>, tenant: Option<int>): (r: Rate)
    ensures r.Full? <==> forall i :: 0 <= i < |assets| ==> !OfTenant(assets[i], tenant)
    ensures r.Ratio? ==> 0 <= r.compliant <= r.total && r.total > 0
    ensures r.Ratio? ==> r.total == CountWhere(assets, (a: Asset) => OfTenant(a, tenant))
  {
    var mine := Filter(assets, (a: Asset) => OfTenant(a, tenant));
    CountIsFilterLength(assets, (a: Asset) => OfTenant(a, tenant));
    CountExtremes(assets, (a: Asset) => OfTenant(a, tenant));
    if mine == [] then Full
    else
      CountExtremes(mine, (a: Asset) => a.status == AssetActive);
      Ratio(CountWhere(mine, (a: Asset) => a.status == AssetActive), |mine|)
  }

  predicate IsCriticalFailure(c: ComplianceResult) { !c.isCompliant && c.severity == Critical }

  /** `GetRecentAlertsAsync`: the non-compliant Critical results, newest first, at most `count`. */
  function RecentAlerts(results: seq<ComplianceResult>, count: int): (r: seq<ComplianceResult>)
    ensures forall c :: c in r ==> c in results && !c.isCompliant && c.severity == Critical
    ensures Ordering.SortedBy(r, CheckedDesc)
    ensures |r| == Max(0, Min(count, CountWhere(results, IsCriticalFailure)))
    ensures Ordering.KeepsTop(r, results, IsCriticalFailure, CheckedDesc)
  {
    CheckedDescPreorder();
    Ordering.WhereOrderTake(results, IsCriticalFailure, CheckedDesc, count)
  }

  /** The key the generic repository looks an asset up by. */
  function AssetKey(a: Asset): int { a.id }

  /** The key of a stored result. */
  function ResultKey(c: ComplianceResult): int { c.id }

  class ComplianceService {
    const complianceRepository: Repo.Repository<ComplianceResult>
    const assetRepository: Repo.Repository<Asset>
    const tenant: Option<int>

    /** Both repositories are the generic `Repository<T>` over their sets, keyed by id. */
    constructor (results: seq<ComplianceResult>, assets: seq<Asset>, tenant: Option<int>)
      ensures complianceRepository.stored == results && complianceRepository.pending == []
      ensures complianceRepository.key == ResultKey
      ensures assetRepository.stored == assets && assetRepository.pending == []
      ensures assetRepository.key == AssetKey
      ensures this.tenant == tenant
    {
      complianceRepository := new Repo.Repository(results, ResultKey);
      assetRepository := new Repo.Repository(assets, AssetKey);
      this.tenant := tenant;
    }

    /**
     * `CheckAssetComplianceAsync`: the asset lookup refuses Guid.Empty; a
     * missing asset or one of another tenant gives null and tracks nothing;
     * otherwise the new result is tracked as an addition (it is not saved:
     * the service never calls SaveChanges) and returned. `id` is the new
     * result's Guid.
     */
    method CheckAssetCompliance(assetId: int, id: int, now: DateTime) returns (r: Result<Option<ComplianceResult>>)
      requires assetRepository.key == AssetKey
      modifies complianceRepository
      ensures complianceRepository.stored == old(complianceRepository.stored)
      ensures assetId == EmptyGuid ==>
        r == Throw(ArgumentError("Id cannot be empty")) && complianceRepository.pending == old(complianceRepository.pending)
      ensures assetId != EmptyGuid ==>
        var found := InfraAssetRepository.AssetById(assetRepository.stored, assetId);
        && (found.None? || !OfTenant(found.value, tenant) ==>
              r == Ok(None) && complianceRepository.pending == old(complianceRepository.pending))
        && (found.Some? && OfTenant(found.value, tenant) ==>
              && r == Ok(Some(ActiveStatusResult(found.value, assetId, id, now)))
              && complianceRepository.pending == old(complianceRepository.pending) + [Repo.Added(r.value.value)])
    {
      var lookup := assetRepository.GetByGuid(assetId);
      if lookup.Throw? {
        return Throw(lookup.error);
      }
      FirstOrDefaultAgrees(assetRepository.stored, Repo.KeyIs(AssetKey, assetId), (a: Asset) => a.id == assetId);
      var asset := lookup.value;
      assert asset == InfraAssetRepository.AssetById(assetRepository.stored, assetId);
      if asset.None? || tenant.None? || asset.value.tenantId != tenant.value {
        return Ok(None);
      }
      var result := ActiveStatusResult(asset.value, assetId, id, now);
      var saved := complianceRepository.Add(Some(result));
      return Ok(Some(saved.value));
    }
  }
}

=== FILE: app_domain.dfy ===
/**
 * The entities of the root `InsureX.*` tree as the services and
 * repositories of that tree use them, and the identity-based equality of
 * InsureX.Domain/Entities/BaseEntity.cs.
 *
 * The entity classes of the tree do not agree with the code that uses them
 * (the engine reads `RuleType`, `DaysToExpiry`, `MinValue`, `CustomScript`
 * and `Status` on rules and alerts that the entity files do not declare;
 * the policy repository reads `EndDate`, `SumInsured` and `InsurerName`).
 * Each record below carries the fields the modelled code reads or writes,
 * with a nullable field as an `Option`. Ids are integers; a Guid is an
 * integer with Guid.Empty = 0.
 */
module AppDomain {
  import opened Common

  // ---------------------------------------------------------------------
  // Status values
  // ---------------------------------------------------------------------

  const AssetActive := "Active"
  const AssetDeleted := "Deleted"
  const CompliancePending := "Pending"
  const StatusCompliant := "Compliant"
  const StatusWarning := "Warning"
  const StatusNonCompliant := "Non-Compliant"
  const AlertNew := "New"
  const AlertAcknowledged := "Acknowledged"
  const AlertResolved := "Resolved"
  const PolicyActive := "Active"

  /** `ComplianceSeverity` of ComplianceCheckResultDto.cs, as names rather than numbers. */
  datatype Severity = Info | Warning | Minor | Critical | Blocker

  // ---------------------------------------------------------------------
  // Records
  // ---------------------------------------------------------------------

  datatype Asset = Asset(
    id: int,
    tenantId: int,
    assetTag: string,
    make: string,
    model: string,
    year: int,
    serialNumber: Option<string>,
    vin: Option<string>,
    status: string,
    complianceStatus: Option<string>,
    value: Option<int>,
    insuredValue: Option<int>,
    purchaseDate: Option<DateTime>,
    lastInspectionDate: Option<DateTime>,
    notes: Option<string>,
    createdAt: DateTime,
    createdBy: Option<string>,
    updatedAt: Option<DateTime>,
    updatedBy: Option<string>)

  datatype Rule = Rule(
    id: int,
    ruleCode: string,
    ruleName: string,
    description: string,
    ruleType: string,
    priority: int,
    severity: int,
    isActive: bool,
    effectiveTo: Option<DateTime>,
    daysToExpiry: Option<int>,
    minValue: Option<int>,
    maxValue: Option<int>,
    customScript: Option<string>,
    applicableAssetTypes: Option<string>)

  /** A check record of the engine; `findings` is the list the engine serialises. */
  datatype Check = Check(
    id: int,
    assetId: int,
    checkDate: DateTime,
    status: string,
    score: int,
    findings: seq<string>,
    checkedBy: string,
    isAutomatic: bool,
    nextCheckDate: Option<DateTime>)

  datatype Alert = Alert(
    id: int,
    assetId: Option<int>,
    status: string,
    createdAt: DateTime,
    acknowledgedAt: Option<DateTime>,
    acknowledgedBy: Option<string>,
    resolvedAt: Option<DateTime>,
    resolvedBy: Option<string>,
    resolutionNotes: Option<string>)

  datatype History = History(id: int, assetId: int, changeDate: DateTime, previousStatus: string, newStatus: string)

  datatype Dashboard = Dashboard(
    id: int,
    tenantId: int,
    snapshotDate: DateTime,
    totalAssets: int,
    compliantAssets: int,
    nonCompliantAssets: int,
    warningAssets: int,
    activeAlerts: int)

  /** A result of the simple compliance service; `alerts` is null when nothing loaded it. */
  datatype ComplianceResult = ComplianceResult(
    id: int,
    assetId: int,
    isCompliant: bool,
    status: string,
    message: string,
    checkedAt: DateTime,
    nextCheckDue: Option<DateTime>,
    severity: Severity,
    alerts: Option<seq<Alert>>)

  datatype Policy = Policy(
    id: int,
    tenantId: int,
    assetId: int,
    policyNumber: string,
    policyType: string,
    insurerName: string,
    status: string,
    endDate: DateTime,
    sumInsured: int,
    premium: int)

  datatype Claim = Claim(id: int, policyId: int, claimNumber: string, status: string)

  // ---------------------------------------------------------------------
  // BaseEntity.cs
  // ---------------------------------------------------------------------

  /** The audited base of every entity, compared by identity. */
  class BaseEntity {
    var id: int
    var createdAt: DateTime
    var createdBy: Option<string>
    var updatedAt: Option<DateTime>
    var updatedBy: Option<string>

    /** `new BaseEntity()`: the id and the creation time come from `Guid.NewGuid()` and the clock. */
    constructor (id: int, now: DateTime)
      ensures this.id == id && createdAt == now
      ensures createdBy == None && updatedAt == None && updatedBy == None
    {
      this.id := id;
      createdAt := now;
      createdBy := None;
      updatedAt := None;
      updatedBy := None;
    }

    /** `IsTransient()`: the entity has not been given an id. */
    predicate IsTransient()
      reads this
    {
      id == EmptyGuid
    }

    /**
     * `Equals(object)`: `other` is null for an argument that is null or not
     * a BaseEntity. The same reference is equal; otherwise two entities are
     * equal when neither is transient and their ids agree.
     */
    predicate EntityEquals(other: BaseEntity?)
      reads this, other
    {
      if other == null then false
      else if this == other then true
      else if IsTransient() || other.IsTransient() then false
      else id == other.id
    }

    /** `GetHashCode()`: the hash of the id, for the id type's own hash function. */
    function HashCode(hash: int -> int): int
      reads this
    {
      hash(id)
    }

    /** `UpdateAuditFields(updatedBy)`: stamps the time; a null user keeps the previous one. */
    method UpdateAuditFields(user: Option<string>, now: DateTime)
      modifies this
      ensures updatedAt == Some(now)
      ensures updatedBy == if user.Some? then user else old(updatedBy)
      ensures id == old(id) && createdAt == old(createdAt) && createdBy == old(createdBy)
    {
      updatedAt := Some(now);
      if user.Some? {
        updatedBy := user;
      }
    }
  }

  /** Nothing equals null (or an object that is not an entity). */
  lemma EqualsNull(a: BaseEntity)
    ensures !a.EntityEquals(null)
  {
  }

  /** Equality is reflexive, symmetric and transitive. */
  lemma EqualsIsEquivalence(a: BaseEntity, b: BaseEntity, c: BaseEntity)
    ensures a.EntityEquals(a)
    ensures a.EntityEquals(b) == b.EntityEquals(a)
    ensures a.EntityEquals(b) && b.EntityEquals(c) ==> a.EntityEquals(c)
  {
  }

  /** Two objects are equal exactly when they are one object, or two persisted entities with one id. */
  lemma EqualsIff(a: BaseEntity, b: BaseEntity)
    ensures a.EntityEquals(b) <==> a == b || (!a.IsTransient() && !b.IsTransient() && a.id == b.id)
  {
  }

  /** A transient entity equals only itself. */
  lemma TransientEqualsOnlyItself(a: BaseEntity, b: BaseEntity)
    requires a.IsTransient() && a.EntityEquals(b)
    ensures a == b
  {
  }

  /** Equal entities have equal hash codes, whatever the hash of the id. */
  lemma EqualEntitiesEqualHashes(a: BaseEntity, b: BaseEntity, hash: int -> int)
    requires a.EntityEquals(b)
    ensures a.HashCode(hash) == b.HashCode(hash)
  {
  }
}

=== FILE: app_dtos.dfy ===
/**
 * The paged results of the root tree: the DTO of
 * InsureX.Application/DTOs/PagedResult.cs, whose page count is computed,
 * and the model of InsureX.Application/Common/Models/PagedResult.cs, whose
 * page count is stored when the page is cut from a query. Also the search
 * form defaults and expiry flags of InsureX.Application/DTOs/PolicyDto.cs.
 */
module AppDtos {
  import opened Common

  // ---------------------------------------------------------------------
  // DTOs/PagedResult.cs
  // ---------------------------------------------------------------------

  datatype PagedResult<T> = PagedResult(items: seq<T>, page: int, pageSize: int, totalItems: int)

  /** `TotalPages`: 0 for a size of 0, else `(int)Math.Ceiling(TotalItems / (double)PageSize)`. */
  function TotalPages<T>(r: PagedResult<T>): (n: int)
    ensures r.pageSize == 0 ==> n == 0
    ensures r.pageSize > 0 ==> (n - 1) * r.pageSize < r.totalItems <= n * r.pageSize
    ensures r.pageSize > 0 && r.totalItems >= 0 ==> n == CeilDiv(r.totalItems, r.pageSize)
  {
    if r.pageSize == 0 then 0
    else
      if r.pageSize > 0 && r.totalItems >= 0 then CeilRatioOfCount(r.totalItems, r.pageSize); CeilRatio(r.totalItems, r.pageSize)
      else CeilRatio(r.totalItems, r.pageSize)
  }

  predicate HasNext<T>(r: PagedResult<T>) { r.page < TotalPages(r) }

  predicate HasPrevious<T>(r: PagedResult<T>) { r.page > 1 }

  predicate HasItems<T>(r: PagedResult<T>) { r.items != [] }

  /** For a positive size there is a next page exactly when the pages so far hold fewer than all the items. */
  lemma HasNextIff<T>(r: PagedResult<T>)
    requires r.pageSize > 0
    ensures HasNext(r) <==> r.page * r.pageSize < r.totalItems
  {
    BelowCeilIff(r.page, r.totalItems, r.pageSize);
  }

  /** `new PagedResult<T>()`: no items, page 1 of size 25. */
  function NewPagedResult<T>(): (r: PagedResult<T>)
    ensures !HasItems(r) && !HasNext(r) && !HasPrevious(r) && TotalPages(r) == 0
  {
    PagedResult([], 1, 25, 0)
  }

  /** The four-argument constructor: a null list becomes an empty one, the rest is stored as given. */
  function PagedResultOf<T>(items: Option<seq<T>>, totalItems: int, page: int, pageSize: int): (r: PagedResult<T>)
    ensures r.items == if items.Some? then items.value else []
    ensures r.totalItems == totalItems && r.page == page && r.pageSize == pageSize
    ensures HasItems(r) <==> items.Some? && items.value != []
  {
    PagedResult(items.GetOr([]), page, pageSize, totalItems)
  }

  /** `Empty()`: no items, total 0, page 1 of size 25, so neither a next nor a previous page. */
  function EmptyPage<T>(): (r: PagedResult<T>)
    ensures r.items == [] && r.totalItems == 0 && r.page == 1 && r.pageSize == 25
    ensures TotalPages(r) == 0 && !HasNext(r) && !HasPrevious(r) && !HasItems(r)
  {
    PagedResult([], 1, 25, 0)
  }

  // ---------------------------------------------------------------------
  // Common/Models/PagedResult.cs
  // ---------------------------------------------------------------------

  /**
   * The stored page count is `None` where `(int)Math.Ceiling(totalItems /
   * (double)pageSize)` divides by zero, whose conversion to `int` is
   * unspecified.
   */
  datatype ModelPage<T> = ModelPage(items: seq<T>, page: int, pageSize: int, totalItems: int, totalPages: Option<int>)

  /** `HasNext => Page < TotalPages`, false while the page count is undefined. */
  predicate ModelHasNext<T>(r: ModelPage<T>) { r.totalPages.Some? && r.page < r.totalPages.value }

  predicate ModelHasPrevious<T>(r: ModelPage<T>) { r.page > 1 }

  /** `FirstItem => (Page - 1) * PageSize + 1`: the 1-based position of the page's first item. */
  function FirstItem<T>(r: ModelPage<T>): int { (r.page - 1) * r.pageSize + 1 }

  /** `LastItem => Math.Min(Page * PageSize, TotalItems)`. */
  function LastItem<T>(r: ModelPage<T>): int { Min(r.page * r.pageSize, r.totalItems) }

  predicate IsEmpty<T>(r: ModelPage<T>) { r.items == [] }

  /** `CreateAsync`: the source's count, and the page of it at (page - 1) * pageSize. */
  function CreatePage<T>(source: seq<T>, page: int, pageSize: int): (r: ModelPage<T>)
    ensures r.items == Page(source, page, pageSize) && r.totalItems == |source|
    ensures r.page == page && r.pageSize == pageSize
    ensures r.totalPages.None? <==> pageSize == 0
    ensures pageSize > 0 ==> r.totalPages == Some(CeilDiv(|source|, pageSize))
  {
    if pageSize > 0 then CeilRatioOfCount(|source|, pageSize); ModelPage(Page(source, page, pageSize), page, pageSize, |source|, Some(CeilRatio(|source|, pageSize)))
    else ModelPage(Page(source, page, pageSize), page, pageSize, |source|, if pageSize == 0 then None else Some(CeilRatio(|source|, pageSize)))
  }

  /**
   * On a page of a created result that lies within the page count, the
   * items are exactly those numbered FirstItem to LastItem, and they are the
   * source's items from index FirstItem - 1 on; a next page exists exactly
   * when the pages so far hold fewer than all the items.
   */
  lemma CreatePageSpec<T>(source: seq<T>, page: int, pageSize: int)
    requires page >= 1 && pageSize >= 1
    ensures var r := CreatePage(source, page, pageSize);
      && (ModelHasNext(r) <==> page * pageSize < |source|)
      && (page <= r.totalPages.value ==>
            && |r.items| == LastItem(r) - FirstItem(r) + 1
            && forall i :: 0 <= i < |r.items| ==> r.items[i] == source[FirstItem(r) - 1 + i])
  {
    CreatePageHasNext(source, page, pageSize);
    CreatePageItems(source, page, pageSize);
  }

  /** A created page has a next page exactly when the pages so far hold fewer than all the items. */
  lemma CreatePageHasNext<T>(source: seq<T>, page: int, pageSize: int)
    requires page >= 1 && pageSize >= 1
    ensures ModelHasNext(CreatePage(source, page, pageSize)) <==> page * pageSize < |source|
  {
    CeilRatioOfCount(|source|, pageSize);
    BelowCeilIff(page, |source|, pageSize);
  }

  /** Within the page count, a created page holds the items numbered FirstItem to LastItem. */
  lemma CreatePageItems<T>(source: seq<T>, page: int, pageSize: int)
    requires page >= 1 && pageSize >= 1
    ensures var r := CreatePage(source, page, pageSize);
      page <= r.totalPages.value ==>
        && |r.items| == LastItem(r) - FirstItem(r) + 1
        && forall i :: 0 <= i < |r.items| ==> r.items[i] == source[FirstItem(r) - 1 + i]
  {
    var r := CreatePage(source, page, pageSize);
    CeilRatioOfCount(|source|, pageSize);
    BelowCeilIff(page - 1, |source|, pageSize);
    PageContents(source, page, pageSize);
    assert page * pageSize == (page - 1) * pageSize + pageSize;
  }

  /** `Empty(page, pageSize)`: nothing, with both counts 0; with the default page 1 there is no next page. */
  function EmptyModelPage<T>(page: int, pageSize: int): (r: ModelPage<T>)
    ensures IsEmpty(r) && r.totalItems == 0 && r.totalPages == Some(0)
    ensures r.page == page && r.pageSize == pageSize
    ensures ModelHasNext(r) <==> page < 0
  {
    ModelPage([], page, pageSize, 0, Some(0))
  }

  /** `Map(mapper)`: the same page with every item mapped, in order. */
  function MapPage<T, U>(r: ModelPage<T>, f: T -> U): (m: ModelPage<U>)
    ensures m.page == r.page && m.pageSize == r.pageSize && m.totalItems == r.totalItems && m.totalPages == r.totalPages
    ensures |m.items| == |r.items| && forall i :: 0 <= i < |r.items| ==> m.items[i] == f(r.items[i])
    ensures (ModelHasNext(m) <==> ModelHasNext(r)) && FirstItem(m) == FirstItem(r) && LastItem(m) == LastItem(r)
    ensures IsEmpty(m) <==> IsEmpty(r)
  {
    ModelPage(seq(|r.items|, i requires 0 <= i < |r.items| => f(r.items[i])), r.page, r.pageSize, r.totalItems, r.totalPages)
  }

  // ---------------------------------------------------------------------
  // PolicyDto.cs: expiry flags and the search form
  // ---------------------------------------------------------------------

  /** `DaysToExpiry => (int)(EndDate - DateTime.UtcNow).TotalDays`: whole days left, truncated toward zero. */
  function DaysToExpiry(endDate: DateTime, now: DateTime): int
  {
    WholeDays(endDate, now)
  }

  /** `IsExpiringSoon => DaysToExpiry > 0 && DaysToExpiry <= 30`. */
  predicate IsExpiringSoon(endDate: DateTime, now: DateTime)
  {
    var d := DaysToExpiry(endDate, now);
    d > 0 && d <= 30
  }

  /** `IsExpired => DaysToExpiry <= 0`. */
  predicate IsExpired(endDate: DateTime, now: DateTime)
  {
    DaysToExpiry(endDate, now) <= 0
  }

  /**
   * In terms of time left: a policy is expired while less than one whole day
   * remains (the truncated difference of a policy with hours left is
   * already 0), and expiring soon from one whole day up to, not including,
   * 31 days; the two never hold together.
   */
  lemma ExpiryFlags(endDate: DateTime, now: DateTime)
    ensures IsExpired(endDate, now) <==> endDate - now < SecondsPerDay
    ensures IsExpiringSoon(endDate, now) <==> SecondsPerDay <= endDate - now < 31 * SecondsPerDay
    ensures !(IsExpired(endDate, now) && IsExpiringSoon(endDate, now))
  {
    var t := endDate - now;
    if t >= 0 {
      DivAtLeast(t, SecondsPerDay, 1);
      DivAtLeast(t, SecondsPerDay, 31);
    }
  }

  datatype PolicySearch = PolicySearch(
    searchTerm: Option<string>,
    assetId: Option<int>,
    insurerCode: Option<string>,
    policyType: Option<string>,
    status: Option<string>,
    paymentStatus: Option<string>,
    fromDate: Option<DateTime>,
    toDate: Option<DateTime>,
    expiringOnly: Option<bool>,
    expiredOnly: Option<bool>,
    page: int,
    pageSize: int,
    sortBy: Option<string>,
    sortDir: string)

  /** The form as the binder creates it: page 1 of 25, by EndDate ascending. */
  const DefaultPolicySearch := PolicySearch(None, None, None, None, None, None, None, None, None, None, 1, 25, Some("EndDate"), "asc")

  /** The default form's page has no previous page, and a next one exactly when there are more than 25 items. */
  lemma DefaultPolicySearchPage<T>(items: seq<T>, total: int)
    ensures var r := PagedResult(items, DefaultPolicySearch.page, DefaultPolicySearch.pageSize, total);
      && !HasPrevious(r) && (HasNext(r) <==> total > 25)
      && DefaultPolicySearch.sortBy == Some("EndDate") && DefaultPolicySearch.sortDir == "asc"
  {
    HasNextIff(PagedResult(items, DefaultPolicySearch.page, DefaultPolicySearch.pageSize, total));
  }
}

=== FILE: app_mapping_profile.dfy ===
/**
 * The compliance mappings of InsureX.Application/Mappings/MappingProfile.cs:
 * a compliance result becomes a check-result DTO whose severity is derived
 * from the result and whose alert list is never null.
 */
module AppMappingProfile {
  import opened Common
  import opened AppDomain
  import AppComplianceService

  /** ComplianceCheckResultDto without its floating-point score. */
  datatype CheckResultDto = CheckResultDto(
    assetId: int,
    isCompliant: bool,
    severity: Severity,
    activeAlerts: seq<Alert>,
    checkedAt: DateTime)

  /**
   * `MapSeverity`: a failed result is Critical or Warning by its status, and
   * Minor otherwise; a passed result is Warning when its next check fell due
   * more than seven days ago, and Info otherwise. A missing NextCheckDue
   * compares false.
   */
  function MapSeverity(result: ComplianceResult, now: DateTime): Severity
  {
    if !result.isCompliant then
      if result.status == "Critical" then Critical
      else if result.status == "Warning" then Warning
      else Minor
    else if result.nextCheckDue.Some? && result.nextCheckDue.value < AddDays(now, -7) then Warning
    else Info
  }

  /** The status decides a failed result's severity, and a passed result is only Info or Warning. */
  lemma MapSeveritySpec(result: ComplianceResult, now: DateTime)
    ensures !result.isCompliant ==>
      && (MapSeverity(result, now) == Critical <==> result.status == "Critical")
      && (MapSeverity(result, now) == Warning <==> result.status == "Warning")
      && (MapSeverity(result, now) == Minor <==> result.status != "Critical" && result.status != "Warning")
    ensures result.isCompliant ==>
      && MapSeverity(result, now) != Critical && MapSeverity(result, now) != Minor
      && (MapSeverity(result, now) == Warning <==>
            result.nextCheckDue.Some? && result.nextCheckDue.value < AddDays(now, -7))
  {
  }

  /** The DTO mapping: the alerts of a result, or an empty list when it has none. */
  function MapResult(result: ComplianceResult, now: DateTime): (d: CheckResultDto)
    ensures d.activeAlerts == if result.alerts.Some? then result.alerts.value else []
    ensures d.assetId == result.assetId && d.isCompliant == result.isCompliant && d.checkedAt == result.checkedAt
    ensures d.severity == MapSeverity(result, now)
  {
    CheckResultDto(result.assetId, result.isCompliant, MapSeverity(result, now), result.alerts.GetOr([]), result.checkedAt)
  }

  /**
   * A result of the simple compliance service maps to Info when the asset
   * is Active and to Minor otherwise: its status "Non-Compliant" is neither
   * "Critical" nor "Warning", so the Critical severity it was stored with is
   * not carried over.
   */
  lemma ServiceResultSeverity(asset: Asset, assetId: int, id: int, now: DateTime, at: DateTime)
    ensures var d := MapResult(AppComplianceService.ActiveStatusResult(asset, assetId, id, now), at);
      && d.activeAlerts == []
      && d.severity == if asset.status == AssetActive then Info else Minor
  {
  }
}

=== FILE: common.dfy ===
/**
 * Shared vocabulary for the InsureX model: nullable values, the few string
 * operations the services use (ASCII lower-casing, substring search,
 * trimming), integer ceiling division, LINQ-style Where/Count and the
 * Skip/Take slice that every paged query ends with.
 *
 * Conventions used throughout the model:
 *   - a DateTime is an `int` count of seconds since DateTime.MinValue;
 *   - a decimal is an `int`;
 *   - a Guid is an `int`, with 0 standing for Guid.Empty;
 *   - a C# nullable value (or a nullable reference) is an `Option`.
 */
module Common {

  datatype Option<T> = None | Some(value: T)
  {
    /** The C# null-coalescing operator `x ?? d`. */
    function GetOr(d: T): (r: T)
      ensures Some? ==> r == value
      ensures None? ==> r == d
    {
      if Some? then value else d
    }
  }

  const EmptyGuid: int := 0

  /** The exceptions the services throw, and the value-or-exception result of an operation. */
  datatype Exception =
    | DomainException(message: string)
    | UnauthorizedAccess(message: string)
    | KeyNotFound(message: string)
    | ArgumentError(message: string)
    | ArgumentNull(paramName: string)
    | InvalidOperation(message: string)

  datatype Result<T> = Ok(value: T) | Throw(error: Exception)

  // ---------------------------------------------------------------------
  // Time
  // ---------------------------------------------------------------------

  type DateTime = int

  const MinDateTime: DateTime := 0
  const SecondsPerHour: int := 3600
  const SecondsPerDay: int := 86400

  function AddDays(t: DateTime, days: int): DateTime { t + days * SecondsPerDay }

  function AddHours(t: DateTime, hours: int): DateTime { t + hours * SecondsPerHour }

  lemma DivBounds(a: int, d: int)
    requires a >= 0 && d > 0
    ensures a / d >= 0
    ensures (a / d) * d <= a < (a / d) * d + d
  {
    var q, r := a / d, a % d;
    assert a == d * q + r;
    assert 0 <= r < d;
  }

  lemma MulMono(x: int, y: int, a: int)
    requires x <= y && a >= 0
    ensures x * a <= y * a
  {
    assert y * a - x * a == (y - x) * a;
  }

  /** Integer division against a threshold: t / a >= k exactly when t >= k * a. */
  lemma DivAtLeast(t: int, a: int, k: int)
    requires t >= 0 && a > 0
    ensures t / a >= k <==> t >= k * a
  {
    var q := t / a;
    DivBounds(t, a);
    if q >= k {
      MulMono(k, q, a);
    } else {
      MulMono(q + 1, k, a);
      assert (q + 1) * a == q * a + a;
    }
  }

  /** C# integer division and `(int)` casts truncate toward zero. */
  function TruncDiv(a: int, d: int): (q: int)
    requires d > 0
    ensures a >= 0 ==> 0 <= q * d <= a < q * d + d
    ensures a < 0 ==> q * d - d < a <= q * d <= 0
  {
    if a >= 0 then
      DivBounds(a, d);
      a / d
    else
      DivBounds(-a, d);
      var p := (-a) / d;
      assert (-p) * d == -(p * d);
      -p
  }

  /** `(later - earlier).Days` and `(int)(later - earlier).TotalDays`: whole days, truncated toward zero. */
  function WholeDays(later: DateTime, earlier: DateTime): int
  {
    TruncDiv(later - earlier, SecondsPerDay)
  }

  // ---------------------------------------------------------------------
  // Text formatting
  // ---------------------------------------------------------------------

  function DigitChar(d: int): (c: char)
    requires 0 <= d < 10
    ensures '0' <= c <= '9' && c as int - '0' as int == d
  {
    ('0' as int + d) as char
  }

  /** The decimal digits of `n`, most significant first, with no leading zero. */
  function NatToString(n: nat): (r: string)
    ensures |r| >= 1
    ensures forall i :: 0 <= i < |r| ==> '0' <= r[i] <= '9'
    ensures |r| > 1 ==> r[0] != '0'
  {
    if n < 10 then [DigitChar(n)] else NatToString(n / 10) + [DigitChar(n % 10)]
  }

  /** `int.ToString()`. */
  function IntToString(n: int): string
  {
    if n < 0 then "-" + NatToString(-n) else NatToString(n)
  }

  /** `string.Join(sep, parts)`. */
  function Join(sep: string, parts: seq<string>): string
  {
    if parts == [] then ""
    else if |parts| == 1 then parts[0]
    else parts[0] + sep + Join(sep, parts[1..])
  }

  // ---------------------------------------------------------------------
  // Strings
  // ---------------------------------------------------------------------

  predicate IsUpper(c: char) { 'A' <= c <= 'Z' }

  /** `char.ToLowerInvariant` restricted to ASCII letters. */
  function LowerChar(c: char): (r: char)
    ensures !IsUpper(r)
    ensures !IsUpper(c) ==> r == c
  {
    if IsUpper(c) then (c as int + 32) as char else c
  }

  /** `string.ToLower()`, ASCII letters only. */
  function Lower(s: string): (r: string)
    ensures |r| == |s|
    ensures forall i :: 0 <= i < |r| ==> !IsUpper(r[i])
  {
    seq(|s|, i requires 0 <= i < |s| => LowerChar(s[i]))
  }

  lemma LowerIdempotent(s: string)
    ensures Lower(Lower(s)) == Lower(s)
  {
    assert forall i :: 0 <= i < |s| ==> LowerChar(LowerChar(s[i])) == LowerChar(s[i]);
  }

  /** `sub` occurs in `s` starting at index `i`. */
  predicate OccursAt(s: string, sub: string, i: int)
  {
    0 <= i && i + |sub| <= |s| && s[i..i + |sub|] == sub
  }

  /** `string.Contains(sub)` (ordinal). */
  function Contains(s: string, sub: string): (b: bool)
    ensures b <==> exists i :: OccursAt(s, sub, i)
    decreases |s|
  {
    if |sub| > |s| then
      assert forall i :: !OccursAt(s, sub, i);
      false
    else if s[..|sub|] == sub then
      assert OccursAt(s, sub, 0);
      true
    else
      var rest := Contains(s[1..], sub);
      assert forall i :: OccursAt(s[1..], sub, i) <==> OccursAt(s, sub, i + 1) by {
        forall i ensures OccursAt(s[1..], sub, i) <==> OccursAt(s, sub, i + 1) {
          if 0 <= i && i + |sub| <= |s| - 1 {
            assert s[1..][i..i + |sub|] == s[i + 1..i + 1 + |sub|];
          }
        }
      }
      assert forall i :: OccursAt(s, sub, i) ==> i == 0 || OccursAt(s[1..], sub, i - 1);
      rest
  }

  lemma ContainsEmpty(s: string)
    ensures Contains(s, "")
  {
    assert OccursAt(s, "", 0);
  }

  /** A string contains its own prefix. */
  lemma ContainsPrefix(prefix: string, rest: string)
    ensures Contains(prefix + rest, prefix)
  {
    assert (prefix + rest)[0..|prefix|] == prefix;
    assert OccursAt(prefix + rest, prefix, 0);
  }

  lemma ContainsSelf(s: string)
    ensures Contains(s, s)
  {
    assert OccursAt(s, s, 0);
  }

  /** The characters `char.IsWhiteSpace` accepts, restricted to ASCII. */
  predicate IsWhiteSpace(c: char)
  {
    c == ' ' || c == '\t' || c == '\n' || c == '\r' || c == '\U{000B}' || c == '\U{000C}'
  }

  /** `string.IsNullOrWhiteSpace`. */
  predicate IsNullOrWhiteSpace(s: Option<string>)
  {
    s.None? || forall i :: 0 <= i < |s.value| ==> IsWhiteSpace(s.value[i])
  }

  /** `string.IsNullOrEmpty`. */
  predicate IsNullOrEmpty(s: Option<string>)
  {
    s.None? || s.value == ""
  }

  function TrimStart(s: string): (r: string)
    ensures |r| <= |s| && r == s[|s| - |r|..]
    ensures r == [] || !IsWhiteSpace(r[0])
    ensures forall i :: 0 <= i < |s| - |r| ==> IsWhiteSpace(s[i])
  {
    if s != [] && IsWhiteSpace(s[0]) then
      var r := TrimStart(s[1..]);
      assert forall i :: 1 <= i < |s| - |r| ==> s[i] == s[1..][i - 1];
      assert s[|s| - |r|..] == s[1..][|s| - 1 - |r|..];
      r
    else s
  }

  function TrimEnd(s: string): (r: string)
    ensures |r| <= |s| && r == s[..|r|]
    ensures r == [] || !IsWhiteSpace(r[|r| - 1])
    ensures forall i :: |r| <= i < |s| ==> IsWhiteSpace(s[i])
  {
    if s != [] && IsWhiteSpace(s[|s| - 1]) then TrimEnd(s[..|s| - 1]) else s
  }

  /** `string.Trim()`: drops leading and trailing white space, keeps the middle. */
  function Trim(s: string): (r: string)
    ensures r == [] || (!IsWhiteSpace(r[0]) && !IsWhiteSpace(r[|r| - 1]))
    ensures exists k :: OccursAt(s, r, k)
  {
    var t := TrimStart(s);
    var r := TrimEnd(t);
    assert OccursAt(s, r, |s| - |t|);
    r
  }

  // ---------------------------------------------------------------------
  // Integer arithmetic
  // ---------------------------------------------------------------------

  function Min(a: int, b: int): int { if a <= b then a else b }
  function Max(a: int, b: int): int { if a >= b then a else b }

  /**
   * `(int)Math.Ceiling(n / (double)d)` for a count `n` and a positive size
   * `d`: the least number of pages of size `d` that hold `n` items.
   */
  function CeilDiv(n: nat, d: nat): (r: nat)
    requires d > 0
    ensures r * d >= n
    ensures r == 0 || (r - 1) * d < n
  {
    (n + d - 1) / d
  }

  /**
   * `(int)Math.Ceiling(n / (double)d)` for any non-zero `d`: the least integer
   * at or above the rational n / d. (For 32-bit operands the double quotient
   * is never rounded onto a different integer, so the ceiling is exact.)
   */
  function CeilRatio(n: int, d: int): (r: int)
    requires d != 0
    ensures d > 0 ==> (r - 1) * d < n <= r * d
    ensures d < 0 ==> (r - 1) * (-d) < -n <= r * (-d)
  {
    var m, e := if d > 0 then n else -n, if d > 0 then d else -d;
    var q := (-m) / e;
    assert -m == q * e + (-m) % e;
    -q
  }

  /** A number lies below the ceiling of n / d exactly when its multiple of d lies below n. */
  lemma BelowCeilIff(k: int, n: int, d: int)
    requires d > 0
    ensures k < CeilRatio(n, d) <==> k * d < n
  {
    var c := CeilRatio(n, d);
    if k < c {
      MulMono(k, c - 1, d);
    } else {
      MulMono(c, k, d);
    }
  }

  /** For a count and a positive size the two ceilings agree. */
  lemma CeilRatioOfCount(n: nat, d: nat)
    requires d > 0
    ensures CeilRatio(n, d) == CeilDiv(n, d)
  {
    var r, c := CeilRatio(n, d), CeilDiv(n, d);
    if r < c {
      MulMono(r, c - 1, d);
    } else if c < r {
      MulMono(c, r - 1, d);
    }
  }

  // ---------------------------------------------------------------------
  // LINQ over sequences
  // ---------------------------------------------------------------------

  /** `Where(p)`: the elements satisfying `p`, in their original order. */
  function Filter<T(!new)>(s: seq<T>, p: T -> bool): (r: seq<T>)
    ensures |r| <= |s|
    ensures forall i :: 0 <= i < |r| ==> p(r[i])
    ensures forall x :: x in r <==> x in s && p(x)
  {
    if s == [] then []
    else if p(s[0]) then [s[0]] + Filter(s[1..], p)
    else Filter(s[1..], p)
  }

  /** `Count(p)`. */
  function CountWhere<T>(s: seq<T>, p: T -> bool): (n: nat)
    ensures n <= |s|
  {
    if s == [] then 0
    else (if p(s[0]) then 1 else 0) + CountWhere(s[1..], p)
  }

  /** The count is zero exactly when no element qualifies, and full exactly when every one does. */
  lemma {:induction false} CountExtremes<T>(s: seq<T>, p: T -> bool)
    ensures CountWhere(s, p) == 0 <==> forall i :: 0 <= i < |s| ==> !p(s[i])
    ensures CountWhere(s, p) == |s| <==> forall i :: 0 <= i < |s| ==> p(s[i])
  {
    if s != [] {
      CountExtremes(s[1..], p);
      assert forall i :: 1 <= i < |s| ==> s[i] == s[1..][i - 1];
    }
  }

  /** `Count(p)` agrees with the length of `Where(p)`. */
  lemma {:induction false} CountIsFilterLength<T(!new)>(s: seq<T>, p: T -> bool)
    ensures CountWhere(s, p) == |Filter(s, p)|
  {
    if s != [] {
      CountIsFilterLength(s[1..], p);
    }
  }

  /** Counting under a stronger predicate never gives more. */
  lemma {:induction false} CountMonotone<T>(s: seq<T>, p: T -> bool, q: T -> bool)
    requires forall x :: p(x) ==> q(x)
    ensures CountWhere(s, p) <= CountWhere(s, q)
  {
    if s != [] {
      CountMonotone(s[1..], p, q);
    }
  }

  /** `SelectMany`: the results of `f` on the elements of `s`, one after another. */
  function FlatMap<T, U>(s: seq<T>, f: T -> seq<U>): seq<U>
    decreases |s|
  {
    if s == [] then [] else FlatMap(s[..|s| - 1], f) + f(s[|s| - 1])
  }

  lemma FlatMapSnoc<T, U>(s: seq<T>, x: T, f: T -> seq<U>)
    ensures FlatMap(s + [x], f) == FlatMap(s, f) + f(x)
  {
    assert (s + [x])[..|s|] == s;
  }

  /** The results over a concatenation are the results over its parts. */
  lemma {:induction false} FlatMapAppend<T, U>(a: seq<T>, b: seq<T>, f: T -> seq<U>)
    ensures FlatMap(a + b, f) == FlatMap(a, f) + FlatMap(b, f)
    decreases |b|
  {
    if b == [] {
      assert a + b == a;
    } else {
      var b', last := b[..|b| - 1], b[|b| - 1];
      assert b == b' + [last];
      assert a + b == (a + b') + [last];
      var fa, fb' := FlatMap(a, f), FlatMap(b', f);
      calc {
        FlatMap(a + b, f);
      == { FlatMapSnoc(a + b', last, f); }
        FlatMap(a + b', f) + f(last);
      == { FlatMapAppend(a, b', f); }
        fa + fb' + f(last);
      == { AppendAssoc(fa, fb', f(last)); }
        fa + (fb' + f(last));
      == { FlatMapSnoc(b', last, f); }
        fa + FlatMap(b, f);
      }
    }
  }

  /** Two successive `Where`s select what their conjunction `both` selects. */
  lemma {:induction false} FilterFilter<T(!new)>(s: seq<T>, p: T -> bool, q: T -> bool, both: T -> bool)
    requires forall x :: both(x) == (p(x) && q(x))
    ensures Filter(Filter(s, p), q) == Filter(s, both)
  {
    if s != [] {
      FilterFilter(s[1..], p, q, both);
    }
  }

  /** Where distributes over appending one element: what a loop over a prefix relies on. */
  lemma {:induction false} FilterSnoc<T(!new)>(s: seq<T>, x: T, p: T -> bool)
    ensures Filter(s + [x], p) == Filter(s, p) + (if p(x) then [x] else [])
  {
    if s != [] {
      assert (s + [x])[1..] == s[1..] + [x];
      FilterSnoc(s[1..], x, p);
    }
  }

  lemma {:induction false} CountSnoc<T>(s: seq<T>, x: T, p: T -> bool)
    ensures CountWhere(s + [x], p) == CountWhere(s, p) + (if p(x) then 1 else 0)
  {
    if s != [] {
      assert (s + [x])[1..] == s[1..] + [x];
      CountSnoc(s[1..], x, p);
    }
  }

  /** The count over a concatenation is the sum of the counts over its parts. */
  lemma {:induction false} CountAppend<T>(a: seq<T>, b: seq<T>, p: T -> bool)
    ensures CountWhere(a + b, p) == CountWhere(a, p) + CountWhere(b, p)
  {
    if a == [] {
      assert a + b == b;
    } else {
      assert (a + b)[1..] == a[1..] + b;
      CountAppend(a[1..], b, p);
    }
  }

  /** Concatenation is associative. */
  lemma AppendAssoc<T>(a: seq<T>, b: seq<T>, c: seq<T>)
    ensures a + b + c == a + (b + c)
  {
  }

  /** Concatenation regrouped to the right. */
  lemma AppendAssoc3<T>(d: seq<T>, a: seq<T>, b: seq<T>, c: seq<T>)
    ensures d + a + b + c == d + (a + b + c)
  {
  }

  /** Replacing one element the predicate accepts by one it rejects lowers the count by one. */
  lemma CountUpdateDrop<T>(s: seq<T>, k: int, x: T, p: T -> bool)
    requires 0 <= k < |s| && p(s[k]) && !p(x)
    ensures CountWhere(s[k := x], p) + 1 == CountWhere(s, p)
  {
    var r := s[k := x];
    assert s == s[..k] + [s[k]] + s[k + 1..];
    assert r == s[..k] + [x] + s[k + 1..];
    CountAppend(s[..k] + [s[k]], s[k + 1..], p);
    CountAppend(s[..k] + [x], s[k + 1..], p);
    CountSnoc(s[..k], s[k], p);
    CountSnoc(s[..k], x, p);
  }

  /** The count over a prefix one element longer. */
  lemma CountPrefix<T>(s: seq<T>, i: int, p: T -> bool)
    requires 0 <= i < |s|
    ensures CountWhere(s[..i + 1], p) == CountWhere(s[..i], p) + (if p(s[i]) then 1 else 0)
  {
    assert s[..i + 1] == s[..i] + [s[i]];
    CountSnoc(s[..i], s[i], p);
  }

  /** The index of the first element satisfying `p`, if there is one. */
  function FirstIndex<T>(s: seq<T>, p: T -> bool): (r: Option<nat>)
    ensures r.Some? ==> r.value < |s| && p(s[r.value])
    ensures r.Some? ==> forall j :: 0 <= j < r.value ==> !p(s[j])
    ensures r.None? <==> forall i :: 0 <= i < |s| ==> !p(s[i])
  {
    if s == [] then None
    else if p(s[0]) then Some(0)
    else match FirstIndex(s[1..], p)
      case None => None
      case Some(k) => Some(k + 1)
  }

  /** `FirstOrDefault(p)`: the first element satisfying `p`, or null. */
  function FirstOrDefault<T>(s: seq<T>, p: T -> bool): (r: Option<T>)
    ensures r.None? <==> forall i :: 0 <= i < |s| ==> !p(s[i])
    ensures r.Some? ==> r.value in s && p(r.value)
    ensures r.Some? ==> FirstIndex(s, p).Some? && r.value == s[FirstIndex(s, p).value]
  {
    match FirstIndex(s, p)
    case None => None
    case Some(i) => Some(s[i])
  }

  /** Two tests that agree on every element of `s` find the same first element. */
  lemma FirstOrDefaultAgrees<T>(s: seq<T>, p: T -> bool, q: T -> bool)
    requires forall i :: 0 <= i < |s| ==> p(s[i]) == q(s[i])
    ensures FirstOrDefault(s, p) == FirstOrDefault(s, q)
  {
  }

  /**
   * A store whose ids are assigned in insertion order, starting at 1 (an
   * identity column with no deletions).
   */
  ghost predicate IdsAreIndices<T>(s: seq<T>, id: T -> int)
  {
    forall i :: 0 <= i < |s| ==> id(s[i]) == i + 1
  }

  /** In such a store, a stored entity sits at the index its id names. */
  lemma StoredAt<T>(s: seq<T>, id: T -> int, x: T)
    requires IdsAreIndices(s, id) && x in s
    ensures 1 <= id(x) <= |s| && s[id(x) - 1] == x
  {
    var i :| 0 <= i < |s| && s[i] == x;
  }

  /** `Any(p)`. */
  predicate Any<T>(s: seq<T>, p: T -> bool)
  {
    exists i :: 0 <= i < |s| && p(s[i])
  }

  /** `Skip(n)`: a non-positive count skips nothing. */
  function Skip<T>(s: seq<T>, n: int): (r: seq<T>)
    ensures |r| == if n <= 0 then |s| else Max(0, |s| - n)
    ensures forall i :: 0 <= i < |r| ==> r[i] == s[i + Max(0, n)]
  {
    if n <= 0 then s else if n >= |s| then [] else s[n..]
  }

  /** `Take(n)`: a non-positive count takes nothing. */
  function Take<T>(s: seq<T>, n: int): (r: seq<T>)
    ensures |r| == Max(0, Min(n, |s|))
    ensures r == s[..|r|]
  {
    if n <= 0 then [] else if n >= |s| then s else s[..n]
  }

  /** The number of items before a page: `(page - 1) * pageSize`. */
  function PageStart(page: int, pageSize: int): (n: int)
    ensures page >= 1 && pageSize >= 0 ==> n >= 0
    ensures page == 1 ==> n == 0
  {
    (page - 1) * pageSize
  }

  /** `Skip((page - 1) * pageSize).Take(pageSize)`. */
  function Page<T>(s: seq<T>, page: int, pageSize: int): seq<T>
  {
    Take(Skip(s, PageStart(page, pageSize)), pageSize)
  }

  /**
   * For a page number and size of at least 1, a page holds the items from
   * index (page - 1) * pageSize onwards, at most pageSize of them.
   */
  lemma PageContents<T>(s: seq<T>, page: int, pageSize: int)
    requires page >= 1 && pageSize >= 1
    ensures |Page(s, page, pageSize)| == Max(0, Min(pageSize, |s| - PageStart(page, pageSize)))
    ensures forall i :: 0 <= i < |Page(s, page, pageSize)| ==> Page(s, page, pageSize)[i] == s[PageStart(page, pageSize) + i]
  {
  }

  /** Every item of a page, whatever the page number and size, comes from the source. */
  lemma PageWithin<T>(s: seq<T>, page: int, pageSize: int)
    ensures forall x :: x in Page(s, page, pageSize) ==> x in s
  {
    var n := PageStart(page, pageSize);
    var skipped := Skip(s, n);
    assert forall x :: x in skipped ==> x in s by {
      if 0 < n < |s| {
        assert skipped == s[n..];
      }
    }
    var r := Take(skipped, pageSize);
    assert r == Page(s, page, pageSize);
    assert forall x :: x in r ==> x in skipped by {
      assert r == skipped[..|r|];
    }
  }

  /** A page is a contiguous run of the source. */
  lemma PageIsSlice<T>(s: seq<T>, page: int, pageSize: int)
    requires page >= 1 && pageSize >= 1
    requires PageStart(page, pageSize) <= |s|
    ensures Page(s, page, pageSize) ==
      s[PageStart(page, pageSize)..Min(PageStart(page, pageSize) + pageSize, |s|)]
  {
    PageContents(s, page, pageSize);
  }
}

=== FILE: grouping.dfy ===
/**
 * LINQ `GroupBy(key).Select(g => (g.Key, g.Count()))`: one group per
 * distinct key, in order of first occurrence, with the number of elements
 * that carry that key. Dictionaries built from such groups
 * (`ToDictionary(x => x.Key, x => x.Count)`) are modelled by the same
 * sequence of groups, whose keys are distinct.
 */
module Grouping {
  import opened Common

  datatype Group<K> = Group(key: K, count: nat)

  /** How many elements of `s` equal `k`. */
  function Occurrences<K(==,!new)>(s: seq<K>, k: K): nat
  {
    CountWhere(s, (x: K) => x == k)
  }

  predicate DistinctKeys<K(==,!new)>(g: seq<Group<K>>)
  {
    forall i, j :: 0 <= i < j < |g| ==> g[i].key != g[j].key
  }

  predicate HasKey<K(==,!new)>(g: seq<Group<K>>, k: K)
  {
    exists i :: 0 <= i < |g| && g[i].key == k
  }

  /** The count stored for `k`, or 0 when no group has that key. */
  function CountFor<K(==,!new)>(g: seq<Group<K>>, k: K): nat
  {
    if g == [] then 0
    else if g[0].key == k then g[0].count
    else CountFor(g[1..], k)
  }

  /** With distinct keys, looking a group's key up finds that group. */
  lemma {:induction false} CountForAt<K(!new)>(g: seq<Group<K>>, k: int)
    requires DistinctKeys(g) && 0 <= k < |g|
    ensures CountFor(g, g[k].key) == g[k].count
  {
    if k > 0 {
      assert g[0].key != g[k].key;
      assert g[1..][k - 1] == g[k];
      CountForAt(g[1..], k - 1);
    }
  }

  /** The sum of all group counts. */
  function Total<K>(g: seq<Group<K>>): nat
  {
    if g == [] then 0 else g[0].count + Total(g[1..])
  }

  /** Adds one element with key `k`: bumps its group, or opens a new one at the end. */
  function Bump<K(==,!new)>(g: seq<Group<K>>, k: K): (r: seq<Group<K>>)
    ensures |r| == |g| || |r| == |g| + 1
  {
    if g == [] then [Group(k, 1)]
    else if g[0].key == k then [Group(k, g[0].count + 1)] + g[1..]
    else [g[0]] + Bump(g[1..], k)
  }

  lemma {:induction false} BumpTotal<K(!new)>(g: seq<Group<K>>, k: K)
    ensures Total(Bump(g, k)) == Total(g) + 1
  {
    if g != [] && g[0].key != k {
      BumpTotal(g[1..], k);
    }
  }

  lemma {:induction false} BumpCountFor<K(!new)>(g: seq<Group<K>>, k: K, j: K)
    ensures CountFor(Bump(g, k), j) == CountFor(g, j) + (if j == k then 1 else 0)
  {
    if g != [] && g[0].key != k {
      BumpCountFor(g[1..], k, j);
    }
  }

  lemma {:induction false} BumpHasKey<K(!new)>(g: seq<Group<K>>, k: K, j: K)
    ensures HasKey(Bump(g, k), j) <==> HasKey(g, j) || j == k
  {
    var r := Bump(g, k);
    if g == [] {
      assert r[0].key == k;
    } else if g[0].key == k {
      assert r[0].key == k;
      if HasKey(g, j) {
        var i :| 0 <= i < |g| && g[i].key == j;
        assert r[i].key == j;
      }
      if HasKey(r, j) {
        var i :| 0 <= i < |r| && r[i].key == j;
        assert g[i].key == j;
      }
    } else {
      var t := Bump(g[1..], k);
      BumpHasKey(g[1..], k, j);
      assert r == [g[0]] + t;
      if HasKey(g, j) {
        var i :| 0 <= i < |g| && g[i].key == j;
        if i > 0 { assert g[1..][i - 1].key == j; } else { assert r[0].key == j; }
      }
      if HasKey(t, j) {
        var i :| 0 <= i < |t| && t[i].key == j;
        assert r[i + 1].key == j;
      }
      if HasKey(r, j) {
        var i :| 0 <= i < |r| && r[i].key == j;
        if i > 0 { assert t[i - 1].key == j; } else { assert g[0].key == j; }
      }
      if HasKey(g[1..], j) {
        var i :| 0 <= i < |g[1..]| && g[1..][i].key == j;
        assert g[i + 1].key == j;
      }
    }
  }

  lemma {:induction false} BumpDistinct<K(!new)>(g: seq<Group<K>>, k: K)
    requires DistinctKeys(g)
    ensures DistinctKeys(Bump(g, k))
  {
    if g != [] && g[0].key != k {
      BumpDistinct(g[1..], k);
      var t := Bump(g[1..], k);
      forall j | 0 <= j < |t| ensures t[j].key != g[0].key {
        BumpHasKey(g[1..], k, t[j].key);
        assert HasKey(t, t[j].key);
        if HasKey(g[1..], t[j].key) {
          var i :| 0 <= i < |g[1..]| && g[1..][i].key == t[j].key;
          assert g[i + 1].key == t[j].key;
        }
      }
    }
  }

  /** The groups of `s`, in order of first occurrence of each key. */
  function GroupCounts<K(==,!new)>(s: seq<K>): (g: seq<Group<K>>)
    ensures |g| <= |s|
  {
    if s == [] then [] else Bump(GroupCounts(s[..|s| - 1]), s[|s| - 1])
  }

  /**
   * The groups have distinct keys, exactly the keys that occur in `s`; each
   * count is the number of occurrences of its key; the counts add up to |s|.
   */
  lemma {:induction false} GroupCountsSpec<K(!new)>(s: seq<K>)
    ensures DistinctKeys(GroupCounts(s))
    ensures Total(GroupCounts(s)) == |s|
    ensures forall k :: CountFor(GroupCounts(s), k) == Occurrences(s, k)
    ensures forall k :: HasKey(GroupCounts(s), k) <==> k in s
  {
    if s != [] {
      var init := s[..|s| - 1];
      var last := s[|s| - 1];
      GroupCountsSpec(init);
      BumpDistinct(GroupCounts(init), last);
      BumpTotal(GroupCounts(init), last);
      assert s == init + [last];
      forall k ensures CountFor(GroupCounts(s), k) == Occurrences(s, k) {
        BumpCountFor(GroupCounts(init), last, k);
        CountSnoc(init, last, (x: K) => x == k);
      }
      forall k ensures HasKey(GroupCounts(s), k) <==> k in s {
        BumpHasKey(GroupCounts(init), last, k);
      }
    }
  }

  /** Filtering groups with distinct keys leaves distinct keys. */
  lemma {:induction false} FilterKeepsDistinct<K(!new)>(g: seq<Group<K>>, p: Group<K> -> bool)
    requires DistinctKeys(g)
    ensures DistinctKeys(Filter(g, p))
  {
    if g != [] {
      var tail := g[1..];
      var rest := Filter(tail, p);
      assert DistinctKeys(tail) by {
        forall i, j | 0 <= i < j < |tail| ensures tail[i].key != tail[j].key {
          assert tail[i] == g[i + 1] && tail[j] == g[j + 1];
        }
      }
      FilterKeepsDistinct(tail, p);
      if p(g[0]) {
        var r := [g[0]] + rest;
        forall i, j | 0 <= i < j < |r| ensures r[i].key != r[j].key {
          assert r[j] == rest[j - 1];
          if i == 0 {
            assert rest[j - 1] in tail;
            var m :| 0 <= m < |tail| && tail[m] == rest[j - 1];
            assert g[m + 1] == r[j];
          } else {
            assert r[i] == rest[i - 1];
          }
        }
        assert Filter(g, p) == r;
      }
    }
  }
}

=== FILE: infra_asset_repository.dfy ===
/**
 * The asset repository of the root tree
 * (InsureX.Infrastructure/Repositories/AssetRepository.cs): queries over
 * the asset set of the database context. A query handed in by a service is
 * a sequence of assets in query order.
 */
module InfraAssetRepository {
  import opened Common
  import opened AppDomain
  import Ordering
  import Grouping

  /** `CountAsync(query)`. */
  function CountQuery(query: seq<Asset>): nat { |query| }

  /** `GetPagedAsync(query, page, pageSize)`: `Skip((page - 1) * pageSize).Take(pageSize)`. */
  function GetPaged(query: seq<Asset>, page: int, pageSize: int): seq<Asset>
  {
    Page(query, page, pageSize)
  }

  /**
   * Every item of a page comes from the query; for a page number and size
   * of at least 1 the page is the run of at most pageSize items starting at
   * index (page - 1) * pageSize.
   */
  lemma GetPagedSpec(query: seq<Asset>, page: int, pageSize: int)
    ensures forall a :: a in GetPaged(query, page, pageSize) ==> a in query
    ensures page >= 1 && pageSize >= 1 ==>
      var r := GetPaged(query, page, pageSize);
      && |r| == Max(0, Min(pageSize, |query| - PageStart(page, pageSize)))
      && forall i :: 0 <= i < |r| ==> r[i] == query[PageStart(page, pageSize) + i]
  {
    PageWithin(query, page, pageSize);
    if page >= 1 && pageSize >= 1 {
      PageContents(query, page, pageSize);
    }
  }

  function AssetId(a: Asset): int { a.id }

  /** `GetByIdAsync(id)`: the first asset with that id, or null. */
  function AssetById(assets: seq<Asset>, id: int): (r: Option<Asset>)
    ensures r.Some? ==> r.value in assets && r.value.id == id
    ensures r.None? <==> forall i :: 0 <= i < |assets| ==> assets[i].id != id
  {
    FirstOrDefault(assets, (a: Asset) => a.id == id)
  }

  /** In a store keyed by position, the asset with id `id` is the one at `id - 1`. */
  lemma AssetByIdInStore(assets: seq<Asset>, id: int)
    requires IdsAreIndices(assets, AssetId)
    ensures AssetById(assets, id) == if 1 <= id <= |assets| then Some(assets[id - 1]) else None
  {
    var r := AssetById(assets, id);
    if r.Some? {
      StoredAt(assets, AssetId, r.value);
    }
    if 1 <= id <= |assets| {
      assert assets[id - 1].id == id;
    }
  }

  /** `GetCountAsync(predicate)`: the number of assets the predicate accepts. */
  function CountMatching(assets: seq<Asset>, p: Asset -> bool): (n: nat)
    ensures n <= |assets|
    ensures n == |Filter(assets, p)|
  {
    CountIsFilterLength(assets, p);
    CountWhere(assets, p)
  }

  predicate CreatedDesc(a: Asset, b: Asset) { a.createdAt >= b.createdAt }

  lemma CreatedDescPreorder()
    ensures Ordering.TotalPreorder(CreatedDesc)
  {
  }

  predicate NotDeleted(a: Asset) { a.status != AssetDeleted }

  function LiveOfTenant(tenantId: int): Asset -> bool
  {
    (a: Asset) => a.tenantId == tenantId && a.status != AssetDeleted
  }

  /** `GetRecentAsync(count, tenantId)`: the tenant's newest non-deleted assets, at most `count`. */
  function RecentOfTenant(assets: seq<Asset>, count: int, tenantId: int): (r: seq<Asset>)
    ensures |r| == Max(0, Min(count, CountWhere(assets, LiveOfTenant(tenantId))))
    ensures Ordering.SortedBy(r, CreatedDesc)
    ensures forall a :: a in r ==> a in assets && a.tenantId == tenantId && a.status != AssetDeleted
    ensures Ordering.KeepsTop(r, assets, LiveOfTenant(tenantId), CreatedDesc)
  {
    CreatedDescPreorder();
    Ordering.WhereOrderTake(assets, LiveOfTenant(tenantId), CreatedDesc, count)
  }

  /** `GetRecentAsync(count)`: the newest non-deleted assets of every tenant, at most `count`. */
  function Recent(assets: seq<Asset>, count: int): (r: seq<Asset>)
    ensures |r| == Max(0, Min(count, CountWhere(assets, NotDeleted)))
    ensures Ordering.SortedBy(r, CreatedDesc)
    ensures forall a :: a in r ==> a in assets && a.status != AssetDeleted
    ensures Ordering.KeepsTop(r, assets, NotDeleted, CreatedDesc)
  {
    CreatedDescPreorder();
    Ordering.WhereOrderTake(assets, NotDeleted, CreatedDesc, count)
  }

  /** `GetCountAsync()`: every asset, deleted ones included. */
  function CountAll(assets: seq<Asset>): nat { |assets| }

  predicate IsCompliant(a: Asset) { a.complianceStatus == Some(StatusCompliant) }

  /** `GetCompliantCountAsync`: never more than all assets, and zero only when none is Compliant. */
  function CompliantCount(assets: seq<Asset>): (n: nat)
    ensures n <= CountAll(assets)
    ensures n == 0 <==> forall i :: 0 <= i < |assets| ==> !IsCompliant(assets[i])
  {
    CountExtremes(assets, IsCompliant);
    CountWhere(assets, IsCompliant)
  }

  function Statuses(assets: seq<Asset>): (keys: seq<string>)
    ensures |keys| == |assets| && forall i :: 0 <= i < |assets| ==> keys[i] == assets[i].status
  {
    seq(|assets|, i requires 0 <= i < |assets| => assets[i].status)
  }

  predicate NotDeletedGroup(g: Grouping.Group<string>) { g.key != AssetDeleted }

  /** `GetCountByStatusAsync`: the number of assets per status, without the "Deleted" group. */
  function CountByStatus(assets: seq<Asset>): seq<Grouping.Group<string>>
  {
    Filter(Grouping.GroupCounts(Statuses(assets)), NotDeletedGroup)
  }

  /**
   * No entry is keyed "Deleted"; every other status that some asset has gets
   * exactly one entry, holding the number of assets with that status.
   */
  lemma CountByStatusSpec(assets: seq<Asset>)
    ensures var r := CountByStatus(assets);
      && (forall i :: 0 <= i < |r| ==> r[i].key != AssetDeleted)
      && Grouping.DistinctKeys(r)
      && (forall i :: 0 <= i < |r| ==> r[i].count == Grouping.Occurrences(Statuses(assets), r[i].key))
      && (forall k :: k != AssetDeleted && k in Statuses(assets) ==> Grouping.HasKey(r, k))
  {
    var keys := Statuses(assets);
    var g := Grouping.GroupCounts(keys);
    Grouping.GroupCountsSpec(keys);
    var r := CountByStatus(assets);
    Grouping.FilterKeepsDistinct(g, NotDeletedGroup);
    forall i | 0 <= i < |r| ensures r[i].count == Grouping.Occurrences(keys, r[i].key) {
      var m :| 0 <= m < |g| && g[m] == r[i];
      Grouping.CountForAt(g, m);
    }
    forall k | k != AssetDeleted && k in keys ensures Grouping.HasKey(r, k) {
      assert Grouping.HasKey(g, k);
      var m :| 0 <= m < |g| && g[m].key == k;
      assert g[m] in r;
      var n :| 0 <= n < |r| && r[n] == g[m];
    }
  }

  /** `ExistsAsync(predicate)`: some asset satisfies the predicate. */
  function ExistsMatching(assets: seq<Asset>, p: Asset -> bool): (b: bool)
    ensures b <==> exists i :: 0 <= i < |assets| && p(assets[i])
  {
    Any(assets, p)
  }

  /** `GetByAssetTagAsync`: the first asset with that tag, of any tenant and status. */
  function ByAssetTag(assets: seq<Asset>, tag: string): (r: Option<Asset>)
    ensures r.Some? ==> r.value in assets && r.value.assetTag == tag
    ensures r.None? <==> forall i :: 0 <= i < |assets| ==> assets[i].assetTag != tag
  {
    FirstOrDefault(assets, (a: Asset) => a.assetTag == tag)
  }

  /**
   * `ExistsAsync(tag)`: some asset carries the tag, whatever its tenant and
   * status; so a deleted asset, or another tenant's, keeps its tag taken.
   */
  function TagExists(assets: seq<Asset>, tag: string): (b: bool)
    ensures b <==> exists i :: 0 <= i < |assets| && assets[i].assetTag == tag
    ensures b <==> ByAssetTag(assets, tag).Some?
  {
    Any(assets, (a: Asset) => a.assetTag == tag)
  }
}

=== FILE: infra_compliance_repository.dfy ===
/**
 * The compliance repository of the root tree
 * (InsureX.Infrastructure/Repositories/ComplianceRepository.cs): the rule,
 * check, alert, history and dashboard sets of the database context, the
 * queries over them, and the Add/Update operations, which hand the entity
 * to the change tracker unchanged (no timestamps, unlike the `src/` tree)
 * and write nothing until the context is saved.
 *
 * `now` stands for DateTime.UtcNow. The database assigns identity keys
 * when it saves an insert; the model assigns them in insertion order from
 * 1, so that an id names a position in the store.
 */
module InfraComplianceRepository {
  import opened Common
  import opened AppDomain
  import Ordering
  import Grouping
  import InfraRepository

  // ---------------------------------------------------------------------
  // Rules
  // ---------------------------------------------------------------------

  predicate IsActiveRule(r: Rule) { r.isActive }

  /** `GetActiveRulesAsync`: the active rules, in store order (no ordering is applied). */
  function ActiveRules(rules: seq<Rule>): (r: seq<Rule>)
    ensures |r| == CountWhere(rules, IsActiveRule)
    ensures forall x :: x in r <==> x in rules && x.isActive
  {
    CountIsFilterLength(rules, IsActiveRule);
    Filter(rules, IsActiveRule)
  }

  /** `GetRuleByCodeAsync`: the first rule with that code, active or not. */
  function RuleByCode(rules: seq<Rule>, code: string): (r: Option<Rule>)
    ensures r.Some? ==> r.value in rules && r.value.ruleCode == code
    ensures r.None? <==> forall i :: 0 <= i < |rules| ==> rules[i].ruleCode != code
  {
    FirstOrDefault(rules, (x: Rule) => x.ruleCode == code)
  }

  /** `GetRulesByTypeAsync`: the active rules of one type. */
  function RulesByType(rules: seq<Rule>, ruleType: string): (r: seq<Rule>)
    ensures forall x :: x in r <==> x in rules && x.ruleType == ruleType && x.isActive
  {
    Filter(rules, (x: Rule) => x.ruleType == ruleType && x.isActive)
  }

  function RuleId(r: Rule): int { r.id }

  /** `GetRuleByIdAsync`: `FindAsync` by key. */
  function RuleById(rules: seq<Rule>, id: int): (r: Option<Rule>)
    ensures r.Some? ==> r.value in rules && r.value.id == id
    ensures r.None? <==> forall i :: 0 <= i < |rules| ==> rules[i].id != id
  {
    FirstOrDefault(rules, (x: Rule) => x.id == id)
  }

  /** In a store keyed by position, the rule with id `id` is the one at `id - 1`. */
  lemma RuleByIdInStore(rules: seq<Rule>, id: int)
    requires IdsAreIndices(rules, RuleId)
    ensures RuleById(rules, id) == if 1 <= id <= |rules| then Some(rules[id - 1]) else None
  {
    var r := RuleById(rules, id);
    if r.Some? {
      StoredAt(rules, RuleId, r.value);
    }
    if 1 <= id <= |rules| {
      assert rules[id - 1].id == id;
    }
  }

  // ---------------------------------------------------------------------
  // Checks and history
  // ---------------------------------------------------------------------

  predicate CheckDateDesc(a: Check, b: Check) { a.checkDate >= b.checkDate }

  lemma CheckDateDescPreorder()
    ensures Ordering.TotalPreorder(CheckDateDesc)
  {
  }

  /** `GetLatestCheckAsync`: the asset's check with the latest CheckDate, or null. */
  function LatestCheck(checks: seq<Check>, assetId: int): (r: Option<Check>)
    ensures r.None? <==> forall i :: 0 <= i < |checks| ==> checks[i].assetId != assetId
    ensures r.Some? ==> r.value in checks && r.value.assetId == assetId
    ensures r.Some? ==> forall c :: c in checks && c.assetId == assetId ==> c.checkDate <= r.value.checkDate
  {
    CheckDateDescPreorder();
    var mine := Filter(checks, (c: Check) => c.assetId == assetId);
    Ordering.SortedFirst(mine, CheckDateDesc);
    var sorted := Ordering.SortBy(mine, CheckDateDesc);
    if sorted == [] then
      assert forall i :: 0 <= i < |checks| && checks[i].assetId == assetId ==> checks[i] in mine;
      None
    else
      Some(sorted[0])
  }

  /** `GetCheckHistoryAsync(assetId, days)`: the asset's checks from `days` days ago on, newest first. */
  function CheckHistory(checks: seq<Check>, assetId: int, days: int, now: DateTime): (r: seq<Check>)
    ensures Ordering.SortedBy(r, CheckDateDesc)
    ensures forall c :: c in r <==> c in checks && c.assetId == assetId && c.checkDate >= AddDays(now, -days)
  {
    CheckDateDescPreorder();
    var cutoff := AddDays(now, -days);
    Ordering.WhereOrder(checks, (c: Check) => c.assetId == assetId && c.checkDate >= cutoff, CheckDateDesc)
  }

  /** `GetAssetsNeedingCheckAsync(hours)`: the checks made `hours` hours ago or earlier. */
  function NeedingCheck(checks: seq<Check>, hoursThreshold: int, now: DateTime): (r: seq<Check>)
    ensures forall c :: c in r <==> c in checks && c.checkDate <= AddHours(now, -hoursThreshold)
  {
    var threshold := AddHours(now, -hoursThreshold);
    Filter(checks, (c: Check) => c.checkDate <= threshold)
  }

  /** The default threshold of GetAssetsNeedingCheckAsync. */
  const DefaultCheckHours := 24

  predicate ChangeDateDesc(a: History, b: History) { a.changeDate >= b.changeDate }

  lemma ChangeDateDescPreorder()
    ensures Ordering.TotalPreorder(ChangeDateDesc)
  {
  }

  /** `GetHistoryAsync(assetId, days)`: the asset's status changes from `days` days ago on, newest first. */
  function HistoryWindow(history: seq<History>, assetId: int, days: int, now: DateTime): (r: seq<History>)
    ensures Ordering.SortedBy(r, ChangeDateDesc)
    ensures forall h :: h in r <==> h in history && h.assetId == assetId && h.changeDate >= AddDays(now, -days)
  {
    ChangeDateDescPreorder();
    var cutoff := AddDays(now, -days);
    Ordering.WhereOrder(history, (h: History) => h.assetId == assetId && h.changeDate >= cutoff, ChangeDateDesc)
  }

  /** The default windows of GetCheckHistoryAsync and GetHistoryAsync. */
  const DefaultCheckDays := 30
  const DefaultHistoryDays := 90

  // ---------------------------------------------------------------------
  // Alerts
  // ---------------------------------------------------------------------

  predicate IsActiveAlert(a: Alert)
  {
    a.status == AlertNew || a.status == AlertAcknowledged
  }

  /** `a.AssetId == assetId.Value` on a nullable AssetId: a null asset id never matches. */
  predicate OfAsset(a: Alert, assetId: int)
  {
    a.assetId == Some(assetId)
  }

  /** The filter both GetActiveAlertsAsync and GetActiveAlertCountAsync apply. */
  predicate ActiveFor(a: Alert, assetId: Option<int>)
  {
    IsActiveAlert(a) && (assetId.Some? ==> OfAsset(a, assetId.value))
  }

  /** `GetActiveAlertsAsync(assetId)`: New or Acknowledged alerts, of that asset when one is given. */
  function ActiveAlerts(alerts: seq<Alert>, assetId: Option<int>): (r: seq<Alert>)
    ensures |r| <= |alerts|
    ensures forall a :: a in r <==> a in alerts && ActiveFor(a, assetId)
  {
    var active := Filter(alerts, IsActiveAlert);
    if assetId.Some? then Filter(active, OfAssetFilter(assetId.value)) else active
  }

  function OfAssetFilter(assetId: int): Alert -> bool
  {
    (a: Alert) => OfAsset(a, assetId)
  }

  function ActiveForFilter(assetId: Option<int>): Alert -> bool
  {
    (a: Alert) => ActiveFor(a, assetId)
  }

  /** `GetAlertsByAssetAsync`: every alert of the asset, whatever its status. */
  function AlertsByAsset(alerts: seq<Alert>, assetId: int): (r: seq<Alert>)
    ensures forall a :: a in r <==> a in alerts && OfAsset(a, assetId)
  {
    Filter(alerts, (a: Alert) => OfAsset(a, assetId))
  }

  function AlertId(a: Alert): int { a.id }

  /** `GetAlertByIdAsync`: `FindAsync` by key. */
  function AlertById(alerts: seq<Alert>, id: int): (r: Option<Alert>)
    ensures r.Some? ==> r.value in alerts && r.value.id == id
    ensures r.None? <==> forall i :: 0 <= i < |alerts| ==> alerts[i].id != id
  {
    FirstOrDefault(alerts, (x: Alert) => x.id == id)
  }

  lemma AlertByIdInStore(alerts: seq<Alert>, id: int)
    requires IdsAreIndices(alerts, AlertId)
    ensures AlertById(alerts, id) == if 1 <= id <= |alerts| then Some(alerts[id - 1]) else None
  {
    var r := AlertById(alerts, id);
    if r.Some? {
      StoredAt(alerts, AlertId, r.value);
    }
    if 1 <= id <= |alerts| {
      assert alerts[id - 1].id == id;
    }
  }

  /** `GetActiveAlertCountAsync(assetId)`: the count of the same filter. */
  function ActiveAlertCount(alerts: seq<Alert>, assetId: Option<int>): nat
  {
    CountWhere(alerts, ActiveForFilter(assetId))
  }

  /** The count is the length of the list GetActiveAlertsAsync returns for the same asset filter. */
  lemma ActiveAlertCountIsLength(alerts: seq<Alert>, assetId: Option<int>)
    ensures ActiveAlertCount(alerts, assetId) == |ActiveAlerts(alerts, assetId)|
  {
    var p := ActiveForFilter(assetId);
    CountIsFilterLength(alerts, p);
    if assetId.Some? {
      var q := OfAssetFilter(assetId.value);
      FilterFilter(alerts, IsActiveAlert, q, p);
    } else {
      FilterSame(alerts, IsActiveAlert, p);
    }
  }

  /** Two predicates that agree everywhere select the same elements. */
  lemma {:induction false} FilterSame<T(!new)>(s: seq<T>, p: T -> bool, q: T -> bool)
    requires forall x :: p(x) == q(x)
    ensures Filter(s, p) == Filter(s, q)
  {
    if s != [] {
      FilterSame(s[1..], p, q);
    }
  }

  // ---------------------------------------------------------------------
  // Dashboards and asset summaries
  // ---------------------------------------------------------------------

  predicate SnapshotDesc(a: Dashboard, b: Dashboard) { a.snapshotDate >= b.snapshotDate }

  lemma SnapshotDescPreorder()
    ensures Ordering.TotalPreorder(SnapshotDesc)
  {
  }

  /** `GetLatestDashboardAsync(tenantId)`: the tenant's newest snapshot, or null. */
  function LatestDashboard(dashboards: seq<Dashboard>, tenantId: int): (r: Option<Dashboard>)
    ensures r.None? <==> forall i :: 0 <= i < |dashboards| ==> dashboards[i].tenantId != tenantId
    ensures r.Some? ==> r.value in dashboards && r.value.tenantId == tenantId
    ensures r.Some? ==> forall d :: d in dashboards && d.tenantId == tenantId ==> d.snapshotDate <= r.value.snapshotDate
  {
    SnapshotDescPreorder();
    var mine := Filter(dashboards, (d: Dashboard) => d.tenantId == tenantId);
    Ordering.SortedFirst(mine, SnapshotDesc);
    var sorted := Ordering.SortBy(mine, SnapshotDesc);
    if sorted == [] then
      assert forall i :: 0 <= i < |dashboards| && dashboards[i].tenantId == tenantId ==> dashboards[i] in mine;
      None
    else
      Some(sorted[0])
  }

  /** `ComplianceStatus ?? "Unknown"`, the summary's grouping key. */
  function StatusKey(a: Asset): string { a.complianceStatus.GetOr("Unknown") }

  function StatusKeys(assets: seq<Asset>): (keys: seq<string>)
    ensures |keys| == |assets| && forall i :: 0 <= i < |assets| ==> keys[i] == StatusKey(assets[i])
  {
    seq(|assets|, i requires 0 <= i < |assets| => StatusKey(assets[i]))
  }

  /** `GetComplianceSummaryAsync`: the number of assets per compliance status. */
  function ComplianceSummary(assets: seq<Asset>): seq<Grouping.Group<string>>
  {
    Grouping.GroupCounts(StatusKeys(assets))
  }

  /**
   * One entry per status key, where a null status counts as "Unknown"; each
   * count is the number of assets with that key, and the counts add up to
   * the number of assets.
   */
  lemma ComplianceSummarySpec(assets: seq<Asset>)
    ensures Grouping.DistinctKeys(ComplianceSummary(assets))
    ensures Grouping.Total(ComplianceSummary(assets)) == |assets|
    ensures forall k :: Grouping.CountFor(ComplianceSummary(assets), k) == Grouping.Occurrences(StatusKeys(assets), k)
    ensures forall k :: Grouping.HasKey(ComplianceSummary(assets), k) <==>
      exists i :: 0 <= i < |assets| && StatusKey(assets[i]) == k
  {
    var keys := StatusKeys(assets);
    Grouping.GroupCountsSpec(keys);
    forall k ensures Grouping.HasKey(ComplianceSummary(assets), k) <==>
      exists i :: 0 <= i < |assets| && StatusKey(assets[i]) == k
    {
      if k in keys {
        var i :| 0 <= i < |keys| && keys[i] == k;
        assert StatusKey(assets[i]) == k;
      }
      if exists i :: 0 <= i < |assets| && StatusKey(assets[i]) == k {
        var i :| 0 <= i < |assets| && StatusKey(assets[i]) == k;
        assert keys[i] == k;
      }
    }
  }

  /** `GetAssetsByStatusCountAsync(status)`: a null status never matches. */
  function AssetsByStatusCount(assets: seq<Asset>, status: string): (n: nat)
    ensures n <= |assets|
    ensures n == 0 <==> forall i :: 0 <= i < |assets| ==> assets[i].complianceStatus != Some(status)
  {
    var p := (a: Asset) => a.complianceStatus == Some(status);
    CountExtremes(assets, p);
    CountWhere(assets, p)
  }

  /**
   * `GetNonCompliantAssetsAsync(severity)`: the "Non-Compliant" assets;
   * the severity argument is accepted and not used.
   */
  function NonCompliantAssets(assets: seq<Asset>, severity: int): (r: seq<Asset>)
    ensures forall a :: a in r <==> a in assets && a.complianceStatus == Some(StatusNonCompliant)
  {
    Filter(assets, (a: Asset) => a.complianceStatus == Some(StatusNonCompliant))
  }

  /** The result does not depend on the severity. */
  lemma NonCompliantIgnoresSeverity(assets: seq<Asset>, s1: int, s2: int)
    ensures NonCompliantAssets(assets, s1) == NonCompliantAssets(assets, s2)
  {
  }

  // ---------------------------------------------------------------------
  // The store and its change tracker
  // ---------------------------------------------------------------------

  /** The saved rows of the sets this repository reads and writes. */
  datatype Tables = Tables(
    rules: seq<Rule>,
    checks: seq<Check>,
    alerts: seq<Alert>,
    history: seq<History>,
    dashboards: seq<Dashboard>)

  /** Rules and alerts carry the identity keys 1, 2, … in insertion order. */
  ghost predicate KeyedByPosition(t: Tables)
  {
    IdsAreIndices(t.rules, RuleId) && IdsAreIndices(t.alerts, AlertId)
  }

  /**
   * A write the context tracks until SaveChanges: `AddAsync` (the
   * `Add…Async` methods, `SaveDashboardAsync`) or `Update` of one entity.
   */
  datatype Tracked =
    | RuleAdded(rule: Rule)
    | RuleUpdated(rule: Rule)
    | CheckAdded(check: Check)
    | HistoryAdded(record: History)
    | AlertAdded(alert: Alert)
    | AlertUpdated(alert: Alert)
    | DashboardAdded(dashboard: Dashboard)

  /** What writing one tracked change does: an insert gets the next identity key, an update replaces the row with its key. */
  function SaveOne(t: Tables, c: Tracked): Tables
  {
    match c
    case RuleAdded(x) => t.(rules := t.rules + [x.(id := |t.rules| + 1)])
    case RuleUpdated(x) => t.(rules := InfraRepository.Replace(t.rules, RuleId, x))
    case CheckAdded(x) => t.(checks := t.checks + [x])
    case HistoryAdded(x) => t.(history := t.history + [x])
    case AlertAdded(x) => t.(alerts := t.alerts + [x.(id := |t.alerts| + 1)])
    case AlertUpdated(x) => t.(alerts := InfraRepository.Replace(t.alerts, AlertId, x))
    case DashboardAdded(x) => t.(dashboards := t.dashboards + [x])
  }

  /** What SaveChanges writes: every tracked change, in the order it was made. */
  function SaveAll(t: Tables, cs: seq<Tracked>): Tables
    decreases |cs|
  {
    if cs == [] then t else SaveOne(SaveAll(t, cs[..|cs| - 1]), cs[|cs| - 1])
  }

  /**
   * The rule the context hands out for a saved row: the rule of the latest
   * tracked update with its key, else the row as saved. A query that finds
   * a row whose entity the context already tracks returns the tracked
   * entity, with its unsaved values.
   */
  function TrackedRule(cs: seq<Tracked>, row: Rule): (r: Rule)
    ensures r.id == row.id
    ensures r == row || RuleUpdated(r) in cs
    decreases |cs|
  {
    if cs == [] then row
    else if cs[|cs| - 1].RuleUpdated? && cs[|cs| - 1].rule.id == row.id then cs[|cs| - 1].rule
    else TrackedRule(cs[..|cs| - 1], row)
  }

  function TrackedRules(cs: seq<Tracked>, rows: seq<Rule>): (r: seq<Rule>)
    ensures |r| == |rows|
    ensures forall i :: 0 <= i < |rows| ==> r[i] == TrackedRule(cs, rows[i])
  {
    seq(|rows|, i requires 0 <= i < |rows| => TrackedRule(cs, rows[i]))
  }

  /** The alert the context hands out for a saved row, in the same way. */
  function TrackedAlert(cs: seq<Tracked>, row: Alert): (r: Alert)
    ensures r.id == row.id
    ensures r == row || AlertUpdated(r) in cs
    decreases |cs|
  {
    if cs == [] then row
    else if cs[|cs| - 1].AlertUpdated? && cs[|cs| - 1].alert.id == row.id then cs[|cs| - 1].alert
    else TrackedAlert(cs[..|cs| - 1], row)
  }

  function TrackedAlerts(cs: seq<Tracked>, rows: seq<Alert>): (r: seq<Alert>)
    ensures |r| == |rows|
    ensures forall i :: 0 <= i < |rows| ==> r[i] == TrackedAlert(cs, rows[i])
  {
    seq(|rows|, i requires 0 <= i < |rows| => TrackedAlert(cs, rows[i]))
  }

  /** With nothing tracked, the context hands out the saved rows. */
  lemma NothingTracked(rules: seq<Rule>, alerts: seq<Alert>)
    ensures TrackedRules([], rules) == rules && TrackedAlerts([], alerts) == alerts
  {
  }

  /** Tracking an update of a saved rule changes what reads see of that row, and of no other. */
  lemma TrackRuleUpdate(cs: seq<Tracked>, rows: seq<Rule>, e: Rule)
    requires IdsAreIndices(rows, RuleId) && 1 <= e.id <= |rows|
    ensures TrackedRules(cs + [RuleUpdated(e)], rows) == TrackedRules(cs, rows)[e.id - 1 := e]
  {
    var cs' := cs + [RuleUpdated(e)];
    assert cs'[..|cs'| - 1] == cs;
    forall i | 0 <= i < |rows|
      ensures TrackedRule(cs', rows[i]) == TrackedRules(cs, rows)[e.id - 1 := e][i]
    {
      assert rows[i].id == i + 1;
    }
  }

  /** Tracking an update of a saved alert changes what reads see of that row, and of no other. */
  lemma TrackAlertUpdate(cs: seq<Tracked>, rows: seq<Alert>, e: Alert)
    requires IdsAreIndices(rows, AlertId) && 1 <= e.id <= |rows|
    ensures TrackedAlerts(cs + [AlertUpdated(e)], rows) == TrackedAlerts(cs, rows)[e.id - 1 := e]
  {
    var cs' := cs + [AlertUpdated(e)];
    assert cs'[..|cs'| - 1] == cs;
    forall i | 0 <= i < |rows|
      ensures TrackedAlert(cs', rows[i]) == TrackedAlerts(cs, rows)[e.id - 1 := e][i]
    {
      assert rows[i].id == i + 1;
    }
  }

  /**
   * Saving writes, for every row already saved, the value reads saw of it
   * before the save; inserted rows come after them.
   */
  lemma {:induction false} SavedRows(t: Tables, cs: seq<Tracked>)
    ensures var s := SaveAll(t, cs);
      && |s.rules| >= |t.rules| && |s.alerts| >= |t.alerts|
      && (forall i :: 0 <= i < |t.rules| ==> s.rules[i] == TrackedRule(cs, t.rules[i]))
      && (forall i :: 0 <= i < |t.alerts| ==> s.alerts[i] == TrackedAlert(cs, t.alerts[i]))
    decreases |cs|
  {
    if cs != [] {
      var front := cs[..|cs| - 1];
      SavedRows(t, front);
      var s := SaveAll(t, front);
      assert SaveAll(t, cs) == SaveOne(s, cs[|cs| - 1]);
    }
  }

  /** A batch of rule updates rewrites the saved rules to the values reads saw, and nothing else. */
  lemma {:induction false} SaveRuleUpdates(t: Tables, cs: seq<Tracked>)
    requires forall i :: 0 <= i < |cs| ==> cs[i].RuleUpdated?
    ensures SaveAll(t, cs) == t.(rules := TrackedRules(cs, t.rules))
    decreases |cs|
  {
    if cs != [] {
      var front := cs[..|cs| - 1];
      SaveRuleUpdates(t, front);
      var x := cs[|cs| - 1].rule;
      var r := InfraRepository.Replace(TrackedRules(front, t.rules), RuleId, x);
      assert SaveAll(t, cs) == t.(rules := r);
      assert r == TrackedRules(cs, t.rules);
    }
  }

  /** A batch of alert updates rewrites the saved alerts to the values reads saw, and nothing else. */
  lemma {:induction false} SaveAlertUpdates(t: Tables, cs: seq<Tracked>)
    requires forall i :: 0 <= i < |cs| ==> cs[i].AlertUpdated?
    ensures SaveAll(t, cs) == t.(alerts := TrackedAlerts(cs, t.alerts))
    decreases |cs|
  {
    if cs != [] {
      var front := cs[..|cs| - 1];
      SaveAlertUpdates(t, front);
      var x := cs[|cs| - 1].alert;
      var r := InfraRepository.Replace(TrackedAlerts(front, t.alerts), AlertId, x);
      assert SaveAll(t, cs) == t.(alerts := r);
      assert r == TrackedAlerts(cs, t.alerts);
    }
  }

  /** Saving keeps the identity keys in insertion order. */
  lemma {:induction false} SaveAllKeyed(t: Tables, cs: seq<Tracked>)
    requires KeyedByPosition(t)
    ensures KeyedByPosition(SaveAll(t, cs))
    decreases |cs|
  {
    if cs != [] {
      var front := cs[..|cs| - 1];
      SaveAllKeyed(t, front);
      var s := SaveAll(t, front);
      var c := cs[|cs| - 1];
      assert SaveAll(t, cs) == SaveOne(s, c);
      match c
      case RuleUpdated(x) =>
        var r := InfraRepository.Replace(s.rules, RuleId, x);
        assert forall i :: 0 <= i < |r| ==> RuleId(r[i]) == RuleId(s.rules[i]);
      case AlertUpdated(x) =>
        var r := InfraRepository.Replace(s.alerts, AlertId, x);
        assert forall i :: 0 <= i < |r| ==> AlertId(r[i]) == AlertId(s.alerts[i]);
      case _ =>
    }
  }

  /**
   * The sets of the database context this repository reads and writes:
   * `db` is what the database holds, `pending` what the context tracks
   * until SaveChanges writes it. The Add/Update operations only track.
   */
  class ComplianceStore {
    var db: Tables
    var pending: seq<Tracked>

    ghost predicate Valid()
      reads this
    {
      KeyedByPosition(db)
    }

    /** `new ComplianceRepository(context)` over the saved tables, with nothing tracked yet. */
    constructor (db: Tables)
      requires KeyedByPosition(db)
      ensures Valid()
      ensures this.db == db && pending == []
    {
      this.db := db;
      pending := [];
    }

    /** The rules as reads hand them out: every saved row, with the values the context tracks for it. */
    function Rules(): (r: seq<Rule>)
      reads this
      ensures Valid() ==> IdsAreIndices(r, RuleId)
    {
      TrackedRules(pending, db.rules)
    }

    /** The alerts as reads hand them out. */
    function Alerts(): (r: seq<Alert>)
      reads this
      ensures Valid() ==> IdsAreIndices(r, AlertId)
    {
      TrackedAlerts(pending, db.alerts)
    }

    /**
     * `GetActiveRulesAsync`: the database filters on the saved IsActive;
     * the rules it finds are handed out with their tracked values.
     */
    function ActiveRulesRead(): (r: seq<Rule>)
      reads this
      ensures |r| == CountWhere(db.rules, IsActiveRule)
      ensures forall x :: x in r ==> exists row :: row in db.rules && row.isActive && x == TrackedRule(pending, row)
    {
      TrackedRules(pending, ActiveRules(db.rules))
    }

    /** `GetActiveAlertsAsync(null)`: the alerts whose saved status is New or Acknowledged, with their tracked values. */
    function ActiveAlertsRead(): (r: seq<Alert>)
      reads this
      ensures |r| <= |db.alerts|
      ensures forall x :: x in r ==> exists row :: row in db.alerts && IsActiveAlert(row) && x == TrackedAlert(pending, row)
    {
      TrackedAlerts(pending, ActiveAlerts(db.alerts, None))
    }

    /** `AddRuleAsync`: the rule is tracked as added; the database assigns its key when the context is saved. */
    method AddRule(rule: Rule)
      modifies this
      ensures db == old(db) && pending == old(pending) + [RuleAdded(rule)]
    {
      pending := pending + [RuleAdded(rule)];
    }

    /** `UpdateRuleAsync`: the rule is tracked as modified (reads of its row see it from now on, by TrackRuleUpdate). */
    method UpdateRule(rule: Rule)
      modifies this
      ensures db == old(db) && pending == old(pending) + [RuleUpdated(rule)]
    {
      pending := pending + [RuleUpdated(rule)];
    }

    /** `AddAsync(check)` of the base repository: the check is tracked as added. */
    method AddCheck(check: Check)
      modifies this
      ensures db == old(db) && pending == old(pending) + [CheckAdded(check)]
    {
      pending := pending + [CheckAdded(check)];
    }

    /** `AddAlertAsync`: the alert is tracked as added; the database assigns its key when the context is saved. */
    method AddAlert(alert: Alert)
      modifies this
      ensures db == old(db) && pending == old(pending) + [AlertAdded(alert)]
    {
      pending := pending + [AlertAdded(alert)];
    }

    /** `UpdateAlertAsync`: the alert is tracked as modified (reads of its row see it from now on, by TrackAlertUpdate). */
    method UpdateAlert(alert: Alert)
      modifies this
      ensures db == old(db) && pending == old(pending) + [AlertUpdated(alert)]
    {
      pending := pending + [AlertUpdated(alert)];
    }

    /** `AddHistoryAsync`: the record is tracked as added. */
    method AddHistory(h: History)
      modifies this
      ensures db == old(db) && pending == old(pending) + [HistoryAdded(h)]
    {
      pending := pending + [HistoryAdded(h)];
    }

    /** `SaveDashboardAsync`: the snapshot is tracked as added; despite the name, nothing is written. */
    method SaveDashboard(d: Dashboard)
      modifies this
      ensures db == old(db) && pending == old(pending) + [DashboardAdded(d)]
    {
      pending := pending + [DashboardAdded(d)];
    }

    /**
     * `SaveChangesAsync` of the base repository: a successful write applies
     * every tracked change and returns how many there were; a concurrency
     * conflict or a failed update becomes an InvalidOperationException,
     * writes nothing and leaves the changes tracked.
     */
    method SaveChanges(outcome: InfraRepository.SaveOutcome) returns (r: Result<nat>)
      requires Valid()
      modifies this
      ensures Valid()
      ensures outcome.Saved? ==> r == Ok(|old(pending)|) && db == SaveAll(old(db), old(pending)) && pending == []
      ensures outcome.ConcurrencyConflict? ==> r == Throw(InvalidOperation("Concurrency conflict detected"))
      ensures outcome.UpdateFailed? ==> r == Throw(InvalidOperation("Database update error occurred"))
      ensures !outcome.Saved? ==> db == old(db) && pending == old(pending)
    {
      match outcome
      case Saved =>
        SaveAllKeyed(db, pending);
        r := Ok(|pending|);
        db := SaveAll(db, pending);
        pending := [];
      case ConcurrencyConflict =>
        r := Throw(InvalidOperation("Concurrency conflict detected"));
      case UpdateFailed =>
        r := Throw(InvalidOperation("Database update error occurred"));
    }
  }
}

=== FILE: infra_db_context.dfy ===
/**
 * The database context of the root tree
 * (InsureX.Infrastructure/Data/AppDbContext.cs): the audit stamps and soft
 * deletes that SaveChangesAsync writes on tracked entries, the current-user
 * fallback, and the query filters that OnModelCreating installs.
 *
 * A tracked entry is its state and the audit fields of its entity. The
 * tenant context is `None` when the context was built without one; the
 * clock reading is a parameter.
 */
module InfraDbContext {
  import opened Common

  datatype EntityState = Detached | Unchanged | Deleted | Modified | Added

  /** The tenant context as the database context sees it: its tenant and its user, either possibly null. */
  datatype TenantView = TenantView(tenantId: Option<int>, userId: Option<string>)

  /** The audit fields of an IAuditableEntity, and its tenant when it is ITenantScoped. */
  datatype Audited = Audited(
    createdAt: DateTime,
    createdBy: Option<string>,
    updatedAt: Option<DateTime>,
    updatedBy: Option<string>,
    isDeleted: bool,
    deletedAt: Option<DateTime>,
    deletedBy: Option<string>,
    tenantScoped: bool,
    tenantId: int)

  datatype Entry = Entry(state: EntityState, entity: Audited)

  /** `GetCurrentUserId`: the context's user when it has a non-empty one, else "system". */
  function CurrentUserId(context: Option<TenantView>): (u: string)
    ensures context.Some? && !IsNullOrEmpty(context.value.userId) ==> u == context.value.userId.value
    ensures (context.None? || IsNullOrEmpty(context.value.userId)) ==> u == "system"
    ensures u != ""
  {
    if context.Some? && !IsNullOrEmpty(context.value.userId) then context.value.userId.value else "system"
  }

  /** `_tenantContext?.TenantId ?? Guid.Empty`. */
  function ContextTenant(context: Option<TenantView>): int
  {
    if context.Some? && context.value.tenantId.Some? then context.value.tenantId.value else EmptyGuid
  }

  /**
   * One step of the UpdateAuditableEntities loop. An added entry gets the
   * creation stamp, and the context's tenant when it is tenant-scoped and
   * has none; a modified entry gets the update stamp; a deleted entry is
   * turned into a modified one marked deleted.
   */
  function StampEntry(e: Entry, now: DateTime, user: string, tenant: int): (r: Entry)
    ensures e.state == Added ==> r.state == Added && r.entity.createdAt == now && r.entity.createdBy == Some(user)
    ensures e.state == Added && e.entity.tenantScoped && e.entity.tenantId == EmptyGuid ==> r.entity.tenantId == tenant
    ensures e.state == Added && !(e.entity.tenantScoped && e.entity.tenantId == EmptyGuid) ==> r.entity.tenantId == e.entity.tenantId
    ensures e.state == Modified ==> r == e.(entity := e.entity.(updatedAt := Some(now), updatedBy := Some(user)))
    ensures e.state == Deleted ==>
      r == Entry(Modified, e.entity.(deletedAt := Some(now), deletedBy := Some(user), isDeleted := true))
    ensures e.state != Added && e.state != Modified && e.state != Deleted ==> r == e
  {
    match e.state
    case Added =>
      var stamped := e.entity.(createdAt := now, createdBy := Some(user));
      if stamped.tenantScoped && stamped.tenantId == EmptyGuid then Entry(Added, stamped.(tenantId := tenant))
      else Entry(Added, stamped)
    case Modified => e.(entity := e.entity.(updatedAt := Some(now), updatedBy := Some(user)))
    case Deleted => Entry(Modified, e.entity.(deletedAt := Some(now), deletedBy := Some(user), isDeleted := true))
    case _ => e
  }

  /** The entries after the loop, all stamped with the one clock reading and user taken before it. */
  function Stamped(entries: seq<Entry>, now: DateTime, user: string, tenant: int): (r: seq<Entry>)
    ensures |r| == |entries|
    ensures forall i :: 0 <= i < |r| ==> r[i] == StampEntry(entries[i], now, user, tenant)
  {
    seq(|entries|, i requires 0 <= i < |entries| => StampEntry(entries[i], now, user, tenant))
  }

  /**
   * After stamping nothing is left to delete: every entry that was Deleted
   * is a soft-deleted update, and the states of the others are unchanged.
   */
  lemma StampedSoftDeletes(entries: seq<Entry>, now: DateTime, user: string, tenant: int)
    ensures var r := Stamped(entries, now, user, tenant);
      && (forall i :: 0 <= i < |r| ==> r[i].state != Deleted)
      && (forall i :: 0 <= i < |r| && entries[i].state == Deleted ==> r[i].state == Modified && r[i].entity.isDeleted)
      && (forall i :: 0 <= i < |r| && entries[i].state != Deleted ==> r[i].state == entries[i].state)
  {
    var r := Stamped(entries, now, user, tenant);
    forall i | 0 <= i < |r| ensures r[i].state != Deleted {
      assert r[i] == StampEntry(entries[i], now, user, tenant);
    }
  }

  class ChangeTracker {
    var entries: seq<Entry>

    constructor (entries: seq<Entry>)
      ensures this.entries == entries
    {
      this.entries := entries;
    }

    /** `SaveChangesAsync`: the loop of UpdateAuditableEntities, before the base save writes the entries. */
    method SaveChanges(context: Option<TenantView>, now: DateTime)
      modifies this
      ensures entries == Stamped(old(entries), now, CurrentUserId(context), ContextTenant(context))
    {
      var user := CurrentUserId(context);
      var tenant := ContextTenant(context);
      var i := 0;
      while i < |entries|
        invariant 0 <= i <= |entries| == |old(entries)|
        invariant forall k :: 0 <= k < i ==> entries[k] == StampEntry(old(entries)[k], now, user, tenant)
        invariant forall k :: i <= k < |entries| ==> entries[k] == old(entries)[k]
      {
        entries := entries[i := StampEntry(entries[i], now, user, tenant)];
        i := i + 1;
      }
    }
  }

  // ---------------------------------------------------------------------
  // Query filters
  // ---------------------------------------------------------------------

  /**
   * The filter an entity set ends up with. Each entity configuration first
   * installs `!IsDeleted`; when the context had a tenant while the model was
   * built, tenant-scoped sets get `SetTenantFilter`, which reads the
   * context's tenant at query time, and the checks, histories and claims a
   * filter on the tenant id read once at model building. A later
   * `HasQueryFilter` replaces an earlier one.
   */
  datatype QueryFilter = NotDeleted | CurrentTenant | FixedTenant(tenantId: int)

  datatype EntitySet = TenantScopedSet | CheckOrHistoryOrClaimSet | OtherSet

  function FilterOf(entitySet: EntitySet, modelTenant: Option<int>): (f: QueryFilter)
    ensures modelTenant.None? || entitySet == OtherSet ==> f == NotDeleted
    ensures modelTenant.Some? && entitySet == TenantScopedSet ==> f == CurrentTenant
    ensures modelTenant.Some? && entitySet == CheckOrHistoryOrClaimSet ==> f == FixedTenant(modelTenant.value)
  {
    if modelTenant.None? then NotDeleted
    else match entitySet
      case TenantScopedSet => CurrentTenant
      case CheckOrHistoryOrClaimSet => FixedTenant(modelTenant.value)
      case OtherSet => NotDeleted
  }

  /** Whether an entity passes a filter; `e.TenantId == TenantId` with a null tenant is false. */
  predicate Passes(f: QueryFilter, e: Audited, current: Option<int>)
  {
    match f
    case NotDeleted => !e.isDeleted
    case CurrentTenant => !e.isDeleted && current == Some(e.tenantId)
    case FixedTenant(t) => !e.isDeleted && e.tenantId == t
  }

  /**
   * A soft-deleted entity is hidden by every filter; with a tenant when the
   * model was built, a tenant-scoped entity is visible exactly to a context
   * of its own tenant, and a check, history or claim exactly when it
   * belongs to the tenant the model was built for.
   */
  lemma FilterSpec(entitySet: EntitySet, modelTenant: Option<int>, e: Audited, current: Option<int>)
    ensures e.isDeleted ==> !Passes(FilterOf(entitySet, modelTenant), e, current)
    ensures modelTenant.Some? && entitySet == TenantScopedSet ==>
      (Passes(FilterOf(entitySet, modelTenant), e, current) <==> !e.isDeleted && current == Some(e.tenantId))
    ensures modelTenant.Some? && entitySet == CheckOrHistoryOrClaimSet ==>
      (Passes(FilterOf(entitySet, modelTenant), e, current) <==> !e.isDeleted && e.tenantId == modelTenant.value)
    ensures modelTenant.None? ==> (Passes(FilterOf(entitySet, modelTenant), e, current) <==> !e.isDeleted)
  {
  }

  /** An entity deleted through SaveChanges disappears from every query afterwards. */
  lemma DeletedThenHidden(e: Entry, now: DateTime, user: string, tenant: int, f: QueryFilter, current: Option<int>)
    requires e.state == Deleted
    ensures !Passes(f, StampEntry(e, now, user, tenant).entity, current)
  {
  }
}

=== FILE: infra_policy_repository.dfy ===
/**
 * The policy repository of the root tree
 * (InsureX.Infrastructure/Repositories/PolicyRepository.cs): the policy
 * queries and counts, the portfolio summary, and the claims of a policy.
 * `now` stands for DateTime.UtcNow; a query handed in by a service is a
 * sequence of policies in query order.
 */
module InfraPolicyRepository {
  import opened Common
  import opened AppDomain
  import Grouping

  /** `GetPagedAsync(query, page, pageSize)`: `Skip((page - 1) * pageSize).Take(pageSize)`. */
  function GetPaged(query: seq<Policy>, page: int, pageSize: int): (r: seq<Policy>)
    ensures forall p :: p in r ==> p in query
    ensures page >= 1 && pageSize >= 1 ==>
      && |r| == Max(0, Min(pageSize, |query| - PageStart(page, pageSize)))
      && forall i :: 0 <= i < |r| ==> r[i] == query[PageStart(page, pageSize) + i]
  {
    PageWithin(query, page, pageSize);
    if page >= 1 && pageSize >= 1 then PageContents(query, page, pageSize); Page(query, page, pageSize)
    else Page(query, page, pageSize)
  }

  /** `GetByIdAsync`: the first policy with that id, or null. */
  function PolicyById(policies: seq<Policy>, id: int): (r: Option<Policy>)
    ensures r.Some? ==> r.value in policies && r.value.id == id
    ensures r.None? <==> forall i :: 0 <= i < |policies| ==> policies[i].id != id
  {
    FirstOrDefault(policies, (p: Policy) => p.id == id)
  }

  /** `GetByPolicyNumberAsync`: the first policy with that number, or null. */
  function PolicyByNumber(policies: seq<Policy>, number: string): (r: Option<Policy>)
    ensures r.Some? ==> r.value in policies && r.value.policyNumber == number
    ensures r.None? <==> forall i :: 0 <= i < |policies| ==> policies[i].policyNumber != number
  {
    FirstOrDefault(policies, (p: Policy) => p.policyNumber == number)
  }

  /** Active and ending between now and now + `days` days, both ends included. */
  predicate IsExpiring(p: Policy, now: DateTime, days: int)
  {
    p.endDate <= AddDays(now, days) && p.endDate >= now && p.status == PolicyActive
  }

  function ExpiringAt(now: DateTime, days: int): Policy -> bool
  {
    (p: Policy) => IsExpiring(p, now, days)
  }

  /** `GetExpiringPoliciesAsync(days)`: exactly the expiring policies, in store order. */
  function ExpiringPolicies(policies: seq<Policy>, now: DateTime, days: int): (r: seq<Policy>)
    ensures forall p :: p in r <==> p in policies && IsExpiring(p, now, days)
  {
    Filter(policies, ExpiringAt(now, days))
  }

  /** Still marked Active although its end date has passed. */
  predicate IsExpiredActive(p: Policy, now: DateTime)
  {
    p.endDate < now && p.status == PolicyActive
  }

  /** `GetExpiredPoliciesAsync`: exactly the Active policies that have ended. */
  function ExpiredPolicies(policies: seq<Policy>, now: DateTime): (r: seq<Policy>)
    ensures forall p :: p in r <==> p in policies && IsExpiredActive(p, now)
  {
    Filter(policies, (p: Policy) => IsExpiredActive(p, now))
  }

  /** `GetByAssetIdAsync`: exactly the asset's policies, in store order. */
  function PoliciesOfAsset(policies: seq<Policy>, assetId: int): (r: seq<Policy>)
    ensures |r| <= |policies|
    ensures forall p :: p in r <==> p in policies && p.assetId == assetId
  {
    Filter(policies, (p: Policy) => p.assetId == assetId)
  }

  /** `ExistsAsync(policyNumber)`. */
  function PolicyExists(policies: seq<Policy>, number: string): (b: bool)
    ensures b <==> exists i :: 0 <= i < |policies| && policies[i].policyNumber == number
    ensures b <==> PolicyByNumber(policies, number).Some?
  {
    Any(policies, (p: Policy) => p.policyNumber == number)
  }

  predicate IsActiveAt(p: Policy, now: DateTime) { p.status == PolicyActive && p.endDate >= now }

  function ActiveAt(now: DateTime): Policy -> bool
  {
    (p: Policy) => IsActiveAt(p, now)
  }

  predicate HasEnded(p: Policy, now: DateTime) { p.endDate < now }

  function EndedAt(now: DateTime): Policy -> bool
  {
    (p: Policy) => HasEnded(p, now)
  }

  /** `GetActiveCountAsync`: Active policies that have not ended. */
  function ActiveCount(policies: seq<Policy>, now: DateTime): nat
  {
    CountWhere(policies, ActiveAt(now))
  }

  /** `GetExpiringCountAsync(days)`. */
  function ExpiringCount(policies: seq<Policy>, now: DateTime, days: int): nat
  {
    CountWhere(policies, ExpiringAt(now, days))
  }

  /** The expiring count is the number of policies the expiring query returns. */
  lemma ExpiringCountIsLength(policies: seq<Policy>, now: DateTime, days: int)
    ensures ExpiringCount(policies, now, days) == |ExpiringPolicies(policies, now, days)|
  {
    CountIsFilterLength(policies, ExpiringAt(now, days));
  }

  /** Every expiring policy is active, so there are never more expiring than active ones. */
  lemma ExpiringAtMostActive(policies: seq<Policy>, now: DateTime, days: int)
    ensures ExpiringCount(policies, now, days) <= ActiveCount(policies, now)
  {
    CountMonotone(policies, ExpiringAt(now, days), ActiveAt(now));
  }

  /** `Sum(f)` over the policies. */
  function Sum(policies: seq<Policy>, f: Policy -> int): int
    decreases |policies|
  {
    if policies == [] then 0 else Sum(policies[..|policies| - 1], f) + f(policies[|policies| - 1])
  }

  /** A sum of values that are never negative is never negative. */
  lemma {:induction false} SumNonNegative(policies: seq<Policy>, f: Policy -> int)
    requires forall i :: 0 <= i < |policies| ==> f(policies[i]) >= 0
    ensures Sum(policies, f) >= 0
    decreases |policies|
  {
    if policies != [] {
      SumNonNegative(policies[..|policies| - 1], f);
    }
  }

  function SumInsuredOf(p: Policy): int { p.sumInsured }
  function PremiumOf(p: Policy): int { p.premium }

  function PolicyTypes(policies: seq<Policy>): (keys: seq<string>)
    ensures |keys| == |policies| && forall i :: 0 <= i < |policies| ==> keys[i] == policies[i].policyType
  {
    seq(|policies|, i requires 0 <= i < |policies| => policies[i].policyType)
  }

  function InsurerNames(policies: seq<Policy>): (keys: seq<string>)
    ensures |keys| == |policies| && forall i :: 0 <= i < |policies| ==> keys[i] == policies[i].insurerName
  {
    seq(|policies|, i requires 0 <= i < |policies| => policies[i].insurerName)
  }

  /** PolicyStatistics; each dictionary is a sequence of groups with distinct keys. */
  datatype PolicyStatistics = PolicyStatistics(
    totalPolicies: nat,
    activePolicies: nat,
    expiringPolicies: nat,
    expiredPolicies: nat,
    totalSumInsured: int,
    totalPremium: int,
    policiesByType: seq<Grouping.Group<string>>,
    policiesByInsurer: seq<Grouping.Group<string>>)

  /** `GetSummaryAsync`: the counts, totals and groupings over every policy. */
  function Summary(policies: seq<Policy>, now: DateTime): PolicyStatistics
  {
    PolicyStatistics(
      |policies|,
      CountWhere(policies, ActiveAt(now)),
      CountWhere(policies, ExpiringAt(now, 30)),
      CountWhere(policies, EndedAt(now)),
      Sum(policies, SumInsuredOf),
      Sum(policies, PremiumOf),
      Grouping.GroupCounts(PolicyTypes(policies)),
      Grouping.GroupCounts(InsurerNames(policies)))
  }

  /** Two properties no element has together are counted at most |s| times between them. */
  lemma {:induction false} CountDisjoint<T>(s: seq<T>, p: T -> bool, q: T -> bool)
    requires forall i :: 0 <= i < |s| ==> !(p(s[i]) && q(s[i]))
    ensures CountWhere(s, p) + CountWhere(s, q) <= |s|
  {
    if s != [] {
      assert forall i :: 0 <= i < |s[1..]| ==> s[1..][i] == s[i + 1];
      CountDisjoint(s[1..], p, q);
    }
  }

  /**
   * The summary counts every policy; the expiring ones are active, a policy
   * is never both active and ended, and the per-type and per-insurer counts
   * each add up to the total, with one entry per distinct key holding its
   * number of policies. The active and the 30-day expiring counts agree
   * with GetActiveCountAsync and GetExpiringCountAsync(30).
   */
  lemma SummarySpec(policies: seq<Policy>, now: DateTime)
    ensures var s := Summary(policies, now);
      && s.totalPolicies == |policies|
      && s.expiringPolicies <= s.activePolicies
      && s.activePolicies + s.expiredPolicies <= s.totalPolicies
      && s.activePolicies == ActiveCount(policies, now)
      && s.expiringPolicies == ExpiringCount(policies, now, 30)
      && s.expiringPolicies == |ExpiringPolicies(policies, now, 30)|
      && Grouping.Total(s.policiesByType) == s.totalPolicies
      && Grouping.Total(s.policiesByInsurer) == s.totalPolicies
      && Grouping.DistinctKeys(s.policiesByType) && Grouping.DistinctKeys(s.policiesByInsurer)
      && (forall k :: Grouping.CountFor(s.policiesByType, k) == Grouping.Occurrences(PolicyTypes(policies), k))
      && (forall k :: Grouping.CountFor(s.policiesByInsurer, k) == Grouping.Occurrences(InsurerNames(policies), k))
      && (forall k :: Grouping.HasKey(s.policiesByType, k) <==> k in PolicyTypes(policies))
  {
    ExpiringAtMostActive(policies, now, 30);
    ExpiringCountIsLength(policies, now, 30);
    CountDisjoint(policies, ActiveAt(now), EndedAt(now));
    Grouping.GroupCountsSpec(PolicyTypes(policies));
    Grouping.GroupCountsSpec(InsurerNames(policies));
  }

  // ---------------------------------------------------------------------
  // Claims
  // ---------------------------------------------------------------------

  /** `GetClaimByIdAsync`: the first claim with that id, or null. */
  function ClaimById(claims: seq<Claim>, id: int): (r: Option<Claim>)
    ensures r.Some? ==> r.value in claims && r.value.id == id
    ensures r.None? <==> forall i :: 0 <= i < |claims| ==> claims[i].id != id
  {
    FirstOrDefault(claims, (c: Claim) => c.id == id)
  }

  /** `GetClaimsByPolicyIdAsync`: exactly the claims of the policy, in store order. */
  function ClaimsOfPolicy(claims: seq<Claim>, policyId: int): (r: seq<Claim>)
    ensures |r| <= |claims|
    ensures forall c :: c in r <==> c in claims && c.policyId == policyId
  {
    Filter(claims, (c: Claim) => c.policyId == policyId)
  }

  /** Every claim with the id of `claim` replaced by it. */
  function ReplaceClaim(claims: seq<Claim>, claim: Claim): (r: seq<Claim>)
    ensures |r| == |claims|
    ensures forall i :: 0 <= i < |claims| ==> r[i] == if claims[i].id == claim.id then claim else claims[i]
  {
    seq(|claims|, i requires 0 <= i < |claims| => if claims[i].id == claim.id then claim else claims[i])
  }

  /** The claim set the repository adds to and updates. */
  class ClaimStore {
    var claims: seq<Claim>

    constructor ()
      ensures claims == []
    {
      claims := [];
    }

    /** `AddClaimAsync`: the claim joins the set. */
    method AddClaim(claim: Claim)
      modifies this
      ensures claims == old(claims) + [claim]
    {
      claims := claims + [claim];
    }

    /** `UpdateClaimAsync`: every stored claim with the claim's id is replaced by it. */
    method UpdateClaim(claim: Claim)
      modifies this
      ensures |claims| == |old(claims)|
      ensures forall i :: 0 <= i < |claims| ==> claims[i] == if old(claims)[i].id == claim.id then claim else old(claims)[i]
    {
      claims := ReplaceClaim(claims, claim);
    }
  }

  /** An added claim is found among its policy's claims, and the other policies' claims are unchanged. */
  lemma AddedClaimListed(claims: seq<Claim>, claim: Claim, policyId: int)
    ensures claim.policyId == policyId ==> claim in ClaimsOfPolicy(claims + [claim], policyId)
    ensures claim.policyId != policyId ==> ClaimsOfPolicy(claims + [claim], policyId) == ClaimsOfPolicy(claims, policyId)
  {
    FilterSnoc(claims, claim, (c: Claim) => c.policyId == policyId);
  }
}

=== FILE: infra_repository.dfy ===
/**
 * The generic repository of the root tree
 * (InsureX.Infrastructure/Repositories/Repository.cs) over one entity set of
 * the database context.
 *
 * The set is split the way the context splits it: `stored` is what the
 * database holds and what every query reads, `pending` the changes the
 * context tracks until SaveChanges writes them. An entity is identified by
 * its key, the integer (or Guid) primary key that `FindAsync` looks up. A
 * null predicate, entity or action is `None`. The outcome of the database
 * write and the action of a transaction are parameters.
 */
module InfraRepository {
  import opened Common
  import Ordering

  /** A change the context tracks: `Add`, `Update` or `Remove` of an entity. */
  datatype Change<T> = Added(entity: T) | Modified(entity: T) | Removed(entity: T)

  /** What the database answers to SaveChanges. */
  datatype SaveOutcome = Saved | ConcurrencyConflict | UpdateFailed

  /** Every entity with the key of `e` replaced by `e`. */
  function Replace<T>(s: seq<T>, key: T -> int, e: T): (r: seq<T>)
    ensures |r| == |s|
    ensures forall i :: 0 <= i < |s| ==> r[i] == if key(s[i]) == key(e) then e else s[i]
  {
    seq(|s|, i requires 0 <= i < |s| => if key(s[i]) == key(e) then e else s[i])
  }

  function KeyIsNot<T>(key: T -> int, k: int): T -> bool
  {
    (x: T) => key(x) != k
  }

  /** The effect of one tracked change on the stored set. */
  function ApplyChange<T(!new)>(s: seq<T>, key: T -> int, c: Change<T>): (r: seq<T>)
  {
    match c
    case Added(e) => s + [e]
    case Modified(e) => Replace(s, key, e)
    case Removed(e) => Filter(s, KeyIsNot(key, key(e)))
  }

  /** An added entity is appended, an updated one replaces its stored version, a removed one is gone. */
  lemma ApplyChangeSpec<T(!new)>(s: seq<T>, key: T -> int, c: Change<T>)
    ensures c.Added? ==> ApplyChange(s, key, c) == s + [c.entity]
    ensures c.Modified? ==>
      && |ApplyChange(s, key, c)| == |s|
      && forall i :: 0 <= i < |s| ==> ApplyChange(s, key, c)[i] == if key(s[i]) == key(c.entity) then c.entity else s[i]
    ensures c.Removed? ==>
      forall x :: x in ApplyChange(s, key, c) <==> x in s && key(x) != key(c.entity)
  {
  }

  /** All tracked changes, in the order they were made. */
  function ApplyChanges<T(!new)>(s: seq<T>, key: T -> int, cs: seq<Change<T>>): seq<T>
    decreases |cs|
  {
    if cs == [] then s else ApplyChange(ApplyChanges(s, key, cs[..|cs| - 1]), key, cs[|cs| - 1])
  }

  /** Saving a batch and then one more change is saving the longer batch. */
  lemma ApplyChangesSnoc<T(!new)>(s: seq<T>, key: T -> int, cs: seq<Change<T>>, c: Change<T>)
    ensures ApplyChanges(s, key, cs + [c]) == ApplyChange(ApplyChanges(s, key, cs), key, c)
  {
    assert (cs + [c])[..|cs|] == cs;
  }

  /** A batch of additions only appends its entities, in order. */
  lemma {:induction false} AddedOnly<T(!new)>(s: seq<T>, key: T -> int, cs: seq<Change<T>>)
    requires forall i :: 0 <= i < |cs| ==> cs[i].Added?
    ensures ApplyChanges(s, key, cs) == s + seq(|cs|, i requires 0 <= i < |cs| => cs[i].entity)
    decreases |cs|
  {
    if cs != [] {
      var front := cs[..|cs| - 1];
      AddedOnly(s, key, front);
      assert ApplyChanges(s, key, cs) == ApplyChanges(s, key, front) + [cs[|cs| - 1].entity];
    }
  }

  /** GetPagedAsync's clamping: a page below 1 becomes 1, a size below 1 becomes 10. */
  function EffectivePage(page: int): (p: int)
    ensures p >= 1 && (page >= 1 ==> p == page) && (page < 1 ==> p == 1)
  {
    if page < 1 then 1 else page
  }

  function EffectivePageSize(pageSize: int): (n: int)
    ensures n >= 1 && (pageSize >= 1 ==> n == pageSize) && (pageSize < 1 ==> n == 10)
  {
    if pageSize < 1 then 10 else pageSize
  }

  /** The page at the clamped number and size is the run of items starting at its page start. */
  lemma ClampedPageContents<T>(s: seq<T>, page: int, pageSize: int)
    ensures var r := Page(s, EffectivePage(page), EffectivePageSize(pageSize));
      var start := PageStart(EffectivePage(page), EffectivePageSize(pageSize));
      && |r| == Max(0, Min(EffectivePageSize(pageSize), |s| - start))
      && forall i :: 0 <= i < |r| ==> r[i] == s[start + i]
  {
    PageContents(s, EffectivePage(page), EffectivePageSize(pageSize));
  }

  /** The filtered set, in the requested order when one is given. */
  function Query<T(!new)>(s: seq<T>, filter: Option<T -> bool>, orderBy: Option<(T, T) -> bool>): (q: seq<T>)
    requires orderBy.Some? ==> Ordering.TotalPreorder(orderBy.value)
    ensures forall x :: x in q ==> x in s && (filter.Some? ==> filter.value(x))
    ensures multiset(q) == multiset(if filter.Some? then Filter(s, filter.value) else s)
    ensures orderBy.Some? ==> Ordering.SortedBy(q, orderBy.value)
    ensures orderBy.None? ==> q == if filter.Some? then Filter(s, filter.value) else s
  {
    var filtered := if filter.Some? then Filter(s, filter.value) else s;
    if orderBy.Some? then
      var q := Ordering.SortBy(filtered, orderBy.value);
      assert forall x :: x in q ==> x in multiset(filtered);
      q
    else filtered
  }

  /** Ordering the matches keeps all of them. */
  lemma QueryLength<T(!new)>(s: seq<T>, filter: Option<T -> bool>, orderBy: Option<(T, T) -> bool>)
    requires orderBy.Some? ==> Ordering.TotalPreorder(orderBy.value)
    ensures |Query(s, filter, orderBy)| == |if filter.Some? then Filter(s, filter.value) else s|
  {
    var q := Query(s, filter, orderBy);
    var filtered := if filter.Some? then Filter(s, filter.value) else s;
    assert |q| == |multiset(q)| == |multiset(filtered)| == |filtered|;
  }

  function KeyIs<T>(key: T -> int, k: int): T -> bool
  {
    (x: T) => key(x) == k
  }

  class Repository<T(!new)> {
    var stored: seq<T>
    var pending: seq<Change<T>>
    const key: T -> int

    /** `new Repository<T>(context)` over the context's set. */
    constructor (stored: seq<T>, key: T -> int)
      ensures this.stored == stored && pending == [] && this.key == key
    {
      this.stored := stored;
      pending := [];
      this.key := key;
    }

    /** `GetByIdAsync(int id)`: an id of 0 or less is refused, otherwise the entity with that key or null. */
    function GetById(id: int): (r: Result<Option<T>>)
      reads this
      ensures id <= 0 <==> r.Throw?
      ensures r.Throw? ==> r.error == ArgumentError("Id must be greater than zero")
      ensures r.Ok? && r.value.Some? ==> r.value.value in stored && key(r.value.value) == id
      ensures r.Ok? && r.value.None? ==> forall i :: 0 <= i < |stored| ==> key(stored[i]) != id
    {
      if id <= 0 then Throw(ArgumentError("Id must be greater than zero"))
      else Ok(FirstOrDefault(stored, KeyIs(key, id)))
    }

    /** `GetByIdAsync(Guid id)`: Guid.Empty is refused, otherwise the entity with that key or null. */
    function GetByGuid(id: int): (r: Result<Option<T>>)
      reads this
      ensures id == EmptyGuid <==> r.Throw?
      ensures r.Throw? ==> r.error == ArgumentError("Id cannot be empty")
      ensures r.Ok? && r.value.Some? ==> r.value.value in stored && key(r.value.value) == id
      ensures r.Ok? && r.value.None? ==> forall i :: 0 <= i < |stored| ==> key(stored[i]) != id
    {
      if id == EmptyGuid then Throw(ArgumentError("Id cannot be empty"))
      else Ok(FirstOrDefault(stored, KeyIs(key, id)))
    }

    /** `GetAllAsync`. */
    function GetAll(): (r: seq<T>)
      reads this
      ensures r == stored
    {
      stored
    }

    /** `FindAsync(filter)`: the matches in stored order; a null predicate is refused. */
    function Find(filter: Option<T -> bool>): (r: Result<seq<T>>)
      reads this
      ensures filter.None? <==> r.Throw?
      ensures r.Throw? ==> r.error == ArgumentNull("predicate")
      ensures r.Ok? ==> r.value == Filter(stored, filter.value)
    {
      if filter.None? then Throw(ArgumentNull("predicate")) else Ok(Filter(stored, filter.value))
    }

    /** `FirstOrDefaultAsync(predicate)`: the first match or null; a null predicate is refused. */
    function First(filter: Option<T -> bool>): (r: Result<Option<T>>)
      reads this
      ensures filter.None? <==> r.Throw?
      ensures r.Throw? ==> r.error == ArgumentNull("predicate")
      ensures r.Ok? && r.value.Some? ==> r.value.value in stored && filter.value(r.value.value)
      ensures r.Ok? && r.value.None? ==> forall i :: 0 <= i < |stored| ==> !filter.value(stored[i])
    {
      if filter.None? then Throw(ArgumentNull("predicate")) else Ok(FirstOrDefault(stored, filter.value))
    }

    /** `ExistsAsync(predicate)`: some entity matches; a null predicate is refused. */
    function Exists(filter: Option<T -> bool>): (r: Result<bool>)
      reads this
      ensures filter.None? <==> r.Throw?
      ensures r.Throw? ==> r.error == ArgumentNull("predicate")
      ensures r.Ok? ==> (r.value <==> exists i :: 0 <= i < |stored| && filter.value(stored[i]))
    {
      if filter.None? then Throw(ArgumentNull("predicate")) else Ok(Any(stored, filter.value))
    }

    /** `CountAsync(predicate = null)`: every entity without a predicate, else the matches. */
    function Count(filter: Option<T -> bool>): (n: nat)
      reads this
      ensures filter.None? ==> n == |stored|
      ensures filter.Some? ==> n == |Filter(stored, filter.value)|
    {
      if filter.None? then |stored|
      else
        CountIsFilterLength(stored, filter.value);
        CountWhere(stored, filter.value)
    }

    /**
     * `GetPagedAsync(page, pageSize, predicate, orderBy)`: the page of the
     * filtered, ordered set at the clamped page number and size.
     */
    function GetPaged(page: int, pageSize: int, filter: Option<T -> bool>, orderBy: Option<(T, T) -> bool>): seq<T>
      requires orderBy.Some? ==> Ordering.TotalPreorder(orderBy.value)
      reads this
    {
      Page(Query(stored, filter, orderBy), EffectivePage(page), EffectivePageSize(pageSize))
    }

    /**
     * At most the clamped size of items, every one a stored entity that
     * matches the filter, in the requested order: as many as the matches
     * leave after the page start, and those that follow it in the ordered
     * matches. Without an order it is the slice of the filtered set at
     * (page - 1) * pageSize.
     */
    lemma GetPagedSpec(page: int, pageSize: int, filter: Option<T -> bool>, orderBy: Option<(T, T) -> bool>)
      requires orderBy.Some? ==> Ordering.TotalPreorder(orderBy.value)
      ensures var r := GetPaged(page, pageSize, filter, orderBy);
        var q := Query(stored, filter, orderBy);
        var filtered := if filter.Some? then Filter(stored, filter.value) else stored;
        var start := PageStart(EffectivePage(page), EffectivePageSize(pageSize));
        && |r| <= EffectivePageSize(pageSize)
        && |r| == Max(0, Min(EffectivePageSize(pageSize), |filtered| - start))
        && (forall i :: 0 <= i < |r| ==> r[i] == q[start + i])
        && (forall x :: x in r ==> x in stored && (filter.Some? ==> filter.value(x)))
        && (orderBy.Some? ==> Ordering.SortedBy(r, orderBy.value))
    {
      var q := Query(stored, filter, orderBy);
      QueryLength(stored, filter, orderBy);
      ClampedPageContents(q, page, pageSize);
      PageWithin(q, EffectivePage(page), EffectivePageSize(pageSize));
      if orderBy.Some? {
        Ordering.PageSorted(q, EffectivePage(page), EffectivePageSize(pageSize), orderBy.value);
      }
    }

    /** Without an order the page is the slice of the filtered set at (page - 1) * pageSize of the clamped values. */
    lemma GetPagedSlice(page: int, pageSize: int, filter: Option<T -> bool>)
      ensures var r := GetPaged(page, pageSize, filter, None);
        var filtered := if filter.Some? then Filter(stored, filter.value) else stored;
        var start := PageStart(EffectivePage(page), EffectivePageSize(pageSize));
        && |r| == Max(0, Min(EffectivePageSize(pageSize), |filtered| - start))
        && forall i :: 0 <= i < |r| ==> r[i] == filtered[start + i]
    {
      var filtered := if filter.Some? then Filter(stored, filter.value) else stored;
      assert Query(stored, filter, None) == filtered;
      assert GetPaged(page, pageSize, filter, None) == Page(filtered, EffectivePage(page), EffectivePageSize(pageSize));
      ClampedPageContents(filtered, page, pageSize);
    }

    /** `AddAsync(entity)`: the entity is tracked as added; a null entity is refused. */
    method Add(entity: Option<T>) returns (r: Result<T>)
      modifies this
      ensures stored == old(stored)
      ensures entity.None? ==> r == Throw(ArgumentNull("entity")) && pending == old(pending)
      ensures entity.Some? ==> r == Ok(entity.value) && pending == old(pending) + [Added(entity.value)]
    {
      if entity.None? {
        return Throw(ArgumentNull("entity"));
      }
      pending := pending + [Added(entity.value)];
      return Ok(entity.value);
    }

    /** `UpdateAsync(entity)`: the entity is tracked as modified; a null entity is refused. */
    method Update(entity: Option<T>) returns (r: Result<()>)
      modifies this
      ensures stored == old(stored)
      ensures entity.None? ==> r == Throw(ArgumentNull("entity")) && pending == old(pending)
      ensures entity.Some? ==> r == Ok(()) && pending == old(pending) + [Modified(entity.value)]
    {
      if entity.None? {
        return Throw(ArgumentNull("entity"));
      }
      pending := pending + [Modified(entity.value)];
      return Ok(());
    }

    /** `DeleteAsync(entity)`: the entity is tracked as removed; a null entity is refused. */
    method Delete(entity: Option<T>) returns (r: Result<()>)
      modifies this
      ensures stored == old(stored)
      ensures entity.None? ==> r == Throw(ArgumentNull("entity")) && pending == old(pending)
      ensures entity.Some? ==> r == Ok(()) && pending == old(pending) + [Removed(entity.value)]
    {
      if entity.None? {
        return Throw(ArgumentNull("entity"));
      }
      pending := pending + [Removed(entity.value)];
      return Ok(());
    }

    /**
     * `SaveChangesAsync`: a successful write applies every tracked change
     * in order and returns how many there were; a concurrency conflict or a
     * failed update becomes an InvalidOperationException and writes nothing.
     */
    method SaveChanges(outcome: SaveOutcome) returns (r: Result<nat>)
      modifies this
      ensures outcome == Saved ==>
        r == Ok(|old(pending)|) && stored == ApplyChanges(old(stored), key, old(pending)) && pending == []
      ensures outcome == ConcurrencyConflict ==> r == Throw(InvalidOperation("Concurrency conflict detected"))
      ensures outcome == UpdateFailed ==> r == Throw(InvalidOperation("Database update error occurred"))
      ensures outcome != Saved ==> stored == old(stored) && pending == old(pending)
    {
      match outcome
      case Saved =>
        r := Ok(|pending|);
        stored := ApplyChanges(stored, key, pending);
        pending := [];
      case ConcurrencyConflict =>
        r := Throw(InvalidOperation("Concurrency conflict detected"));
      case UpdateFailed =>
        r := Throw(InvalidOperation("Database update error occurred"));
    }

    /**
     * `ExecuteInTransactionAsync(action)`: a null action is refused; an
     * action that completes is committed, one that throws is rolled back
     * and its exception rethrown. The action is given as what its writes
     * make of the stored set.
     */
    method ExecuteInTransaction(action: Option<seq<T> -> Result<seq<T>>>) returns (r: Result<()>)
      modifies this
      ensures pending == old(pending)
      ensures action.None? ==> r == Throw(ArgumentNull("action")) && stored == old(stored)
      ensures action.Some? && action.value(old(stored)).Ok? ==>
        r == Ok(()) && stored == action.value(old(stored)).value
      ensures action.Some? && action.value(old(stored)).Throw? ==>
        r == Throw(action.value(old(stored)).error) && stored == old(stored)
    {
      if action.None? {
        return Throw(ArgumentNull("action"));
      }
      var outcome := action.value(stored);
      if outcome.Throw? {
        return Throw(outcome.error);
      }
      stored := outcome.value;
      return Ok(());
    }

    /** `Detach(entity)`: the context stops tracking the entity, so its pending changes are dropped. */
    method Detach(entity: Option<T>) returns (r: Result<()>)
      modifies this
      ensures stored == old(stored)
      ensures entity.None? ==> r == Throw(ArgumentNull("entity")) && pending == old(pending)
      ensures entity.Some? ==> r == Ok(()) && pending == Filter(old(pending), ChangeNotOf(key(entity.value)))
    {
      if entity.None? {
        return Throw(ArgumentNull("entity"));
      }
      pending := Filter(pending, ChangeNotOf(key(entity.value)));
      return Ok(());
    }

    /**
     * `ReloadAsync(entity)`: the entity is read again from the database,
     * dropping its pending changes; the result is the stored version, or
     * null when there is none.
     */
    method Reload(entity: Option<T>) returns (r: Result<Option<T>>)
      modifies this
      ensures stored == old(stored)
      ensures entity.None? ==> r == Throw(ArgumentNull("entity")) && pending == old(pending)
      ensures entity.Some? ==>
        && r == Ok(FirstOrDefault(stored, KeyIs(key, key(entity.value))))
        && pending == Filter(old(pending), ChangeNotOf(key(entity.value)))
    {
      if entity.None? {
        return Throw(ArgumentNull("entity"));
      }
      pending := Filter(pending, ChangeNotOf(key(entity.value)));
      return Ok(FirstOrDefault(stored, KeyIs(key, key(entity.value))));
    }

    function ChangeNotOf(k: int): Change<T> -> bool
      reads this
    {
      (c: Change<T>) => key(c.entity) != k
    }
  }

  /**
   * An entity added to a set that holds no entity with its key is found by
   * GetById after SaveChanges, under a positive key.
   */
  lemma AddedThenSavedIsFound<T(!new)>(s: seq<T>, key: T -> int, e: T)
    requires key(e) > 0
    requires forall i :: 0 <= i < |s| ==> key(s[i]) != key(e)
    ensures FirstOrDefault(ApplyChanges(s, key, [Added(e)]), KeyIs(key, key(e))) == Some(e)
  {
    ApplyChangesSnoc(s, key, [], Added(e));
    assert [] + [Added(e)] == [Added(e)];
    var t := s + [e];
    assert ApplyChanges(s, key, [Added(e)]) == t;
    assert t[|s|] == e;
  }

  /** After a removal is saved, no entity with that key is found. */
  lemma RemovedThenSavedIsGone<T(!new)>(s: seq<T>, key: T -> int, e: T)
    ensures FirstOrDefault(ApplyChanges(s, key, [Removed(e)]), KeyIs(key, key(e))) == None
  {
    ApplyChangesSnoc(s, key, [], Removed(e));
    assert [] + [Removed(e)] == [Removed(e)];
  }
}

=== FILE: infra_scoped_tenant_context.dfy ===
/**
 * The scoped tenant context of the infrastructure services
 * (InsureX.Infrastructure/Services/TenantContext.cs): a nullable Guid that
 * SetTenantId overwrites, valid when set and not Guid.Empty.
 */
module InfraScopedTenantContext {
  import opened Common

  /** `HasValidTenant` on a stored value. */
  predicate IsValidTenant(tenantId: Option<int>)
  {
    tenantId.Some? && tenantId.value != EmptyGuid
  }

  class TenantContext {
    var tenantId: Option<int>

    /** A new context has no tenant. */
    constructor ()
      ensures tenantId == None
    {
      tenantId := None;
    }

    /**
     * `SetTenantId(tenantId)`: the value is stored, replacing any earlier
     * one; Guid.Empty is stored too, but is not a valid tenant.
     */
    method SetTenantId(id: int)
      modifies this
      ensures tenantId == Some(id)
      ensures HasValidTenant() <==> id != EmptyGuid
    {
      tenantId := Some(id);
    }

    predicate HasValidTenant()
      reads this
    {
      IsValidTenant(tenantId)
    }
  }
}

=== FILE: infra_tenant_context.dfy ===
/**
 * The HTTP-aware tenant context of the infrastructure layer
 * (InsureX.Infrastructure/Tenant/TenantContext.cs): the current tenant is a
 * Guid taken from an authenticated user's "TenantId" claim, else from the
 * X-Tenant-Id header, else from the ambient value background services set.
 * The ambient value is a static `AsyncLocal`, modelled as a field; the
 * request is `None` when there is no current `HttpContext`. `Guid.TryParse`
 * is the parameter `parseGuid`.
 */
module InfraTenantContext {
  import opened Common
  import opened TenantRequest

  const NameIdentifierClaim := "http://schemas.xmlsoap.org/ws/2005/05/identity/claims/nameidentifier"
  const EmailClaim := "http://schemas.xmlsoap.org/ws/2005/05/identity/claims/emailaddress"
  const ContextClaimTypes := ["TenantId"]

  class TenantContext {
    /** The value of the static `_tenantId`. */
    var ambient: Option<int>

    constructor (ambient: Option<int>)
      ensures this.ambient == ambient
    {
      this.ambient := ambient;
    }

    /** `GetCurrentTenantId()`: the claim, then the header, then the ambient value. */
    function GetCurrentTenantId(http: Option<Request>, parseGuid: string -> Option<int>): (r: Option<int>)
      reads this
      ensures http.None? ==> r == ambient
    {
      if http.Some? && IsAuthenticated(http.value.user)
         && FindFirst(http.value.user.claims, "TenantId").Some?
         && parseGuid(FindFirst(http.value.user.claims, "TenantId").value).Some?
      then parseGuid(FindFirst(http.value.user.claims, "TenantId").value)
      else if http.Some? && TenantHeader in http.value.headers && parseGuid(http.value.headers[TenantHeader]).Some?
      then parseGuid(http.value.headers[TenantHeader])
      else ambient
    }

    /** `SetTenantId(tenantId)`: sets the ambient value, null included. */
    method SetTenantId(tenantId: Option<int>)
      modifies this
      ensures ambient == tenantId
    {
      ambient := tenantId;
    }
  }

  /**
   * The current tenant is the first candidate text of the request that
   * parses as a Guid; only when none does, the ambient value.
   */
  lemma CurrentTenantPrecedence(context: TenantContext, request: Request, parseGuid: string -> Option<int>)
    ensures var first := FirstParsed(Candidates(request, ContextClaimTypes), parseGuid);
      context.GetCurrentTenantId(Some(request), parseGuid) == if first.Some? then first else context.ambient
  {
    var v := ClaimValue(request.user, ContextClaimTypes);
    var h := Header(request, TenantHeader);
    var c := Candidates(request, ContextClaimTypes);
    assert v == (if IsAuthenticated(request.user) then FindFirst(request.user.claims, "TenantId") else None) by {
      if IsAuthenticated(request.user) {
        assert FirstOfTypes(request.user.claims, ContextClaimTypes[1..]).None?;
      }
    }
    if v.Some? {
      assert c[0] == v.value;
      if parseGuid(v.value).None? {
        assert c[1..] == AsSeq(h);
      }
    } else {
      assert c == AsSeq(h);
    }
  }

  /** An unparseable claim falls through to the header, and then to the ambient value. */
  lemma UnparseableClaimFallsThrough(context: TenantContext, request: Request, parseGuid: string -> Option<int>)
    requires FindFirst(request.user.claims, "TenantId").Some?
    requires parseGuid(FindFirst(request.user.claims, "TenantId").value).None?
    ensures context.GetCurrentTenantId(Some(request), parseGuid) ==
      if TenantHeader in request.headers && parseGuid(request.headers[TenantHeader]).Some?
      then parseGuid(request.headers[TenantHeader])
      else context.ambient
  {
  }

  /** The ambient value shows through only when the request names no parseable tenant. */
  lemma AmbientIsLastResort(context: TenantContext, request: Request, parseGuid: string -> Option<int>)
    requires context.GetCurrentTenantId(Some(request), parseGuid) != context.ambient
    ensures exists i :: 0 <= i < |Candidates(request, ContextClaimTypes)|
                     && parseGuid(Candidates(request, ContextClaimTypes)[i]) == context.GetCurrentTenantId(Some(request), parseGuid)
  {
    CurrentTenantPrecedence(context, request, parseGuid);
  }

  /** `GetCurrentUserId()`: the NameIdentifier claim, else the "sub" claim. */
  function GetCurrentUserId(http: Option<Request>): (r: Option<string>)
    ensures http.None? ==> r.None?
    ensures http.Some? && FindFirst(http.value.user.claims, NameIdentifierClaim).Some? ==>
      r == FindFirst(http.value.user.claims, NameIdentifierClaim)
    ensures http.Some? && FindFirst(http.value.user.claims, NameIdentifierClaim).None? ==>
      r == FindFirst(http.value.user.claims, "sub")
  {
    if http.None? then None
    else
      var id := FindFirst(http.value.user.claims, NameIdentifierClaim);
      if id.Some? then id else FindFirst(http.value.user.claims, "sub")
  }

  /** `GetCurrentUserEmail()`: the email claim. */
  function GetCurrentUserEmail(http: Option<Request>): (r: Option<string>)
    ensures r.Some? ==> http.Some? && exists i :: 0 <= i < |http.value.user.claims| && http.value.user.claims[i] == Claim(EmailClaim, r.value)
    ensures r.None? <==> http.None? || forall i :: 0 <= i < |http.value.user.claims| ==> http.value.user.claims[i].claimType != EmailClaim
  {
    if http.None? then None else FindFirst(http.value.user.claims, EmailClaim)
  }

  /** `IsAuthenticated()`: false without an HttpContext or an identity. */
  function IsAuthenticatedUser(http: Option<Request>): (b: bool)
    ensures b <==> http.Some? && http.value.user.authenticated == Some(true)
  {
    http.Some? && IsAuthenticated(http.value.user)
  }
}

=== FILE: infra_tenant_middleware.dfy ===
/**
 * The tenant resolution middleware of the infrastructure layer
 * (InsureX.Infrastructure/Middleware/TenantResolutionMiddleware.cs): the API
 * host's resolution, plus an X-Tenant-Id response header that echoes a
 * tenant taken from the claims. `Headers.Add` on a response that already
 * carries that header throws, after which only the `finally` block runs.
 */
module InfraTenantMiddleware {
  import opened Common
  import opened TenantRequest

  const DuplicateHeader := ArgumentError("An item with the same key has already been added. Key: X-Tenant-Id")

  /** The response headers the middleware writes. */
  class Response {
    var headers: map<string, string>

    constructor (headers: map<string, string>)
      ensures this.headers == headers
    {
      this.headers := headers;
    }

    /** `Headers.Add(name, value)`: fails when the name is already present. */
    method Add(name: string, value: string) returns (error: Option<Exception>)
      modifies this
      ensures name in old(headers) ==> error == Some(DuplicateHeader) && headers == old(headers)
      ensures name !in old(headers) ==> error.None? && headers == old(headers)[name := value]
    {
      if name in headers {
        error := Some(DuplicateHeader);
      } else {
        headers := headers[name := value];
        error := None;
      }
    }
  }

  /** The response headers after the request: the claim tenant echoed, when there is one and the header was free. */
  function EchoedHeaders(request: Request, headers: map<string, string>): map<string, string>
  {
    var fromClaims := ClaimTenant(request.user);
    if fromClaims.Some? && TenantHeader !in headers then headers[TenantHeader := IntToString(fromClaims.value)]
    else headers
  }

  /** Whether echoing the claim tenant fails, ending the request before `next`. */
  predicate EchoFails(request: Request, headers: map<string, string>)
  {
    ClaimTenant(request.user).Some? && TenantHeader in headers
  }

  /** The claims step: a claim tenant that parses is set on the context. */
  method ClaimsStep(request: Request, tenant: TenantSlot) returns (fromClaims: Option<int>)
    modifies tenant
    ensures fromClaims == ClaimTenant(request.user)
    ensures fromClaims.Some? ==> tenant.tenantId == fromClaims && tenant.setCalls == old(tenant.setCalls) + [fromClaims.value]
    ensures fromClaims.None? ==> tenant.tenantId == old(tenant.tenantId) && tenant.setCalls == old(tenant.setCalls)
  {
    fromClaims := None;
    if IsAuthenticated(request.user) {
      var claim := FirstOfTypes(request.user.claims, IntClaimTypes);
      if claim.Some? {
        var parsed := ParseInt32(claim.value);
        if parsed.Some? {
          tenant.SetTenantId(parsed.value);
          fromClaims := parsed;
        }
      }
    }
  }

  /**
   * `InvokeAsync`: resolution as in the API host; the claim tenant is echoed
   * on the response; `next` runs once unless the echo failed; the context is
   * cleared in every case.
   */
  method InvokeAsync(request: Request, response: Response, tenant: TenantSlot, next: NextDelegate)
    returns (error: Option<Exception>)
    modifies response, tenant, next
    ensures response.headers == EchoedHeaders(request, old(response.headers))
    ensures EchoFails(request, old(response.headers)) ==>
      && tenant.setCalls == old(tenant.setCalls) + ResolutionSets(request, old(tenant.tenantId))
      && next.calls == old(next.calls)
      && error == Some(DuplicateHeader)
    ensures !EchoFails(request, old(response.headers)) ==>
      && tenant.setCalls == old(tenant.setCalls) + ResolutionSets(request, old(tenant.tenantId))
      && next.calls == old(next.calls) + [TenantDuringRequest(request, old(tenant.tenantId))]
      && error == next.failure
    ensures tenant.tenantId == None
  {
    var fromClaims := ClaimsStep(request, tenant);
    if fromClaims.Some? {
      var added := response.Add(TenantHeader, IntToString(fromClaims.value));
      if added.Some? {
        error := added;
        tenant.Clear();
        return;
      }
    }
    HeaderStep(request, tenant);
    assert tenant.setCalls == old(tenant.setCalls) + ResolutionSets(request, old(tenant.tenantId));
    assert tenant.tenantId == TenantDuringRequest(request, old(tenant.tenantId));
    // The subdomain step only logs the host's first label.
    error := next.Invoke(tenant);
    tenant.Clear();
  }

  /** The header fallback: a parseable X-Tenant-Id header is set only on a context without a tenant. */
  method HeaderStep(request: Request, tenant: TenantSlot)
    modifies tenant
    ensures old(tenant.tenantId).None? && HeaderTenant(request).Some? ==>
      tenant.tenantId == HeaderTenant(request) && tenant.setCalls == old(tenant.setCalls) + [HeaderTenant(request).value]
    ensures old(tenant.tenantId).Some? || HeaderTenant(request).None? ==>
      tenant.tenantId == old(tenant.tenantId) && tenant.setCalls == old(tenant.setCalls)
  {
    if !tenant.HasTenant() {
      var header := Header(request, TenantHeader);
      if header.Some? {
        var parsed := ParseInt32(header.value);
        if parsed.Some? {
          tenant.SetTenantId(parsed.value);
        }
      }
    }
  }

  /**
   * The response carries an X-Tenant-Id header it did not have before only
   * when the tenant came from a claim, and that header reads back as the
   * tenant.
   */
  lemma EchoIsClaimTenant(request: Request, headers: map<string, string>)
    requires TenantHeader !in headers
    ensures TenantHeader in EchoedHeaders(request, headers) <==> ClaimTenant(request.user).Some?
    ensures TenantHeader in EchoedHeaders(request, headers) ==>
      ParseInt32(EchoedHeaders(request, headers)[TenantHeader]) == ClaimTenant(request.user)
  {
    var t := ClaimTenant(request.user);
    if t.Some? {
      ParseFormatted(t.value);
    }
  }
}

=== FILE: infra_unit_of_work.dfy ===
/**
 * The unit of work of the root tree
 * (InsureX.Infrastructure/Repositories/UnitOfWork.cs): one repository per
 * entity type, created on first use and then reused, and at most one open
 * transaction, which commit and rollback always close.
 *
 * An entity type is named by a string. A transaction is numbered in the
 * order it was begun; what became of each is kept in `log`. The results of
 * the database's SaveChanges and of the commit itself are parameters.
 */
module InfraUnitOfWork {
  import opened Common

  /** The repository object the unit of work hands out for one entity type. */
  class RepositoryHandle {
    const entityType: string

    constructor (entityType: string)
      ensures this.entityType == entityType
    {
      this.entityType := entityType;
    }
  }

  /** What happened to a transaction when it was closed. */
  datatype TransactionEnd = Committed(tx: nat) | RolledBack(tx: nat)

  /** Every closing names a transaction that was begun, and no transaction is closed twice. */
  ghost predicate EachClosedOnce(log: seq<TransactionEnd>, begun: nat)
  {
    && (forall i :: 0 <= i < |log| ==> log[i].tx < begun)
    && (forall i, j :: 0 <= i < j < |log| ==> log[i].tx != log[j].tx)
  }

  class UnitOfWork {
    var repositories: map<string, RepositoryHandle>
    var current: Option<nat>
    var begun: nat
    var log: seq<TransactionEnd>

    /**
     * Every cached repository serves the type it is filed under; every
     * transaction was closed at most once, and the current one not yet.
     */
    ghost predicate Valid()
      reads this, repositories.Values
    {
      && (forall t :: t in repositories ==> repositories[t].entityType == t)
      && EachClosedOnce(log, begun)
      && (current.Some? ==> current.value < begun && forall i :: 0 <= i < |log| ==> log[i].tx != current.value)
    }

    constructor ()
      ensures Valid()
      ensures repositories == map[] && current == None && begun == 0 && log == []
    {
      repositories := map[];
      current := None;
      begun := 0;
      log := [];
    }

    /**
     * `Repository<T>()`: the cached repository of the type, or a new one
     * that is cached from now on; asking twice gives the same object.
     */
    method Repository(entityType: string) returns (r: RepositoryHandle)
      requires Valid()
      modifies this
      ensures Valid()
      ensures r.entityType == entityType
      ensures entityType in old(repositories) ==> r == old(repositories)[entityType] && repositories == old(repositories)
      ensures entityType !in old(repositories) ==> fresh(r) && repositories == old(repositories)[entityType := r]
      ensures current == old(current) && begun == old(begun) && log == old(log)
    {
      if entityType !in repositories {
        var created := new RepositoryHandle(entityType);
        repositories := repositories[entityType := created];
      }
      r := repositories[entityType];
    }

    /** `BeginTransactionAsync`: a new transaction becomes the current one. */
    method BeginTransaction()
      requires Valid()
      modifies this
      ensures Valid()
      ensures current == Some(old(begun)) && begun == old(begun) + 1
      ensures repositories == old(repositories) && log == old(log)
    {
      current := Some(begun);
      begun := begun + 1;
    }

    /**
     * `RollbackTransactionAsync`: the current transaction, if any, is
     * rolled back; afterwards there is none.
     */
    method RollbackTransaction()
      requires Valid()
      modifies this
      ensures Valid()
      ensures current == None
      ensures log == old(log) + (if old(current).Some? then [RolledBack(old(current).value)] else [])
      ensures repositories == old(repositories) && begun == old(begun)
    {
      if current.Some? {
        log := log + [RolledBack(current.value)];
      }
      current := None;
    }

    /**
     * `CommitTransactionAsync`: the changes are saved and the current
     * transaction, if any, committed. A failed save or commit rolls the
     * transaction back and is rethrown. Either way no transaction is
     * current afterwards.
     */
    method CommitTransaction(save: Result<nat>, commitError: Option<Exception>) returns (r: Result<()>)
      requires Valid()
      modifies this
      ensures Valid()
      ensures current == None
      ensures repositories == old(repositories) && begun == old(begun)
      ensures save.Throw? ==> r == Throw(save.error)
      ensures save.Ok? && old(current).Some? && commitError.Some? ==> r == Throw(commitError.value)
      ensures r.Ok? <==> save.Ok? && (old(current).None? || commitError.None?)
      ensures r.Ok? ==> log == old(log) + (if old(current).Some? then [Committed(old(current).value)] else [])
      ensures r.Throw? ==> log == old(log) + (if old(current).Some? then [RolledBack(old(current).value)] else [])
    {
      if save.Throw? {
        RollbackTransaction();
        return Throw(save.error);
      }
      if current.Some? {
        if commitError.Some? {
          RollbackTransaction();
          return Throw(commitError.value);
        }
        log := log + [Committed(current.value)];
      }
      current := None;
      return Ok(());
    }
  }
}

=== FILE: ordering.dfy ===
/**
 * LINQ `OrderBy` / `OrderByDescending` / `ThenBy` over sequences: a stable
 * insertion sort under a total preorder, and the ordinal string ordering the
 * string sort keys use.
 */
module Ordering {
  import opened Common

  /** `le` is total and transitive, which is what OrderBy needs of a key comparison. */
  ghost predicate TotalPreorder<T(!new)>(le: (T, T) -> bool)
  {
    && (forall a, b :: le(a, b) || le(b, a))
    && (forall a, b, c :: le(a, b) && le(b, c) ==> le(a, c))
  }

  predicate SortedBy<T>(s: seq<T>, le: (T, T) -> bool)
  {
    forall i, j :: 0 <= i < j < |s| ==> le(s[i], s[j])
  }

  /**
   * Inserts `x` in front of the first element it does not follow, so an
   * element equal to `x` that is already in `s` stays behind it.
   */
  function Insert<T(!new)>(x: T, s: seq<T>, le: (T, T) -> bool): (r: seq<T>)
    requires TotalPreorder(le)
    requires SortedBy(s, le)
    ensures SortedBy(r, le)
    ensures multiset(r) == multiset(s) + multiset{x}
    ensures |r| == |s| + 1
  {
    if s == [] || le(x, s[0]) then
      [x] + s
    else
      var t := Insert(x, s[1..], le);
      HeadBeforeInsert(x, s, le, t);
      [s[0]] + t
  }

  lemma HeadBeforeInsert<T(!new)>(x: T, s: seq<T>, le: (T, T) -> bool, t: seq<T>)
    requires TotalPreorder(le)
    requires SortedBy(s, le) && s != [] && !le(x, s[0])
    requires SortedBy(t, le) && multiset(t) == multiset(s[1..]) + multiset{x}
    ensures SortedBy([s[0]] + t, le)
    ensures multiset([s[0]] + t) == multiset(s) + multiset{x}
  {
    assert le(x, s[0]) || le(s[0], x);
    assert s == [s[0]] + s[1..];
    forall j | 0 <= j < |t| ensures le(s[0], t[j]) {
      assert t[j] in multiset(t);
      if t[j] != x {
        assert t[j] in multiset(s[1..]);
        var k :| 0 <= k < |s[1..]| && s[1..][k] == t[j];
        assert s[k + 1] == t[j];
      }
    }
  }

  /** `OrderBy` with the comparison `le`: sorted, a permutation, and stable. */
  function SortBy<T(!new)>(s: seq<T>, le: (T, T) -> bool): (r: seq<T>)
    requires TotalPreorder(le)
    ensures SortedBy(r, le)
    ensures multiset(r) == multiset(s)
    ensures |r| == |s|
  {
    if s == [] then []
    else
      assert s == [s[0]] + s[1..];
      Insert(s[0], SortBy(s[1..], le), le)
  }

  /** A sequence that is already in order is left as it is. */
  lemma {:induction false} SortBySorted<T(!new)>(s: seq<T>, le: (T, T) -> bool)
    requires TotalPreorder(le)
    requires SortedBy(s, le)
    ensures SortBy(s, le) == s
  {
    if s != [] {
      SortBySorted(s[1..], le);
    }
  }

  lemma {:induction false} DistinctAtMostOnce<T>(s: seq<T>, x: T)
    requires forall i, j :: 0 <= i < j < |s| ==> s[i] != s[j]
    ensures multiset(s)[x] <= 1
  {
    if s != [] {
      assert s == [s[0]] + s[1..];
      DistinctAtMostOnce(s[1..], x);
      if s[0] == x {
        assert x !in s[1..];
      }
    }
  }

  lemma TwiceInSeq<T>(s: seq<T>, i: int, j: int)
    requires 0 <= i < j < |s| && s[i] == s[j]
    ensures multiset(s)[s[i]] >= 2
  {
    assert s == s[..j] + s[j..];
    assert s[i] in s[..j];
    assert s[j] in s[j..];
  }

  /** A permutation of a sequence whose keys are distinct has distinct keys too. */
  lemma PermutationKeepsDistinctKey<T, K>(a: seq<T>, b: seq<T>, key: T -> K)
    requires multiset(a) == multiset(b)
    requires forall i, j :: 0 <= i < j < |a| ==> key(a[i]) != key(a[j])
    ensures forall i, j :: 0 <= i < j < |b| ==> key(b[i]) != key(b[j])
  {
    forall i, j | 0 <= i < j < |b| ensures key(b[i]) != key(b[j]) {
      if key(b[i]) == key(b[j]) {
        assert b[i] in multiset(a) && b[j] in multiset(a);
        var p :| 0 <= p < |a| && a[p] == b[i];
        var q :| 0 <= q < |a| && a[q] == b[j];
        assert p == q;
        TwiceInSeq(b, i, j);
        DistinctAtMostOnce(a, b[i]);
      }
    }
  }

  /** The first element of a sorted sequence comes before every element: `OrderBy(..).First()`. */
  lemma SortedHeadFirst<T(!new)>(s: seq<T>, le: (T, T) -> bool, x: T)
    requires TotalPreorder(le) && SortedBy(s, le) && x in s
    ensures le(s[0], x)
  {
    var k :| 0 <= k < |s| && s[k] == x;
    assert le(s[0], s[0]);
  }

  /** `OrderBy(le).FirstOrDefault()`: the first element of the sorted sequence is a least element. */
  lemma SortedFirst<T(!new)>(s: seq<T>, le: (T, T) -> bool)
    requires TotalPreorder(le)
    ensures SortBy(s, le) == [] <==> s == []
    ensures SortBy(s, le) != [] ==>
      SortBy(s, le)[0] in s && forall x :: x in s ==> le(SortBy(s, le)[0], x)
  {
    var r := SortBy(s, le);
    if r != [] {
      assert r[0] in multiset(r);
      forall x | x in s ensures le(r[0], x) {
        assert x in multiset(s);
        SortedHeadFirst(r, le, x);
      }
    }
  }

  /** `Where(p).OrderBy(le)`: every matching element of `s`, in order. */
  function WhereOrder<T(!new)>(s: seq<T>, p: T -> bool, le: (T, T) -> bool): (r: seq<T>)
    requires TotalPreorder(le)
    ensures |r| == CountWhere(s, p)
    ensures SortedBy(r, le)
    ensures multiset(r) == multiset(Filter(s, p))
    ensures forall x :: x in r <==> x in s && p(x)
  {
    CountIsFilterLength(s, p);
    var r := SortBy(Filter(s, p), le);
    assert forall x :: x in r <==> x in multiset(Filter(s, p));
    r
  }

  /**
   * `r` is a top selection of the elements of `s` that satisfy `p`: it is
   * drawn from them (with multiplicity), and every matching element it leaves
   * out comes after every element it keeps.
   */
  ghost predicate KeepsTop<T(!new)>(r: seq<T>, s: seq<T>, p: T -> bool, le: (T, T) -> bool)
  {
    && multiset(r) <= multiset(Filter(s, p))
    && forall x, k :: x in multiset(Filter(s, p)) - multiset(r) && 0 <= k < |r| ==> le(r[k], x)
  }

  /**
   * `Where(p).OrderBy(le).Take(n)`: at most `n` elements (all of them when
   * fewer match), each one a matching element of `s`, in order, and no
   * matching element left out comes before a kept one.
   */
  function WhereOrderTake<T(!new)>(s: seq<T>, p: T -> bool, le: (T, T) -> bool, n: int): (r: seq<T>)
    requires TotalPreorder(le)
    ensures |r| == Max(0, Min(n, CountWhere(s, p)))
    ensures SortedBy(r, le)
    ensures forall x :: x in r ==> x in s && p(x)
    ensures KeepsTop(r, s, p, le)
  {
    var sorted := SortBy(Filter(s, p), le);
    CountIsFilterLength(s, p);
    var r := Take(sorted, n);
    assert forall x :: x in r ==> x in multiset(sorted);
    PrefixKeepsTop(sorted, |r|, s, p, le);
    r
  }

  /** A prefix of the sorted matches keeps the top ones. */
  lemma PrefixKeepsTop<T(!new)>(sorted: seq<T>, m: nat, s: seq<T>, p: T -> bool, le: (T, T) -> bool)
    requires SortedBy(sorted, le) && multiset(sorted) == multiset(Filter(s, p))
    requires m <= |sorted|
    ensures KeepsTop(sorted[..m], s, p, le)
  {
    var r := sorted[..m];
    var rest := sorted[m..];
    assert sorted == r + rest;
    assert multiset(sorted) == multiset(r) + multiset(rest);
    forall x, k | x in multiset(Filter(s, p)) - multiset(r) && 0 <= k < |r| ensures le(r[k], x) {
      assert x in multiset(rest);
      var j :| 0 <= j < |rest| && rest[j] == x;
      assert sorted[m + j] == x && sorted[k] == r[k];
    }
  }

  /** A page of a sorted sequence is sorted. */
  lemma PageSorted<T>(s: seq<T>, page: int, pageSize: int, le: (T, T) -> bool)
    requires SortedBy(s, le)
    ensures SortedBy(Page(s, page, pageSize), le)
  {
    var k := Max(0, PageStart(page, pageSize));
    var skipped := Skip(s, PageStart(page, pageSize));
    var r := Take(skipped, pageSize);
    assert r == Page(s, page, pageSize);
    forall i, j | 0 <= i < j < |r| ensures le(r[i], r[j]) {
      assert r[i] == skipped[i] == s[i + k];
      assert r[j] == skipped[j] == s[j + k];
    }
  }

  /** The key comparison `a.key <= b.key` for an integer key (a date, a priority). */
  lemma IntKeyPreorder<T(!new)>(key: T -> int)
    ensures TotalPreorder((a, b) => key(a) <= key(b))
    ensures TotalPreorder((a, b) => key(a) >= key(b))
  {
  }

  // ---------------------------------------------------------------------
  // Ordinal string ordering
  // ---------------------------------------------------------------------

  /** Ordinal (code-point) lexicographic comparison: `string.CompareOrdinal(a, b) <= 0`. */
  predicate StrLe(a: string, b: string)
  {
    if a == [] then true
    else if b == [] then false
    else if a[0] != b[0] then a[0] < b[0]
    else StrLe(a[1..], b[1..])
  }

  lemma {:induction false} StrLeTotal(a: string, b: string)
    ensures StrLe(a, b) || StrLe(b, a)
  {
    if a != [] && b != [] && a[0] == b[0] {
      StrLeTotal(a[1..], b[1..]);
    }
  }

  lemma {:induction false} StrLeTrans(a: string, b: string, c: string)
    requires StrLe(a, b) && StrLe(b, c)
    ensures StrLe(a, c)
  {
    if a != [] && b != [] && c != [] && a[0] == b[0] && b[0] == c[0] {
      StrLeTrans(a[1..], b[1..], c[1..]);
    }
  }

  lemma StrLeAntisym(a: string, b: string)
    requires StrLe(a, b) && StrLe(b, a)
    ensures a == b
  {
    if a != [] && b != [] {
      StrLeAntisym(a[1..], b[1..]);
      assert a == [a[0]] + a[1..];
      assert b == [b[0]] + b[1..];
    }
  }

  /** Ascending and descending comparison on a string key are total preorders. */
  lemma StrKeyPreorder<T(!new)>(key: T -> string)
    ensures TotalPreorder((a, b) => StrLe(key(a), key(b)))
    ensures TotalPreorder((a, b) => StrLe(key(b), key(a)))
  {
    forall a: T, b: T ensures StrLe(key(a), key(b)) || StrLe(key(b), key(a)) {
      StrLeTotal(key(a), key(b));
    }
    forall a: T, b: T, c: T | StrLe(key(a), key(b)) && StrLe(key(b), key(c))
      ensures StrLe(key(a), key(c))
    {
      StrLeTrans(key(a), key(b), key(c));
    }
    forall a: T, b: T, c: T | StrLe(key(b), key(a)) && StrLe(key(c), key(b))
      ensures StrLe(key(c), key(a))
    {
      StrLeTrans(key(c), key(b), key(a));
    }
  }
}

=== FILE: src_asset_repository.dfy ===
/**
 * The asset repository of the `src/` tree
 * (src/InsureX.Infrastructure/Repositories/AssetRepository.cs): queries
 * over the asset set.
 */
module SrcAssetRepository {
  import opened Common
  import opened SrcDomain
  import Ordering
  import Grouping

  /** `GetPagedAsync(query, page, pageSize)`: `Skip((page - 1) * pageSize).Take(pageSize)`. */
  function GetPaged(query: seq<Asset>, page: int, pageSize: int): (r: seq<Asset>)
    ensures forall a :: a in r ==> a in query
    ensures page >= 1 && pageSize >= 1 ==>
      && |r| == Max(0, Min(pageSize, |query| - PageStart(page, pageSize)))
      && forall i :: 0 <= i < |r| ==> r[i] == query[PageStart(page, pageSize) + i]
  {
    PageWithin(query, page, pageSize);
    if page >= 1 && pageSize >= 1 then PageContents(query, page, pageSize); Page(query, page, pageSize)
    else Page(query, page, pageSize)
  }

  /** `GetByIdAsync`: the first asset with that id, or null. */
  function AssetById(assets: seq<Asset>, id: int): (r: Option<Asset>)
    ensures r.Some? ==> r.value in assets && r.value.id == id
    ensures r.None? <==> forall i :: 0 <= i < |assets| ==> assets[i].id != id
  {
    FirstOrDefault(assets, (a: Asset) => a.id == id)
  }

  function AssetId(a: Asset): int { a.id }

  /** In a store keyed by position, the asset with id `id` is the one at `id - 1`. */
  lemma AssetByIdInStore(assets: seq<Asset>, id: int)
    requires IdsAreIndices(assets, AssetId)
    ensures AssetById(assets, id) == if 1 <= id <= |assets| then Some(assets[id - 1]) else None
  {
    var r := AssetById(assets, id);
    if r.Some? {
      StoredAt(assets, AssetId, r.value);
    }
    if 1 <= id <= |assets| {
      assert assets[id - 1].id == id;
    }
  }

  /** `GetCountAsync`: every asset, deleted ones included. */
  function CountAll(assets: seq<Asset>): nat { |assets| }

  predicate IsCompliant(a: Asset) { a.complianceStatus == Some(StatusCompliant) }

  /** `GetCompliantCountAsync`. */
  function CompliantCount(assets: seq<Asset>): (n: nat)
    ensures n <= CountAll(assets)
    ensures n == 0 <==> forall i :: 0 <= i < |assets| ==> !IsCompliant(assets[i])
  {
    CountExtremes(assets, IsCompliant);
    CountWhere(assets, IsCompliant)
  }

  function Statuses(assets: seq<Asset>): (keys: seq<string>)
    ensures |keys| == |assets| && forall i :: 0 <= i < |assets| ==> keys[i] == assets[i].status
  {
    seq(|assets|, i requires 0 <= i < |assets| => assets[i].status)
  }

  predicate NotDeletedGroup(g: Grouping.Group<string>) { g.key != AssetDeleted }

  /** `GetCountByStatusAsync`: the number of assets per status, without the "Deleted" group. */
  function CountByStatus(assets: seq<Asset>): seq<Grouping.Group<string>>
  {
    Filter(Grouping.GroupCounts(Statuses(assets)), NotDeletedGroup)
  }

  /**
   * No entry is keyed "Deleted"; every other status that some asset has gets
   * exactly one entry, holding the number of assets with that status.
   */
  lemma CountByStatusSpec(assets: seq<Asset>)
    ensures var r := CountByStatus(assets);
      && (forall i :: 0 <= i < |r| ==> r[i].key != AssetDeleted)
      && Grouping.DistinctKeys(r)
      && (forall i :: 0 <= i < |r| ==> r[i].count == Grouping.Occurrences(Statuses(assets), r[i].key))
      && (forall k :: k != AssetDeleted && k in Statuses(assets) ==> Grouping.HasKey(r, k))
  {
    var keys := Statuses(assets);
    var g := Grouping.GroupCounts(keys);
    Grouping.GroupCountsSpec(keys);
    var r := CountByStatus(assets);
    Grouping.FilterKeepsDistinct(g, NotDeletedGroup);
    forall i | 0 <= i < |r| ensures r[i].count == Grouping.Occurrences(keys, r[i].key) {
      var m :| 0 <= m < |g| && g[m] == r[i];
      Grouping.CountForAt(g, m);
    }
    forall k | k != AssetDeleted && k in keys ensures Grouping.HasKey(r, k) {
      assert Grouping.HasKey(g, k);
      var m :| 0 <= m < |g| && g[m].key == k;
      assert g[m] in r;
      var n :| 0 <= n < |r| && r[n] == g[m];
    }
  }

  predicate NotDeleted(a: Asset) { a.status != AssetDeleted }

  predicate CreatedDesc(a: Asset, b: Asset) { a.createdAt >= b.createdAt }

  lemma CreatedDescPreorder()
    ensures Ordering.TotalPreorder(CreatedDesc)
  {
  }

  /** `GetRecentAsync(count)`: the newest non-deleted assets, at most `count` of them. */
  function Recent(assets: seq<Asset>, count: int): (r: seq<Asset>)
    ensures |r| == Max(0, Min(count, CountWhere(assets, NotDeleted)))
    ensures Ordering.SortedBy(r, CreatedDesc)
    ensures forall a :: a in r ==> a in assets && a.status != AssetDeleted
    ensures Ordering.KeepsTop(r, assets, NotDeleted, CreatedDesc)
  {
    CreatedDescPreorder();
    Ordering.WhereOrderTake(assets, NotDeleted, CreatedDesc, count)
  }
}

=== FILE: src_asset_service.dfy ===
/**
 * The asset service of the `src/` tree
 * (src/InsureX.Application/Services/AssetService.cs): the filtered, sorted
 * and paged asset search, the tenant-scoped lookups and counts, and the
 * create / update / soft-delete operations on the asset store.
 *
 * The current tenant and the current user are parameters (`None` when the
 * context has none); `now` stands for DateTime.UtcNow. The store is the
 * asset set of the repository, with ids assigned in insertion order from 1.
 */
module SrcAssetService {
  import opened Common
  import opened SrcDomain
  import opened SrcDtos
  import Ordering
  import SrcAssetRepository

  // ---------------------------------------------------------------------
  // Search
  // ---------------------------------------------------------------------

  /** The search term matches one of the five text fields, a null field counting as "". */
  predicate MatchesTerm(a: Asset, term: string)
  {
    || Contains(a.assetTag, term)
    || Contains(a.make, term)
    || Contains(a.model, term)
    || Contains(a.serialNumber.GetOr(""), term)
    || Contains(a.vin.GetOr(""), term)
  }

  /** Every `Where` of GetPagedAsync: the tenant, not deleted, and each filter that is supplied. */
  predicate MatchesSearch(a: Asset, tenantId: int, search: AssetSearch)
  {
    && a.tenantId == tenantId
    && a.status != AssetDeleted
    && (!IsNullOrWhiteSpace(search.searchTerm) ==> MatchesTerm(a, Trim(search.searchTerm.value)))
    && (!IsNullOrWhiteSpace(search.status) ==> a.status == search.status.value)
    && (!IsNullOrWhiteSpace(search.complianceStatus) ==> a.complianceStatus == search.complianceStatus)
    && (search.year.Some? ==> a.year == search.year)
    && (search.fromDate.Some? ==> a.createdAt >= search.fromDate.value)
    && (search.toDate.Some? ==> a.createdAt <= search.toDate.value)
  }

  function SearchFilter(tenantId: int, search: AssetSearch): Asset -> bool
  {
    (a: Asset) => MatchesSearch(a, tenantId, search)
  }

  /** The sort keys GetPagedAsync recognises. */
  datatype SortField = ByAssetTag | ByMake | ByModel | ByYear | ByStatus | ByCreatedAt

  /** `SortBy?.ToLower() switch { ... }`: an unknown or missing key sorts by CreatedAt. */
  function SortFieldOf(sortBy: Option<string>): (f: SortField)
    ensures sortBy.None? ==> f == ByCreatedAt
    ensures sortBy.Some? && Lower(sortBy.value) !in ["assettag", "make", "model", "year", "status"] ==> f == ByCreatedAt
  {
    if sortBy.None? then ByCreatedAt
    else
      var key := Lower(sortBy.value);
      if key == "assettag" then ByAssetTag
      else if key == "make" then ByMake
      else if key == "model" then ByModel
      else if key == "year" then ByYear
      else if key == "status" then ByStatus
      else ByCreatedAt
  }

  /** `SortDir?.ToLower() == "asc"`: every other direction is descending. */
  predicate IsAscending(sortDir: string)
  {
    Lower(sortDir) == "asc"
  }

  /** A null year sorts before every year. */
  predicate YearLe(a: Option<int>, b: Option<int>)
  {
    a.None? || (b.Some? && a.value <= b.value)
  }

  /** Ascending comparison on one sort key. */
  predicate FieldLe(f: SortField, a: Asset, b: Asset)
  {
    match f
    case ByAssetTag => Ordering.StrLe(a.assetTag, b.assetTag)
    case ByMake => Ordering.StrLe(a.make, b.make)
    case ByModel => Ordering.StrLe(a.model, b.model)
    case ByYear => YearLe(a.year, b.year)
    case ByStatus => Ordering.StrLe(a.status, b.status)
    case ByCreatedAt => a.createdAt <= b.createdAt
  }

  /** `OrderBy` or `OrderByDescending` on the key. */
  function Comparer(f: SortField, asc: bool): (Asset, Asset) -> bool
  {
    if asc then (a: Asset, b: Asset) => FieldLe(f, a, b) else (a: Asset, b: Asset) => FieldLe(f, b, a)
  }

  lemma {:induction false} FieldLeTotal(f: SortField, a: Asset, b: Asset)
    ensures FieldLe(f, a, b) || FieldLe(f, b, a)
  {
    match f
    case ByAssetTag => Ordering.StrLeTotal(a.assetTag, b.assetTag);
    case ByMake => Ordering.StrLeTotal(a.make, b.make);
    case ByModel => Ordering.StrLeTotal(a.model, b.model);
    case ByYear =>
    case ByStatus => Ordering.StrLeTotal(a.status, b.status);
    case ByCreatedAt =>
  }

  lemma {:induction false} FieldLeTrans(f: SortField, a: Asset, b: Asset, c: Asset)
    requires FieldLe(f, a, b) && FieldLe(f, b, c)
    ensures FieldLe(f, a, c)
  {
    match f
    case ByAssetTag => Ordering.StrLeTrans(a.assetTag, b.assetTag, c.assetTag);
    case ByMake => Ordering.StrLeTrans(a.make, b.make, c.make);
    case ByModel => Ordering.StrLeTrans(a.model, b.model, c.model);
    case ByYear =>
    case ByStatus => Ordering.StrLeTrans(a.status, b.status, c.status);
    case ByCreatedAt =>
  }

  /** Either direction on any key is a total preorder, so the sort is well defined. */
  lemma ComparerPreorder(f: SortField, asc: bool)
    ensures Ordering.TotalPreorder(Comparer(f, asc))
  {
    forall a: Asset, b: Asset ensures FieldLe(f, a, b) || FieldLe(f, b, a) {
      FieldLeTotal(f, a, b);
    }
    forall a: Asset, b: Asset, c: Asset | FieldLe(f, a, b) && FieldLe(f, b, c)
      ensures FieldLe(f, a, c)
    {
      FieldLeTrans(f, a, b, c);
    }
    forall a: Asset, b: Asset, c: Asset | FieldLe(f, b, a) && FieldLe(f, c, b)
      ensures FieldLe(f, c, a)
    {
      FieldLeTrans(f, c, b, a);
    }
  }

  /** The filtered query in the requested order, before paging. */
  function SearchQuery(assets: seq<Asset>, tenantId: int, search: AssetSearch): (q: seq<Asset>)
    ensures |q| == CountWhere(assets, SearchFilter(tenantId, search))
    ensures Ordering.SortedBy(q, Comparer(SortFieldOf(search.sortBy), IsAscending(search.sortDir)))
    ensures forall a :: a in q <==> a in assets && MatchesSearch(a, tenantId, search)
  {
    var cmp := Comparer(SortFieldOf(search.sortBy), IsAscending(search.sortDir));
    ComparerPreorder(SortFieldOf(search.sortBy), IsAscending(search.sortDir));
    CountIsFilterLength(assets, SearchFilter(tenantId, search));
    var matching := Filter(assets, SearchFilter(tenantId, search));
    var q := Ordering.SortBy(matching, cmp);
    assert forall a :: a in q <==> a in multiset(matching);
    q
  }

  /** `GetPagedAsync`: fails without a tenant; otherwise the requested page of the query. */
  function GetPaged(assets: seq<Asset>, tenant: Option<int>, search: AssetSearch): Result<AssetPage<Asset>>
  {
    if tenant.None? then Throw(UnauthorizedAccess("Tenant not found"))
    else
      var q := SearchQuery(assets, tenant.value, search);
      Ok(AssetPage(Page(q, search.page, search.pageSize), search.page, search.pageSize, |q|))
  }

  /**
   * Without a tenant the search throws. Otherwise the page holds only
   * matching assets of the tenant that are not deleted, it is a run of the
   * query starting at PageStart = (page - 1) * pageSize, of at most pageSize items, the
   * total counts every matching asset and the page number and size are
   * echoed.
   */
  lemma GetPagedSpec(assets: seq<Asset>, tenant: Option<int>, search: AssetSearch)
    ensures tenant.None? <==> GetPaged(assets, tenant, search).Throw?
    ensures tenant.None? ==> GetPaged(assets, tenant, search).error.UnauthorizedAccess?
    ensures tenant.Some? ==>
      var r := GetPaged(assets, tenant, search).value;
      var q := SearchQuery(assets, tenant.value, search);
      && r.page == search.page && r.pageSize == search.pageSize
      && r.totalItems == CountWhere(assets, SearchFilter(tenant.value, search))
      && (forall a :: a in r.items ==> a in assets && a.tenantId == tenant.value && a.status != AssetDeleted)
      && (forall a :: a in r.items ==> MatchesSearch(a, tenant.value, search))
      && (search.page >= 1 && search.pageSize >= 1 ==>
            && |r.items| == Max(0, Min(search.pageSize, |q| - PageStart(search.page, search.pageSize)))
            && forall i :: 0 <= i < |r.items| ==> r.items[i] == q[PageStart(search.page, search.pageSize) + i])
  {
    if tenant.Some? {
      var q := SearchQuery(assets, tenant.value, search);
      PageWithin(q, search.page, search.pageSize);
      if search.page >= 1 && search.pageSize >= 1 {
        PageContents(q, search.page, search.pageSize);
      }
    }
  }

  // ---------------------------------------------------------------------
  // Tenant-scoped lookups and counts
  // ---------------------------------------------------------------------

  /** `GetByIdAsync`: null for a missing asset, another tenant's asset or a deleted one. */
  function GetById(assets: seq<Asset>, tenant: Option<int>, id: int): (r: Result<Option<Asset>>)
    ensures tenant.None? <==> r.Throw?
    ensures r.Ok? && r.value.Some? ==>
      r.value.value in assets && r.value.value.id == id &&
      r.value.value.tenantId == tenant.value && r.value.value.status != AssetDeleted
    ensures r.Ok? && r.value.None? ==>
      var found := SrcAssetRepository.AssetById(assets, id);
      found.None? || found.value.tenantId != tenant.value || found.value.status == AssetDeleted
  {
    if tenant.None? then Throw(UnauthorizedAccess(""))
    else
      var found := SrcAssetRepository.AssetById(assets, id);
      if found.None? || found.value.tenantId != tenant.value || found.value.status == AssetDeleted then Ok(None)
      else Ok(found)
  }

  predicate IsLiveOfTenant(a: Asset, tenantId: int)
  {
    a.tenantId == tenantId && a.status != AssetDeleted
  }

  function LiveOfTenant(tenantId: int): Asset -> bool
  {
    (a: Asset) => IsLiveOfTenant(a, tenantId)
  }

  /** `ExistsAsync(tag)`: some non-deleted asset of the tenant has the tag. */
  function TagExists(assets: seq<Asset>, tenant: Option<int>, tag: string): (r: Result<bool>)
    ensures tenant.None? <==> r.Throw?
    ensures r.Ok? ==> (r.value <==> exists i :: 0 <= i < |assets| && assets[i].assetTag == tag && IsLiveOfTenant(assets[i], tenant.value))
  {
    if tenant.None? then Throw(UnauthorizedAccess(""))
    else Ok(Any(assets, (a: Asset) => a.assetTag == tag && IsLiveOfTenant(a, tenant.value)))
  }

  /** `GetCountAsync`: the tenant's assets that are not deleted. */
  function GetCount(assets: seq<Asset>, tenant: Option<int>): (r: Result<nat>)
    ensures tenant.None? <==> r.Throw?
    ensures r.Ok? ==> r.value == CountWhere(assets, LiveOfTenant(tenant.value))
    ensures r.Ok? ==> r.value <= |assets|
  {
    if tenant.None? then Throw(UnauthorizedAccess(""))
    else Ok(CountWhere(assets, LiveOfTenant(tenant.value)))
  }

  /**
   * `GetRecentAsync(count)`: the tenant's newest non-deleted assets, at most
   * `count` of them; the final one-page read of the already limited query
   * changes nothing.
   */
  function GetRecent(assets: seq<Asset>, tenant: Option<int>, count: int): (r: Result<seq<Asset>>)
    ensures tenant.None? <==> r.Throw?
    ensures r.Ok? ==> |r.value| == Max(0, Min(count, CountWhere(assets, LiveOfTenant(tenant.value))))
    ensures r.Ok? ==> Ordering.SortedBy(r.value, SrcAssetRepository.CreatedDesc)
    ensures r.Ok? ==> forall a :: a in r.value ==> a in assets && IsLiveOfTenant(a, tenant.value)
    ensures r.Ok? ==> Ordering.KeepsTop(r.value, assets, LiveOfTenant(tenant.value), SrcAssetRepository.CreatedDesc)
  {
    if tenant.None? then Throw(UnauthorizedAccess(""))
    else
      SrcAssetRepository.CreatedDescPreorder();
      var query := Ordering.WhereOrderTake(assets, LiveOfTenant(tenant.value), SrcAssetRepository.CreatedDesc, count);
      Ok(Page(query, 1, count))
  }

  // ---------------------------------------------------------------------
  // Create, update and delete
  // ---------------------------------------------------------------------

  /** The fields of CreateAssetDto; UpdateAssetDto adds the id. */
  datatype AssetInput = AssetInput(
    assetTag: string,
    make: string,
    model: string,
    year: int,
    serialNumber: Option<string>,
    vin: Option<string>,
    insuredValue: Option<int>,
    purchaseDate: Option<DateTime>,
    lastInspectionDate: Option<DateTime>,
    notes: Option<string>)

  /** `dto.Adapt(asset)`: copies the input's fields onto an asset. */
  function ApplyInput(a: Asset, dto: AssetInput): (r: Asset)
    ensures r.assetTag == dto.assetTag && r.make == dto.make && r.model == dto.model
    ensures r.year == Some(dto.year) && r.serialNumber == dto.serialNumber && r.vin == dto.vin
    ensures r.insuredValue == dto.insuredValue && r.notes == dto.notes
    ensures r.id == a.id && r.tenantId == a.tenantId && r.status == a.status
    ensures r.complianceStatus == a.complianceStatus && r.createdAt == a.createdAt
  {
    a.(assetTag := dto.assetTag, make := dto.make, model := dto.model, year := Some(dto.year),
       serialNumber := dto.serialNumber, vin := dto.vin, insuredValue := dto.insuredValue,
       purchaseDate := dto.purchaseDate, lastInspectionDate := dto.lastInspectionDate, notes := dto.notes)
  }

  /** `dto.Adapt<Asset>()` followed by the stamps of CreateAsync. */
  function NewAsset(dto: AssetInput, tenantId: int, user: Option<string>, now: DateTime): (a: Asset)
    ensures a.tenantId == tenantId && a.status == AssetActive && a.complianceStatus == Some(CompliancePending)
    ensures a.createdAt == now && a.createdBy == Some(UserOrSystem(user))
    ensures a.assetTag == dto.assetTag
  {
    var blank := Asset(0, 0, "", "", "", None, None, None, "", None, None, None, None, None, None, None, 0, None, None, None);
    ApplyInput(blank, dto).(tenantId := tenantId, createdBy := Some(UserOrSystem(user)), createdAt := now,
                            status := AssetActive, complianceStatus := Some(CompliancePending))
  }

  /** The store after a soft delete of the asset at `id`. */
  function SoftDeleted(assets: seq<Asset>, id: int, user: Option<string>, now: DateTime): (r: seq<Asset>)
    requires 1 <= id <= |assets|
    ensures |r| == |assets| && r[id - 1].status == AssetDeleted
    ensures forall i :: 0 <= i < |assets| && i != id - 1 ==> r[i] == assets[i]
    ensures !CanDelete(r, id)
  {
    assets[id - 1 := assets[id - 1].(status := AssetDeleted, updatedAt := Some(now), updatedBy := Some(UserOrSystem(user)))]
  }

  /** DeleteAsync succeeds exactly for an asset that exists and is not yet deleted. */
  predicate CanDelete(assets: seq<Asset>, id: int)
  {
    1 <= id <= |assets| && assets[id - 1].status != AssetDeleted
  }

  class AssetService {
    var assets: seq<Asset>

    ghost predicate Valid()
      reads this
    {
      IdsAreIndices(assets, SrcAssetRepository.AssetId)
    }

    constructor ()
      ensures Valid() && assets == []
    {
      assets := [];
    }

    /**
     * `CreateAsync`: the tag check runs first (and needs a tenant); a tag
     * used by a live asset of the tenant is refused; otherwise a new Active,
     * Pending asset of the tenant is stored.
     */
    method Create(dto: AssetInput, tenant: Option<int>, user: Option<string>, now: DateTime) returns (r: Result<Asset>)
      requires Valid()
      modifies this
      ensures Valid()
      ensures tenant.None? ==> r.Throw? && r.error.UnauthorizedAccess? && assets == old(assets)
      ensures tenant.Some? && TagExists(old(assets), tenant, dto.assetTag).value ==>
        r == Throw(DomainException("Asset with tag " + dto.assetTag + " already exists")) && assets == old(assets)
      ensures tenant.Some? && !TagExists(old(assets), tenant, dto.assetTag).value ==>
        && r == Ok(NewAsset(dto, tenant.value, user, now).(id := |old(assets)| + 1))
        && assets == old(assets) + [r.value]
    {
      var taken := TagExists(assets, tenant, dto.assetTag);
      if taken.Throw? {
        return Throw(taken.error);
      }
      if taken.value {
        return Throw(DomainException("Asset with tag " + dto.assetTag + " already exists"));
      }
      var asset := NewAsset(dto, tenant.value, user, now).(id := |assets| + 1);
      assets := assets + [asset];
      return Ok(asset);
    }

    /**
     * `UpdateAsync`: a missing or deleted asset is refused; a changed tag
     * must not be used by a live asset of the tenant (which needs a tenant).
     * There is no check that the asset belongs to the current tenant.
     */
    method Update(id: int, dto: AssetInput, tenant: Option<int>, user: Option<string>, now: DateTime) returns (r: Result<Asset>)
      requires Valid()
      modifies this
      ensures Valid()
      ensures !(1 <= id <= |old(assets)|) ==>
        r == Throw(DomainException("Asset with id " + IntToString(id) + " not found")) && assets == old(assets)
      ensures 1 <= id <= |old(assets)| && old(assets)[id - 1].status == AssetDeleted ==>
        r == Throw(DomainException("Cannot update deleted asset")) && assets == old(assets)
      ensures r.Throw? ==> assets == old(assets)
      ensures r.Ok? <==>
        && 1 <= id <= |old(assets)| && old(assets)[id - 1].status != AssetDeleted
        && (old(assets)[id - 1].assetTag != dto.assetTag ==>
              tenant.Some? && !TagExists(old(assets), tenant, dto.assetTag).value)
      ensures r.Ok? ==>
        && r.value == ApplyInput(old(assets)[id - 1], dto).(updatedAt := Some(now), updatedBy := Some(UserOrSystem(user)))
        && assets == old(assets)[id - 1 := r.value]
    {
      SrcAssetRepository.AssetByIdInStore(assets, id);
      var found := SrcAssetRepository.AssetById(assets, id);
      if found.None? {
        return Throw(DomainException("Asset with id " + IntToString(id) + " not found"));
      }
      var asset := found.value;
      if asset.status == AssetDeleted {
        return Throw(DomainException("Cannot update deleted asset"));
      }
      if asset.assetTag != dto.assetTag {
        var taken := TagExists(assets, tenant, dto.assetTag);
        if taken.Throw? {
          return Throw(taken.error);
        }
        if taken.value {
          return Throw(DomainException("Asset with tag " + dto.assetTag + " already exists"));
        }
      }
      var updated := ApplyInput(asset, dto).(updatedAt := Some(now), updatedBy := Some(UserOrSystem(user)));
      assets := assets[id - 1 := updated];
      return Ok(updated);
    }

    /** `DeleteAsync`: false for a missing or already deleted asset, else a soft delete. */
    method Delete(id: int, user: Option<string>, now: DateTime) returns (deleted: bool)
      requires Valid()
      modifies this
      ensures Valid()
      ensures deleted == CanDelete(old(assets), id)
      ensures deleted ==> assets == SoftDeleted(old(assets), id, user, now)
      ensures !deleted ==> assets == old(assets)
    {
      SrcAssetRepository.AssetByIdInStore(assets, id);
      var found := SrcAssetRepository.AssetById(assets, id);
      if found.None? || found.value.status == AssetDeleted {
        return false;
      }
      assets := SoftDeleted(assets, id, user, now);
      return true;
    }
  }
}

=== FILE: src_audit_repository.dfy ===
/**
 * The audit repository of the `src/` tree
 * (src/InsureX.Infrastructure/Repositories/AuditRepository.cs): newest-first
 * queries over the audit log.
 */
module SrcAuditRepository {
  import opened Common
  import opened SrcDomain
  import Ordering

  predicate TimestampDesc(a: AuditLog, b: AuditLog) { a.timestamp >= b.timestamp }

  lemma TimestampDescPreorder()
    ensures Ordering.TotalPreorder(TimestampDesc)
  {
  }

  /** An entry the dashboard shows as an alert: its action mentions "Alert" or it has a severity. */
  predicate IsAlertLog(a: AuditLog)
  {
    Contains(a.action, "Alert") || a.severity.Some?
  }

  predicate AnyLog(a: AuditLog) { true }

  /** `GetRecentAlertsAsync(count)`: the newest alert entries, at most `count` of them. */
  function RecentAlerts(logs: seq<AuditLog>, count: int): (r: seq<AuditLog>)
    ensures |r| == Max(0, Min(count, CountWhere(logs, IsAlertLog)))
    ensures Ordering.SortedBy(r, TimestampDesc)
    ensures forall a :: a in r ==> a in logs && IsAlertLog(a)
    ensures Ordering.KeepsTop(r, logs, IsAlertLog, TimestampDesc)
  {
    TimestampDescPreorder();
    Ordering.WhereOrderTake(logs, IsAlertLog, TimestampDesc, count)
  }

  /** `GetRecentActivitiesAsync(count)`: the newest entries of any kind, at most `count` of them. */
  function RecentActivities(logs: seq<AuditLog>, count: int): (r: seq<AuditLog>)
    ensures |r| == Max(0, Min(count, |logs|))
    ensures Ordering.SortedBy(r, TimestampDesc)
    ensures forall a :: a in r ==> a in logs
    ensures Ordering.KeepsTop(r, logs, AnyLog, TimestampDesc)
  {
    TimestampDescPreorder();
    CountExtremes(logs, AnyLog);
    Ordering.WhereOrderTake(logs, AnyLog, TimestampDesc, count)
  }

  /** `GetByEntityAsync(type, id)`: every entry about that entity, newest first. */
  function ByEntity(logs: seq<AuditLog>, entityType: string, entityId: int): (r: seq<AuditLog>)
    ensures Ordering.SortedBy(r, TimestampDesc)
    ensures forall a :: a in r <==> a in logs && a.entityType == entityType && a.entityId == entityId
    ensures |r| == CountWhere(logs, (a: AuditLog) => a.entityType == entityType && a.entityId == entityId)
  {
    TimestampDescPreorder();
    var p := (a: AuditLog) => a.entityType == entityType && a.entityId == entityId;
    CountIsFilterLength(logs, p);
    var r := Ordering.SortBy(Filter(logs, p), TimestampDesc);
    assert forall a :: a in r <==> a in multiset(Filter(logs, p));
    r
  }

  /** `GetByUserAsync(userId, count)`: that user's newest entries, at most `count` of them. */
  function ByUser(logs: seq<AuditLog>, userId: string, count: int): (r: seq<AuditLog>)
    ensures |r| == Max(0, Min(count, CountWhere(logs, (a: AuditLog) => a.userId == Some(userId))))
    ensures Ordering.SortedBy(r, TimestampDesc)
    ensures forall a :: a in r ==> a in logs && a.userId == Some(userId)
    ensures Ordering.KeepsTop(r, logs, (a: AuditLog) => a.userId == Some(userId), TimestampDesc)
  {
    TimestampDescPreorder();
    Ordering.WhereOrderTake(logs, (a: AuditLog) => a.userId == Some(userId), TimestampDesc, count)
  }
}

=== FILE: src_compliance_engine.dfy ===
/**
 * The stateful half of the rule-averaging compliance engine
 * (src/InsureX.Application/Services/ComplianceEngineService.cs): rule
 * management, the compliance check of one asset, the alert lifecycle
 * (New, then Acknowledged, then Resolved) and the two batch operations.
 *
 * The engine works on the compliance repository and on the asset and
 * policy sets behind the asset and policy repositories. The clock, the
 * current user and the current tenant are parameters.
 */
module SrcComplianceEngine {
  import opened Common
  import opened SrcDomain
  import opened SrcComplianceRules
  import opened SrcComplianceRepository
  import SrcAssetRepository
  import SrcPolicyRepository

  /** `ComplianceCheckResult`. */
  datatype CheckResult = CheckResult(
    assetId: int,
    ruleResults: seq<RuleResult>,
    newAlerts: seq<Alert>,
    score: int,
    status: string)

  /** `CreateComplianceRuleDto`. */
  datatype RuleInput = RuleInput(
    ruleName: string,
    ruleCode: string,
    description: string,
    ruleType: string,
    condition: string,
    action: string,
    severity: int,
    isActive: bool,
    daysToExpiry: Option<int>,
    applicablePolicyTypes: seq<string>,
    applicableAssetTypes: seq<string>,
    priority: int)

  /** `dto.Adapt(rule)`: the input's fields copied onto the rule; the others are kept. */
  function ApplyInput(rule: Rule, dto: RuleInput): (r: Rule)
    ensures r.id == rule.id && r.tenantId == rule.tenantId && r.effectiveTo == rule.effectiveTo
    ensures r.maxValue == rule.maxValue && r.createdAt == rule.createdAt && r.createdBy == rule.createdBy
    ensures r.ruleCode == dto.ruleCode && r.ruleName == dto.ruleName && r.ruleType == dto.ruleType
    ensures r.severity == dto.severity && r.isActive == dto.isActive && r.priority == dto.priority
    ensures r.applicableAssetTypes == dto.applicableAssetTypes
    ensures r.applicablePolicyTypes == dto.applicablePolicyTypes
  {
    rule.(ruleName := dto.ruleName, ruleCode := dto.ruleCode, description := dto.description,
          ruleType := dto.ruleType, condition := dto.condition, action := dto.action,
          severity := dto.severity, isActive := dto.isActive, daysToExpiry := dto.daysToExpiry,
          applicablePolicyTypes := dto.applicablePolicyTypes,
          applicableAssetTypes := dto.applicableAssetTypes, priority := dto.priority)
  }

  /** `dto.Adapt<ComplianceRule>()` followed by the tenant and creation stamps. */
  function NewRule(dto: RuleInput, tenantId: int, createdBy: string, now: DateTime): Rule
  {
    ApplyInput(Rule(0, tenantId, "", "", "", "", "", "", 0, 0, false, None, [], [], None, None,
                    now, createdBy, None, None), dto)
  }

  /** The repository's lookup by rule code: the first rule with that code. */
  function RuleByCode(rules: seq<Rule>, code: string): (r: Option<Rule>)
    ensures r.None? <==> forall i :: 0 <= i < |rules| ==> rules[i].ruleCode != code
  {
    FirstOrDefault(rules, (x: Rule) => x.ruleCode == code)
  }

  function Deactivated(rule: Rule, now: DateTime, user: string): Rule
  {
    rule.(isActive := false, updatedAt := Some(now), updatedBy := Some(user))
  }

  // ---------------------------------------------------------------------
  // What a compliance check computes
  // ---------------------------------------------------------------------

  /** The result of checking `asset`, whose new alerts are numbered from `firstId`. */
  function Outcome(asset: Asset, policies: seq<Policy>, rules: seq<Rule>, now: DateTime,
                   fault: int -> Option<string>, firstId: int): (r: CheckResult)
    ensures r.assetId == asset.id
    ensures 0 <= r.score <= 100
    ensures r.status == StatusForScore(r.score)
  {
    var active := ActiveRules(rules);
    var mine := SrcPolicyRepository.PoliciesOfAsset(policies, asset.id);
    var applies := ApplicableTo(asset, mine);
    var eval := EvaluatorFor(asset, mine, now, fault);
    var results := Evaluations(active, applies, eval);
    var compliant := CompliantCount(results);
    var score := Score(100 * compliant, |results|);
    ScoreBounds(compliant, |results|);
    CheckResult(asset.id, results, ViolationAlerts(active, applies, eval, asset, now, firstId),
                score, StatusForScore(score))
  }

  /**
   * A check raises exactly one alert per failing applicable rule, numbered
   * consecutively, and scores 100 exactly when every applicable rule passes.
   */
  lemma OutcomeSpec(asset: Asset, policies: seq<Policy>, rules: seq<Rule>, now: DateTime,
                    fault: int -> Option<string>, firstId: int)
    ensures var r := Outcome(asset, policies, rules, now, fault, firstId);
      && |r.newAlerts| == |r.ruleResults| - CompliantCount(r.ruleResults)
      && (forall k :: 0 <= k < |r.newAlerts| ==> r.newAlerts[k].id == firstId + k && r.newAlerts[k].status == AlertNew)
      && (r.score == 100 <==> CompliantCount(r.ruleResults) == |r.ruleResults|)
  {
    var active := ActiveRules(rules);
    var mine := SrcPolicyRepository.PoliciesOfAsset(policies, asset.id);
    var applies := ApplicableTo(asset, mine);
    var eval := EvaluatorFor(asset, mine, now, fault);
    ViolationAlertsCount(active, applies, eval, asset, now, firstId);
    var results := Evaluations(active, applies, eval);
    ScoreBounds(CompliantCount(results), |results|);
  }

  /** One more rule extends the results by its evaluation when it applies. */
  lemma EvaluationsStep(rules: seq<Rule>, i: int, applies: Rule -> bool, eval: Rule -> RuleResult)
    requires 0 <= i < |rules|
    ensures !applies(rules[i]) ==> Evaluations(rules[..i + 1], applies, eval) == Evaluations(rules[..i], applies, eval)
    ensures applies(rules[i]) ==>
      Evaluations(rules[..i + 1], applies, eval) == Evaluations(rules[..i], applies, eval) + [eval(rules[i])]
  {
    assert rules[..i + 1][..i] == rules[..i];
  }

  /** One more rule raises one more alert when it applies and fails. */
  lemma ViolationAlertsStep(rules: seq<Rule>, i: int, applies: Rule -> bool, eval: Rule -> RuleResult,
                            asset: Asset, now: DateTime, firstId: int)
    requires 0 <= i < |rules|
    ensures !(applies(rules[i]) && !eval(rules[i]).isCompliant) ==>
      ViolationAlerts(rules[..i + 1], applies, eval, asset, now, firstId)
      == ViolationAlerts(rules[..i], applies, eval, asset, now, firstId)
    ensures var before := ViolationAlerts(rules[..i], applies, eval, asset, now, firstId);
      applies(rules[i]) && !eval(rules[i]).isCompliant ==>
      ViolationAlerts(rules[..i + 1], applies, eval, asset, now, firstId)
      == before + [CreateAlertFromRule(firstId + |before|, rules[i], asset, eval(rules[i]).finding, now)]
  {
    assert rules[..i + 1][..i] == rules[..i];
  }

  /** Storing an alert built with id 0 gives it the id the store assigns. */
  lemma StoredAlert(id: int, rule: Rule, asset: Asset, finding: string, now: DateTime)
    ensures CreateAlertFromRule(0, rule, asset, finding, now).(id := id, createdAt := now)
      == CreateAlertFromRule(id, rule, asset, finding, now)
  {
  }

  /** The outcome, given the results and alerts of the rule loop. */
  lemma OutcomeOf(asset: Asset, policies: seq<Policy>, rules: seq<Rule>, now: DateTime,
                  fault: int -> Option<string>, firstId: int, results: seq<RuleResult>, newAlerts: seq<Alert>)
    requires var mine := SrcPolicyRepository.PoliciesOfAsset(policies, asset.id);
      && results == Evaluations(ActiveRules(rules), ApplicableTo(asset, mine), EvaluatorFor(asset, mine, now, fault))
      && newAlerts == ViolationAlerts(ActiveRules(rules), ApplicableTo(asset, mine),
                                      EvaluatorFor(asset, mine, now, fault), asset, now, firstId)
    ensures var score := Score(100 * CompliantCount(results), |results|);
      Outcome(asset, policies, rules, now, fault, firstId)
      == CheckResult(asset.id, results, newAlerts, score, StatusForScore(score))
  {
  }

  /** The check record written by a check. */
  function CheckRecord(r: CheckResult, user: Option<string>, now: DateTime): Check
  {
    Check(r.assetId, now, r.status, r.score, r.ruleResults, UserOrSystem(user), true,
          AddDays(now, 1), now)
  }

  /** The history record written when the status changes. */
  function HistoryRecord(asset: Asset, r: CheckResult, now: DateTime): History
  {
    History(asset.id, now, asset.complianceStatus.GetOr("Unknown"), r.status,
            asset.complianceScore.GetOr(0), r.score, "Automatic compliance check", "system", now)
  }

  function AssetAfterCheck(asset: Asset, r: CheckResult, now: DateTime): Asset
  {
    asset.(complianceStatus := Some(r.status), complianceScore := Some(r.score),
           updatedAt := Some(now), updatedBy := Some("system"))
  }

  predicate StatusChanged(asset: Asset, r: CheckResult)
  {
    asset.complianceStatus != Some(r.status)
  }

  // ---------------------------------------------------------------------
  // Batch operations
  // ---------------------------------------------------------------------

  /** `rule.EffectiveTo < now`, which is false when there is no end date. */
  predicate HasExpired(rule: Rule, now: DateTime)
  {
    rule.effectiveTo.Some? && rule.effectiveTo.value < now
  }

  function ExpiredAt(now: DateTime): Rule -> bool
  {
    (r: Rule) => HasExpired(r, now)
  }

  /** The rule set after UpdateExpiredRules: active expired rules deactivated by "system". */
  function ExpireRules(rules: seq<Rule>, now: DateTime): (r: seq<Rule>)
    ensures |r| == |rules|
  {
    seq(|rules|, j requires 0 <= j < |rules| =>
      if rules[j].isActive && HasExpired(rules[j], now) then Deactivated(rules[j], now, "system") else rules[j])
  }

  /** Afterwards no active rule has expired, and nothing but the deactivation changed. */
  lemma ExpireRulesSpec(rules: seq<Rule>, now: DateTime)
    ensures var r := ExpireRules(rules, now);
      && (forall j :: 0 <= j < |r| && r[j].isActive ==> !HasExpired(r[j], now))
      && (forall j :: 0 <= j < |r| ==> r[j].id == rules[j].id && r[j].ruleCode == rules[j].ruleCode)
      && (forall j :: 0 <= j < |r| && r[j] != rules[j] ==> rules[j].isActive && !r[j].isActive)
      && ExpireRules(r, now) == r
  {
    var r := ExpireRules(rules, now);
    assert forall j :: 0 <= j < |r| ==> r[j].effectiveTo == rules[j].effectiveTo;
  }

  /** The cut-off of ResolveStaleAlerts: `now.AddDays(-daysOld)`. */
  function StaleCutoff(now: DateTime, daysOld: int): DateTime { AddDays(now, -daysOld) }

  predicate IsStale(a: Alert, cutoff: DateTime)
  {
    IsActiveAlert(a) && a.createdAt < cutoff && a.status != AlertResolved
  }

  /** The active alerts created before the cut-off that are not Resolved, in store order. */
  function StaleAlerts(alerts: seq<Alert>, cutoff: DateTime): (r: seq<Alert>)
    ensures forall a :: a in r <==> a in alerts && IsStale(a, cutoff)
  {
    Filter(ActiveAlerts(alerts, None), (a: Alert) => a.createdAt < cutoff && a.status != AlertResolved)
  }

  function AutoResolved(a: Alert, now: DateTime): Alert
  {
    a.(status := AlertResolved, resolvedAt := Some(now), resolvedBy := Some("system"),
       resolutionNotes := Some("Automatically resolved due to age"), updatedAt := Some(now))
  }

  /** The alert set after ResolveStaleAlerts. */
  function ResolveStale(alerts: seq<Alert>, cutoff: DateTime, now: DateTime): (r: seq<Alert>)
    ensures |r| == |alerts|
  {
    seq(|alerts|, j requires 0 <= j < |alerts| =>
      if IsStale(alerts[j], cutoff) then AutoResolved(alerts[j], now) else alerts[j])
  }

  /** Afterwards no alert is stale; only stale alerts changed, and they are now Resolved. */
  lemma ResolveStaleSpec(alerts: seq<Alert>, cutoff: DateTime, now: DateTime)
    ensures var r := ResolveStale(alerts, cutoff, now);
      && (forall j :: 0 <= j < |r| ==> !IsStale(r[j], cutoff))
      && (forall j :: 0 <= j < |r| ==> r[j].id == alerts[j].id && r[j].createdAt == alerts[j].createdAt)
      && (forall j :: 0 <= j < |r| && r[j] != alerts[j] ==> IsStale(alerts[j], cutoff) && r[j].status == AlertResolved)
      && (forall j :: 0 <= j < |r| && IsActiveAlert(alerts[j]) && alerts[j].createdAt >= cutoff ==> r[j] == alerts[j])
  {
  }

  /** The rule set once the rules of `done` have been visited. */
  ghost function ExpiredSoFar(rules: seq<Rule>, done: seq<Rule>, now: DateTime): (r: seq<Rule>)
    ensures |r| == |rules|
  {
    seq(|rules|, j requires 0 <= j < |rules| =>
      if rules[j] in done && HasExpired(rules[j], now) then Deactivated(rules[j], now, "system") else rules[j])
  }

  lemma ExpiredSoFarStep(rules: seq<Rule>, done: seq<Rule>, i: int, now: DateTime)
    requires IdsAreIndices(rules, RuleId) && 0 <= i < |done| && done[i] in rules
    ensures 1 <= done[i].id <= |rules| && rules[done[i].id - 1] == done[i]
    ensures ExpiredSoFar(rules, done[..i + 1], now) ==
      if HasExpired(done[i], now)
      then ExpiredSoFar(rules, done[..i], now)[done[i].id - 1 := Deactivated(done[i], now, "system")]
      else ExpiredSoFar(rules, done[..i], now)
  {
    var rule := done[i];
    assert done[..i + 1] == done[..i] + [rule];
    StoredAt(rules, RuleId, rule);
    forall j | 0 <= j < |rules| && j != rule.id - 1 ensures rules[j] != rule {
      assert RuleId(rules[j]) == j + 1;
    }
  }

  lemma ExpiredSoFarDone(rules: seq<Rule>, done: seq<Rule>, now: DateTime)
    requires forall x :: x in done <==> x in rules && x.isActive
    ensures ExpiredSoFar(rules, done, now) == ExpireRules(rules, now)
  {
  }

  /** The alert set once the alerts of `done` have been resolved. */
  ghost function ResolvedSoFar(alerts: seq<Alert>, done: seq<Alert>, now: DateTime): (r: seq<Alert>)
    ensures |r| == |alerts|
  {
    seq(|alerts|, j requires 0 <= j < |alerts| =>
      if alerts[j] in done then AutoResolved(alerts[j], now) else alerts[j])
  }

  lemma ResolvedSoFarStep(alerts: seq<Alert>, done: seq<Alert>, i: int, now: DateTime)
    requires IdsAreIndices(alerts, AlertId) && 0 <= i < |done| && done[i] in alerts
    ensures 1 <= done[i].id <= |alerts| && alerts[done[i].id - 1] == done[i]
    ensures ResolvedSoFar(alerts, done[..i + 1], now)
      == ResolvedSoFar(alerts, done[..i], now)[done[i].id - 1 := AutoResolved(done[i], now)]
  {
    var alert := done[i];
    assert done[..i + 1] == done[..i] + [alert];
    StoredAt(alerts, AlertId, alert);
    forall j | 0 <= j < |alerts| && j != alert.id - 1 ensures alerts[j] != alert {
      assert AlertId(alerts[j]) == j + 1;
    }
  }

  lemma ResolvedSoFarDone(alerts: seq<Alert>, cutoff: DateTime, now: DateTime)
    ensures ResolvedSoFar(alerts, StaleAlerts(alerts, cutoff), now) == ResolveStale(alerts, cutoff, now)
  {
  }

  // ---------------------------------------------------------------------
  // The engine
  // ---------------------------------------------------------------------

  class ComplianceEngine {
    const repo: ComplianceRepository
    var assets: seq<Asset>
    var policies: seq<Policy>

    ghost predicate Valid()
      reads this, repo
    {
      repo.Valid() && IdsAreIndices(assets, SrcAssetRepository.AssetId)
    }

    constructor (repo: ComplianceRepository, assets: seq<Asset>, policies: seq<Policy>)
      requires repo.Valid() && IdsAreIndices(assets, SrcAssetRepository.AssetId)
      ensures Valid()
      ensures this.repo == repo && this.assets == assets && this.policies == policies
    {
      this.repo := repo;
      this.assets := assets;
      this.policies := policies;
    }

    /** `CreateRuleAsync`: the code must be new, and there must be a tenant. */
    method CreateRule(dto: RuleInput, tenant: Option<int>, user: Option<string>, now: DateTime)
      returns (r: Result<Rule>)
      requires Valid()
      modifies repo
      ensures Valid()
      ensures RuleByCode(old(repo.rules), dto.ruleCode).Some? ==>
        r == Throw(DomainException("Rule with code " + dto.ruleCode + " already exists"))
        && repo.rules == old(repo.rules)
      ensures RuleByCode(old(repo.rules), dto.ruleCode).None? && tenant.None? ==>
        r == Throw(UnauthorizedAccess("No tenant context")) && repo.rules == old(repo.rules)
      ensures RuleByCode(old(repo.rules), dto.ruleCode).None? && tenant.Some? ==>
        r == Ok(NewRule(dto, tenant.value, UserOrSystem(user), now).(id := |old(repo.rules)| + 1))
        && repo.rules == old(repo.rules) + [r.value]
      ensures repo.alerts == old(repo.alerts) && repo.checks == old(repo.checks)
      ensures repo.history == old(repo.history)
    {
      if RuleByCode(repo.rules, dto.ruleCode).Some? {
        return Throw(DomainException("Rule with code " + dto.ruleCode + " already exists"));
      }
      if tenant.None? {
        return Throw(UnauthorizedAccess("No tenant context"));
      }
      var rule := NewRule(dto, tenant.value, UserOrSystem(user), now);
      var stored := repo.AddRule(rule, now);
      return Ok(stored);
    }

    /** `UpdateRuleAsync`: the rule must exist, and a changed code must be new. */
    method UpdateRule(id: int, dto: RuleInput, user: Option<string>, now: DateTime)
      returns (r: Result<Rule>)
      requires Valid()
      modifies repo
      ensures Valid()
      ensures RuleById(old(repo.rules), id).None? ==>
        r == Throw(DomainException("Rule with ID " + IntToString(id) + " not found"))
        && repo.rules == old(repo.rules)
      ensures (&& RuleById(old(repo.rules), id).Some?
               && RuleById(old(repo.rules), id).value.ruleCode != dto.ruleCode
               && RuleByCode(old(repo.rules), dto.ruleCode).Some?) ==>
        r == Throw(DomainException("Rule with code " + dto.ruleCode + " already exists"))
        && repo.rules == old(repo.rules)
      ensures r.Ok? ==>
        && 1 <= id <= |old(repo.rules)|
        && r.value == ApplyInput(old(repo.rules)[id - 1], dto).(updatedAt := Some(now), updatedBy := Some(UserOrSystem(user)))
        && repo.rules == old(repo.rules)[id - 1 := r.value]
      ensures r.Throw? ==> repo.rules == old(repo.rules)
      ensures repo.alerts == old(repo.alerts) && repo.checks == old(repo.checks)
      ensures repo.history == old(repo.history)
    {
      RuleByIdInStore(repo.rules, id);
      var found := RuleById(repo.rules, id);
      if found.None? {
        return Throw(DomainException("Rule with ID " + IntToString(id) + " not found"));
      }
      var rule := found.value;
      if rule.ruleCode != dto.ruleCode && RuleByCode(repo.rules, dto.ruleCode).Some? {
        return Throw(DomainException("Rule with code " + dto.ruleCode + " already exists"));
      }
      var updated := ApplyInput(rule, dto).(updatedAt := Some(now), updatedBy := Some(UserOrSystem(user)));
      var stored := repo.UpdateRule(updated, now);
      return Ok(stored);
    }

    /** `DeleteRuleAsync`: deactivates the rule; false when there is none. */
    method DeleteRule(id: int, user: Option<string>, now: DateTime) returns (deleted: bool)
      requires Valid()
      modifies repo
      ensures Valid()
      ensures deleted <==> 1 <= id <= |old(repo.rules)|
      ensures deleted ==> repo.rules == old(repo.rules)[id - 1 := Deactivated(old(repo.rules)[id - 1], now, UserOrSystem(user))]
      ensures !deleted ==> repo.rules == old(repo.rules)
      ensures repo.alerts == old(repo.alerts) && repo.checks == old(repo.checks)
      ensures repo.history == old(repo.history)
    {
      RuleByIdInStore(repo.rules, id);
      var found := RuleById(repo.rules, id);
      if found.None? {
        return false;
      }
      var _ := repo.UpdateRule(Deactivated(found.value, now, UserOrSystem(user)), now);
      return true;
    }

    /** `ToggleRuleStatusAsync`: sets IsActive; false when there is no such rule. */
    method ToggleRuleStatus(id: int, isActive: bool, user: Option<string>, now: DateTime) returns (found: bool)
      requires Valid()
      modifies repo
      ensures Valid()
      ensures found <==> 1 <= id <= |old(repo.rules)|
      ensures found ==> repo.rules == old(repo.rules)[id - 1 :=
        old(repo.rules)[id - 1].(isActive := isActive, updatedAt := Some(now), updatedBy := Some(UserOrSystem(user)))]
      ensures !found ==> repo.rules == old(repo.rules)
      ensures repo.alerts == old(repo.alerts) && repo.checks == old(repo.checks)
      ensures repo.history == old(repo.history)
    {
      RuleByIdInStore(repo.rules, id);
      var rule := RuleById(repo.rules, id);
      if rule.None? {
        return false;
      }
      var updated := rule.value.(isActive := isActive, updatedAt := Some(now), updatedBy := Some(UserOrSystem(user)));
      var _ := repo.UpdateRule(updated, now);
      return true;
    }

    /** The alert for a failing rule (`CreateAlertFromRule`), stored with the next id. */
    method RaiseAlert(rule: Rule, asset: Asset, finding: string, now: DateTime) returns (alert: Alert)
      requires repo.Valid()
      modifies repo
      ensures repo.Valid()
      ensures alert == CreateAlertFromRule(|old(repo.alerts)| + 1, rule, asset, finding, now)
      ensures repo.alerts == old(repo.alerts) + [alert]
      ensures repo.rules == old(repo.rules) && repo.checks == old(repo.checks)
      ensures repo.history == old(repo.history)
    {
      StoredAlert(|repo.alerts| + 1, rule, asset, finding, now);
      alert := repo.AddAlert(CreateAlertFromRule(0, rule, asset, finding, now), now);
    }

    /** One turn of the rule loop: the state after rule `i` from the state after the rules before it. */
    method EvaluateOne(active: seq<Rule>, i: int, applies: Rule -> bool, eval: Rule -> RuleResult,
                       asset: Asset, now: DateTime, ghost base: seq<Alert>, ghost firstId: int,
                       results: seq<RuleResult>, newAlerts: seq<Alert>, totalScore: int, applicableRules: int)
      returns (results': seq<RuleResult>, newAlerts': seq<Alert>, totalScore': int, applicableRules': int)
      requires 0 <= i < |active|
      requires repo.Valid()
      requires results == Evaluations(active[..i], applies, eval)
      requires newAlerts == ViolationAlerts(active[..i], applies, eval, asset, now, firstId)
      requires repo.alerts == base + newAlerts && firstId == |base| + 1
      requires totalScore == 100 * CompliantCount(results) && applicableRules == |results|
      modifies repo
      ensures repo.Valid()
      ensures results' == Evaluations(active[..i + 1], applies, eval)
      ensures newAlerts' == ViolationAlerts(active[..i + 1], applies, eval, asset, now, firstId)
      ensures repo.alerts == base + newAlerts'
      ensures totalScore' == 100 * CompliantCount(results') && applicableRules' == |results'|
      ensures repo.rules == old(repo.rules) && repo.checks == old(repo.checks)
      ensures repo.history == old(repo.history)
    {
      var rule := active[i];
      EvaluationsStep(active, i, applies, eval);
      ViolationAlertsStep(active, i, applies, eval, asset, now, firstId);
      results', newAlerts', totalScore', applicableRules' := results, newAlerts, totalScore, applicableRules;
      if applies(rule) {
        var res := eval(rule);
        CountSnoc(results, res, Compliant);
        results' := results + [res];
        applicableRules' := applicableRules + 1;
        if res.isCompliant {
          totalScore' := totalScore + 100;
        } else {
          var alert := RaiseAlert(rule, asset, res.finding, now);
          assert alert == CreateAlertFromRule(firstId + |newAlerts|, rule, asset, res.finding, now);
          newAlerts' := newAlerts + [alert];
        }
      }
    }

    /**
     * The rule loop of `CheckAssetComplianceAsync`: evaluates the rules in
     * order with `eval`, skips those `applies` rejects, and stores an alert
     * for each failing one. The engine passes `IsRuleApplicable` and
     * `EvaluateRule` for the asset it checks.
     */
    method EvaluateRules(active: seq<Rule>, applies: Rule -> bool, eval: Rule -> RuleResult,
                         asset: Asset, now: DateTime)
      returns (results: seq<RuleResult>, newAlerts: seq<Alert>, totalScore: int, applicableRules: int)
      requires repo.Valid()
      modifies repo
      ensures repo.Valid()
      ensures results == Evaluations(active, applies, eval)
      ensures newAlerts == ViolationAlerts(active, applies, eval, asset, now, |old(repo.alerts)| + 1)
      ensures repo.alerts == old(repo.alerts) + newAlerts
      ensures totalScore == 100 * CompliantCount(results) && applicableRules == |results|
      ensures repo.rules == old(repo.rules) && repo.checks == old(repo.checks)
      ensures repo.history == old(repo.history)
    {
      ghost var firstId := |repo.alerts| + 1;
      results, newAlerts, totalScore, applicableRules := [], [], 0, 0;
      var i := 0;
      while i < |active|
        invariant 0 <= i <= |active|
        invariant repo.Valid()
        invariant results == Evaluations(active[..i], applies, eval)
        invariant newAlerts == ViolationAlerts(active[..i], applies, eval, asset, now, firstId)
        invariant repo.alerts == old(repo.alerts) + newAlerts
        invariant totalScore == 100 * CompliantCount(results) && applicableRules == |results|
        invariant repo.rules == old(repo.rules) && repo.checks == old(repo.checks)
        invariant repo.history == old(repo.history)
      {
        results, newAlerts, totalScore, applicableRules :=
          EvaluateOne(active, i, applies, eval, asset, now, old(repo.alerts), firstId, results, newAlerts, totalScore, applicableRules);
        i := i + 1;
      }
      assert active[..|active|] == active;
    }

    /**
     * The first half of a check: the active rules, the asset's policies, the rule loop,
     * the score and the status.
     */
    method RunRules(asset: Asset, now: DateTime, fault: int -> Option<string>) returns (result: CheckResult)
      requires repo.Valid()
      modifies repo
      ensures repo.Valid()
      ensures result == Outcome(asset, policies, old(repo.rules), now, fault, |old(repo.alerts)| + 1)
      ensures repo.alerts == old(repo.alerts) + result.newAlerts
      ensures repo.rules == old(repo.rules) && repo.checks == old(repo.checks)
      ensures repo.history == old(repo.history)
    {
      var mine := SrcPolicyRepository.PoliciesOfAsset(policies, asset.id);
      var active := ActiveRules(repo.rules);
      ghost var firstId := |repo.alerts| + 1;
      var results, newAlerts, totalScore, applicableRules :=
        EvaluateRules(active, ApplicableTo(asset, mine), EvaluatorFor(asset, mine, now, fault), asset, now);
      var score := if applicableRules > 0 then totalScore / applicableRules else 100;
      var status := if score >= 90 then StatusCompliant else if score >= 70 then StatusWarning else StatusNonCompliant;
      result := CheckResult(asset.id, results, newAlerts, score, status);
      OutcomeOf(asset, policies, old(repo.rules), now, fault, firstId, results, newAlerts);
    }

    /**
     * The second half of a check: stores the check record and, only when the status
     * changed, a history record and the asset's new status and score.
     */
    method RecordCheck(asset: Asset, r: CheckResult, user: Option<string>, now: DateTime)
      requires Valid() && 1 <= asset.id <= |assets| && assets[asset.id - 1] == asset && r.assetId == asset.id
      modifies this, repo
      ensures Valid()
      ensures repo.checks == old(repo.checks) + [CheckRecord(r, user, now)]
      ensures StatusChanged(asset, r) ==>
        repo.history == old(repo.history) + [HistoryRecord(asset, r, now)]
        && assets == old(assets)[asset.id - 1 := AssetAfterCheck(asset, r, now)]
      ensures !StatusChanged(asset, r) ==> repo.history == old(repo.history) && assets == old(assets)
      ensures repo.rules == old(repo.rules) && repo.alerts == old(repo.alerts) && policies == old(policies)
    {
      repo.AddCheck(Check(asset.id, now, r.status, r.score, r.ruleResults, UserOrSystem(user), true,
                          AddDays(now, 1), now), now);
      if asset.complianceStatus != Some(r.status) {
        repo.AddHistory(History(asset.id, now, asset.complianceStatus.GetOr("Unknown"), r.status,
                                asset.complianceScore.GetOr(0), r.score, "Automatic compliance check",
                                "system", now), now);
        assets := assets[asset.id - 1 := asset.(complianceStatus := Some(r.status), complianceScore := Some(r.score),
                                                updatedAt := Some(now), updatedBy := Some("system"))];
        assert IdsAreIndices(assets, SrcAssetRepository.AssetId) by {
          assert forall k :: 0 <= k < |assets| ==> assets[k].id == old(assets)[k].id;
        }
      }
    }

    /**
     * `CheckAssetComplianceAsync`: evaluates the active rules in priority
     * order, raises an alert for each failing applicable rule, records the
     * check, and records a history entry and updates the asset only when
     * the status changed. A missing asset throws.
     */
    method CheckAssetCompliance(assetId: int, user: Option<string>, now: DateTime,
                                fault: int -> Option<string>) returns (r: Result<CheckResult>)
      requires Valid()
      modifies this, repo
      ensures Valid()
      ensures SrcAssetRepository.AssetById(old(assets), assetId).None? ==>
        && r == Throw(DomainException("Asset with ID " + IntToString(assetId) + " not found"))
        && assets == old(assets) && repo.alerts == old(repo.alerts)
        && repo.checks == old(repo.checks) && repo.history == old(repo.history)
      ensures SrcAssetRepository.AssetById(old(assets), assetId).Some? ==>
        var asset := old(assets)[assetId - 1];
        && 1 <= assetId <= |old(assets)|
        && r == Ok(Outcome(asset, old(policies), old(repo.rules), now, fault, |old(repo.alerts)| + 1))
        && repo.alerts == old(repo.alerts) + r.value.newAlerts
        && repo.checks == old(repo.checks) + [CheckRecord(r.value, user, now)]
        && (StatusChanged(asset, r.value) ==>
              repo.history == old(repo.history) + [HistoryRecord(asset, r.value, now)]
              && assets == old(assets)[assetId - 1 := AssetAfterCheck(asset, r.value, now)])
        && (!StatusChanged(asset, r.value) ==>
              repo.history == old(repo.history) && assets == old(assets))
      ensures repo.rules == old(repo.rules) && policies == old(policies)
    {
      SrcAssetRepository.AssetByIdInStore(assets, assetId);
      var found := SrcAssetRepository.AssetById(assets, assetId);
      if found.None? {
        return Throw(DomainException("Asset with ID " + IntToString(assetId) + " not found"));
      }
      var asset := found.value;
      var result := RunRules(asset, now, fault);
      RecordCheck(asset, result, user, now);
      return Ok(result);
    }

    /** `AcknowledgeAlertAsync`: a missing alert throws. */
    method AcknowledgeAlert(alertId: int, userId: string, now: DateTime) returns (r: Result<Alert>)
      requires Valid()
      modifies repo
      ensures Valid()
      ensures !(1 <= alertId <= |old(repo.alerts)|) ==>
        r == Throw(DomainException("Alert with ID " + IntToString(alertId) + " not found"))
        && repo.alerts == old(repo.alerts)
      ensures 1 <= alertId <= |old(repo.alerts)| ==>
        && r == Ok(old(repo.alerts)[alertId - 1].(status := AlertAcknowledged, acknowledgedAt := Some(now),
                     acknowledgedBy := Some(userId), updatedAt := Some(now)))
        && repo.alerts == old(repo.alerts)[alertId - 1 := r.value]
      ensures repo.rules == old(repo.rules) && repo.checks == old(repo.checks)
      ensures repo.history == old(repo.history)
    {
      AlertByIdInStore(repo.alerts, alertId);
      var found := AlertById(repo.alerts, alertId);
      if found.None? {
        return Throw(DomainException("Alert with ID " + IntToString(alertId) + " not found"));
      }
      var alert := found.value.(status := AlertAcknowledged, acknowledgedAt := Some(now),
                                acknowledgedBy := Some(userId), updatedAt := Some(now));
      var stored := repo.UpdateAlert(alert, now);
      return Ok(stored);
    }

    /** `ResolveAlertAsync`: a missing alert throws. */
    method ResolveAlert(alertId: int, userId: string, notes: string, now: DateTime) returns (r: Result<Alert>)
      requires Valid()
      modifies repo
      ensures Valid()
      ensures !(1 <= alertId <= |old(repo.alerts)|) ==>
        r == Throw(DomainException("Alert with ID " + IntToString(alertId) + " not found"))
        && repo.alerts == old(repo.alerts)
      ensures 1 <= alertId <= |old(repo.alerts)| ==>
        && r == Ok(old(repo.alerts)[alertId - 1].(status := AlertResolved, resolvedAt := Some(now),
                     resolvedBy := Some(userId), resolutionNotes := Some(notes), updatedAt := Some(now)))
        && repo.alerts == old(repo.alerts)[alertId - 1 := r.value]
      ensures repo.rules == old(repo.rules) && repo.checks == old(repo.checks)
      ensures repo.history == old(repo.history)
    {
      AlertByIdInStore(repo.alerts, alertId);
      var found := AlertById(repo.alerts, alertId);
      if found.None? {
        return Throw(DomainException("Alert with ID " + IntToString(alertId) + " not found"));
      }
      var alert := found.value.(status := AlertResolved, resolvedAt := Some(now), resolvedBy := Some(userId),
                                resolutionNotes := Some(notes), updatedAt := Some(now));
      var stored := repo.UpdateAlert(alert, now);
      return Ok(stored);
    }

    /** The loop of `UpdateExpiredRulesAsync` over the given stored rules. */
    method ExpireEach(active: seq<Rule>, now: DateTime) returns (updated: int)
      requires repo.Valid() && forall x :: x in active ==> x in repo.rules
      modifies repo
      ensures repo.Valid()
      ensures repo.rules == ExpiredSoFar(old(repo.rules), active, now)
      ensures updated == CountWhere(active, ExpiredAt(now))
      ensures repo.alerts == old(repo.alerts) && repo.checks == old(repo.checks)
      ensures repo.history == old(repo.history)
    {
      ghost var before := repo.rules;
      ghost var expired := ExpiredAt(now);
      updated := 0;
      var i := 0;
      while i < |active|
        invariant 0 <= i <= |active|
        invariant repo.Valid()
        invariant repo.rules == ExpiredSoFar(before, active[..i], now)
        invariant updated == CountWhere(active[..i], expired)
        invariant repo.alerts == old(repo.alerts) && repo.checks == old(repo.checks)
        invariant repo.history == old(repo.history) && before == old(repo.rules)
      {
        var rule := active[i];
        CountPrefix(active, i, expired);
        ExpiredSoFarStep(before, active, i, now);
        if HasExpired(rule, now) {
          var _ := repo.UpdateRule(Deactivated(rule, now, "system"), now);
          updated := updated + 1;
        }
        i := i + 1;
      }
      assert active[..|active|] == active;
    }

    /**
     * `UpdateExpiredRulesAsync`: deactivates every active rule whose
     * EffectiveTo lies before now, and returns how many it deactivated.
     */
    method UpdateExpiredRules(now: DateTime) returns (updated: int)
      requires Valid()
      modifies repo
      ensures Valid()
      ensures repo.rules == ExpireRules(old(repo.rules), now)
      ensures updated == CountWhere(ActiveRules(old(repo.rules)), ExpiredAt(now))
      ensures repo.alerts == old(repo.alerts) && repo.checks == old(repo.checks)
      ensures repo.history == old(repo.history)
    {
      var active := ActiveRules(repo.rules);
      ExpiredSoFarDone(repo.rules, active, now);
      updated := ExpireEach(active, now);
    }

    /**
     * `ResolveStaleAlertsAsync`: resolves, as "system", every active alert
     * created before now - daysOld that is not Resolved, and returns how
     * many it resolved.
     */
    method ResolveStaleAlerts(daysOld: int, now: DateTime) returns (resolved: int)
      requires Valid()
      modifies repo
      ensures Valid()
      ensures repo.alerts == ResolveStale(old(repo.alerts), StaleCutoff(now, daysOld), now)
      ensures resolved == |StaleAlerts(old(repo.alerts), StaleCutoff(now, daysOld))|
      ensures repo.rules == old(repo.rules) && repo.checks == old(repo.checks)
      ensures repo.history == old(repo.history)
    {
      var cutoff := AddDays(now, -daysOld);
      var stale := StaleAlerts(repo.alerts, cutoff);
      ghost var before := repo.alerts;
      var i := 0;
      while i < |stale|
        invariant 0 <= i <= |stale|
        invariant repo.Valid()
        invariant repo.alerts == ResolvedSoFar(before, stale[..i], now)
        invariant repo.rules == old(repo.rules) && repo.checks == old(repo.checks)
        invariant repo.history == old(repo.history) && before == old(repo.alerts)
      {
        var alert := stale[i];
        ResolvedSoFarStep(before, stale, i, now);
        var updated := alert.(status := AlertResolved, resolvedAt := Some(now), resolvedBy := Some("system"),
                              resolutionNotes := Some("Automatically resolved due to age"));
        var _ := repo.UpdateAlert(updated, now);
        i := i + 1;
      }
      assert stale[..|stale|] == stale;
      ResolvedSoFarDone(before, cutoff, now);
      resolved := |stale|;
    }
  }
}

=== FILE: src_compliance_repository.dfy ===
/**
 * The compliance repository of the `src/` tree
 * (src/InsureX.Infrastructure/Repositories/ComplianceRepository.cs): the
 * rule, check, alert and history sets, the queries over them, and the
 * Add/Update operations that stamp a timestamp before they insert or
 * replace.
 *
 * The database assigns identity keys; the model assigns them in insertion
 * order from 1 (rules and alerts are never removed), so that an id names
 * a position in the store.
 */
module SrcComplianceRepository {
  import opened Common
  import opened SrcDomain
  import Ordering
  import Grouping

  // ---------------------------------------------------------------------
  // Queries
  // ---------------------------------------------------------------------

  predicate IsActiveRule(r: Rule) { r.isActive }

  predicate PriorityLe(a: Rule, b: Rule) { a.priority <= b.priority }

  lemma PriorityLePreorder()
    ensures Ordering.TotalPreorder(PriorityLe)
  {
  }

  /** `GetActiveRulesAsync`: the active rules, in ascending priority. */
  function ActiveRules(rules: seq<Rule>): (r: seq<Rule>)
    ensures Ordering.SortedBy(r, PriorityLe)
    ensures multiset(r) == multiset(Filter(rules, IsActiveRule))
    ensures forall x :: x in r <==> x in rules && x.isActive
    ensures |r| == CountWhere(rules, IsActiveRule)
  {
    PriorityLePreorder();
    CountIsFilterLength(rules, IsActiveRule);
    var r := Ordering.SortBy(Filter(rules, IsActiveRule), PriorityLe);
    assert forall x :: x in r <==> x in multiset(Filter(rules, IsActiveRule));
    r
  }

  function RuleId(r: Rule): int { r.id }

  function AlertId(a: Alert): int { a.id }

  /** `GetRuleByIdAsync`: the rule with that key, or null. */
  function RuleById(rules: seq<Rule>, id: int): (r: Option<Rule>)
    ensures r.Some? ==> r.value in rules && r.value.id == id
    ensures r.None? <==> forall i :: 0 <= i < |rules| ==> rules[i].id != id
  {
    FirstOrDefault(rules, (x: Rule) => x.id == id)
  }

  /** In a store keyed by position, the rule with id `id` is the one at `id - 1`. */
  lemma RuleByIdInStore(rules: seq<Rule>, id: int)
    requires IdsAreIndices(rules, RuleId)
    ensures RuleById(rules, id) == if 1 <= id <= |rules| then Some(rules[id - 1]) else None
  {
    var r := RuleById(rules, id);
    if r.Some? {
      StoredAt(rules, RuleId, r.value);
    }
    if 1 <= id <= |rules| {
      assert rules[id - 1].id == id;
    }
  }

  /** `GetAlertByIdAsync`: the first alert with that id, or null. */
  function AlertById(alerts: seq<Alert>, id: int): (r: Option<Alert>)
    ensures r.Some? ==> r.value in alerts && r.value.id == id
    ensures r.None? <==> forall i :: 0 <= i < |alerts| ==> alerts[i].id != id
  {
    FirstOrDefault(alerts, (x: Alert) => x.id == id)
  }

  lemma AlertByIdInStore(alerts: seq<Alert>, id: int)
    requires IdsAreIndices(alerts, AlertId)
    ensures AlertById(alerts, id) == if 1 <= id <= |alerts| then Some(alerts[id - 1]) else None
  {
    var r := AlertById(alerts, id);
    if r.Some? {
      StoredAt(alerts, AlertId, r.value);
    }
    if 1 <= id <= |alerts| {
      assert alerts[id - 1].id == id;
    }
  }

  predicate CheckDateDesc(a: Check, b: Check) { a.checkDate >= b.checkDate }

  lemma CheckDateDescPreorder()
    ensures Ordering.TotalPreorder(CheckDateDesc)
  {
  }

  /** `GetLatestCheckAsync`: the asset's check with the latest CheckDate, or null. */
  function LatestCheck(checks: seq<Check>, assetId: int): (r: Option<Check>)
    ensures r.None? <==> forall i :: 0 <= i < |checks| ==> checks[i].assetId != assetId
    ensures r.Some? ==> r.value in checks && r.value.assetId == assetId
    ensures r.Some? ==> forall c :: c in checks && c.assetId == assetId ==> c.checkDate <= r.value.checkDate
  {
    CheckDateDescPreorder();
    var mine := Filter(checks, (c: Check) => c.assetId == assetId);
    Ordering.SortedFirst(mine, CheckDateDesc);
    var sorted := Ordering.SortBy(mine, CheckDateDesc);
    if sorted == [] then
      assert forall i :: 0 <= i < |checks| && checks[i].assetId == assetId ==> checks[i] in mine;
      None
    else
      Some(sorted[0])
  }

  predicate IsActiveAlert(a: Alert)
  {
    a.status == AlertNew || a.status == AlertAcknowledged
  }

  /** `GetActiveAlertsAsync(assetId)`: New or Acknowledged alerts, of that asset when one is given. */
  function ActiveAlerts(alerts: seq<Alert>, assetId: Option<int>): (r: seq<Alert>)
    ensures |r| <= |alerts|
    ensures forall a :: a in r <==>
      a in alerts && IsActiveAlert(a) && (assetId.Some? ==> a.assetId == assetId.value)
  {
    var active := Filter(alerts, IsActiveAlert);
    if assetId.Some? then Filter(active, (a: Alert) => a.assetId == assetId.value) else active
  }

  /** `GetActiveAlertCountAsync`: counts New and Acknowledged alerts of every asset. */
  function ActiveAlertCount(alerts: seq<Alert>): nat
  {
    CountWhere(alerts, IsActiveAlert)
  }

  /** The count is the number of alerts the unrestricted query returns. */
  lemma ActiveAlertCountIsLength(alerts: seq<Alert>)
    ensures ActiveAlertCount(alerts) == |ActiveAlerts(alerts, None)|
  {
    CountIsFilterLength(alerts, IsActiveAlert);
  }

  /** `ComplianceStatus ?? "Unknown"`, the summary's grouping key. */
  function StatusKey(a: Asset): string { a.complianceStatus.GetOr("Unknown") }

  function StatusKeys(assets: seq<Asset>): (keys: seq<string>)
    ensures |keys| == |assets| && forall i :: 0 <= i < |assets| ==> keys[i] == StatusKey(assets[i])
  {
    seq(|assets|, i requires 0 <= i < |assets| => StatusKey(assets[i]))
  }

  /** `GetComplianceSummaryAsync`: the number of assets per compliance status. */
  function ComplianceSummary(assets: seq<Asset>): seq<Grouping.Group<string>>
  {
    Grouping.GroupCounts(StatusKeys(assets))
  }

  /**
   * One entry per status key, where a null status counts as "Unknown"; each
   * count is the number of assets with that key, and the counts add up to
   * the number of assets.
   */
  lemma ComplianceSummarySpec(assets: seq<Asset>)
    ensures Grouping.DistinctKeys(ComplianceSummary(assets))
    ensures Grouping.Total(ComplianceSummary(assets)) == |assets|
    ensures forall k :: Grouping.CountFor(ComplianceSummary(assets), k) == Grouping.Occurrences(StatusKeys(assets), k)
    ensures forall k :: Grouping.HasKey(ComplianceSummary(assets), k) <==>
      exists i :: 0 <= i < |assets| && StatusKey(assets[i]) == k
  {
    var keys := StatusKeys(assets);
    Grouping.GroupCountsSpec(keys);
    forall k ensures Grouping.HasKey(ComplianceSummary(assets), k) <==>
      exists i :: 0 <= i < |assets| && StatusKey(assets[i]) == k
    {
      if k in keys {
        var i :| 0 <= i < |keys| && keys[i] == k;
        assert StatusKey(assets[i]) == k;
      }
      if exists i :: 0 <= i < |assets| && StatusKey(assets[i]) == k {
        var i :| 0 <= i < |assets| && StatusKey(assets[i]) == k;
        assert keys[i] == k;
      }
    }
  }

  // ---------------------------------------------------------------------
  // The store
  // ---------------------------------------------------------------------

  class ComplianceRepository {
    var rules: seq<Rule>
    var checks: seq<Check>
    var alerts: seq<Alert>
    var history: seq<History>

    ghost predicate Valid()
      reads this
    {
      IdsAreIndices(rules, RuleId) && IdsAreIndices(alerts, AlertId)
    }

    constructor ()
      ensures Valid()
      ensures rules == [] && checks == [] && alerts == [] && history == []
    {
      rules, checks, alerts, history := [], [], [], [];
    }

    /** `AddRuleAsync`: stamps CreatedAt and inserts. */
    method AddRule(rule: Rule, now: DateTime) returns (stored: Rule)
      requires Valid()
      modifies this
      ensures Valid()
      ensures stored == rule.(id := |old(rules)| + 1, createdAt := now)
      ensures rules == old(rules) + [stored]
      ensures checks == old(checks) && alerts == old(alerts) && history == old(history)
    {
      stored := rule.(id := |rules| + 1, createdAt := now);
      rules := rules + [stored];
    }

    /** `UpdateRuleAsync`: stamps UpdatedAt and replaces the stored rule. */
    method UpdateRule(rule: Rule, now: DateTime) returns (stored: Rule)
      requires Valid() && 1 <= rule.id <= |rules|
      modifies this
      ensures Valid()
      ensures stored == rule.(updatedAt := Some(now))
      ensures rules == old(rules)[rule.id - 1 := stored]
      ensures checks == old(checks) && alerts == old(alerts) && history == old(history)
    {
      stored := rule.(updatedAt := Some(now));
      rules := rules[rule.id - 1 := stored];
    }

    /** `AddCheckAsync`: stamps CreatedAt and inserts. */
    method AddCheck(check: Check, now: DateTime)
      requires Valid()
      modifies this
      ensures Valid()
      ensures checks == old(checks) + [check.(createdAt := now)]
      ensures rules == old(rules) && alerts == old(alerts) && history == old(history)
    {
      checks := checks + [check.(createdAt := now)];
    }

    /** `AddAlertAsync`: stamps CreatedAt and inserts. */
    method AddAlert(alert: Alert, now: DateTime) returns (stored: Alert)
      requires Valid()
      modifies this
      ensures Valid()
      ensures stored == alert.(id := |old(alerts)| + 1, createdAt := now)
      ensures alerts == old(alerts) + [stored]
      ensures rules == old(rules) && checks == old(checks) && history == old(history)
    {
      stored := alert.(id := |alerts| + 1, createdAt := now);
      alerts := alerts + [stored];
    }

    /** `UpdateAlertAsync`: stamps UpdatedAt and replaces the stored alert. */
    method UpdateAlert(alert: Alert, now: DateTime) returns (stored: Alert)
      requires Valid() && 1 <= alert.id <= |alerts|
      modifies this
      ensures Valid()
      ensures stored == alert.(updatedAt := Some(now))
      ensures alerts == old(alerts)[alert.id - 1 := stored]
      ensures rules == old(rules) && checks == old(checks) && history == old(history)
    {
      stored := alert.(updatedAt := Some(now));
      alerts := alerts[alert.id - 1 := stored];
    }

    /** `AddHistoryAsync`: stamps CreatedAt and inserts. */
    method AddHistory(h: History, now: DateTime)
      requires Valid()
      modifies this
      ensures Valid()
      ensures history == old(history) + [h.(createdAt := now)]
      ensures rules == old(rules) && checks == old(checks) && alerts == old(alerts)
    {
      history := history + [h.(createdAt := now)];
    }
  }
}

=== FILE: src_compliance_rules.dfy ===
/**
 * The pure half of the rule-averaging compliance engine
 * (src/InsureX.Application/Services/ComplianceEngineService.cs): which
 * rules apply to an asset, how each rule type is evaluated, the alert a
 * violation raises, how the score and the status follow from the rule
 * results, and the "top issues" ranking of the dashboard.
 */
module SrcComplianceRules {
  import opened Common
  import opened SrcDomain
  import Ordering
  import Grouping

  // ---------------------------------------------------------------------
  // Applicability
  // ---------------------------------------------------------------------

  /** A non-empty asset-type list admits only assets whose (non-null) type it lists. */
  predicate AssetTypeAdmits(rule: Rule, asset: Asset)
  {
    |rule.applicableAssetTypes| == 0
    || (asset.assetType.Some? && asset.assetType.value in rule.applicableAssetTypes)
  }

  predicate SomePolicyTypeListed(rule: Rule, policies: seq<Policy>)
  {
    exists i :: 0 <= i < |policies| && policies[i].policyType in rule.applicablePolicyTypes
  }

  /** `IsRuleApplicable`. */
  predicate IsRuleApplicable(rule: Rule, asset: Asset, policies: seq<Policy>)
    ensures |rule.applicableAssetTypes| == 0 && |rule.applicablePolicyTypes| == 0
      ==> IsRuleApplicable(rule, asset, policies)
    ensures policies == [] ==>
      (IsRuleApplicable(rule, asset, policies) <==> AssetTypeAdmits(rule, asset))
    ensures IsRuleApplicable(rule, asset, policies) && policies != [] && |rule.applicablePolicyTypes| > 0
      ==> SomePolicyTypeListed(rule, policies)
    ensures !AssetTypeAdmits(rule, asset) ==> !IsRuleApplicable(rule, asset, policies)
  {
    if !AssetTypeAdmits(rule, asset) then false
    else if policies != [] && |rule.applicablePolicyTypes| > 0 && !SomePolicyTypeListed(rule, policies) then false
    else true
  }

  // ---------------------------------------------------------------------
  // Evaluators
  // ---------------------------------------------------------------------

  function Pass(rule: Rule, finding: string): RuleResult
  {
    RuleResult(rule.id, rule.ruleName, true, finding, None, rule.severity)
  }

  function Fail(rule: Rule, finding: string, recommendation: Option<string>): RuleResult
  {
    RuleResult(rule.id, rule.ruleName, false, finding, recommendation, rule.severity)
  }

  predicate ActiveUnexpired(p: Policy, now: DateTime)
  {
    p.status == "Active" && p.endDate >= now
  }

  predicate HasActiveUnexpired(policies: seq<Policy>, now: DateTime)
  {
    exists i :: 0 <= i < |policies| && ActiveUnexpired(policies[i], now)
  }

  /** Some active, unexpired policy ends within `days` days of `now`. */
  predicate ExpiresWithin(policies: seq<Policy>, now: DateTime, days: int)
  {
    exists i :: 0 <= i < |policies| && ActiveUnexpired(policies[i], now)
      && policies[i].endDate <= AddDays(now, days) && policies[i].endDate >= now
  }

  /** `EvaluatePolicyRule`. */
  function EvaluatePolicyRule(rule: Rule, policies: seq<Policy>, now: DateTime): (r: RuleResult)
    ensures r.ruleId == rule.id && r.ruleName == rule.ruleName && r.severity == rule.severity
    ensures !r.isCompliant <==>
      !HasActiveUnexpired(policies, now)
      || (rule.daysToExpiry.Some? && ExpiresWithin(policies, now, rule.daysToExpiry.value))
  {
    if !HasActiveUnexpired(policies, now) then
      Fail(rule, "No active policies found for this asset", Some("Purchase a new policy immediately"))
    else if rule.daysToExpiry.Some? && ExpiresWithin(policies, now, rule.daysToExpiry.value) then
      Fail(rule, "Policy expires within " + IntToString(rule.daysToExpiry.value) + " days",
        Some("Renew policy before expiration"))
    else
      Pass(rule, "Asset has valid active policies")
  }

  function OverdueNumbers(policies: seq<Policy>): seq<string>
  {
    if policies == [] then []
    else
      (if policies[0].status == "Active" && policies[0].paymentStatus == "Overdue"
       then [policies[0].policyNumber] else [])
      + OverdueNumbers(policies[1..])
  }

  predicate HasActive(policies: seq<Policy>)
  {
    exists i :: 0 <= i < |policies| && policies[i].status == "Active"
  }

  predicate HasOverdueActive(policies: seq<Policy>)
  {
    exists i :: 0 <= i < |policies| && policies[i].status == "Active" && policies[i].paymentStatus == "Overdue"
  }

  lemma {:induction false} OverdueNumbersEmpty(policies: seq<Policy>)
    ensures OverdueNumbers(policies) == [] <==> !HasOverdueActive(policies)
  {
    if policies != [] {
      OverdueNumbersEmpty(policies[1..]);
      if HasOverdueActive(policies) {
        var i :| 0 <= i < |policies| && policies[i].status == "Active" && policies[i].paymentStatus == "Overdue";
        if i > 0 { assert policies[1..][i - 1] == policies[i]; }
      }
      if HasOverdueActive(policies[1..]) {
        var i :| 0 <= i < |policies[1..]| && policies[1..][i].status == "Active" && policies[1..][i].paymentStatus == "Overdue";
        assert policies[i + 1] == policies[1..][i];
      }
    }
  }

  /** `EvaluatePaymentRule`. */
  function EvaluatePaymentRule(rule: Rule, policies: seq<Policy>): (r: RuleResult)
    ensures r.ruleId == rule.id && r.ruleName == rule.ruleName && r.severity == rule.severity
    ensures !r.isCompliant <==> !HasActive(policies) || HasOverdueActive(policies)
  {
    if !HasActive(policies) then
      Fail(rule, "No active policies to check payment status", None)
    else
      var overdue := OverdueNumbers(policies);
      OverdueNumbersEmpty(policies);
      if overdue != [] then
        Fail(rule, "Payment overdue for policies: " + Join(", ", overdue),
          Some("Process pending payments immediately to avoid policy cancellation"))
      else
        Pass(rule, "All payments are up to date")
  }

  /** `EvaluateInspectionRule`: the age of the last inspection in whole days against MaxValue. */
  function EvaluateInspectionRule(rule: Rule, asset: Asset, now: DateTime): (r: RuleResult)
    ensures r.ruleId == rule.id && r.ruleName == rule.ruleName && r.severity == rule.severity
    ensures !r.isCompliant <==>
      asset.lastInspectionDate.None?
      || (rule.maxValue.Some? && WholeDays(now, asset.lastInspectionDate.value) > rule.maxValue.value)
  {
    if asset.lastInspectionDate.None? then
      Fail(rule, "Asset has never been inspected", Some("Schedule initial inspection"))
    else
      var days := WholeDays(now, asset.lastInspectionDate.value);
      if rule.maxValue.Some? && days > rule.maxValue.value then
        Fail(rule, "Last inspection was " + IntToString(days) + " days ago (exceeds "
          + IntToString(rule.maxValue.value) + " days)", Some("Schedule new inspection"))
      else
        Pass(rule, "Last inspection was " + IntToString(days) + " days ago - within required interval")
  }

  /** The documents the documentation rule finds missing, in the order it reports them. */
  function MissingDocuments(asset: Asset): (missing: seq<string>)
    ensures "VIN" in missing <==> IsNullOrEmpty(asset.vin)
    ensures "Purchase Date" in missing <==> asset.purchaseDate.None?
    ensures "Insured Value" in missing <==> asset.insuredValue.None? || asset.insuredValue == Some(0)
    ensures |missing| <= 3
  {
    (if IsNullOrEmpty(asset.vin) then ["VIN"] else [])
    + (if asset.purchaseDate.None? then ["Purchase Date"] else [])
    + (if asset.insuredValue.None? || asset.insuredValue == Some(0) then ["Insured Value"] else [])
  }

  /** `EvaluateDocumentationRule`. */
  function EvaluateDocumentationRule(rule: Rule, asset: Asset): (r: RuleResult)
    ensures r.ruleId == rule.id && r.ruleName == rule.ruleName && r.severity == rule.severity
    ensures !r.isCompliant <==>
      IsNullOrEmpty(asset.vin) || asset.purchaseDate.None?
      || asset.insuredValue.None? || asset.insuredValue == Some(0)
  {
    var missing := MissingDocuments(asset);
    if missing != [] then
      Fail(rule, "Missing required documentation: " + Join(", ", missing),
        Some("Complete all required asset information"))
    else
      Pass(rule, "All required documentation is present")
  }

  /** `EvaluateCustomRule`: a placeholder that always passes. */
  function EvaluateCustomRule(rule: Rule): (r: RuleResult)
    ensures r.isCompliant && r.ruleId == rule.id && r.ruleName == rule.ruleName && r.severity == rule.severity
  {
    Pass(rule, "Custom rule evaluation not implemented")
  }

  predicate KnownRuleType(t: string)
  {
    t == "Policy" || t == "Payment" || t == "Inspection" || t == "Documentation" || t == "Custom"
  }

  /** The five rule type names are different strings. */
  lemma RuleTypeNamesDistinct()
    ensures "Policy" != "Payment" && "Policy" != "Inspection" && "Policy" != "Documentation" && "Policy" != "Custom"
    ensures "Payment" != "Inspection" && "Payment" != "Documentation" && "Payment" != "Custom"
    ensures "Inspection" != "Documentation" && "Inspection" != "Custom" && "Documentation" != "Custom"
  {
    assert "Policy"[1] != "Payment"[1];
    assert "Policy"[0] != "Custom"[0];
  }

  /**
   * `EvaluateRule`: dispatch on the rule type. `fault` is the message of an
   * exception thrown while evaluating, if one was; the engine then records
   * the rule as failed.
   */
  function EvaluateRule(rule: Rule, asset: Asset, policies: seq<Policy>, now: DateTime, fault: Option<string>): RuleResult
  {
    if fault.Some? then
      Fail(rule, "Error evaluating rule: " + fault.value, None)
    else if rule.ruleType == "Policy" then EvaluatePolicyRule(rule, policies, now)
    else if rule.ruleType == "Payment" then EvaluatePaymentRule(rule, policies)
    else if rule.ruleType == "Inspection" then EvaluateInspectionRule(rule, asset, now)
    else if rule.ruleType == "Documentation" then EvaluateDocumentationRule(rule, asset)
    else if rule.ruleType == "Custom" then EvaluateCustomRule(rule)
    else Pass(rule, "Rule type not implemented")
  }
  /** A rule whose evaluation throws is recorded as failed, with the exception's message. */
  lemma EvaluateRuleFault(rule: Rule, asset: Asset, policies: seq<Policy>, now: DateTime, fault: Option<string>)
    requires fault.Some?
    ensures var r := EvaluateRule(rule, asset, policies, now, fault);
      !r.isCompliant && r.finding == "Error evaluating rule: " + fault.value
  {
  }

  /** A rule of an unknown type passes, with a finding that says so. */
  lemma EvaluateRuleUnknown(rule: Rule, asset: Asset, policies: seq<Policy>, now: DateTime)
    requires !KnownRuleType(rule.ruleType)
    ensures var r := EvaluateRule(rule, asset, policies, now, None);
      r.isCompliant && r.finding == "Rule type not implemented"
  {
  }

  /** The result names the rule it comes from and carries its severity. */
  lemma EvaluateRuleKeepsRule(rule: Rule, asset: Asset, policies: seq<Policy>, now: DateTime, fault: Option<string>)
    ensures var r := EvaluateRule(rule, asset, policies, now, fault);
      r.ruleId == rule.id && r.ruleName == rule.ruleName && r.severity == rule.severity
  {
  }

  /** The Policy and Payment rule types go to the evaluators over the asset's policies. */
  lemma EvaluateRulePolicyTypes(rule: Rule, asset: Asset, policies: seq<Policy>, now: DateTime)
    ensures rule.ruleType == "Policy" ==>
      EvaluateRule(rule, asset, policies, now, None) == EvaluatePolicyRule(rule, policies, now)
    ensures rule.ruleType == "Payment" ==>
      EvaluateRule(rule, asset, policies, now, None) == EvaluatePaymentRule(rule, policies)
  {
    RuleTypeNamesDistinct();
  }

  /** The Inspection, Documentation and Custom rule types go to the evaluators over the asset. */
  lemma EvaluateRuleAssetTypes(rule: Rule, asset: Asset, policies: seq<Policy>, now: DateTime)
    ensures rule.ruleType == "Inspection" ==>
      EvaluateRule(rule, asset, policies, now, None) == EvaluateInspectionRule(rule, asset, now)
    ensures rule.ruleType == "Documentation" ==>
      EvaluateRule(rule, asset, policies, now, None) == EvaluateDocumentationRule(rule, asset)
    ensures rule.ruleType == "Custom" ==> EvaluateRule(rule, asset, policies, now, None).isCompliant
  {
    RuleTypeNamesDistinct();
  }



  // ---------------------------------------------------------------------
  // Alerts
  // ---------------------------------------------------------------------

  /** `CreateAlertFromRule`, before the store assigns the alert its id. */
  function CreateAlertFromRule(id: int, rule: Rule, asset: Asset, finding: string, now: DateTime): (a: Alert)
    ensures a.status == AlertNew && a.createdAt == now
    ensures a.title == "Compliance Violation: " + rule.ruleName && a.description == finding
    ensures a.assetId == asset.id && a.ruleId == rule.id && a.severity == rule.severity
    ensures a.requiresAction <==> rule.severity >= 2
    ensures a.dueDate.Some? <==> rule.severity >= 3
    ensures a.dueDate.Some? ==> a.dueDate.value == AddDays(now, 7)
    ensures a.acknowledgedAt.None? && a.resolvedAt.None?
  {
    Alert(id, asset.id, rule.id, rule.ruleType, "Compliance Violation: " + rule.ruleName, finding,
      rule.severity, AlertNew, now, rule.severity >= 2,
      if rule.severity >= 3 then Some(AddDays(now, 7)) else None,
      None, None, None, None, None, None)
  }

  // ---------------------------------------------------------------------
  // Score and status
  // ---------------------------------------------------------------------

  /** The overall score of a check: the integer average, or 100 when no rule applies. */
  function Score(totalScore: int, applicableRules: int): int
  {
    if applicableRules > 0 then totalScore / applicableRules else 100
  }

  /** The overall status of a check: Compliant from 90, Warning from 70, otherwise Non-Compliant. */
  function StatusForScore(score: int): string
  {
    if score >= 90 then StatusCompliant
    else if score >= 70 then StatusWarning
    else StatusNonCompliant
  }

  /** `IsRuleApplicable` for one asset and its policies. */
  function ApplicableTo(asset: Asset, policies: seq<Policy>): Rule -> bool
  {
    (r: Rule) => IsRuleApplicable(r, asset, policies)
  }

  /**
   * `EvaluateRule` for one asset, its policies and the clock; `fault(id)`
   * is the message of the exception evaluating rule `id` throws, if any.
   */
  function EvaluatorFor(asset: Asset, policies: seq<Policy>, now: DateTime,
                        fault: int -> Option<string>): Rule -> RuleResult
  {
    (r: Rule) => EvaluateRule(r, asset, policies, now, fault(r.id))
  }

  /** The results of the applicable rules, in rule order. */
  function Evaluations(rules: seq<Rule>, applies: Rule -> bool, eval: Rule -> RuleResult): seq<RuleResult>
  {
    if rules == [] then []
    else
      var last := rules[|rules| - 1];
      Evaluations(rules[..|rules| - 1], applies, eval) + (if applies(last) then [eval(last)] else [])
  }

  /** The alerts raised for the failing applicable rules, numbered from `firstId`. */
  function ViolationAlerts(rules: seq<Rule>, applies: Rule -> bool, eval: Rule -> RuleResult,
                           asset: Asset, now: DateTime, firstId: int): seq<Alert>
  {
    if rules == [] then []
    else
      var last := rules[|rules| - 1];
      var before := ViolationAlerts(rules[..|rules| - 1], applies, eval, asset, now, firstId);
      before
      + (if applies(last) && !eval(last).isCompliant
         then [CreateAlertFromRule(firstId + |before|, last, asset, eval(last).finding, now)] else [])
  }

  function Compliant(r: RuleResult): bool { r.isCompliant }

  function CompliantCount(results: seq<RuleResult>): nat
  {
    CountWhere(results, Compliant)
  }

  /** The score the engine reports for these rules. */
  function RulesScore(rules: seq<Rule>, asset: Asset, policies: seq<Policy>, now: DateTime,
                      fault: int -> Option<string>): int
  {
    var results := Evaluations(rules, ApplicableTo(asset, policies), EvaluatorFor(asset, policies, now, fault));
    Score(100 * CompliantCount(results), |results|)
  }

  /** Inapplicable rules leave no result: there is one result per applicable rule. */
  lemma {:induction false} EvaluationsCount(rules: seq<Rule>, applies: Rule -> bool, eval: Rule -> RuleResult)
    ensures |Evaluations(rules, applies, eval)| == CountWhere(rules, applies)
  {
    if rules != [] {
      var init := rules[..|rules| - 1];
      EvaluationsCount(init, applies, eval);
      assert rules == init + [rules[|rules| - 1]];
      CountSnoc(init, rules[|rules| - 1], applies);
    }
  }

  /**
   * Each failing applicable rule raises exactly one alert, and the alert is
   * numbered after the ones before it; every alert is New.
   */
  lemma {:induction false} ViolationAlertsCount(rules: seq<Rule>, applies: Rule -> bool, eval: Rule -> RuleResult,
                                                asset: Asset, now: DateTime, firstId: int)
    ensures var results := Evaluations(rules, applies, eval);
      |ViolationAlerts(rules, applies, eval, asset, now, firstId)| == |results| - CompliantCount(results)
    ensures var alerts := ViolationAlerts(rules, applies, eval, asset, now, firstId);
      forall k :: 0 <= k < |alerts| ==> alerts[k].id == firstId + k && alerts[k].status == AlertNew
  {
    if rules != [] {
      var init := rules[..|rules| - 1];
      var last := rules[|rules| - 1];
      ViolationAlertsCount(init, applies, eval, asset, now, firstId);
      var before := Evaluations(init, applies, eval);
      var results := Evaluations(rules, applies, eval);
      if applies(last) {
        assert results == before + [eval(last)];
        CountSnoc(before, eval(last), Compliant);
      } else {
        assert results == before;
      }
    }
  }

  /** The score is always between 0 and 100, and it is 100 exactly when every applicable rule passes. */
  lemma ScoreBounds(compliant: nat, applicable: nat)
    requires compliant <= applicable
    ensures 0 <= Score(100 * compliant, applicable) <= 100
    ensures Score(100 * compliant, applicable) == 100 <==> compliant == applicable
  {
    if applicable > 0 {
      DivAtLeast(100 * compliant, applicable, 0);
      DivAtLeast(100 * compliant, applicable, 101);
      DivAtLeast(100 * compliant, applicable, 100);
    }
  }

  /**
   * The status in terms of the rule counts alone: "Compliant" iff no rule
   * applies or at least nine in ten applicable rules pass; "Non-Compliant"
   * iff fewer than seven in ten pass.
   */
  lemma StatusByCounts(compliant: nat, applicable: nat)
    requires compliant <= applicable
    ensures StatusForScore(Score(100 * compliant, applicable)) == StatusCompliant
      <==> applicable == 0 || 10 * compliant >= 9 * applicable
    ensures StatusForScore(Score(100 * compliant, applicable)) == StatusNonCompliant
      <==> applicable > 0 && 10 * compliant < 7 * applicable
  {
    if applicable > 0 {
      DivAtLeast(100 * compliant, applicable, 90);
      DivAtLeast(100 * compliant, applicable, 70);
    }
  }

  /** With a single failing rule the asset stays "Compliant" only when at least ten rules apply. */
  lemma OneFailure(applicable: nat)
    requires applicable >= 1
    ensures StatusForScore(Score(100 * (applicable - 1), applicable)) == StatusCompliant <==> applicable >= 10
  {
    StatusByCounts(applicable - 1, applicable);
  }

  // ---------------------------------------------------------------------
  // Top issues
  // ---------------------------------------------------------------------

  datatype TopIssue = TopIssue(issue: string, count: nat, severity: int, trend: string)

  predicate HasTitle(alerts: seq<Alert>, title: string)
  {
    exists i :: 0 <= i < |alerts| && alerts[i].title == title
  }

  /** The highest severity among the alerts with this title (0 when there are none). */
  function MaxSeverity(alerts: seq<Alert>, title: string): int
  {
    if alerts == [] then 0
    else if alerts[0].title != title then MaxSeverity(alerts[1..], title)
    else if HasTitle(alerts[1..], title) then Max(alerts[0].severity, MaxSeverity(alerts[1..], title))
    else alerts[0].severity
  }

  /** `g.Max(a => a.Severity)`: attained by some alert of the group, and no alert of it exceeds it. */
  lemma {:induction false} MaxSeverityIsMax(alerts: seq<Alert>, title: string)
    requires HasTitle(alerts, title)
    ensures exists i :: 0 <= i < |alerts| && alerts[i].title == title && alerts[i].severity == MaxSeverity(alerts, title)
    ensures forall i :: 0 <= i < |alerts| && alerts[i].title == title ==> alerts[i].severity <= MaxSeverity(alerts, title)
  {
    var tail := alerts[1..];
    forall i | 0 < i < |alerts| ensures alerts[i] == tail[i - 1] { }
    if HasTitle(tail, title) {
      MaxSeverityIsMax(tail, title);
      var j :| 0 <= j < |tail| && tail[j].title == title && tail[j].severity == MaxSeverity(tail, title);
      assert alerts[j + 1] == tail[j];
    } else {
      assert alerts[0].title == title;
    }
  }

  function Titles(alerts: seq<Alert>): (t: seq<string>)
    ensures |t| == |alerts| && forall i :: 0 <= i < |alerts| ==> t[i] == alerts[i].title
  {
    seq(|alerts|, i requires 0 <= i < |alerts| => alerts[i].title)
  }

  lemma {:induction false} TitlesCount(alerts: seq<Alert>, title: string)
    ensures Grouping.Occurrences(Titles(alerts), title) == CountWhere(alerts, (a: Alert) => a.title == title)
  {
    if alerts != [] {
      assert Titles(alerts)[1..] == Titles(alerts[1..]);
      TitlesCount(alerts[1..], title);
    }
  }

  /** One issue per distinct alert title, in order of first occurrence. */
  function Issues(alerts: seq<Alert>): seq<TopIssue>
  {
    var groups := Grouping.GroupCounts(Titles(alerts));
    seq(|groups|, k requires 0 <= k < |groups| =>
      TopIssue(groups[k].key, groups[k].count, MaxSeverity(alerts, groups[k].key), "stable"))
  }

  /** What one issue says about the alerts. */
  ghost predicate DescribesTitle(alerts: seq<Alert>, t: TopIssue)
  {
    && HasTitle(alerts, t.issue)
    && (exists i :: 0 <= i < |alerts| && alerts[i].title == t.issue && alerts[i].severity == t.severity)
    && (forall i :: 0 <= i < |alerts| && alerts[i].title == t.issue ==> alerts[i].severity <= t.severity)
    && t.count == CountWhere(alerts, (a: Alert) => a.title == t.issue)
  }

  function IssueName(t: TopIssue): string { t.issue }

  lemma IssuesSpec(alerts: seq<Alert>)
    ensures var issues := Issues(alerts);
      && (forall i, j :: 0 <= i < j < |issues| ==> IssueName(issues[i]) != IssueName(issues[j]))
      && (forall k :: 0 <= k < |issues| ==> DescribesTitle(alerts, issues[k]))
  {
    var titles := Titles(alerts);
    var groups := Grouping.GroupCounts(titles);
    Grouping.GroupCountsSpec(titles);
    var issues := Issues(alerts);
    forall k | 0 <= k < |issues| ensures DescribesTitle(alerts, issues[k]) {
      var key := groups[k].key;
      assert Grouping.HasKey(groups, key);
      assert key in titles;
      var i :| 0 <= i < |titles| && titles[i] == key;
      assert alerts[i].title == key;
      MaxSeverityIsMax(alerts, key);
      Grouping.CountForAt(groups, k);
      TitlesCount(alerts, key);
    }
  }

  /** Ordering by Severity descending, then by Count descending. */
  predicate IssueLe(a: TopIssue, b: TopIssue)
  {
    a.severity > b.severity || (a.severity == b.severity && a.count >= b.count)
  }

  lemma IssueLePreorder()
    ensures Ordering.TotalPreorder(IssueLe)
  {
  }

  /** `GetTopIssuesAsync` over the active alerts. */
  function TopIssues(alerts: seq<Alert>): (r: seq<TopIssue>)
    ensures |r| <= 5
  {
    IssueLePreorder();
    Take(Ordering.SortBy(Issues(alerts), IssueLe), 5)
  }

  /**
   * At most five issues, ranked by severity and then by count; each names a
   * distinct title of the alerts, with the number of alerts that carry that
   * title and their highest severity.
   */
  lemma TopIssuesSpec(alerts: seq<Alert>)
    ensures var r := TopIssues(alerts);
      && |r| <= 5
      && Ordering.SortedBy(r, IssueLe)
      && (forall i, j :: 0 <= i < j < |r| ==> IssueName(r[i]) != IssueName(r[j]))
      && (forall k :: 0 <= k < |r| ==> DescribesTitle(alerts, r[k]))
  {
    var issues := Issues(alerts);
    IssuesSpec(alerts);
    IssueLePreorder();
    var sorted := Ordering.SortBy(issues, IssueLe);
    Ordering.PermutationKeepsDistinctKey(issues, sorted, IssueName);
    var r := TopIssues(alerts);
    assert r == sorted[..|r|];
    forall i, j | 0 <= i < j < |r| ensures IssueLe(r[i], r[j]) && IssueName(r[i]) != IssueName(r[j]) {
      assert r[i] == sorted[i] && r[j] == sorted[j];
    }
    TopIssuesDescribe(alerts);
  }

  /** Every issue of the top five describes its title. */
  lemma TopIssuesDescribe(alerts: seq<Alert>)
    ensures var r := TopIssues(alerts);
      forall k :: 0 <= k < |r| ==> DescribesTitle(alerts, r[k])
  {
    var issues := Issues(alerts);
    IssuesSpec(alerts);
    IssueLePreorder();
    var sorted := Ordering.SortBy(issues, IssueLe);
    var r := TopIssues(alerts);
    assert r == sorted[..|r|];
    forall k | 0 <= k < |r| ensures DescribesTitle(alerts, r[k]) {
      assert r[k] == sorted[k];
      assert sorted[k] in multiset(issues);
      var m :| 0 <= m < |issues| && issues[m] == sorted[k];
    }
  }

  /**
   * The top five are the five highest-ranked: there are as many as there
   * are distinct titles, up to five, and every issue left out ranks no
   * higher than any issue kept.
   */
  lemma TopIssuesAreTop(alerts: seq<Alert>)
    ensures var r := TopIssues(alerts);
      && |r| == Min(5, |Issues(alerts)|)
      && forall t, k :: t in Issues(alerts) && t !in r && 0 <= k < |r| ==> IssueLe(r[k], t)
  {
    var issues := Issues(alerts);
    IssueLePreorder();
    var sorted := Ordering.SortBy(issues, IssueLe);
    var r := TopIssues(alerts);
    assert r == sorted[..|r|];
    forall t, k | t in issues && t !in r && 0 <= k < |r| ensures IssueLe(r[k], t) {
      assert t in multiset(sorted);
      var m :| 0 <= m < |sorted| && sorted[m] == t;
      assert r[k] == sorted[k];
    }
  }
}

=== FILE: src_dashboard_service.dfy ===
/**
 * The dashboard service of the `src/` tree
 * (src/InsureX.Application/Services/DashboardService.cs): the counts shown
 * on the dashboard, the alert and activity projections of the audit log and
 * the severity badge derived from an action's text.
 */
module SrcDashboardService {
  import opened Common
  import opened SrcDomain
  import SrcAssetRepository
  import SrcPolicyRepository
  import SrcAuditRepository
  import Grouping

  /**
   * `GetComplianceRateAsync`. The rate itself is a rounded floating-point
   * percentage and is not modelled: `NoAssets` is the exact 0 returned for
   * an empty asset set, `Ratio` the two counts the percentage is made of.
   */
  datatype Rate = NoAssets | Ratio(compliant: nat, total: nat)

  function ComplianceRate(assets: seq<Asset>): (r: Rate)
    ensures r.NoAssets? <==> assets == []
    ensures r.Ratio? ==> 0 < r.total == |assets| && r.compliant <= r.total
    ensures r.Ratio? ==> r.compliant == SrcAssetRepository.CompliantCount(assets)
  {
    var total := SrcAssetRepository.CountAll(assets);
    if total == 0 then NoAssets else Ratio(SrcAssetRepository.CompliantCount(assets), total)
  }

  /** `GetSeverity(action)`: the badge for an action, matched on its lower-cased text. */
  function Severity(action: string): string
  {
    var a := Lower(action);
    if Contains(a, "expire") then "warning"
    else if Contains(a, "violation") then "danger"
    else if Contains(a, "compliance") then "info"
    else "secondary"
  }

  /**
   * Each badge in both directions: "expire" wins over the other words, then
   * "violation", then "compliance"; anything else is "secondary".
   */
  lemma SeverityCases(action: string)
    ensures var a := Lower(action); var s := Severity(action);
      && (s == "warning" <==> Contains(a, "expire"))
      && (s == "danger" <==> !Contains(a, "expire") && Contains(a, "violation"))
      && (s == "info" <==> !Contains(a, "expire") && !Contains(a, "violation") && Contains(a, "compliance"))
      && (s == "secondary" <==> !Contains(a, "expire") && !Contains(a, "violation") && !Contains(a, "compliance"))
  {
    assert "warning" != "danger" && "warning" != "info" && "warning" != "secondary";
    assert "danger" != "info" && "danger" != "secondary" && "info" != "secondary";
  }

  /** The match ignores case: lower-casing the action first changes nothing. */
  lemma SeverityIgnoresCase(action: string)
    ensures Severity(Lower(action)) == Severity(action)
  {
    LowerIdempotent(action);
  }

  datatype RecentAlert = RecentAlert(
    id: int, assetName: string, alertType: string, date: DateTime, status: Option<string>, severity: string)

  /** One row of `GetRecentAlertsAsync`: an entry without an asset shows "Unknown". */
  function ToRecentAlert(a: AuditLog): (r: RecentAlert)
    ensures a.assetTag.None? ==> r.assetName == "Unknown"
    ensures a.assetTag.Some? ==> r.assetName == a.assetTag.value
    ensures r.alertType == a.action && r.severity == Severity(a.action) && r.date == a.createdAt
  {
    RecentAlert(a.id, a.assetTag.GetOr("Unknown"), a.action, a.createdAt, a.status, Severity(a.action))
  }

  /** `GetRecentAlertsAsync(count)`: the repository's recent alert entries, projected one for one. */
  function RecentAlerts(logs: seq<AuditLog>, count: int): (r: seq<RecentAlert>)
    ensures var src := SrcAuditRepository.RecentAlerts(logs, count);
      |r| == |src| && forall i :: 0 <= i < |r| ==> r[i] == ToRecentAlert(src[i])
    ensures |r| <= Max(0, count)
  {
    var src := SrcAuditRepository.RecentAlerts(logs, count);
    seq(|src|, i requires 0 <= i < |src| => ToRecentAlert(src[i]))
  }

  datatype Activity = Activity(user: string, action: string, entity: string, timestamp: DateTime)

  /** One row of `GetRecentActivitiesAsync`: an entry without a user shows "System". */
  function ToActivity(a: AuditLog): (r: Activity)
    ensures a.userName.None? ==> r.user == "System"
    ensures a.userName.Some? ==> r.user == a.userName.value
    ensures r.action == a.action && r.entity == a.entityType && r.timestamp == a.createdAt
  {
    Activity(a.userName.GetOr("System"), a.action, a.entityType, a.createdAt)
  }

  function RecentActivities(logs: seq<AuditLog>, count: int): (r: seq<Activity>)
    ensures var src := SrcAuditRepository.RecentActivities(logs, count);
      |r| == |src| && forall i :: 0 <= i < |r| ==> r[i] == ToActivity(src[i])
    ensures |r| == Max(0, Min(count, |logs|))
  {
    var src := SrcAuditRepository.RecentActivities(logs, count);
    seq(|src|, i requires 0 <= i < |src| => ToActivity(src[i]))
  }

  /** The headline counts of `GetDashboardDataAsync`. */
  datatype Dashboard = Dashboard(
    totalAssets: nat, activePolicies: nat, expiringPolicies: nat, complianceRate: Rate,
    recentAlerts: seq<RecentAlert>, recentActivities: seq<Activity>,
    assetsByStatus: seq<Grouping.Group<string>>)

  /**
   * The asset total counts deleted assets too, the expiring count looks 30
   * days ahead and never exceeds the active count, at most 10 alerts and 5
   * activities are shown, and the status breakdown is the repository's.
   */
  function DashboardData(assets: seq<Asset>, policies: seq<Policy>, logs: seq<AuditLog>, now: DateTime): (d: Dashboard)
    ensures d.totalAssets == |assets|
    ensures d.expiringPolicies <= d.activePolicies
    ensures d.expiringPolicies == |SrcPolicyRepository.ExpiringPolicies(policies, now, 30)|
    ensures |d.recentAlerts| <= 10 && |d.recentActivities| <= 5
    ensures d.assetsByStatus == SrcAssetRepository.CountByStatus(assets)
  {
    SrcPolicyRepository.ExpiringAtMostActive(policies, now, 30);
    SrcPolicyRepository.ExpiringCountIsLength(policies, now, 30);
    Dashboard(SrcAssetRepository.CountAll(assets), SrcPolicyRepository.ActiveCount(policies, now),
              SrcPolicyRepository.ExpiringCount(policies, now, 30), ComplianceRate(assets),
              RecentAlerts(logs, 10), RecentActivities(logs, 5), SrcAssetRepository.CountByStatus(assets))
  }
}

=== FILE: src_db_context.dfy ===
/**
 * The database context of the `src/` tree
 * (src/InsureX.Infrastructure/Data/AppDbContext.cs): the audit stamps that
 * SaveChangesAsync writes on tracked entries, and the per-tenant query
 * filter that OnModelCreating means to install.
 *
 * A tracked entry is its state and the audit fields of its entity; the
 * clock reading and the current user are parameters.
 */
module SrcDbContext {
  import opened Common

  datatype EntityState = Detached | Unchanged | Deleted | Modified | Added

  /** The audit fields every tracked entity has. */
  datatype Audit = Audit(createdAt: DateTime, createdBy: string, updatedAt: Option<DateTime>, updatedBy: Option<string>)

  datatype Entry = Entry(state: EntityState, entity: Audit)

  /** One step of the SaveChangesAsync loop: only Added and Modified entries are stamped. */
  function StampEntry(e: Entry, now: DateTime, user: Option<string>): (r: Entry)
    ensures r.state == e.state
    ensures e.state == Added ==> r.entity == e.entity.(createdAt := now, createdBy := user.GetOr("system"))
    ensures e.state == Modified ==> r.entity == e.entity.(updatedAt := Some(now), updatedBy := Some(user.GetOr("system")))
    ensures e.state != Added && e.state != Modified ==> r == e
  {
    match e.state
    case Added => e.(entity := e.entity.(createdAt := now, createdBy := user.GetOr("system")))
    case Modified => e.(entity := e.entity.(updatedAt := Some(now), updatedBy := Some(user.GetOr("system"))))
    case _ => e
  }

  /** Every entry after the loop, all stamped with the one clock reading taken before it. */
  function Stamped(entries: seq<Entry>, now: DateTime, user: Option<string>): (r: seq<Entry>)
    ensures |r| == |entries|
    ensures forall i :: 0 <= i < |r| ==> r[i] == StampEntry(entries[i], now, user)
  {
    seq(|entries|, i requires 0 <= i < |entries| => StampEntry(entries[i], now, user))
  }

  /**
   * No entry changes state: a Deleted entry is not turned into a soft
   * delete, so the base save removes it; and every stamp written in one save
   * carries the same time.
   */
  lemma StampedKeepsStates(entries: seq<Entry>, now: DateTime, user: Option<string>)
    ensures forall i :: 0 <= i < |entries| ==> Stamped(entries, now, user)[i].state == entries[i].state
    ensures forall i :: 0 <= i < |entries| && entries[i].state == Deleted ==> Stamped(entries, now, user)[i] == entries[i]
    ensures forall i :: 0 <= i < |entries| && entries[i].state == Added ==> Stamped(entries, now, user)[i].entity.createdAt == now
    ensures forall i :: 0 <= i < |entries| && entries[i].state == Modified ==> Stamped(entries, now, user)[i].entity.updatedAt == Some(now)
  {
  }

  /** Stamping twice in the same save gives the same entries as stamping once. */
  lemma StampedIdempotent(entries: seq<Entry>, now: DateTime, user: Option<string>)
    ensures Stamped(Stamped(entries, now, user), now, user) == Stamped(entries, now, user)
  {
    var once := Stamped(entries, now, user);
    assert forall i :: 0 <= i < |entries| ==> StampEntry(once[i], now, user) == once[i];
  }

  class ChangeTracker {
    var entries: seq<Entry>

    constructor (entries: seq<Entry>)
      ensures this.entries == entries
    {
      this.entries := entries;
    }

    /** The loop of `SaveChangesAsync`, which then hands the entries to the base save. */
    method SaveChanges(now: DateTime, user: Option<string>)
      modifies this
      ensures entries == Stamped(old(entries), now, user)
    {
      var i := 0;
      while i < |entries|
        invariant 0 <= i <= |entries| == |old(entries)|
        invariant forall k :: 0 <= k < i ==> entries[k] == StampEntry(old(entries)[k], now, user)
        invariant forall k :: i <= k < |entries| ==> entries[k] == old(entries)[k]
      {
        entries := entries[i := StampEntry(entries[i], now, user)];
        i := i + 1;
      }
    }
  }

  // ---------------------------------------------------------------------
  // The tenant query filter
  // ---------------------------------------------------------------------

  datatype MethodInfo = MethodInfo(name: string, isPublic: bool)

  /** `Type.GetMethod(name)`: the single-argument overload searches public methods only. */
  function GetMethod(methods: seq<MethodInfo>, name: string): (r: Option<MethodInfo>)
    ensures r.Some? ==> r.value in methods && r.value.name == name && r.value.isPublic
    ensures r.None? <==> forall i :: 0 <= i < |methods| ==> !(methods[i].name == name && methods[i].isPublic)
  {
    FirstOrDefault(methods, (m: MethodInfo) => m.name == name && m.isPublic)
  }

  /** The context's methods as declared: SetTenantFilter is private. */
  const DeclaredMethods := [MethodInfo("SetTenantFilter", false), MethodInfo("SaveChangesAsync", true)]

  /** OnModelCreating installs the filter only when the lookup finds the method (`method?.Invoke`). */
  predicate FilterInstalled(methods: seq<MethodInfo>)
  {
    GetMethod(methods, "SetTenantFilter").Some?
  }

  /** `e.TenantId == GetCurrentTenantId()`: a lifted comparison, false when there is no tenant. */
  predicate TenantFilter(entityTenant: int, current: Option<int>)
  {
    current == Some(entityTenant)
  }

  /** Whether a tenant-scoped entity shows up in a query, given the context's methods. */
  predicate Visible(methods: seq<MethodInfo>, entityTenant: int, current: Option<int>)
  {
    FilterInstalled(methods) ==> TenantFilter(entityTenant, current)
  }

  /** As declared, the lookup misses the private method, so no filter is ever installed. */
  lemma FilterNeverInstalled()
    ensures !FilterInstalled(DeclaredMethods)
  {
    assert !(DeclaredMethods[0].name == "SetTenantFilter" && DeclaredMethods[0].isPublic);
    assert DeclaredMethods[1].name != "SetTenantFilter";
  }

  /** The consequence: tenant 2 sees the entities of tenant 1, and a request without a tenant sees them too. */
  lemma OtherTenantVisible()
    ensures Visible(DeclaredMethods, 1, Some(2))
    ensures Visible(DeclaredMethods, 1, None)
  {
    FilterNeverInstalled();
  }

  /** The methods with SetTenantFilter reachable by the lookup, as the loop intends. */
  const IntendedMethods := [MethodInfo("SetTenantFilter", true), MethodInfo("SaveChangesAsync", true)]

  /** With the filter installed, an entity is visible exactly to its own tenant, and to no request without one. */
  lemma IntendedVisibility(entityTenant: int, current: Option<int>)
    ensures FilterInstalled(IntendedMethods)
    ensures Visible(IntendedMethods, entityTenant, current) <==> current == Some(entityTenant)
  {
    assert IntendedMethods[0].name == "SetTenantFilter" && IntendedMethods[0].isPublic;
  }
}

=== FILE: src_domain.dfy ===
/**
 * The entities of the `src/` tree (src/InsureX.Domain/Entities): assets,
 * policies, audit log entries and the compliance engine's rules, checks,
 * alerts and history records.
 *
 * Only Asset, AuditLog and PolicyClaim are declared in that tree; the
 * other entities are given the fields the services and repositories read
 * and write. Every id is an `int` (the tree mixes `int` and `Guid` ids for
 * the same entity). The JSON arrays of applicable asset and policy types
 * of a rule, and the JSON findings of a check, are the lists they
 * serialise; a missing list is the empty sequence.
 */
module SrcDomain {
  import opened Common

  datatype Asset = Asset(
    id: int,
    tenantId: int,
    assetTag: string,
    make: string,
    model: string,
    year: Option<int>,
    serialNumber: Option<string>,
    vin: Option<string>,
    status: string,
    complianceStatus: Option<string>,
    complianceScore: Option<int>,
    assetType: Option<string>,
    insuredValue: Option<int>,
    purchaseDate: Option<DateTime>,
    lastInspectionDate: Option<DateTime>,
    notes: Option<string>,
    createdAt: DateTime,
    createdBy: Option<string>,
    updatedAt: Option<DateTime>,
    updatedBy: Option<string>)

  datatype Policy = Policy(
    id: int,
    tenantId: int,
    assetId: int,
    policyNumber: string,
    insurerCode: string,
    insurerName: string,
    policyType: string,
    sumInsured: int,
    premium: int,
    startDate: DateTime,
    endDate: DateTime,
    renewalDate: Option<DateTime>,
    status: string,
    paymentStatus: string,
    createdAt: DateTime,
    createdBy: string,
    updatedAt: Option<DateTime>,
    updatedBy: Option<string>)

  /**
   * An audit log entry. `assetTag` and `userName` stand for the tag of the
   * `Asset` and the user name of the `User` navigation properties, when the
   * entry has them.
   */
  datatype AuditLog = AuditLog(
    id: int,
    entityType: string,
    entityId: int,
    action: string,
    userId: Option<string>,
    userName: Option<string>,
    assetTag: Option<string>,
    timestamp: DateTime,
    status: Option<string>,
    severity: Option<string>,
    createdAt: DateTime)

  datatype Rule = Rule(
    id: int,
    tenantId: int,
    ruleCode: string,
    ruleName: string,
    description: string,
    ruleType: string,
    condition: string,
    action: string,
    priority: int,
    severity: int,
    isActive: bool,
    effectiveTo: Option<DateTime>,
    applicableAssetTypes: seq<string>,
    applicablePolicyTypes: seq<string>,
    daysToExpiry: Option<int>,
    maxValue: Option<int>,
    createdAt: DateTime,
    createdBy: string,
    updatedAt: Option<DateTime>,
    updatedBy: Option<string>)

  /** The outcome of evaluating one rule against one asset. */
  datatype RuleResult = RuleResult(
    ruleId: int,
    ruleName: string,
    isCompliant: bool,
    finding: string,
    recommendation: Option<string>,
    severity: int)

  datatype Alert = Alert(
    id: int,
    assetId: int,
    ruleId: int,
    alertType: string,
    title: string,
    description: string,
    severity: int,
    status: string,
    createdAt: DateTime,
    requiresAction: bool,
    dueDate: Option<DateTime>,
    acknowledgedAt: Option<DateTime>,
    acknowledgedBy: Option<string>,
    resolvedAt: Option<DateTime>,
    resolvedBy: Option<string>,
    resolutionNotes: Option<string>,
    updatedAt: Option<DateTime>)

  datatype Check = Check(
    assetId: int,
    checkDate: DateTime,
    status: string,
    score: int,
    findings: seq<RuleResult>,
    checkedBy: string,
    isAutomatic: bool,
    nextCheckDate: DateTime,
    createdAt: DateTime)

  datatype History = History(
    assetId: int,
    changeDate: DateTime,
    fromStatus: string,
    toStatus: string,
    fromScore: int,
    toScore: int,
    reason: string,
    triggeredBy: string,
    createdAt: DateTime)

  const AssetDeleted := "Deleted"
  const AssetActive := "Active"
  const CompliancePending := "Pending"

  const AlertNew := "New"
  const AlertAcknowledged := "Acknowledged"
  const AlertResolved := "Resolved"

  const StatusCompliant := "Compliant"
  const StatusWarning := "Warning"
  const StatusNonCompliant := "Non-Compliant"

  /** `x ?? "system"`: the audit user when none is known. */
  function UserOrSystem(user: Option<string>): (u: string)
    ensures user.Some? ==> u == user.value
    ensures user.None? ==> u == "system"
  {
    user.GetOr("system")
  }
}

=== FILE: src_dtos.dfy ===
/**
 * The data-transfer objects of the `src/` tree whose properties compute
 * something: the asset page (src/InsureX.Application/DTOs/AssetDto.cs), the
 * general paged list (src/InsureX.Application/DTOs/PagedResult.cs), the
 * policy expiry flags (src/InsureX.Application/DTOs/PolicyDto.cs) and the
 * defaults of the two search forms.
 */
module SrcDtos {
  import opened Common

  // ---------------------------------------------------------------------
  // AssetDto.cs: the search form and the asset page
  // ---------------------------------------------------------------------

  datatype AssetSearch = AssetSearch(
    searchTerm: Option<string>,
    status: Option<string>,
    complianceStatus: Option<string>,
    year: Option<int>,
    fromDate: Option<DateTime>,
    toDate: Option<DateTime>,
    page: int,
    pageSize: int,
    sortBy: Option<string>,
    sortDir: string)

  /** A search form as the binder creates it, before any field is set. */
  const DefaultAssetSearch := AssetSearch(None, None, None, None, None, None, 1, 25, Some("CreatedAt"), "desc")

  /** `PagedResult<T>` of AssetDto.cs. */
  datatype AssetPage<T> = AssetPage(items: seq<T>, page: int, pageSize: int, totalItems: int)

  /**
   * `TotalPages` as written: `(int)Math.Ceiling((double)TotalItems / PageSize)`.
   * There is no guard for a zero size; the division then gives an infinity
   * or NaN whose conversion to `int` is unspecified, which is `None` here.
   */
  function AssetPageTotalPages<T>(r: AssetPage<T>): (n: Option<int>)
    ensures n.None? <==> r.pageSize == 0
    ensures r.pageSize > 0 && n.Some? ==> (n.value - 1) * r.pageSize < r.totalItems <= n.value * r.pageSize
  {
    if r.pageSize == 0 then None else Some(CeilRatio(r.totalItems, r.pageSize))
  }

  /** A page size of zero, which the search form accepts, leaves TotalPages undefined. */
  lemma AssetPageZeroSize<T>(items: seq<T>, totalItems: int)
    ensures AssetPageTotalPages(AssetPage(items, 1, 0, totalItems)).None?
  {
  }

  /** TotalPages with the zero guard of the general paged list: no pages for a size of zero. */
  function AssetPageTotalPagesGuarded<T>(r: AssetPage<T>): (n: int)
    ensures r.pageSize == 0 ==> n == 0
    ensures r.pageSize > 0 ==> (n - 1) * r.pageSize < r.totalItems <= n * r.pageSize
    ensures r.pageSize != 0 ==> AssetPageTotalPages(r) == Some(n)
  {
    if r.pageSize == 0 then 0 else CeilRatio(r.totalItems, r.pageSize)
  }

  /** `HasNext => Page < TotalPages`, with the guarded page count. */
  predicate AssetPageHasNext<T>(r: AssetPage<T>)
  {
    r.page < AssetPageTotalPagesGuarded(r)
  }

  /** `HasPrevious => Page > 1`. */
  predicate AssetPageHasPrevious<T>(r: AssetPage<T>)
  {
    r.page > 1
  }

  /**
   * For a positive size and a non-negative count, there is a next page
   * exactly when the pages up to this one hold fewer than all the items.
   */
  lemma AssetPageHasNextIff<T>(r: AssetPage<T>)
    requires r.pageSize > 0 && r.totalItems >= 0
    ensures AssetPageHasNext(r) <==> r.page * r.pageSize < r.totalItems
  {
    var n := AssetPageTotalPagesGuarded(r);
    if r.page < n {
      MulMono(r.page, n - 1, r.pageSize);
    } else {
      MulMono(n, r.page, r.pageSize);
    }
  }

  /** The first page of the default search has no previous page. */
  lemma DefaultSearchFirstPage<T>(items: seq<T>, total: nat)
    ensures var r := AssetPage(items, DefaultAssetSearch.page, DefaultAssetSearch.pageSize, total);
      && !AssetPageHasPrevious(r)
      && (AssetPageHasNext(r) <==> total > 25)
  {
    AssetPageHasNextIff(AssetPage(items, DefaultAssetSearch.page, DefaultAssetSearch.pageSize, total));
  }

  // ---------------------------------------------------------------------
  // PagedResult.cs: the general paged list
  // ---------------------------------------------------------------------

  /** `Items` is a settable list, so it may be null. */
  datatype PagedList<T> = PagedList(items: Option<seq<T>>, totalCount: int, pageNumber: int, pageSize: int)

  /** `TotalPages`: no pages for a size of zero, else the ceiling of the count over the size. */
  function PagedListTotalPages<T>(r: PagedList<T>): (n: int)
    ensures r.pageSize == 0 ==> n == 0
    ensures r.pageSize > 0 ==> (n - 1) * r.pageSize < r.totalCount <= n * r.pageSize
    ensures r.pageSize < 0 ==> (n - 1) * (-r.pageSize) < -r.totalCount <= n * (-r.pageSize)
  {
    if r.pageSize == 0 then 0 else CeilRatio(r.totalCount, r.pageSize)
  }

  /** For a count and a positive size this is the number of pages the items fill. */
  lemma PagedListTotalPagesOfCount<T>(r: PagedList<T>)
    requires r.totalCount >= 0 && r.pageSize > 0
    ensures PagedListTotalPages(r) == CeilDiv(r.totalCount, r.pageSize)
  {
    CeilRatioOfCount(r.totalCount, r.pageSize);
  }

  /** `HasItems => Items != null && Items.Count > 0`. */
  predicate PagedListHasItems<T>(r: PagedList<T>)
  {
    r.items.Some? && |r.items.value| > 0
  }

  /** The parameterless constructor: an empty list and zero counts. */
  function NewEmptyPagedList<T>(): (r: PagedList<T>)
    ensures r.items == Some([]) && !PagedListHasItems(r)
    ensures r.totalCount == 0 && r.pageNumber == 0 && r.pageSize == 0
    ensures PagedListTotalPages(r) == 0
  {
    PagedList(Some([]), 0, 0, 0)
  }

  /** The four-argument constructor: a null list becomes an empty one. */
  function NewPagedList<T>(items: Option<seq<T>>, totalCount: int, pageNumber: int, pageSize: int): (r: PagedList<T>)
    ensures r.items.Some?
    ensures items.Some? ==> r.items == items
    ensures items.None? ==> r.items == Some([])
    ensures PagedListHasItems(r) <==> items.Some? && items.value != []
    ensures r.totalCount == totalCount && r.pageNumber == pageNumber && r.pageSize == pageSize
  {
    PagedList(Some(items.GetOr([])), totalCount, pageNumber, pageSize)
  }

  // ---------------------------------------------------------------------
  // PolicyDto.cs: expiry flags and the search form
  // ---------------------------------------------------------------------

  /** `DaysToExpiry => (int)(EndDate - now).TotalDays`. */
  function DaysToExpiry(endDate: DateTime, now: DateTime): int
  {
    WholeDays(endDate, now)
  }

  predicate IsExpiringSoon(endDate: DateTime, now: DateTime)
  {
    var d := DaysToExpiry(endDate, now);
    d > 0 && d <= 30
  }

  predicate IsExpired(endDate: DateTime, now: DateTime)
  {
    DaysToExpiry(endDate, now) <= 0
  }

  /**
   * In terms of time left: a policy is expired while less than one whole day
   * remains (so also for up to a day after it ended), and expiring soon from
   * one whole day up to, not including, 31 days; the two never hold together.
   */
  lemma ExpiryFlags(endDate: DateTime, now: DateTime)
    ensures IsExpired(endDate, now) <==> endDate - now < SecondsPerDay
    ensures IsExpiringSoon(endDate, now) <==> SecondsPerDay <= endDate - now < 31 * SecondsPerDay
    ensures !(IsExpired(endDate, now) && IsExpiringSoon(endDate, now))
  {
    var t := endDate - now;
    var d := DaysToExpiry(endDate, now);
    if t >= 0 {
      DivAtLeast(t, SecondsPerDay, 1);
      DivAtLeast(t, SecondsPerDay, 31);
    }
  }

  datatype PolicySearch = PolicySearch(
    searchTerm: Option<string>,
    assetId: Option<int>,
    status: Option<string>,
    expiringOnly: Option<bool>,
    page: int,
    pageSize: int,
    sortBy: Option<string>,
    sortDir: string)

  const DefaultPolicySearch := PolicySearch(None, None, None, None, 1, 10, Some("EndDate"), "asc")
}

=== FILE: src_policy_repository.dfy ===
/**
 * The policy repository of the `src/` tree
 * (src/InsureX.Infrastructure/Repositories/PolicyRepository.cs): queries
 * over the policy set, and the Add/Update operations that change it.
 */
module SrcPolicyRepository {
  import opened Common
  import opened SrcDomain

  const PolicyActive := "Active"

  function PolicyId(p: Policy): int { p.id }

  /** `GetPagedAsync(query, page, pageSize)`: `Skip((page - 1) * pageSize).Take(pageSize)`. */
  function GetPaged(query: seq<Policy>, page: int, pageSize: int): (r: seq<Policy>)
    ensures forall p :: p in r ==> p in query
    ensures page >= 1 && pageSize >= 1 ==>
      && |r| == Max(0, Min(pageSize, |query| - PageStart(page, pageSize)))
      && forall i :: 0 <= i < |r| ==> r[i] == query[PageStart(page, pageSize) + i]
  {
    PageWithin(query, page, pageSize);
    if page >= 1 && pageSize >= 1 then PageContents(query, page, pageSize); Page(query, page, pageSize)
    else Page(query, page, pageSize)
  }

  /** `GetByIdAsync`: the first policy with that id, or null. */
  function PolicyById(policies: seq<Policy>, id: int): (r: Option<Policy>)
    ensures r.Some? ==> r.value in policies && r.value.id == id
    ensures r.None? <==> forall i :: 0 <= i < |policies| ==> policies[i].id != id
  {
    FirstOrDefault(policies, (p: Policy) => p.id == id)
  }

  /** `GetByPolicyNumberAsync`: the first policy with that number, or null. */
  function PolicyByNumber(policies: seq<Policy>, number: string): (r: Option<Policy>)
    ensures r.Some? ==> r.value in policies && r.value.policyNumber == number
    ensures r.None? <==> forall i :: 0 <= i < |policies| ==> policies[i].policyNumber != number
  {
    FirstOrDefault(policies, (p: Policy) => p.policyNumber == number)
  }

  /** Active, and ending between now and now + `days` days, both ends included. */
  predicate IsExpiring(p: Policy, now: DateTime, days: int)
  {
    p.endDate <= AddDays(now, days) && p.endDate >= now && p.status == PolicyActive
  }

  function ExpiringAt(now: DateTime, days: int): Policy -> bool
  {
    (p: Policy) => IsExpiring(p, now, days)
  }

  /** `GetExpiringPoliciesAsync(days)`. */
  function ExpiringPolicies(policies: seq<Policy>, now: DateTime, days: int): (r: seq<Policy>)
    ensures forall p :: p in r <==> p in policies && IsExpiring(p, now, days)
  {
    Filter(policies, ExpiringAt(now, days))
  }

  /** `GetByAssetIdAsync`: exactly the asset's policies, in store order. */
  function PoliciesOfAsset(policies: seq<Policy>, assetId: int): (r: seq<Policy>)
    ensures |r| <= |policies|
    ensures forall p :: p in r <==> p in policies && p.assetId == assetId
  {
    Filter(policies, (p: Policy) => p.assetId == assetId)
  }

  /** `ExistsAsync(policyNumber)`. */
  predicate PolicyExists(policies: seq<Policy>, number: string)
    ensures PolicyExists(policies, number) <==> exists i :: 0 <= i < |policies| && policies[i].policyNumber == number
  {
    PolicyByNumber(policies, number).Some?
  }

  predicate IsActiveAt(p: Policy, now: DateTime) { p.status == PolicyActive && p.endDate >= now }

  function ActiveAt(now: DateTime): Policy -> bool
  {
    (p: Policy) => IsActiveAt(p, now)
  }

  /** `GetActiveCountAsync`: Active policies that have not ended. */
  function ActiveCount(policies: seq<Policy>, now: DateTime): nat
  {
    CountWhere(policies, ActiveAt(now))
  }

  /** `GetExpiringCountAsync(days)`. */
  function ExpiringCount(policies: seq<Policy>, now: DateTime, days: int): nat
  {
    CountWhere(policies, ExpiringAt(now, days))
  }

  /** The expiring count is the number of policies the expiring query returns. */
  lemma ExpiringCountIsLength(policies: seq<Policy>, now: DateTime, days: int)
    ensures ExpiringCount(policies, now, days) == |ExpiringPolicies(policies, now, days)|
  {
    CountIsFilterLength(policies, ExpiringAt(now, days));
  }

  /** Every expiring policy is active, so there are never more expiring than active ones. */
  lemma ExpiringAtMostActive(policies: seq<Policy>, now: DateTime, days: int)
    ensures ExpiringCount(policies, now, days) <= ActiveCount(policies, now)
  {
    CountMonotone(policies, ExpiringAt(now, days), ActiveAt(now));
  }

  class PolicyRepository {
    var policies: seq<Policy>

    ghost predicate Valid()
      reads this
    {
      IdsAreIndices(policies, PolicyId)
    }

    constructor ()
      ensures Valid() && policies == []
    {
      policies := [];
    }

    /** `AddAsync`: inserts the policy, which receives the next id. */
    method Add(policy: Policy) returns (stored: Policy)
      requires Valid()
      modifies this
      ensures Valid()
      ensures stored == policy.(id := |old(policies)| + 1)
      ensures policies == old(policies) + [stored]
    {
      stored := policy.(id := |policies| + 1);
      policies := policies + [stored];
    }

    /** `UpdateAsync`: replaces the stored policy with the same id. */
    method Update(policy: Policy)
      requires Valid() && 1 <= policy.id <= |policies|
      modifies this
      ensures Valid()
      ensures policies == old(policies)[policy.id - 1 := policy]
    {
      policies := policies[policy.id - 1 := policy];
    }
  }

  /** In a store keyed by position, the policy with id `id` is the one at `id - 1`. */
  lemma PolicyByIdInStore(policies: seq<Policy>, id: int)
    requires IdsAreIndices(policies, PolicyId)
    ensures PolicyById(policies, id) == if 1 <= id <= |policies| then Some(policies[id - 1]) else None
  {
    var r := PolicyById(policies, id);
    if r.Some? {
      StoredAt(policies, PolicyId, r.value);
    }
    if 1 <= id <= |policies| {
      assert policies[id - 1].id == id;
    }
  }
}

=== FILE: src_policy_service.dfy ===
/**
 * The policy service of the `src/` tree
 * (src/InsureX.Application/Services/PolicyService.cs): tenant-scoped
 * listing, create / update / soft delete of policies with their number and
 * date checks, the coverage test that decides an asset's compliance, and
 * the refresh of that compliance after every change.
 *
 * The policy store is the policy repository; the asset store is the asset
 * set of the asset repository, keyed by position like every store here.
 * The notification e-mails and log lines are left out.
 */
module SrcPolicyService {
  import opened Common
  import opened SrcDomain
  import Ordering
  import SrcAssetRepository
  import opened SrcPolicyRepository

  const PolicyPending := "Pending"
  const PolicyDeleted := "Deleted"
  const PaymentPending := "Pending"
  const PaymentPaid := "Paid"

  /** `GetAllAsync`: the policies whose tenant is the current one; none when there is no tenant. */
  function GetAll(policies: seq<Policy>, tenant: Option<int>): (r: seq<Policy>)
    ensures forall p :: p in r <==> p in policies && tenant == Some(p.tenantId)
    ensures tenant.None? ==> r == []
  {
    // with no tenant the lifted comparison `p.TenantId == null` holds for no policy
    if tenant.None? then [] else Filter(policies, (p: Policy) => p.tenantId == tenant.value)
  }

  /** The coverage that makes an asset compliant: Active, not yet ended, and paid. */
  predicate Covers(p: Policy, now: DateTime)
  {
    p.status == PolicyActive && p.endDate >= now && p.paymentStatus == PaymentPaid
  }

  /** `CheckComplianceAsync`: some policy of the asset covers it now. */
  function CheckCompliance(policies: seq<Policy>, assetId: int, now: DateTime): (b: bool)
    ensures b <==> exists i :: 0 <= i < |policies| && policies[i].assetId == assetId && Covers(policies[i], now)
  {
    var mine := PoliciesOfAsset(policies, assetId);
    var b := Any(mine, (p: Policy) => Covers(p, now));
    assert b <==> exists i :: 0 <= i < |policies| && policies[i].assetId == assetId && Covers(policies[i], now) by {
      if b {
        var k :| 0 <= k < |mine| && Covers(mine[k], now);
        assert mine[k] in policies;
      } else {
        forall i | 0 <= i < |policies| && policies[i].assetId == assetId ensures !Covers(policies[i], now) {
          assert policies[i] in mine;
          var k :| 0 <= k < |mine| && mine[k] == policies[i];
        }
      }
    }
    b
  }

  /** The compliance label `UpdateAssetCompliance` writes. */
  function ComplianceLabel(compliant: bool): string
  {
    if compliant then StatusCompliant else StatusNonCompliant
  }

  /**
   * The asset store after `UpdateAssetCompliance(assetId)`: a missing asset
   * leaves it unchanged; otherwise that asset, and only it, gets the label
   * of the coverage test, stamped by "system".
   */
  function WithCompliance(assets: seq<Asset>, policies: seq<Policy>, assetId: int, now: DateTime): (r: seq<Asset>)
    ensures |r| == |assets|
    ensures forall i :: 0 <= i < |assets| && i != assetId - 1 ==> r[i] == assets[i]
    ensures 1 <= assetId <= |assets| ==>
      r[assetId - 1] == assets[assetId - 1].(
        complianceStatus := Some(ComplianceLabel(CheckCompliance(policies, assetId, now))),
        updatedAt := Some(now), updatedBy := Some("system"))
    ensures !(1 <= assetId <= |assets|) ==> r == assets
  {
    if 1 <= assetId <= |assets| then
      assets[assetId - 1 := assets[assetId - 1].(
        complianceStatus := Some(ComplianceLabel(CheckCompliance(policies, assetId, now))),
        updatedAt := Some(now), updatedBy := Some("system"))]
    else assets
  }

  /** After the refresh an existing asset is "Compliant" exactly when one of its policies covers it. */
  lemma WithComplianceLabel(assets: seq<Asset>, policies: seq<Policy>, assetId: int, now: DateTime)
    requires 1 <= assetId <= |assets|
    ensures WithCompliance(assets, policies, assetId, now)[assetId - 1].complianceStatus == Some(StatusCompliant) <==>
      exists i :: 0 <= i < |policies| && policies[i].assetId == assetId && Covers(policies[i], now)
  {
  }

  // ---------------------------------------------------------------------
  // ApplySorting
  // ---------------------------------------------------------------------

  datatype PolicySortField = ByPolicyNumber | ByInsurerName | ByStartDate | ByEndDate

  /** `sortBy?.ToLower() switch { ... }`: an unknown or missing key sorts by EndDate. */
  function PolicySortFieldOf(sortBy: Option<string>): (f: PolicySortField)
    ensures sortBy.None? ==> f == ByEndDate
    ensures sortBy.Some? && Lower(sortBy.value) !in ["policynumber", "insurername", "startdate"] ==> f == ByEndDate
  {
    if sortBy.None? then ByEndDate
    else
      var key := Lower(sortBy.value);
      if key == "policynumber" then ByPolicyNumber
      else if key == "insurername" then ByInsurerName
      else if key == "startdate" then ByStartDate
      else ByEndDate
  }

  predicate PolicyFieldLe(f: PolicySortField, a: Policy, b: Policy)
  {
    match f
    case ByPolicyNumber => Ordering.StrLe(a.policyNumber, b.policyNumber)
    case ByInsurerName => Ordering.StrLe(a.insurerName, b.insurerName)
    case ByStartDate => a.startDate <= b.startDate
    case ByEndDate => a.endDate <= b.endDate
  }

  function PolicyComparer(f: PolicySortField, asc: bool): (Policy, Policy) -> bool
  {
    if asc then (a: Policy, b: Policy) => PolicyFieldLe(f, a, b) else (a: Policy, b: Policy) => PolicyFieldLe(f, b, a)
  }

  lemma PolicyComparerPreorder(f: PolicySortField, asc: bool)
    ensures Ordering.TotalPreorder(PolicyComparer(f, asc))
  {
    forall a: Policy, b: Policy ensures PolicyFieldLe(f, a, b) || PolicyFieldLe(f, b, a) {
      if f == ByPolicyNumber { Ordering.StrLeTotal(a.policyNumber, b.policyNumber); }
      if f == ByInsurerName { Ordering.StrLeTotal(a.insurerName, b.insurerName); }
    }
    forall a: Policy, b: Policy, c: Policy | PolicyFieldLe(f, a, b) && PolicyFieldLe(f, b, c)
      ensures PolicyFieldLe(f, a, c)
    {
      if f == ByPolicyNumber { Ordering.StrLeTrans(a.policyNumber, b.policyNumber, c.policyNumber); }
      if f == ByInsurerName { Ordering.StrLeTrans(a.insurerName, b.insurerName, c.insurerName); }
    }
    forall a: Policy, b: Policy, c: Policy | PolicyFieldLe(f, b, a) && PolicyFieldLe(f, c, b)
      ensures PolicyFieldLe(f, c, a)
    {
      if f == ByPolicyNumber { Ordering.StrLeTrans(c.policyNumber, b.policyNumber, a.policyNumber); }
      if f == ByInsurerName { Ordering.StrLeTrans(c.insurerName, b.insurerName, a.insurerName); }
    }
  }

  /**
   * `ApplySorting`: the same policies, ordered on the requested key, and
   * ascending exactly when the direction lower-cases to "asc".
   */
  function ApplySorting(query: seq<Policy>, sortBy: Option<string>, sortDir: string): (r: seq<Policy>)
    ensures Ordering.SortedBy(r, PolicyComparer(PolicySortFieldOf(sortBy), Lower(sortDir) == "asc"))
    ensures multiset(r) == multiset(query)
  {
    var cmp := PolicyComparer(PolicySortFieldOf(sortBy), Lower(sortDir) == "asc");
    PolicyComparerPreorder(PolicySortFieldOf(sortBy), Lower(sortDir) == "asc");
    Ordering.SortBy(query, cmp)
  }

  // ---------------------------------------------------------------------
  // Create, update and delete
  // ---------------------------------------------------------------------

  /** The fields of CreatePolicyDto. */
  datatype PolicyInput = PolicyInput(
    policyNumber: string,
    assetId: int,
    insurerCode: string,
    insurerName: string,
    policyType: string,
    sumInsured: int,
    premium: int,
    startDate: DateTime,
    endDate: DateTime,
    renewalDate: Option<DateTime>)

  /** `dto.Adapt(policy)`: copies the input's fields; status, payment and tenant stay. */
  function ApplyPolicyInput(p: Policy, dto: PolicyInput): (r: Policy)
    ensures r.policyNumber == dto.policyNumber && r.assetId == dto.assetId
    ensures r.startDate == dto.startDate && r.endDate == dto.endDate
    ensures r.id == p.id && r.tenantId == p.tenantId
    ensures r.status == p.status && r.paymentStatus == p.paymentStatus
  {
    p.(policyNumber := dto.policyNumber, assetId := dto.assetId, insurerCode := dto.insurerCode,
       insurerName := dto.insurerName, policyType := dto.policyType, sumInsured := dto.sumInsured,
       premium := dto.premium, startDate := dto.startDate, endDate := dto.endDate,
       renewalDate := dto.renewalDate)
  }

  /** `dto.Adapt<Policy>()` and the stamps of CreateAsync. */
  function NewPolicy(dto: PolicyInput, tenantId: int, user: Option<string>, now: DateTime): (p: Policy)
    ensures p.status == (if dto.startDate <= now then PolicyActive else PolicyPending)
    ensures p.paymentStatus == PaymentPending
    ensures p.tenantId == tenantId && p.createdAt == now && p.createdBy == UserOrSystem(user)
    ensures p.policyNumber == dto.policyNumber && p.assetId == dto.assetId
  {
    var blank := Policy(0, 0, 0, "", "", "", "", 0, 0, 0, 0, None, "", "", 0, "", None, None);
    ApplyPolicyInput(blank, dto).(tenantId := tenantId, createdBy := UserOrSystem(user), createdAt := now,
                                  status := if dto.startDate <= now then PolicyActive else PolicyPending,
                                  paymentStatus := PaymentPending)
  }

  /** A freshly created policy never makes its asset compliant: its payment is still pending. */
  lemma NewPolicyNeverCovers(dto: PolicyInput, tenantId: int, user: Option<string>, now: DateTime, at: DateTime)
    ensures !Covers(NewPolicy(dto, tenantId, user, now), at)
  {
  }

  class PolicyService {
    const policyRepo: PolicyRepository
    var assets: seq<Asset>

    ghost predicate Valid()
      reads this, policyRepo
    {
      policyRepo.Valid() && IdsAreIndices(assets, SrcAssetRepository.AssetId)
    }

    constructor (policyRepo: PolicyRepository, assets: seq<Asset>)
      requires policyRepo.Valid() && IdsAreIndices(assets, SrcAssetRepository.AssetId)
      ensures Valid() && this.policyRepo == policyRepo && this.assets == assets
    {
      this.policyRepo := policyRepo;
      this.assets := assets;
    }

    /** `UpdateAssetCompliance`. */
    method UpdateAssetCompliance(assetId: int, now: DateTime)
      requires Valid()
      modifies this
      ensures Valid()
      ensures assets == WithCompliance(old(assets), policyRepo.policies, assetId, now)
    {
      SrcAssetRepository.AssetByIdInStore(assets, assetId);
      var asset := SrcAssetRepository.AssetById(assets, assetId);
      if asset.None? {
        return;
      }
      var compliance := ComplianceLabel(CheckCompliance(policyRepo.policies, assetId, now));
      assets := assets[assetId - 1 := asset.value.(complianceStatus := Some(compliance), updatedAt := Some(now),
                                                    updatedBy := Some("system"))];
    }

    /**
     * `CreateAsync`: the asset must exist, the number must be new in the
     * whole store (whatever the tenant), the end must come after the start,
     * and there must be a tenant; the policy is then stored and its asset's
     * compliance refreshed.
     */
    method Create(dto: PolicyInput, tenant: Option<int>, user: Option<string>, now: DateTime) returns (r: Result<Policy>)
      requires Valid()
      modifies this, policyRepo
      ensures Valid()
      ensures !(1 <= dto.assetId <= |old(assets)|) ==> r == Throw(DomainException("Asset " + IntToString(dto.assetId) + " not found"))
      ensures 1 <= dto.assetId <= |old(assets)| && PolicyExists(old(policyRepo.policies), dto.policyNumber) ==>
        r == Throw(DomainException("Policy " + dto.policyNumber + " already exists"))
      ensures (1 <= dto.assetId <= |old(assets)| && !PolicyExists(old(policyRepo.policies), dto.policyNumber)
               && dto.endDate <= dto.startDate) ==> r == Throw(DomainException("End date must be after start date"))
      ensures r.Ok? <==>
        1 <= dto.assetId <= |old(assets)| && !PolicyExists(old(policyRepo.policies), dto.policyNumber)
        && dto.endDate > dto.startDate && tenant.Some?
      ensures r.Throw? ==> policyRepo.policies == old(policyRepo.policies) && assets == old(assets)
      ensures r.Ok? ==>
        && r.value == NewPolicy(dto, tenant.value, user, now).(id := |old(policyRepo.policies)| + 1)
        && policyRepo.policies == old(policyRepo.policies) + [r.value]
        && assets == WithCompliance(old(assets), policyRepo.policies, dto.assetId, now)
    {
      SrcAssetRepository.AssetByIdInStore(assets, dto.assetId);
      var asset := SrcAssetRepository.AssetById(assets, dto.assetId);
      if asset.None? {
        return Throw(DomainException("Asset " + IntToString(dto.assetId) + " not found"));
      }
      if PolicyExists(policyRepo.policies, dto.policyNumber) {
        return Throw(DomainException("Policy " + dto.policyNumber + " already exists"));
      }
      if dto.endDate <= dto.startDate {
        return Throw(DomainException("End date must be after start date"));
      }
      if tenant.None? {
        return Throw(UnauthorizedAccess(""));
      }
      var stored := policyRepo.Add(NewPolicy(dto, tenant.value, user, now));
      UpdateAssetCompliance(asset.value.id, now);
      return Ok(stored);
    }

    /**
     * `UpdateAsync`: the policy must exist, a changed number must be new, and
     * the end must come after the start. Status and payment status are not
     * among the copied fields, so they never change here. The compliance of
     * the policy's (new) asset is refreshed.
     */
    method Update(id: int, dto: PolicyInput, user: Option<string>, now: DateTime) returns (r: Result<Policy>)
      requires Valid()
      modifies this, policyRepo
      ensures Valid()
      ensures !(1 <= id <= |old(policyRepo.policies)|) ==> r == Throw(DomainException("Policy " + IntToString(id) + " not found"))
      ensures r.Ok? <==>
        && 1 <= id <= |old(policyRepo.policies)|
        && (old(policyRepo.policies)[id - 1].policyNumber != dto.policyNumber ==>
              !PolicyExists(old(policyRepo.policies), dto.policyNumber))
        && dto.endDate > dto.startDate
      ensures r.Throw? ==> policyRepo.policies == old(policyRepo.policies) && assets == old(assets)
      ensures r.Ok? ==>
        && r.value == ApplyPolicyInput(old(policyRepo.policies)[id - 1], dto).(updatedAt := Some(now), updatedBy := Some(UserOrSystem(user)))
        && r.value.status == old(policyRepo.policies)[id - 1].status
        && policyRepo.policies == old(policyRepo.policies)[id - 1 := r.value]
        && assets == WithCompliance(old(assets), policyRepo.policies, dto.assetId, now)
    {
      PolicyByIdInStore(policyRepo.policies, id);
      var found := PolicyById(policyRepo.policies, id);
      if found.None? {
        return Throw(DomainException("Policy " + IntToString(id) + " not found"));
      }
      var policy := found.value;
      if policy.policyNumber != dto.policyNumber && PolicyExists(policyRepo.policies, dto.policyNumber) {
        return Throw(DomainException("Policy " + dto.policyNumber + " already exists"));
      }
      if dto.endDate <= dto.startDate {
        return Throw(DomainException("End date must be after start date"));
      }
      var updated := ApplyPolicyInput(policy, dto).(updatedAt := Some(now), updatedBy := Some(UserOrSystem(user)));
      policyRepo.Update(updated);
      UpdateAssetCompliance(updated.assetId, now);
      return Ok(updated);
    }

    /** `DeleteAsync`: false for a missing policy; otherwise a soft delete and a refresh of the asset. */
    method Delete(id: int, user: Option<string>, now: DateTime) returns (deleted: bool)
      requires Valid()
      modifies this, policyRepo
      ensures Valid()
      ensures deleted <==> 1 <= id <= |old(policyRepo.policies)|
      ensures !deleted ==> policyRepo.policies == old(policyRepo.policies) && assets == old(assets)
      ensures deleted ==>
        var p := old(policyRepo.policies)[id - 1];
        && policyRepo.policies == old(policyRepo.policies)[id - 1 := p.(status := PolicyDeleted, updatedAt := Some(now), updatedBy := Some(UserOrSystem(user)))]
        && assets == WithCompliance(old(assets), policyRepo.policies, p.assetId, now)
    {
      PolicyByIdInStore(policyRepo.policies, id);
      var found := PolicyById(policyRepo.policies, id);
      if found.None? {
        return false;
      }
      var policy := found.value.(status := PolicyDeleted, updatedAt := Some(now), updatedBy := Some(UserOrSystem(user)));
      policyRepo.Update(policy);
      UpdateAssetCompliance(policy.assetId, now);
      return true;
    }
  }

  /** A deleted policy no longer covers its asset. */
  lemma DeletedNeverCovers(p: Policy, now: DateTime)
    requires p.status == PolicyDeleted
    ensures !Covers(p, now)
  {
  }
}

=== FILE: tenant_request.dfy ===
/**
 * What the tenant middlewares and tenant contexts read from an HTTP
 * request, and the tenant state they write: the user's claims, the request
 * headers and host, `int.TryParse`, and the tenant slot of the domain's
 * ITenantContext (InsureX.Domain/Interfaces/ITenantContext.cs), whose
 * `HasTenant` the middlewares take to mean that a tenant id is set and
 * whose `Clear` unsets it.
 *
 * Header names are compared exactly; ASP.NET compares them without regard
 * to case. `Guid.TryParse` is a parameter wherever it is used, a Guid
 * being an integer.
 */
module TenantRequest {
  import opened Common

  datatype Claim = Claim(claimType: string, value: string)

  /** `HttpContext.User`: whether its identity is authenticated (`None` for a null identity) and its claims. */
  datatype Principal = Principal(authenticated: Option<bool>, claims: seq<Claim>)

  /** The parts of an `HttpContext` the tenant code reads: the user, the request headers and the host. */
  datatype Request = Request(user: Principal, headers: map<string, string>, host: string)

  const TenantHeader := "X-Tenant-Id"

  /** `User.Identity?.IsAuthenticated == true`. */
  predicate IsAuthenticated(user: Principal)
  {
    user.authenticated == Some(true)
  }

  /** `FindFirst(type)?.Value`: the value of the first claim of that type. */
  function FindFirst(claims: seq<Claim>, claimType: string): (r: Option<string>)
    ensures r.Some? ==> exists i :: 0 <= i < |claims| && claims[i] == Claim(claimType, r.value)
    ensures r.None? <==> forall i :: 0 <= i < |claims| ==> claims[i].claimType != claimType
  {
    var c := FirstOrDefault(claims, (c: Claim) => c.claimType == claimType);
    if c.Some? then Some(c.value.value) else None
  }

  /** `FindFirst(a) ?? FindFirst(b) ?? ...`: the first claim of the first type that has one. */
  function FirstOfTypes(claims: seq<Claim>, types: seq<string>): (r: Option<string>)
    ensures r.None? <==> forall k :: 0 <= k < |types| ==> FindFirst(claims, types[k]).None?
    ensures r.Some? ==> exists k :: 0 <= k < |types| && FindFirst(claims, types[k]) == r &&
                                    forall j :: 0 <= j < k ==> FindFirst(claims, types[j]).None?
  {
    if types == [] then None
    else
      var first := FindFirst(claims, types[0]);
      if first.Some? then first
      else
        var rest := FirstOfTypes(claims, types[1..]);
        FirstOfTypesStep(claims, types, rest);
        rest
  }

  lemma FirstOfTypesStep(claims: seq<Claim>, types: seq<string>, rest: Option<string>)
    requires types != [] && FindFirst(claims, types[0]).None?
    requires rest.None? <==> forall k :: 0 <= k < |types[1..]| ==> FindFirst(claims, types[1..][k]).None?
    requires rest.Some? ==> exists k :: 0 <= k < |types[1..]| && FindFirst(claims, types[1..][k]) == rest &&
                                         forall j :: 0 <= j < k ==> FindFirst(claims, types[1..][j]).None?
    ensures rest.None? <==> forall k :: 0 <= k < |types| ==> FindFirst(claims, types[k]).None?
    ensures rest.Some? ==> exists k :: 0 <= k < |types| && FindFirst(claims, types[k]) == rest &&
                                       forall j :: 0 <= j < k ==> FindFirst(claims, types[j]).None?
  {
    NoneOfTypesStep(claims, types);
    if rest.Some? {
      var k :| 0 <= k < |types[1..]| && FindFirst(claims, types[1..][k]) == rest &&
               forall j :: 0 <= j < k ==> FindFirst(claims, types[1..][j]).None?;
      assert types[k + 1] == types[1..][k];
      forall j | 0 <= j < k + 1 ensures FindFirst(claims, types[j]).None? {
        if j > 0 {
          assert types[j] == types[1..][j - 1];
        }
      }
    }
  }

  /** No type has a claim exactly when the first has none and no later one has. */
  lemma NoneOfTypesStep(claims: seq<Claim>, types: seq<string>)
    requires types != []
    ensures (forall k :: 0 <= k < |types| ==> FindFirst(claims, types[k]).None?) <==>
      FindFirst(claims, types[0]).None? && forall k :: 0 <= k < |types[1..]| ==> FindFirst(claims, types[1..][k]).None?
  {
    if FindFirst(claims, types[0]).None? && forall k :: 0 <= k < |types[1..]| ==> FindFirst(claims, types[1..][k]).None? {
      forall k | 0 <= k < |types| ensures FindFirst(claims, types[k]).None? {
        if k > 0 {
          assert types[k] == types[1..][k - 1];
        }
      }
    }
  }

  /** `Headers.TryGetValue(name, out value)`. */
  function Header(request: Request, name: string): (r: Option<string>)
    ensures r.Some? <==> name in request.headers
    ensures r.Some? ==> r.value == request.headers[name]
  {
    if name in request.headers then Some(request.headers[name]) else None
  }

  /** The value of an authenticated user's first claim of the first of `types` that has one. */
  function ClaimValue(user: Principal, types: seq<string>): (r: Option<string>)
    ensures !IsAuthenticated(user) ==> r.None?
  {
    if IsAuthenticated(user) then FirstOfTypes(user.claims, types) else None
  }

  function AsSeq<T>(o: Option<T>): (r: seq<T>)
    ensures |r| <= 1 && (o.Some? <==> |r| == 1) && (o.Some? ==> r[0] == o.value)
  {
    if o.Some? then [o.value] else []
  }

  /**
   * The texts a tenant can come from, in order of precedence: the claim
   * value (for an authenticated user), then the X-Tenant-Id header.
   */
  function Candidates(request: Request, types: seq<string>): seq<string>
  {
    AsSeq(ClaimValue(request.user, types)) + AsSeq(Header(request, TenantHeader))
  }

  /** The first text that parses, parsed; texts that do not parse are passed over. */
  function FirstParsed(texts: seq<string>, parse: string -> Option<int>): (r: Option<int>)
    ensures r.None? <==> forall i :: 0 <= i < |texts| ==> parse(texts[i]).None?
    ensures r.Some? ==> exists i :: 0 <= i < |texts| && parse(texts[i]) == r &&
                                    forall j :: 0 <= j < i ==> parse(texts[j]).None?
  {
    if texts == [] then None
    else if parse(texts[0]).Some? then parse(texts[0])
    else
      var r := FirstParsed(texts[1..], parse);
      assert forall i :: 1 <= i < |texts| ==> texts[i] == texts[1..][i - 1];
      r
  }

  /** Over the candidates: a claim that parses, else the header parsed, else nothing. */
  lemma FirstParsedCandidates(request: Request, types: seq<string>, parse: string -> Option<int>)
    ensures var c := ClaimValue(request.user, types);
      FirstParsed(Candidates(request, types), parse) ==
        if c.Some? && parse(c.value).Some? then parse(c.value)
        else if TenantHeader in request.headers then parse(request.headers[TenantHeader])
        else None
  {
    var c := ClaimValue(request.user, types);
    var h := AsSeq(Header(request, TenantHeader));
    var texts := Candidates(request, types);
    if c.Some? {
      assert texts == [c.value] + h;
      assert texts[1..] == h;
    } else {
      assert texts == h;
    }
    if h != [] {
      assert h[1..] == [];
    }
  }

  // ---------------------------------------------------------------------
  // The int-based resolution middlewares
  // ---------------------------------------------------------------------

  const IntClaimTypes := ["tenant_id", "TenantId", "http://schemas.microsoft.com/ws/2008/06/identity/claims/tenantid"]

  /** The claims step: an authenticated user's first tenant claim, if it parses as an int. */
  function ClaimTenant(user: Principal): (r: Option<int>)
    ensures r.Some? ==> ClaimValue(user, IntClaimTypes).Some? && ParseInt32(ClaimValue(user, IntClaimTypes).value) == r
    ensures !IsAuthenticated(user) || ClaimValue(user, IntClaimTypes).None? ==> r.None?
  {
    var v := ClaimValue(user, IntClaimTypes);
    if v.Some? then ParseInt32(v.value) else None
  }

  /** The header step: the X-Tenant-Id header, if it parses as an int. */
  function HeaderTenant(request: Request): (r: Option<int>)
    ensures r.Some? ==> TenantHeader in request.headers && ParseInt32(request.headers[TenantHeader]) == r
    ensures TenantHeader !in request.headers ==> r.None?
  {
    var h := Header(request, TenantHeader);
    if h.Some? then ParseInt32(h.value) else None
  }

  /**
   * The SetTenantId calls of a resolution middleware on a context holding
   * `prior`: the claim tenant; failing that, when the context still has no
   * tenant, the header tenant.
   */
  function ResolutionSets(request: Request, prior: Option<int>): (r: seq<int>)
    ensures |r| <= 1
    ensures r == [] <==> ClaimTenant(request.user).None? && (prior.Some? || HeaderTenant(request).None?)
    ensures r != [] ==> Some(r[0]) == ClaimTenant(request.user) || (prior.None? && Some(r[0]) == HeaderTenant(request))
  {
    var fromClaims := ClaimTenant(request.user);
    if fromClaims.Some? then [fromClaims.value]
    else if prior.None? then AsSeq(HeaderTenant(request))
    else []
  }

  /** The tenant the context holds when the rest of the pipeline runs. */
  function TenantDuringRequest(request: Request, prior: Option<int>): (r: Option<int>)
    ensures var sets := ResolutionSets(request, prior);
      r == if sets == [] then prior else Some(sets[0])
  {
    var fromClaims := ClaimTenant(request.user);
    if fromClaims.Some? then fromClaims
    else if prior.Some? then prior
    else HeaderTenant(request)
  }

  /** The header is used only when the claims gave nothing and no tenant was set before. */
  lemma HeaderOnlyWithoutTenant(request: Request, prior: Option<int>)
    requires ResolutionSets(request, prior) != []
    requires ClaimTenant(request.user).None?
    ensures prior.None?
    ensures ResolutionSets(request, prior) == [HeaderTenant(request).value]
  {
  }

  /**
   * On a context that holds no tenant, as after the previous request's
   * Clear, the middleware picks the first candidate text that parses as an
   * int: an unparseable claim falls through to the header.
   */
  lemma FreshContextPrecedence(request: Request)
    ensures TenantDuringRequest(request, None) == FirstParsed(Candidates(request, IntClaimTypes), ParseInt32)
  {
    var v := ClaimValue(request.user, IntClaimTypes);
    var h := Header(request, TenantHeader);
    var c := Candidates(request, IntClaimTypes);
    if v.Some? {
      assert c[0] == v.value;
      if ParseInt32(v.value).None? {
        assert c[1..] == AsSeq(h);
      }
    } else {
      assert c == AsSeq(h);
    }
  }

  // ---------------------------------------------------------------------
  // int.TryParse
  // ---------------------------------------------------------------------

  const Int32Min := -0x8000_0000
  const Int32Max := 0x7FFF_FFFF

  predicate IsDigit(c: char) { '0' <= c <= '9' }

  predicate AllDigits(s: string) { forall i :: 0 <= i < |s| ==> IsDigit(s[i]) }

  /** The value of a run of decimal digits. */
  function DigitsValue(s: string): nat
    requires AllDigits(s)
    decreases |s|
  {
    if s == [] then 0 else DigitsValue(s[..|s| - 1]) * 10 + (s[|s| - 1] as int - '0' as int)
  }

  /** An optional sign followed by at least one digit, and nothing else. */
  function SignedValue(t: string): (r: Option<int>)
    ensures r.Some? ==> exists i :: 0 <= i < |t| && IsDigit(t[i])
  {
    if t == [] then None
    else
      var digits := if t[0] == '-' || t[0] == '+' then t[1..] else t;
      if digits == [] || !AllDigits(digits) then None
      else
        assert IsDigit(t[|t| - 1]);
        Some(if t[0] == '-' then -(DigitsValue(digits) as int) else DigitsValue(digits))
  }

  /**
   * `int.TryParse(s, out n)` with the default integer style: surrounding
   * white space, an optional sign and at least one digit, within the range
   * of a 32-bit integer.
   */
  function ParseInt32(s: string): (r: Option<int>)
    ensures r.Some? ==> Int32Min <= r.value <= Int32Max
  {
    var v := SignedValue(Trim(s));
    if v.Some? && Int32Min <= v.value <= Int32Max then v else None
  }

  lemma {:induction false} DigitsOfNat(n: nat)
    ensures AllDigits(NatToString(n)) && DigitsValue(NatToString(n)) == n
  {
    var s := NatToString(n);
    if n >= 10 {
      DigitsOfNat(n / 10);
      assert s[..|s| - 1] == NatToString(n / 10);
    }
  }

  /** A string without white space at either end trims to itself. */
  lemma TrimUnchanged(s: string)
    requires s != [] && !IsWhiteSpace(s[0]) && !IsWhiteSpace(s[|s| - 1])
    ensures Trim(s) == s
  {
  }

  lemma SignedValueOfFormatted(n: int)
    ensures SignedValue(IntToString(n)) == Some(n)
  {
    var m: nat := if n < 0 then -n else n;
    DigitsOfNat(m);
    var d := NatToString(m);
    if n < 0 {
      assert IntToString(n) == "-" + d;
      SignedValueNegative(d);
    } else {
      assert IntToString(n) == d;
      SignedValueUnsigned(d);
    }
  }

  lemma SignedValueNegative(d: string)
    requires d != [] && AllDigits(d)
    ensures SignedValue("-" + d) == Some(-(DigitsValue(d) as int))
  {
    var s := "-" + d;
    assert s[0] == '-' && s[1..] == d;
  }

  lemma SignedValueUnsigned(d: string)
    requires d != [] && AllDigits(d)
    ensures SignedValue(d) == Some(DigitsValue(d))
  {
    assert IsDigit(d[0]);
  }

  /** Every 32-bit integer survives `ToString()` followed by `int.TryParse`. */
  lemma ParseFormatted(n: int)
    requires Int32Min <= n <= Int32Max
    ensures ParseInt32(IntToString(n)) == Some(n)
  {
    var s := IntToString(n);
    var d := NatToString(if n < 0 then -n else n);
    assert s == if n < 0 then "-" + d else d;
    assert s[|s| - 1] == d[|d| - 1];
    TrimUnchanged(s);
    SignedValueOfFormatted(n);
    assert SignedValue(Trim(s)) == Some(n);
  }

  /** Text without any digit never parses. */
  lemma NoDigitsNoNumber(s: string)
    requires forall i :: 0 <= i < |s| ==> !IsDigit(s[i])
    ensures ParseInt32(s) == None
  {
    var t := Trim(s);
    TrimKeepsNoDigit(s);
    assert SignedValue(t).None?;
  }

  /** Trimming text without digits leaves text without digits. */
  lemma TrimKeepsNoDigit(s: string)
    requires forall i :: 0 <= i < |s| ==> !IsDigit(s[i])
    ensures forall i :: 0 <= i < |Trim(s)| ==> !IsDigit(Trim(s)[i])
  {
    var t := Trim(s);
    var k :| OccursAt(s, t, k);
    forall i | 0 <= i < |t| ensures !IsDigit(t[i]) {
      assert t[i] == s[k + i];
    }
  }

  // ---------------------------------------------------------------------
  // The tenant slot
  // ---------------------------------------------------------------------

  /**
   * The rest of the request pipeline (`_next`): each call records the tenant
   * set when it ran; it fails with `failure`, if any.
   */
  class NextDelegate {
    var calls: seq<Option<int>>
    const failure: Option<Exception>

    constructor (failure: Option<Exception>)
      ensures calls == [] && this.failure == failure
    {
      calls := [];
      this.failure := failure;
    }

    method Invoke(tenant: TenantSlot) returns (error: Option<Exception>)
      modifies this
      ensures calls == old(calls) + [tenant.tenantId] && error == failure
    {
      calls := calls + [tenant.tenantId];
      error := failure;
    }
  }

  /** The tenant part of ITenantContext, with the ids passed to SetTenantId, in order. */
  class TenantSlot {
    var tenantId: Option<int>
    var setCalls: seq<int>

    constructor (tenantId: Option<int>)
      ensures this.tenantId == tenantId && setCalls == []
    {
      this.tenantId := tenantId;
      setCalls := [];
    }

    predicate HasTenant()
      reads this
    {
      tenantId.Some?
    }

    method SetTenantId(id: int)
      modifies this
      ensures tenantId == Some(id) && setCalls == old(setCalls) + [id]
    {
      tenantId := Some(id);
      setCalls := setCalls + [id];
    }

    method Clear()
      modifies this
      ensures tenantId == None && setCalls == old(setCalls)
    {
      tenantId := None;
    }
  }
}

=== FILE: web_assets.dfy ===
/**
 * The asset list page's script (InsureX.Web/wwwroot/js/insurex-assets.js):
 * the page state that the search, sort, paging and page-size handlers
 * update, the retry policy of a failed search, and the query strings built
 * for the export link and the browser history.
 *
 * A search is an asynchronous call: `StartSearch` is the part that runs
 * before the request is sent, `FinishSearch` the part that runs when it
 * settles. The form fields are passed in (`None` for a missing element);
 * `encodeURIComponent` is the parameter `encode`; the rendered HTML, the
 * toasts and the timers are recorded rather than shown or run.
 */
module WebAssets {
  import opened Common

  // ---------------------------------------------------------------------
  // JavaScript values
  // ---------------------------------------------------------------------

  /** A JavaScript number as this script produces one: an integer or NaN. */
  datatype Number = Int(value: int) | NaN

  datatype JsValue = JsNull | JsUndefined | JsString(text: string) | JsNumber(number: Number)

  /** JavaScript truthiness of a number: 0 and NaN are falsy. */
  predicate TruthyNumber(n: Number)
  {
    n.Int? && n.value != 0
  }

  /** `String(value)`. */
  function Text(v: JsValue): string
  {
    match v
    case JsNull => "null"
    case JsUndefined => "undefined"
    case JsString(s) => s
    case JsNumber(Int(n)) => IntToString(n)
    case JsNumber(NaN) => "NaN"
  }

  // ---------------------------------------------------------------------
  // parseInt
  // ---------------------------------------------------------------------

  /** The value of a digit in bases up to 36. */
  function DigitValue(c: char): (r: Option<int>)
    ensures r.Some? ==> 0 <= r.value < 36
  {
    if '0' <= c <= '9' then Some(c as int - '0' as int)
    else if 'a' <= c <= 'z' then Some(c as int - 'a' as int + 10)
    else if 'A' <= c <= 'Z' then Some(c as int - 'A' as int + 10)
    else None
  }

  predicate IsRadixDigit(c: char, radix: int)
  {
    DigitValue(c).Some? && DigitValue(c).value < radix
  }

  /** The longest run of digits of the radix at the start of `s`. */
  function DigitPrefix(s: string, radix: int): (r: string)
    ensures |r| <= |s| && r == s[..|r|]
    ensures forall i :: 0 <= i < |r| ==> IsRadixDigit(r[i], radix)
    ensures |r| < |s| ==> !IsRadixDigit(s[|r|], radix)
  {
    if s == [] || !IsRadixDigit(s[0], radix) then []
    else [s[0]] + DigitPrefix(s[1..], radix)
  }

  /** The value of a run of digits of the radix, most significant first. */
  function RadixValue(digits: string, radix: nat): nat
    decreases |digits|
  {
    if digits == [] then 0
    else
      var last := DigitValue(digits[|digits| - 1]);
      RadixValue(digits[..|digits| - 1], radix) * radix + (if last.Some? then last.value else 0)
  }

  /** The digits after an optional "0x" or "0X" prefix, read in base 16 after one and in base 10 otherwise. */
  function Magnitude(unsigned: string): (r: Option<int>)
    ensures r.Some? ==> r.value >= 0
  {
    var hex := |unsigned| >= 2 && unsigned[0] == '0' && (unsigned[1] == 'x' || unsigned[1] == 'X');
    var body := if hex then unsigned[2..] else unsigned;
    var radix := if hex then 16 else 10;
    var digits := DigitPrefix(body, radix);
    if digits == [] then None else Some(RadixValue(digits, radix))
  }

  /** After the leading white space: an optional sign, then the magnitude. */
  function SignedNumber(t: string): (r: Number)
  {
    var negative := t != [] && t[0] == '-';
    var unsigned := if t != [] && (t[0] == '-' || t[0] == '+') then t[1..] else t;
    var m := Magnitude(unsigned);
    if m.None? then NaN else Int(if negative then -m.value else m.value)
  }

  /**
   * `parseInt(s)` without a radix: leading white space, an optional sign,
   * a "0x" or "0X" prefix for base 16, then the longest run of digits;
   * NaN when there is none.
   */
  function ParseInt(s: string): Number
  {
    SignedNumber(TrimStart(s))
  }

  lemma {:induction false} DigitPrefixOfDigits(s: string)
    requires forall i :: 0 <= i < |s| ==> '0' <= s[i] <= '9'
    ensures DigitPrefix(s, 10) == s
  {
    if s != [] {
      DigitPrefixOfDigits(s[1..]);
    }
  }

  lemma {:induction false} DecimalOfNat(n: nat)
    ensures RadixValue(NatToString(n), 10) == n
  {
    var s := NatToString(n);
    if n >= 10 {
      DecimalOfNat(n / 10);
      assert s[..|s| - 1] == NatToString(n / 10);
    }
  }

  lemma MagnitudeOfNat(n: nat)
    ensures Magnitude(NatToString(n)) == Some(n)
  {
    var s := NatToString(n);
    DigitPrefixOfDigits(s);
    DecimalOfNat(n);
  }

  lemma SignedOfFormatted(n: int)
    ensures SignedNumber(IntToString(n)) == Int(n)
  {
    var m: nat := if n < 0 then -n else n;
    MagnitudeOfNat(m);
    if n < 0 {
      var s := IntToString(n);
      assert s[0] == '-' && s[1..] == NatToString(m);
    }
  }

  /** Any integer, written out in decimal, parses back to itself. */
  lemma ParseIntFormatted(n: int)
    ensures ParseInt(IntToString(n)) == Int(n)
  {
    var s := IntToString(n);
    assert s[0] == '-' || '0' <= s[0] <= '9';
    assert TrimStart(s) == s;
    SignedOfFormatted(n);
  }

  /** A text that does not start, after white space and a sign, with a digit is NaN. */
  lemma NoLeadingDigitIsNaN(s: string)
    requires var t := TrimStart(s);
      var u := if t != [] && (t[0] == '-' || t[0] == '+') then t[1..] else t;
      u == [] || !('0' <= u[0] <= '9')
    ensures ParseInt(s) == NaN
  {
    var t := TrimStart(s);
    var u := if t != [] && (t[0] == '-' || t[0] == '+') then t[1..] else t;
    NoDigitNoMagnitude(u);
    assert SignedNumber(t) == NaN;
  }

  /** A text that does not start with a decimal digit has no magnitude, in either base. */
  lemma NoDigitNoMagnitude(u: string)
    requires u == [] || !('0' <= u[0] <= '9')
    ensures Magnitude(u).None?
  {
    if u != [] {
      assert !IsRadixDigit(u[0], 10);
      assert DigitPrefix(u, 10) == [];
    }
  }

  // ---------------------------------------------------------------------
  // utils.buildQueryString
  // ---------------------------------------------------------------------

  /** An entry that survives the filter: not null, not undefined, not the empty string. */
  predicate Kept(entry: (string, JsValue))
  {
    entry.1 != JsNull && entry.1 != JsUndefined && entry.1 != JsString("")
  }

  /** `key=value` for each entry, both encoded. */
  function Pairs(entries: seq<(string, JsValue)>, encode: string -> string): (r: seq<string>)
    ensures |r| == |entries|
    ensures forall i :: 0 <= i < |entries| ==> r[i] == encode(entries[i].0) + "=" + encode(Text(entries[i].1))
  {
    seq(|entries|, i requires 0 <= i < |entries| => encode(entries[i].0) + "=" + encode(Text(entries[i].1)))
  }

  /** `buildQueryString(params)`, with the entries of `params` in their own order. */
  function BuildQueryString(params: seq<(string, JsValue)>, encode: string -> string): string
  {
    Join("&", Pairs(Filter(params, Kept), encode))
  }

  /** `s.split(c)`. */
  function Split(s: string, c: char): (r: seq<string>)
    ensures |r| >= 1
  {
    if s == [] then [""]
    else if s[0] == c then [""] + Split(s[1..], c)
    else
      var rest := Split(s[1..], c);
      [[s[0]] + rest[0]] + rest[1..]
  }

  lemma {:induction false} SplitPlain(a: string, c: char)
    requires c !in a
    ensures Split(a, c) == [a]
  {
    if a != [] {
      SplitPlain(a[1..], c);
      assert [a[0]] + a[1..] == a;
    }
  }

  lemma {:induction false} SplitAfter(a: string, c: char, rest: string)
    requires c !in a
    ensures Split(a + [c] + rest, c) == [a] + Split(rest, c)
  {
    if a == [] {
      assert a + [c] + rest == [c] + rest;
      assert ([c] + rest)[1..] == rest;
    } else {
      var s := a + [c] + rest;
      assert s[1..] == a[1..] + [c] + rest;
      SplitAfter(a[1..], c, rest);
      assert [a[0]] + a[1..] == a;
    }
  }

  /** Splitting a join on a separator that no part contains gives the parts back. */
  lemma {:induction false} SplitJoin(parts: seq<string>, c: char)
    requires parts != []
    requires forall i :: 0 <= i < |parts| ==> c !in parts[i]
    ensures Split(Join([c], parts), c) == parts
  {
    if |parts| == 1 {
      SplitPlain(parts[0], c);
    } else {
      var rest := Join([c], parts[1..]);
      assert Join([c], parts) == parts[0] + [c] + rest;
      SplitJoin(parts[1..], c);
      SplitAfter(parts[0], c, rest);
      assert [parts[0]] + parts[1..] == parts;
    }
  }

  /**
   * When the encoding never yields '&', the query string splits at '&'
   * into exactly the `key=value` pairs of the kept entries, in order; with
   * no entry kept it is empty.
   */
  lemma QueryStringFields(params: seq<(string, JsValue)>, encode: string -> string)
    requires forall s :: '&' !in encode(s)
    ensures Filter(params, Kept) == [] ==> BuildQueryString(params, encode) == ""
    ensures Filter(params, Kept) != [] ==>
      Split(BuildQueryString(params, encode), '&') == Pairs(Filter(params, Kept), encode)
  {
    var kept := Filter(params, Kept);
    if kept != [] {
      var parts := Pairs(kept, encode);
      forall i | 0 <= i < |parts| ensures '&' !in parts[i] {
        assert parts[i] == encode(kept[i].0) + "=" + encode(Text(kept[i].1));
        assert '&' !in encode(kept[i].0) && '&' !in encode(Text(kept[i].1));
      }
      SplitJoin(parts, '&');
    }
  }

  // ---------------------------------------------------------------------
  // State
  // ---------------------------------------------------------------------

  const DefaultPageSize := 10
  const DefaultSortBy := "CreatedAt"
  const DefaultSortDir := "desc"
  const MaxRetries := 3
  const RetryFailedMessage := "Failed to load assets. Please refresh the page."

  /** `state.currentSearch`, and the `searchData` object a search sends. */
  datatype SearchData = SearchData(
    page: JsValue,
    pageSize: JsValue,
    searchTerm: string,
    status: string,
    complianceStatus: string,
    year: JsValue,
    sortBy: string,
    sortDir: string)

  const InitialSearch := SearchData(JsUndefined, JsUndefined, "", "", "", JsNull, DefaultSortBy, DefaultSortDir)

  /** `Object.entries(searchData)`: an undefined field is an absent entry. */
  function SearchEntries(d: SearchData): seq<(string, JsValue)>
  {
    [("page", d.page), ("pageSize", d.pageSize), ("searchTerm", JsString(d.searchTerm)), ("status", JsString(d.status)),
     ("complianceStatus", JsString(d.complianceStatus)), ("year", d.year), ("sortBy", JsString(d.sortBy)),
     ("sortDir", JsString(d.sortDir))]
  }

  /** The form's inputs; `None` for an element missing from the page. */
  datatype Form = Form(searchTerm: Option<string>, status: Option<string>, complianceStatus: Option<string>, year: Option<string>)

  /** `elements.yearFilter?.value ? parseInt(elements.yearFilter.value) : null`. */
  function YearValue(year: Option<string>): (v: JsValue)
    ensures v == JsNull <==> year.None? || year.value == ""
  {
    if year.Some? && year.value != "" then JsNumber(ParseInt(year.value)) else JsNull
  }

  /** The `searchData` a search builds from the page state and the form. */
  function SearchDataOf(currentPage: Number, pageSize: int, form: Form, current: SearchData): (d: SearchData)
    ensures d.page == JsNumber(currentPage) && d.pageSize == JsNumber(Int(pageSize))
    ensures d.sortBy == current.sortBy && d.sortDir == current.sortDir
    ensures d.searchTerm == form.searchTerm.GetOr("") && d.year == YearValue(form.year)
    ensures d.status == form.status.GetOr("") && d.complianceStatus == form.complianceStatus.GetOr("")
  {
    SearchData(JsNumber(currentPage), JsNumber(Int(pageSize)), form.searchTerm.GetOr(""), form.status.GetOr(""),
      form.complianceStatus.GetOr(""), YearValue(form.year), current.sortBy, current.sortDir)
  }

  predicate IsDirection(d: string)
  {
    d == "asc" || d == "desc"
  }

  /** `toggleSort(sortBy)` on the current search. */
  function ToggledSort(current: SearchData, sortBy: string): (r: SearchData)
    ensures r.sortBy == sortBy && IsDirection(r.sortDir)
    ensures current.sortBy == sortBy ==> (r.sortDir == "asc" <==> current.sortDir != "asc")
    ensures current.sortBy != sortBy ==> r.sortDir == "asc"
    ensures r.(sortBy := current.sortBy, sortDir := current.sortDir) == current
  {
    if current.sortBy == sortBy then current.(sortDir := if current.sortDir == "asc" then "desc" else "asc")
    else current.(sortBy := sortBy, sortDir := "asc")
  }

  /** Toggling the same field twice restores the direction. */
  lemma ToggleTwiceRestores(current: SearchData, sortBy: string)
    requires IsDirection(current.sortDir)
    ensures ToggledSort(ToggledSort(current, sortBy), sortBy).sortDir ==
      if current.sortBy == sortBy then current.sortDir else "desc"
  {
  }

  /** The retry count after a failed search. */
  function NextRetry(count: int): (r: int)
    ensures count < MaxRetries ==> r == count + 1
    ensures count >= MaxRetries ==> r == 0
  {
    if count < MaxRetries then count + 1 else 0
  }

  /** The retry count after `failures` failed searches in a row from `count`, never above MaxRetries. */
  function RetriesAfter(count: int, failures: nat): (r: int)
    requires 0 <= count <= MaxRetries
    ensures 0 <= r <= MaxRetries
    ensures r == (count + failures) % (MaxRetries + 1)
    decreases failures
  {
    if failures == 0 then count else RetriesAfter(NextRetry(count), failures - 1)
  }

  /** `parseInt(urlParams.get('page')) || 1`: a missing, unparseable or zero page is page 1. */
  function InitialPage(pageParam: Option<string>): (p: int)
    ensures p != 0
    ensures pageParam.None? ==> p == 1
  {
    // `parseInt(null)` reads the text "null", which has no digit (ParseIntOfNull).
    var parsed := if pageParam.Some? then ParseInt(pageParam.value) else NaN;
    if TruthyNumber(parsed) then parsed.value else 1
  }

  lemma ParseIntOfNull()
    ensures ParseInt("null") == NaN
  {
    var t := "null";
    assert !IsWhiteSpace(t[0]) && TrimStart(t) == t;
    assert !IsRadixDigit(t[0], 10) && DigitPrefix(t, 10) == [];
    assert Magnitude(t) == None;
  }

  /** A page number written into the URL is read back as that page. */
  lemma InitialPageRoundTrip(page: int)
    requires page != 0
    ensures InitialPage(Some(IntToString(page))) == page
  {
    ParseIntFormatted(page);
  }

  datatype ToastKind = ToastWarning | ToastError

  datatype Toast = Toast(message: string, kind: ToastKind)

  /** How a search request settled: a response (`None` when it was aborted), or an error. */
  datatype Outcome = Loaded(result: Option<string>) | Failed

  /** What the table container shows: what the server rendered, the loading spinner, or a search response. */
  datatype TableView = Rendered | Spinner | Html(html: string)

  /** What `showLoading` writes into the table container: the "Loading assets..." spinner. */
  const LoadingHtml: string :=
    "\n                    <div class=\"text-center py-5\">\n                        <div class=\"spinner-border text-primary\" role=\"status\">\n                            <span class=\"visually-hidden\">Loading...</span>\n                        </div>\n                        <p class=\"mt-2 text-muted\">Loading assets...</p>\n                    </div>\n                "

  /** The container's HTML, where the script has written it. */
  function ViewHtml(v: TableView): (r: Option<string>)
    ensures v.Rendered? <==> r.None?
    ensures v.Spinner? ==> r == Some(LoadingHtml)
    ensures v.Html? ==> r == Some(v.html)
  {
    match v
    case Rendered => None
    case Spinner => Some(LoadingHtml)
    case Html(h) => Some(h)
  }

  /** `if (result)`: a non-empty response. */
  predicate Succeeded(outcome: Outcome)
  {
    outcome.Loaded? && outcome.result.Some? && outcome.result.value != ""
  }

  /** The `state` object and `CONFIG.pageSize`, with what the page has rendered, pushed and scheduled. */
  class AssetsPage {
    var pageSize: int
    var currentPage: Number
    var currentSearch: SearchData
    var isLoading: bool
    var retryCount: int
    /** What the table container shows. */
    var table: TableView
    /** Whether the page has the table container (`elements.assetTableContainer`). */
    const hasContainer: bool
    /** The URLs pushed onto the browser history. */
    var history: seq<string>
    /** The delays, in milliseconds, of the retries scheduled. */
    var retries: seq<int>
    var toasts: seq<Toast>
    const encode: string -> string

    predicate Valid()
      reads this
    {
      pageSize >= 1 && 0 <= retryCount <= MaxRetries && IsDirection(currentSearch.sortDir)
    }

    /** The state the script starts with. */
    constructor (encode: string -> string, hasContainer: bool)
      ensures Valid()
      ensures pageSize == DefaultPageSize && currentPage == Int(1) && currentSearch == InitialSearch
      ensures !isLoading && retryCount == 0 && table == Rendered && history == [] && retries == [] && toasts == []
      ensures this.encode == encode && this.hasContainer == hasContainer
    {
      pageSize := DefaultPageSize;
      currentPage := Int(1);
      currentSearch := InitialSearch;
      isLoading := false;
      retryCount := 0;
      table := Rendered;
      history := [];
      retries := [];
      toasts := [];
      this.encode := encode;
      this.hasContainer := hasContainer;
    }

    /**
     * `searchAssets()` up to the request: nothing while a search is
     * loading; otherwise the request is built from the state and the form,
     * the page is loading and the table container shows the spinner.
     */
    method StartSearch(form: Form) returns (request: Option<SearchData>)
      modifies this
      ensures old(isLoading) ==> request.None?
      ensures !old(isLoading) ==> request == Some(SearchDataOf(currentPage, pageSize, form, currentSearch))
      ensures isLoading && (old(Valid()) ==> Valid())
      ensures pageSize == old(pageSize) && currentPage == old(currentPage) && currentSearch == old(currentSearch)
      ensures table == if !old(isLoading) && hasContainer then Spinner else old(table)
      ensures retryCount == old(retryCount) && history == old(history)
      ensures retries == old(retries) && toasts == old(toasts)
    {
      if isLoading {
        return None;
      }
      var searchData := SearchDataOf(currentPage, pageSize, form, currentSearch);
      isLoading := true;
      if hasContainer {
        table := Spinner;
      }
      request := Some(searchData);
    }

    /**
     * `searchAssets()` after the request settles. A non-empty response is
     * shown, becomes the current search, resets the retry count and is
     * pushed onto the history; an empty or aborted one changes nothing, so
     * the container keeps the spinner; a failure schedules a retry while
     * fewer than MaxRetries were made, and otherwise gives up and resets the
     * count, again leaving the spinner. Loading is over in every case.
     */
    method FinishSearch(request: SearchData, outcome: Outcome)
      modifies this
      ensures old(Valid()) && IsDirection(request.sortDir) ==> Valid()
      ensures !isLoading
      ensures pageSize == old(pageSize) && currentPage == old(currentPage)
      ensures Succeeded(outcome) ==>
        && table == (if hasContainer then Html(outcome.result.value) else old(table))
        && currentSearch == request
        && retryCount == 0
        && history == old(history) + ["/Assets?" + BuildQueryString(SearchEntries(request), encode)]
        && retries == old(retries) && toasts == old(toasts)
      ensures outcome.Loaded? && !Succeeded(outcome) ==>
        && table == old(table) && currentSearch == old(currentSearch) && retryCount == old(retryCount)
        && history == old(history) && retries == old(retries) && toasts == old(toasts)
      ensures outcome.Failed? ==>
        && table == old(table) && currentSearch == old(currentSearch) && history == old(history)
        && retryCount == NextRetry(old(retryCount))
        && (old(retryCount) < MaxRetries ==>
              && retries == old(retries) + [1000 * retryCount]
              && toasts == old(toasts) + [Toast("Retrying... (" + IntToString(retryCount) + "/" + IntToString(MaxRetries) + ")", ToastWarning)])
        && (old(retryCount) >= MaxRetries ==>
              && retries == old(retries)
              && toasts == old(toasts) + [Toast(RetryFailedMessage, ToastError)])
    {
      match outcome {
        case Loaded(result) =>
          if result.Some? && result.value != "" {
            RecordSuccess(request, result.value);
          }
        case Failed =>
          RecordFailure();
      }
      isLoading := false;
    }

    /**
     * The whole of `searchAssets()` when the request settles with `outcome`:
     * the container ends up showing the response when there is one and the
     * spinner otherwise; a search already loading does nothing.
     */
    method Search(form: Form, outcome: Outcome) returns (request: Option<SearchData>)
      modifies this
      ensures old(isLoading) ==> request.None? && isLoading && table == old(table)
      ensures !old(isLoading) ==> request == Some(SearchDataOf(old(currentPage), old(pageSize), form, old(currentSearch)))
      ensures !old(isLoading) ==> !isLoading
      ensures !old(isLoading) && hasContainer && Succeeded(outcome) ==> table == Html(outcome.result.value)
      ensures !old(isLoading) && hasContainer && !Succeeded(outcome) ==> table == Spinner
      ensures !old(isLoading) && Succeeded(outcome) ==> currentSearch == request.value && retryCount == 0
      ensures old(Valid()) ==> Valid()
    {
      request := StartSearch(form);
      if request.Some? {
        FinishSearch(request.value, outcome);
      }
    }

    /** A non-empty response: shown, made the current search, pushed onto the history; retries start over. */
    method RecordSuccess(request: SearchData, result: string)
      modifies this
      ensures table == (if hasContainer then Html(result) else old(table))
      ensures currentSearch == request && retryCount == 0
      ensures history == old(history) + ["/Assets?" + BuildQueryString(SearchEntries(request), encode)]
      ensures retries == old(retries) && toasts == old(toasts)
      ensures pageSize == old(pageSize) && currentPage == old(currentPage) && isLoading == old(isLoading)
    {
      if hasContainer {
        table := Html(result);
      }
      currentSearch := request;
      retryCount := 0;
      history := history + ["/Assets?" + BuildQueryString(SearchEntries(request), encode)];
    }

    /** A failed search: a retry while fewer than MaxRetries were made, otherwise an error and a fresh count. */
    method RecordFailure()
      modifies this
      ensures retryCount == NextRetry(old(retryCount))
      ensures old(retryCount) < MaxRetries ==>
        && retries == old(retries) + [1000 * retryCount]
        && toasts == old(toasts) + [Toast("Retrying... (" + IntToString(retryCount) + "/" + IntToString(MaxRetries) + ")", ToastWarning)]
      ensures old(retryCount) >= MaxRetries ==> retries == old(retries) && toasts == old(toasts) + [Toast(RetryFailedMessage, ToastError)]
      ensures table == old(table) && currentSearch == old(currentSearch) && history == old(history)
      ensures pageSize == old(pageSize) && currentPage == old(currentPage) && isLoading == old(isLoading)
    {
      if retryCount < MaxRetries {
        retryCount := retryCount + 1;
        toasts := toasts + [Toast("Retrying... (" + IntToString(retryCount) + "/" + IntToString(MaxRetries) + ")", ToastWarning)];
        retries := retries + [1000 * retryCount];
      } else {
        toasts := toasts + [Toast(RetryFailedMessage, ToastError)];
        retryCount := 0;
      }
    }

    /** `onSearchSubmit`, `onFilterChange` and the debounced search input: back to page 1, then search. */
    method ResetAndSearch(form: Form) returns (request: Option<SearchData>)
      modifies this
      ensures currentPage == Int(1)
      ensures !old(isLoading) ==> request == Some(SearchDataOf(Int(1), pageSize, form, currentSearch))
      ensures old(isLoading) ==> request.None?
      ensures pageSize == old(pageSize) && currentSearch == old(currentSearch) && retryCount == old(retryCount)
    {
      currentPage := Int(1);
      request := StartSearch(form);
    }

    /** `onPageClick`: a page attribute, when present, becomes the current page as parseInt reads it. */
    method OnPageClick(page: string, form: Form) returns (request: Option<SearchData>)
      modifies this
      ensures page != "" ==> currentPage == ParseInt(page)
      ensures page == "" ==> currentPage == old(currentPage) && request.None? && isLoading == old(isLoading)
      ensures pageSize == old(pageSize) && currentSearch == old(currentSearch) && retryCount == old(retryCount)
    {
      request := None;
      if page != "" {
        currentPage := ParseInt(page);
        request := StartSearch(form);
      }
    }

    /** `onPopState`: a history entry restores its page, or page 1 when its page is falsy. */
    method OnPopState(entryPage: Option<JsValue>, form: Form) returns (request: Option<SearchData>)
      modifies this
      ensures entryPage.None? ==> currentPage == old(currentPage) && request.None? && isLoading == old(isLoading)
      ensures entryPage.Some? ==>
        currentPage == if entryPage.value.JsNumber? && TruthyNumber(entryPage.value.number) then entryPage.value.number else Int(1)
      ensures pageSize == old(pageSize) && currentSearch == old(currentSearch) && retryCount == old(retryCount)
    {
      request := None;
      if entryPage.Some? {
        currentPage := if entryPage.value.JsNumber? && TruthyNumber(entryPage.value.number) then entryPage.value.number else Int(1);
        request := StartSearch(form);
      }
    }

    /** `toggleSort(sortBy)`: flip the direction of the same field, or sort a new field ascending; then search. */
    method ToggleSort(sortBy: string, form: Form) returns (request: Option<SearchData>)
      modifies this
      ensures old(Valid()) ==> Valid()
      ensures currentSearch == ToggledSort(old(currentSearch), sortBy)
      ensures !old(isLoading) ==> request.Some? && request.value.sortBy == sortBy && request.value.sortDir == currentSearch.sortDir
      ensures pageSize == old(pageSize) && currentPage == old(currentPage) && retryCount == old(retryCount)
    {
      currentSearch := ToggledSort(currentSearch, sortBy);
      request := StartSearch(form);
    }

    /** `setPageSize(size)`: a positive size replaces the page size and searches; any other is ignored. */
    method SetPageSize(size: int, form: Form) returns (request: Option<SearchData>)
      modifies this
      ensures old(Valid()) ==> Valid()
      ensures pageSize == if size > 0 then size else old(pageSize)
      ensures size <= 0 ==> request.None? && isLoading == old(isLoading)
      ensures currentPage == old(currentPage) && currentSearch == old(currentSearch) && retryCount == old(retryCount)
    {
      request := None;
      if size > 0 {
        pageSize := size;
        request := StartSearch(form);
      }
    }

    /**
     * `init()`: the page and the search term come from the URL (a missing,
     * unparseable or zero page is page 1), the search box shows the term,
     * and the first search starts.
     */
    method Init(pageParam: Option<string>, searchTermParam: Option<string>, form: Form) returns (request: Option<SearchData>)
      modifies this
      ensures currentPage == Int(InitialPage(pageParam))
      ensures currentSearch == old(currentSearch).(searchTerm := searchTermParam.GetOr(""))
      ensures !old(isLoading) && form.searchTerm.Some? ==> request.Some? && request.value.searchTerm == searchTermParam.GetOr("")
      ensures pageSize == old(pageSize) && retryCount == old(retryCount)
    {
      currentPage := Int(InitialPage(pageParam));
      currentSearch := currentSearch.(searchTerm := searchTermParam.GetOr(""));
      var shown := if form.searchTerm.Some? then Some(currentSearch.searchTerm) else None;
      var shownForm := form.(searchTerm := shown);
      ghost var page, size, search := currentPage, pageSize, currentSearch;
      request := StartSearch(shownForm);
      assert request.Some? ==> request.value == SearchDataOf(page, size, shownForm, search);
    }
  }
}
